=== FILE: README.md ===
# HEIC file type plug-in, modelled in Dafny

This project models the core of a Paint.NET file-type plug-in that loads and saves HEIC
images through libheif. It models what the plug-in computes once planes, bytes and
enumeration values are given. Every call into libheif, the Windows imaging and Direct2D
conversions, the EXIF parser and writer, and the XMP serialiser is a parameter: a function
value, or an outcome passed in. The project proves what the plug-in's code does with those
results.

The load side:
- HeicLoad and the HEIF image and handle wrappers pick a decoder from the image's colour
  space, detect PQ high dynamic range from the CICP colour description, guard the ICC
  profile and metadata sizes, and find the TIFF header inside the EXIF block. The offset
  rule follows annex A.2.1 of ISO/IEC 23008-12:2017.
- The RGB, monochrome and YCbCr decoders copy the libheif planes into 32-bit BGRA, or into
  a 16-bit or floating-point intermediate for deeper images.
- The SDR and HDR bit-depth expansion tables widen 10-, 12- and 16-bit samples. The
  high-bit-depth conversion picks between the PQ transform and a plain format conversion.
- The native HeicDecoder copies libheif's interleaved RGB or RGBA output into the bitmap.

The save side:
- HeicSave and the older HeicFile enforce the encoder's 64-pixel minimum and pick 4:0:0
  for grey images. HeicSave picks the identity matrix for a lossless save.
- They choose the CICP colour data and turn the document's EXIF, ICC and XMP metadata into
  encoder metadata.
- The native side maps the subsampling to a libheif colour space and chroma, builds the
  planes block by block (Y, Cb, Cr, alpha), and chains the encoder settings' status codes.
- HeicNative maps a native status to the managed exception, on the read side and the
  write side.

Shared pieces:
- The CICP text serialiser, with its round trip.
- The colour-context selection from CICP or an ICC profile.
- The matrix-coefficient table of Table 4 of ITU-T H.273.
- The file-signature sniffing for JPEG, PNG, GIF and TIFF.
- The EXIF byte layer: a buffered endian binary reader (a state machine over a byte
  sequence), byte swaps, the 12-byte IFD entry of section 2 of TIFF Revision 6.0, the field
  type sizes, metadata keys and entries, the EXIF value collection, and the set of writable
  image tags.

Several places where the code does something other than its evident intent are modelled as
written. A lemma states each one:
- 8-bit planar RGBA never reads the alpha plane (`RgbImageDecoder.PlanarRgba32IgnoresAlphaPlane`).
- Premultiplied high-bit-depth SDR images are never unpremultiplied
  (`RgbImageDecoder.PremultipliedIgnoredWithoutHdr`, `MonochromeImageDecoder.PremultipliedIgnoredWithoutPq`).
- The BT.601 entry has kb = 0.144 (`YuvConversionHelpers.BT601DiffersFromBT470BG`).
- Switches without their `break` report EncodeFailed for an allocation failure
  (`HeicEncoder.FallThroughLosesOutOfMemory`).
- 4:2:0 and 4:2:2 chroma writes fall outside the chroma plane on odd dimensions
  (`ChromaSubsampling.OddWidthWritesPastChromaPlane`, `ChromaSubsampling.OddHeightWritesPastChromaPlane`).
- HeicLoad and HeicFile check the EXIF block's length differently (`HeicFile.ExifLengthChecksDiffer`).
- A property missing from CICP text does not always raise (`CICPSerializer.MissingPropertyReadsFromFixedOffset`).

Some source files come from different revisions of the plug-in. Each is modelled on its own
terms:
- HeicEncoder.cpp calls a five-argument ConvertToHeifImage.
- The header's subsampling enumeration lacks IdentityMatrix, which ChromaSubsampling.cpp
  handles.

Each component of the source is one module. `Errors` holds the Option and Result types and
the exceptions. `Ints` holds the integer widths. `NativeTypes` holds the native status codes
and the generic "run the calls in order until the first failure" reference `Run`.
`SaveCommon` holds what the two savers share.

## Model

| member | source | states |
|---|---|---|
| BitDepthExpansion.SampleCount | src/Decoding/HighBitDepthExpansionSDR.cs:35-36 | the table size `1 << bitDepth` is 2^bitDepth: 1024, 4096 or 65536 entries for the accepted depths |
| BitDepthExpansion.MaxSample | src/Decoding/HighBitDepthExpansionSDR.cs:35-36 | `maxValue` is one of 1023, 4095, 65535 and is 2^bitDepth − 1 |
| BitDepthExpansion.SdrEntry | src/Decoding/HighBitDepthExpansionSDR.cs:42-56 | in exact arithmetic an entry computed as i times the reciprocal of maxValue times 65535, truncated, is the integer quotient i·65535 / maxValue (truncation, not rounding) |
| BitDepthExpansion.NewSdrTable | src/Decoding/HighBitDepthExpansionSDR.cs:28-57 | construction throws a format error exactly for a bit depth other than 10, 12, 16; otherwise the table has maxValue + 1 entries and, in exact arithmetic, entry i is i·65535 / maxValue |
| BitDepthExpansion.NewHdrTable | src/Decoding/HighBitDepthExpansionHDR.cs:28-51 | construction throws a format error exactly for a bit depth other than 10, 12, 16; otherwise the table has maxValue + 1 entries and entry i times maxValue is i (entry i = i / maxValue) |
| BitDepthExpansion.SdrExpand | src/Decoding/HighBitDepthExpansionSDR.cs:59-64 | the lookup reads the entry at `value & maxValue`, which is the value's low bitDepth bits, so the index is always inside the table; the result is the low bits rescaled onto 0..65535 |
| BitDepthExpansion.HdrExpand | src/Decoding/HighBitDepthExpansionHDR.cs:53-58 | the lookup reads the entry at the value's low bitDepth bits, inside the table; the result is those bits divided by maxValue |
| BitDepthExpansion.MaskIsLowBits | src/Decoding/HighBitDepthExpansionSDR.cs:61 | for the three accepted maxima, `value & maxValue` is `value mod (maxValue + 1)` and never exceeds maxValue |
| BitDepthExpansion.SdrExpandMasksToDepth | src/Decoding/HighBitDepthExpansionSDR.cs:59-64 | a value that fits the depth is looked up unchanged, and expanding `value mod 2^bitDepth` gives the same result as expanding `value` (masking idempotence) |
| BitDepthExpansion.SdrTableEndpointsAndOrder | src/Decoding/HighBitDepthExpansionSDR.cs:42-56 | in every constructed SDR table entry 0 is 0, entry maxValue is 65535, and entries never decrease |
| BitDepthExpansion.SixteenBitSdrIsIdentity | src/Decoding/HighBitDepthExpansionSDR.cs:28-64 | in exact arithmetic, with bit depth 16 the SDR expansion returns every 16-bit sample unchanged |
| BitDepthExpansion.HdrTableRangeAndOrder | src/Decoding/HighBitDepthExpansionHDR.cs:42-50 | in every constructed HDR table entry 0 is 0, entry maxValue is 1, every entry lies in [0, 1], and entries increase strictly |
| HighBitDepthConversion.SdrImageToBgra32 | src/Decoding/HighBitDepthConversion.cs:47-55 | the SDR path is a plain WIC format conversion of the input to BGRA32, with no colour context |
| HighBitDepthConversion.HdrImageToBgra32 | src/Decoding/HighBitDepthConversion.cs:31-45 | the colour transform is used exactly when the HDR format is PQ; any other format falls back to the SDR conversion of the same input |
| HighBitDepthConversion.PqTransformInput | src/Decoding/HighBitDepthConversion.cs:69-78 | the transform reads the input itself exactly when it is Rgba128Float or Prgba128Float, and an Rgba128Float conversion of it otherwise |
| HighBitDepthConversion.ConvertHdrPQImageToBgra32 | src/Decoding/HighBitDepthConversion.cs:57-116 | the PQ path tags the source as full-range SMPTE ST 2084 with BT.2020 primaries, targets Display P3, uses straight alpha in the image and the effect, disables the implicit colour-space conversion, and copies premultiplied BGRA32 |
| HighBitDepthConversion.PqSteps | src/Decoding/HighBitDepthConversion.cs:65-91 | the acquired input is released as the last step on both exits, and only there; a failing transform propagates its exception and copies nothing, a succeeding one copies the conversion |
| YCbCrImageDecoder.DecodeFormat | src/Decoding/YCbCrImageDecoder.cs:36-43 | with alpha the decode format is InterleavedRgba32 at 8 bits and InterleavedRgba64LE otherwise; without alpha InterleavedRgb24 at 8 bits and InterleavedRgb48LE otherwise |
| YCbCrImageDecoder.DecodedImage | src/Decoding/YCbCrImageDecoder.cs:32-45 | the image the RGB decode returns has the handle's width, height, bit depth, alpha flag and HDR property (with the CICP query's exception), the RGB colour space and the chroma DecodeFormat chose, so the RGB decoder never treats it as planar |
| YCbCrImageDecoder.SetImageData | src/Decoding/YCbCrImageDecoder.cs:27-50 | a disposed handle throws ObjectDisposed; otherwise the result is the RGB decoder's result on the image decoded from this handle in the requested chroma |
| YCbCrImageDecoder.RequestIsInterleavedRgb | src/Decoding/YCbCrImageDecoder.cs:36-48 | the decode request always asks for the RGB colour space and a chroma other than Yuv444 |
| YCbCrImageDecoder.DelegatedDecodeIsInterleaved | src/Decoding/YCbCrImageDecoder.cs:36-48 | an image in the requested chroma is never treated as planar by the RGB decoder, which then needs only the interleaved channel |
| MonochromeImageDecoder.Gray8 | src/Decoding/MonochromeImageDecoder.cs:129-159 | fails with a format error exactly when the Y plane is missing; otherwise every pixel has B = G = R = the gray sample and A = 255 |
| MonochromeImageDecoder.GrayAlpha8 | src/Decoding/MonochromeImageDecoder.cs:161-198 | fails exactly when the Y or alpha plane is missing; otherwise B = G = R = gray and A = the alpha sample for every pixel |
| MonochromeImageDecoder.Gray16 | src/Decoding/MonochromeImageDecoder.cs:200-234 | a bit depth other than 10/12/16 fails with the table's format error; otherwise the gray sample is expanded once through the SDR table and the same value is written to R, G and B |
| MonochromeImageDecoder.GrayAlpha16 | src/Decoding/MonochromeImageDecoder.cs:236-279 | as Gray16, and alpha goes through the same SDR table |
| MonochromeImageDecoder.Gray32 | src/Decoding/MonochromeImageDecoder.cs:281-315 | the float gray value (HDR table) is fanned out to R, G and B |
| MonochromeImageDecoder.GrayAlpha32 | src/Decoding/MonochromeImageDecoder.cs:317-358 | as Gray32, and alpha is HDR-expanded |
| MonochromeImageDecoder.SetImageData | src/Decoding/MonochromeImageDecoder.cs:29-127 | decoding succeeds exactly for bit depth 8, or 10, 12 or 16 with an HDR property that raises nothing, and the needed planes, other depths fail with a format error; for 10, 12 or 16 bits the HDRFormat property's exception is raised (MonochromeImageDecoder.cs:61); 8-bit output is copied directly and unpremultiplied exactly when alpha is present and premultiplied; higher depths go through the float PQ path only when the HDR format is PQ and through the 16-bit SDR path otherwise, and only the PQ path converts a premultiplied view (the SDR branch passes `tempImage`) |
| MonochromeImageDecoder.NonPqHdrDecodesAsSdr | src/Decoding/MonochromeImageDecoder.cs:61-125 | an image tagged with an HDR format other than PQ decodes exactly as the same image with no HDR tag |
| MonochromeImageDecoder.PremultipliedIgnoredWithoutPq | src/Decoding/MonochromeImageDecoder.cs:97-110 | without PQ, a high-bit-depth image decodes the same whether or not its alpha is marked premultiplied |
| HeifImages.InterleavedRows | src/Interop/Heifmage.cs:53-63 | a well-formed image's interleaved channel has a row per image row with at least 3 (4 with alpha) samples per pixel |
| HeifImages.PlanarRows | src/Interop/Heifmage.cs:53-63 | a well-formed image's planar channel has a row per image row with at least one sample per pixel |
| HeifImages.GetChannel | src/Interop/Heifmage.cs:53-63 | a channel the native lookup does not return raises a format error; otherwise the plane is returned unchanged |
| HeifImageHandles.NewHandle | src/Interop/HeifImageHandle.cs:31-37 | a new handle is not disposed and has computed neither lazy value |
| HeifImageHandles.Dispose | src/Interop/HeifImageHandle.cs:101-109 | disposing keeps the handle's data and cache consistency and marks it disposed |
| HeifImageHandles.CacheCICPColorData | src/Interop/HeifImageHandle.cs:111-132 | with a CICP profile the native CICP data is returned unless GetCICPColorData's status raises through HandleReadError (HeicNative.cs:195-198), which then raises that exception; without one, nothing is queried and all three fields are Unspecified and fullRange is false |
| HeifImageHandles.GetCICPColorData | src/Interop/HeifImageHandle.cs:28-45 | the property returns the cached value or exception when there is one and otherwise computes and caches the factory's value or exception |
| HeifImageHandles.CacheHDRFormat | src/Interop/HeifImageHandle.cs:134-150 | the HDR format is None or PQ, or the CICP property's exception, which only a CICP profile can raise; computing it leaves the handle's data unchanged |
| HeifImageHandles.GetHDRFormat | src/Interop/HeifImageHandle.cs:29-49 | the property caches its value or exception and, once cached, returns it without changing the handle |
| HeifImageHandles.PropertiesAreStable | src/Interop/HeifImageHandle.cs:28-150 | reading either lazy property keeps the caches consistent; CICPColorData is the factory's value or exception, HDRFormat raises the CICP query's exception and is otherwise PQ exactly for a CICP profile with BT.2020 primaries and the SMPTE ST 2084 transfer, and a second read returns the same answer |
| HeifImageHandles.SafeHandle | src/Interop/HeifImageHandle.cs:55-63 | the native handle is returned unless the handle is disposed, which throws ObjectDisposed |
| HeifImageHandles.Decode | src/Interop/HeifImageHandle.cs:65-70 | a disposed handle throws ObjectDisposed; otherwise the native decode is requested with the given colour space and chroma |
| HeifImageHandles.ReadBlock | src/Interop/HeifImageHandle.cs:83-90 | the size query's exception, or for a size in (0, int.MaxValue] the read query's; otherwise the block is returned exactly when its size is in range |
| HeifImageHandles.GetIccProfile | src/Interop/HeifImageHandle.cs:77-94 | nothing is queried for a disposed handle or a non-ICC profile; otherwise a failing GetICCProfileSize status, or for a size in (0, int.MaxValue] a failing GetICCProfile status, raises through HandleReadError (HeicNative.cs:155-158 and 176-179); the profile is returned exactly when neither raises and the size is in range |
| HeifImageHandles.TryGetMetadata | src/Interop/HeifImageHandle.cs:152-172 | nothing is queried for a disposed handle or a block that is not found; otherwise a failing GetMetadataSize status, or for a size in (0, int.MaxValue] a failing GetMetadata status, raises through HandleReadError (HeicNative.cs:215-218 and 236-239); the block is returned exactly when neither raises and the size is in range |
| HeifImageHandles.GetExif | src/Interop/HeifImageHandle.cs:72-75 | the EXIF block, or the exception of its native queries, under the same conditions as TryGetMetadata |
| HeifImageHandles.GetXmp | src/Interop/HeifImageHandle.cs:96-99 | the XMP block, or the exception of its native queries, under the same conditions as TryGetMetadata |
| HeifImageHandles.ImageOf | src/Interop/Heifmage.cs:37-51 | the decoded image's width, height, bit depth and alpha flags are the handle's, and its HDR format is the handle's HDRFormat property, whose exception is the CICP query's; its colour space and chroma come from the decoded image info |
| RgbImageDecoder.InterleavedRgb24 | src/Decoding/RgbImageDecoder.cs:173-202 | fails exactly when the interleaved plane is missing; otherwise pixel x copies samples 3x, 3x+1, 3x+2 into R, G, B and sets A = 255 |
| RgbImageDecoder.InterleavedRgba32 | src/Decoding/RgbImageDecoder.cs:204-219 | the interleaved plane, unchanged, is what the RGBA-to-BGRA kernel receives; a missing plane is a format error |
| RgbImageDecoder.PlanarRgb24 | src/Decoding/RgbImageDecoder.cs:221-261 | fails exactly when an R, G or B plane is missing; otherwise each pixel copies the three planes and sets A = 255 |
| RgbImageDecoder.PlanarRgba32 | src/Decoding/RgbImageDecoder.cs:263-304 | the alpha plane must exist, yet every output pixel copies only R, G, B and has A = 255 |
| RgbImageDecoder.InterleavedRgb48 | src/Decoding/RgbImageDecoder.cs:306-340 | each of the three interleaved samples goes through the SDR table of the image's depth; other depths fail with a format error |
| RgbImageDecoder.InterleavedRgba64 | src/Decoding/RgbImageDecoder.cs:342-377 | as InterleavedRgb48 with four samples per pixel, alpha included |
| RgbImageDecoder.SdrGrid3 | src/Decoding/RgbImageDecoder.cs:379-423 | three planes expanded pointwise through one SDR table |
| RgbImageDecoder.PlanarRgb48 | src/Decoding/RgbImageDecoder.cs:379-423 | each planar R, G, B sample goes through the SDR table |
| RgbImageDecoder.SdrGrid4 | src/Decoding/RgbImageDecoder.cs:425-476 | four planes expanded pointwise through one SDR table |
| RgbImageDecoder.PlanarRgba64 | src/Decoding/RgbImageDecoder.cs:425-476 | each planar R, G, B and alpha sample goes through the SDR table |
| RgbImageDecoder.InterleavedRgb96 | src/Decoding/RgbImageDecoder.cs:478-512 | each interleaved sample is mapped onto [0, 1] by the HDR table |
| RgbImageDecoder.InterleavedRgba128 | src/Decoding/RgbImageDecoder.cs:514-549 | as InterleavedRgb96 with four samples per pixel |
| RgbImageDecoder.HdrGrid4 | src/Decoding/RgbImageDecoder.cs:597-648 | four planes expanded pointwise through one HDR table |
| RgbImageDecoder.HdrGrid3 | src/Decoding/RgbImageDecoder.cs:551-595 | three planes expanded pointwise through one HDR table |
| RgbImageDecoder.PlanarRgb96 | src/Decoding/RgbImageDecoder.cs:551-595 | each planar R, G, B sample goes through the HDR table |
| RgbImageDecoder.PlanarRgba128 | src/Decoding/RgbImageDecoder.cs:597-648 | each planar R, G, B and alpha sample goes through the HDR table |
| RgbImageDecoder.OpaqueCopy | src/Decoding/RgbImageDecoder.cs:39-67 | the 8-bit copiers other than interleaved RGBA write an opaque surface holding the image's R, G, B samples, whichever layout |
| RgbImageDecoder.SdrPixels | src/Decoding/RgbImageDecoder.cs:124-169 | without an HDR tag the 16-bit intermediate holds every logical sample, alpha included, widened by the SDR table |
| RgbImageDecoder.SdrAlphaPixels | src/Decoding/RgbImageDecoder.cs:126-151 | with alpha, the Rgba64 intermediate from either layout holds the SDR-widened samples |
| RgbImageDecoder.SdrOpaquePixels | src/Decoding/RgbImageDecoder.cs:153-168 | without alpha, the Rgb48 intermediate from either layout holds the SDR-widened samples |
| RgbImageDecoder.HdrPixels | src/Decoding/RgbImageDecoder.cs:78-122 | with an HDR tag the float intermediate holds every logical sample mapped onto [0, 1] |
| RgbImageDecoder.SetImageData | src/Decoding/RgbImageDecoder.cs:29-171 | decoding succeeds exactly for bit depth 8, or 10, 12 or 16 with an HDR property that raises nothing, and the planes the layout needs (planar iff chroma is Yuv444); other depths fail with a format error before any pixel; for 10, 12 or 16 bits the HDRFormat property is read next (RgbImageDecoder.cs:76), and its exception is raised; 8-bit images never read it; 8-bit interleaved RGBA goes to the kernel, other 8-bit images are copied opaque, and unpremultiplying runs exactly for premultiplied alpha; higher depths convert an intermediate of the widened samples, through HdrImageToBgra32 when there is an HDR tag and SdrImageToBgra32 otherwise, and only the HDR branch converts a premultiplied view |
| RgbImageDecoder.WidenedPixelsUnique | src/Decoding/RgbImageDecoder.cs:306-648 | images that agree on every logical sample have the same widened intermediate |
| RgbImageDecoder.LayoutIndependent | src/Decoding/RgbImageDecoder.cs:306-423 | a planar and an interleaved image with the same logical samples decode identically (outside 8-bit with alpha, where the layouts take different routes) |
| RgbImageDecoder.PremultipliedIgnoredWithoutHdr | src/Decoding/RgbImageDecoder.cs:139-145 | without an HDR tag a high-bit-depth image decodes the same whether or not its alpha is premultiplied: the SDR branch passes `temp`, not its premultiplied cast |
| RgbImageDecoder.PremultipliedReachesHdrConversion | src/Decoding/RgbImageDecoder.cs:93-100 | with an HDR tag and alpha, premultiplied alpha reaches the conversion as a Prgba128Float view, straight alpha as Rgba128Float |
| RgbImageDecoder.PlanarRgba32IgnoresAlphaPlane | src/Decoding/RgbImageDecoder.cs:263-304 | an 8-bit planar image with alpha decodes the same whatever its alpha plane holds |
| ChromaSubsampling.HeifFormatOf | src/HeicFileTypePlusIO/ChromaSubsampling.cpp:433-454 | 4:0:0 gives monochrome/monochrome, 4:2:0 and 4:2:2 YCbCr with that chroma, 4:4:4 and the identity matrix YCbCr/4:4:4, and any other value UnknownYUVFormat |
| ChromaSubsampling.FormatsAreDistinct | src/HeicFileTypePlusIO/ChromaSubsampling.cpp:433-454 | the only two subsamplings sharing a libheif format are 4:4:4 and the identity matrix |
| ChromaSubsampling.ChromaPlaneWidth | src/HeicFileTypePlusIO/ChromaSubsampling.cpp:359-372 | for 4:2:0 and 4:2:2 the chroma plane is the width halved and rounded down; otherwise the full width |
| ChromaSubsampling.ChromaPlaneHeight | src/HeicFileTypePlusIO/ChromaSubsampling.cpp:344-357 | for 4:2:0 the chroma plane is the height halved and rounded down; otherwise the full height |
| ChromaSubsampling.CreateImagePlanes | src/HeicFileTypePlusIO/ChromaSubsampling.cpp:374-400 | the planes are added in the order Y, then Cb and Cr for YCbCr at the chroma size, then alpha when there is transparency, stopping at the first failing call |
| ChromaSubsampling.HasTransparency | src/HeicFileTypePlusIO/ChromaSubsampling.cpp:402-420 | true exactly when some pixel has alpha below 255 |
| ChromaSubsampling.MapPixels | src/HeicFileTypePlusIO/ChromaSubsampling.cpp:266-304 | an 8-bit plane of the bitmap's size holding one channel of every pixel |
| ChromaSubsampling.ColorToIdentity8 | src/HeicFileTypePlusIO/ChromaSubsampling.cpp:110-139 | the identity matrix (MatrixCoefficients 0 of ITU-T H.273) copies G into Y, B into U and R into V for every pixel |
| ChromaSubsampling.MonoToY8 | src/HeicFileTypePlusIO/ChromaSubsampling.cpp:266-284 | the monochrome Y plane copies R |
| ChromaSubsampling.AlphaToA8 | src/HeicFileTypePlusIO/ChromaSubsampling.cpp:286-304 | the alpha plane copies A |
| ChromaSubsampling.BlockSize | src/HeicFileTypePlusIO/ChromaSubsampling.cpp:166-180 | the block walk's blockWidth and blockHeight are 1 or 2 |
| ChromaSubsampling.ShortBlockOnlyAtOddEdge | src/HeicFileTypePlusIO/ChromaSubsampling.cpp:166-180 | a block is one sample long exactly at the last coordinate, and only when that extent is odd |
| ChromaSubsampling.BlockStaysInside | src/HeicFileTypePlusIO/ChromaSubsampling.cpp:166-190 | every sample of a block lies inside the image |
| ChromaSubsampling.EachSampleInExactlyOneBlock | src/HeicFileTypePlusIO/ChromaSubsampling.cpp:166-190 | every coordinate belongs to exactly one block of the walk |
| ChromaSubsampling.EachPixelWrittenOnce | src/HeicFileTypePlusIO/ChromaSubsampling.cpp:166-202 | every pixel's Y sample is written by exactly one (block, offset) pair |
| ChromaSubsampling.ChromaWritesFitEvenDimensions | src/HeicFileTypePlusIO/ChromaSubsampling.cpp:233-259 | with even dimensions every 4:2:0/4:2:2 chroma write index lies inside the chroma plane |
| ChromaSubsampling.OddWidthWritesPastChromaPlane | src/HeicFileTypePlusIO/ChromaSubsampling.cpp:233-372 | with an odd width the last block writes chroma column width/2, which is one past a plane width/2 wide |
| ChromaSubsampling.OddHeightWritesPastChromaPlane | src/HeicFileTypePlusIO/ChromaSubsampling.cpp:233-357 | with an odd height in 4:2:0 the last block row writes chroma row height/2, one past the plane |
| ChromaSubsampling.FilledPlanes | src/HeicFileTypePlusIO/ChromaSubsampling.cpp:466-527 | the converted image holds Y alone for monochrome and Y, Cb, Cr otherwise, plus alpha exactly with transparency; monochrome Y is the mono copy, the identity matrix uses the identity copy, other formats the YUV conversion, and alpha the alpha copy |
| ChromaSubsampling.ConvertToHeifImage | src/HeicFileTypePlusIO/ChromaSubsampling.cpp:424-532 | UnknownYUVFormat exactly for an unknown subsampling; an image is handed back exactly when the status is Ok, which requires the image creation and every required plane to succeed, and then it holds the filled planes in the format of the subsampling; conversely, a known subsampling whose image creation and planes all succeed gives Ok, a failed image creation gives its own error status (OutOfMemory for an allocation failure, UnknownError otherwise), and a failed plane gives the status of the first failing plane in the order Y, Cb, Cr, alpha |
| ChromaSubsampling.IdentityConversionIsLossless | src/HeicFileTypePlusIO/ChromaSubsampling.cpp:424-532 | a successful identity-matrix conversion loses nothing: rebuilding BGRA from its planes gives back every pixel, alpha included (with lines 110-139) |
| ChromaSubsampling.GreyConversionKeepsColours | src/HeicFileTypePlusIO/ChromaSubsampling.cpp:266-284 | for a grey bitmap a successful 4:0:0 conversion keeps every colour in its Y plane (with lines 433-438) |
| YuvConversionHelpers.ColourPrimariesValues | src/HeicFileTypePlusIO/YUVConversionHelpers.cpp:56-75 | the primaries of the table entry for the code, and the BT.709 primaries for a code the table lacks |
| YuvConversionHelpers.UnknownPrimariesAreBT709 | src/HeicFileTypePlusIO/YUVConversionHelpers.cpp:65-75 | any colour primaries outside the five tabulated ones, BT.2020 included, get the BT.709 values |
| YuvConversionHelpers.FromKrKb | src/HeicFileTypePlusIO/YUVConversionHelpers.cpp:101-103 | the three luma weights keep kr and kb, and kg is what makes them sum to 1 |
| YuvConversionHelpers.CalcYUVInfoFromCICP | src/HeicFileTypePlusIO/YUVConversionHelpers.cpp:86-109 | fails exactly when no table entry has the matrix coefficients; otherwise the weights of that entry |
| YuvConversionHelpers.GetYUVCoefficients | src/HeicFileTypePlusIO/YUVConversionHelpers.cpp:112-131 | the table's weights when there is an entry, the BT.709 defaults otherwise; the weights sum to 1 |
| YuvConversionHelpers.IdentityAndUnspecifiedUseBT709 | src/HeicFileTypePlusIO/YUVConversionHelpers.cpp:86-131 | the identity matrix and Unspecified have no entry, so they convert with the BT.709 weights |
| YuvConversionHelpers.BT601DiffersFromBT470BG | src/HeicFileTypePlusIO/YUVConversionHelpers.cpp:89-90 | as written, BT.601 has kb 0.144 where BT.470BG has 0.114, so the two matrices convert differently, although ITU-T H.273 Table 4 gives them the same weights |
| YuvConversionHelpers.CoefficientsAreWeights | src/HeicFileTypePlusIO/YUVConversionHelpers.cpp:86-131 | for any CICP data each weight lies strictly between 0 and 1, so the chroma divisors are never zero |
| HeicDecoder.DecodeRGBImage | src/HeicFileTypePlusIO/HeicDecoder.cpp:39-61 | every pixel gets the decoded R, G and B and alpha 255 |
| HeicDecoder.DecodeRGBAImage | src/HeicFileTypePlusIO/HeicDecoder.cpp:63-85 | every pixel gets the decoded R, G, B and A |
| HeicDecoder.RgbaCopyIsLossless | src/HeicFileTypePlusIO/HeicDecoder.cpp:63-85 | reading the BGRA output back as RGBA gives back the decoded plane |
| HeicDecoder.RgbCopyIsOpaqueRgbaCopy | src/HeicFileTypePlusIO/HeicDecoder.cpp:39-85 | the RGB copy equals the RGBA copy of the same pixels with opaque alpha |
| HeicDecoder.RequestFor | src/HeicFileTypePlusIO/HeicDecoder.cpp:129-133 | the request is RGB colour space, interleaved RGBA exactly when the handle has alpha, with high bit depths converted to 8 bits |
| HeicDecoder.Decode | src/HeicFileTypePlusIO/HeicDecoder.cpp:113-163 | a null handle or output gives NullParameter; Ok exactly when nothing is null, nothing was raised, the options were allocated and libheif succeeded; bad_alloc gives OutOfMemory and any other exception DecodeFailed; a libheif error maps through the error table; the output is written exactly on Ok, with the RGBA or RGB copy |
| SaveCommon.CheckEncodeSize | src/HeicSave.cs:32-50 | a format error exactly when the width or the height is under 64 |
| SaveCommon.IsGrayscaleImage | src/HeicSave.cs:181-200 | true exactly when every pixel has R = G = B, alpha ignored |
| SaveCommon.SelectYuvFormat | src/HeicSave.cs:60-62 | a grey image always gets 4:0:0; otherwise the requested subsampling |
| SaveCommon.StoredColorData | src/HeicSave.cs:70-105 | the BT.709/sRGB/full-range default unless the document's CICP user value deserialises to colour data, which then replaces it; a deserialiser exception propagates |
| SaveCommon.StoredColorDataRoundTrip | src/HeicFile.cs:190-201 | colour data a loader stored as the CICP user value is what a later save reads back, with full range set |
| SaveCommon.ReportProgress | src/HeicSave.cs:112-123 | the callback returns false exactly when the handler throws OperationCanceledException, true when it returns or is absent, and any other exception leaves the callback |
| SaveCommon.FirstWins | src/HeicSave.cs:168-176 | every key of the pairs is in the map, and only those |
| SaveCommon.FirstWinsValue | src/HeicSave.cs:172-175 | each key keeps the value of the first pair that carries it |
| SaveCommon.CreateEncoderMetadata | src/HeicSave.cs:126-159 | an ICC profile exactly when the EXIF map has the InterColorProfile item, whose data it is; an EXIF blob exactly when there are EXIF items, written without that item and with the Uncalibrated colour space exactly when it was present; XMP bytes exactly when there is a packet |
| SaveCommon.ToNativeBlock | src/Interop/EncoderMetadataCustomMarshaler.cs:105-130 | a null or empty array is passed as a null pointer of size 0, any other as its bytes with its length |
| SaveCommon.ToNativeMetadata | src/Interop/EncoderMetadataCustomMarshaler.cs:105-130 | each of the three blocks is marshalled that way |
| SaveCommon.NativeProfileIsNonEmpty | src/Interop/EncoderMetadataCustomMarshaler.cs:105-130 | the native side sees a non-empty ICC profile exactly when the managed side had one with content |
| SaveCommon.CallSaveToFile | src/HeicSave.cs:107-110 | the save succeeds exactly when the native status is Ok; otherwise it raises what HeicNative.SaveToFile raises for that status |
| HeicSave.PathValues | src/HeicSave.cs:166-175 | one (path, value) pair per EXIF item, in order |
| HeicSave.GetExifMetadataFromDocument | src/HeicSave.cs:161-179 | null exactly when the document has no EXIF items; otherwise the paths present, each with the value of its first item |
| HeicSave.EncoderMetadataOf | src/HeicSave.cs:126-159 | the encoder metadata is built from the document's first-wins EXIF map with InterColorProfile as the ICC key |
| HeicSave.Save | src/HeicSave.cs:36-124 | too small an image raises the format error; on success the native save gets the rendered bitmap, the requested quality, preset, tuning and depth, the document's metadata, 4:0:0 for a grey image, the identity matrix with identity colour data at quality 100, and the stored colour data otherwise; the save succeeds exactly when the image is large enough, the colour data is available (always for a lossless save, otherwise when the stored description deserialises) and the native save of that request reports Ok; a stored description that fails to deserialise raises its exception, and a failed native save raises what SaveToFile raises for its status and captured exception |
| HeicSave.Lossless | src/HeicSave.cs:79 | a save takes the lossless path exactly at quality 100 for an image that is not grey; `HeicSave.Save` and `HeicSave.LosslessSaveKeepsEveryPixel` state what that path does |
| HeicSave.LosslessSaveKeepsEveryPixel | src/HeicSave.cs:79-92 | a quality-100 save of a non-grey image hands over a bitmap whose identity-matrix conversion gives back every rendered pixel |
| HeicEncoder.GetPresetString | src/HeicFileTypePlusIO/HeicEncoder.cpp:72-98 | the x265 preset name of each preset, "medium" for Medium and for any value outside the enumeration |
| HeicEncoder.PresetOfName | src/HeicFileTypePlusIO/HeicEncoder.cpp:72-98 | reading a preset name back never gives an unknown value |
| HeicEncoder.PresetNamesRoundTrip | src/HeicFileTypePlusIO/HeicEncoder.cpp:72-98 | every named preset is read back from its name, and an unknown value is encoded as Medium |
| HeicEncoder.PresetNamesAreDistinct | src/HeicFileTypePlusIO/HeicEncoder.cpp:72-98 | different named presets have different x265 names |
| HeicEncoder.GetTuningString | src/HeicFileTypePlusIO/HeicEncoder.cpp:100-114 | the x265 tune name of each tuning, "ssim" for SSIM and for any value outside the enumeration |
| HeicEncoder.TuningOfName | src/HeicFileTypePlusIO/HeicEncoder.cpp:100-114 | reading a tune name back never gives an unknown value |
| HeicEncoder.TuningNamesRoundTrip | src/HeicFileTypePlusIO/HeicEncoder.cpp:100-114 | every named tuning is read back from its name, and an unknown value is encoded as SSIM |
| HeicEncoder.TuningNamesAreDistinct | src/HeicFileTypePlusIO/HeicEncoder.cpp:100-114 | different named tunings have different x265 names |
| HeicEncoder.ExceptionStatus | src/HeicFileTypePlusIO/HeicEncoder.cpp:343-350 | the catch clauses give OutOfMemory exactly for bad_alloc and EncodeFailed for anything else, never Ok |
| HeicEncoder.FallThroughStatus | src/HeicFileTypePlusIO/HeicEncoder.cpp:158-221 | the switch without its break gives Ok exactly for success and EncodeFailed for every error, the allocation failure included |
| HeicEncoder.FallThroughLosesOutOfMemory | src/HeicFileTypePlusIO/HeicEncoder.cpp:158-221 | against the error mapping used elsewhere the fall-through differs exactly on an allocation failure, which it reports as EncodeFailed instead of OutOfMemory |
| HeicEncoder.CallStatus | src/HeicFileTypePlusIO/HeicEncoder.cpp:292-350 | a progress checkpoint fails with UserCanceled exactly when the callback answers false; an exception escaping the conversion gives its catch-clause status |
| HeicEncoder.RunThen | src/HeicFileTypePlusIO/HeicEncoder.cpp:279-351 | the status of two runs of calls in sequence is the first run's failure or else the second run's status |
| HeicEncoder.RunOne | src/HeicFileTypePlusIO/HeicEncoder.cpp:279-351 | a run of one call has that call's status |
| HeicEncoder.SettingCalls | src/HeicFileTypePlusIO/HeicEncoder.cpp:152-185 | the settings are the quality, then "preset", "tune" and "tu-intra-depth", in that order |
| HeicEncoder.GetEncoder | src/HeicFileTypePlusIO/HeicEncoder.cpp:46-70 | a null context is NullParameter; otherwise Ok exactly when libheif gives an encoder, an unknown error UnknownError |
| HeicEncoder.ConfigureEncoderSettings | src/HeicFileTypePlusIO/HeicEncoder.cpp:152-185 | the status is that of applying the four settings in order, stopping at the first failure |
| HeicEncoder.QualityAllocationFailureIsEncodeFailed | src/HeicFileTypePlusIO/HeicEncoder.cpp:158-185 | an allocation failure setting the quality is reported as EncodeFailed, while one setting the preset is OutOfMemory |
| HeicEncoder.EncodeImageCalls | src/HeicFileTypePlusIO/HeicEncoder.cpp:187-231 | EncodeImage's calls are the encoder, its four settings, then the encode |
| HeicEncoder.EncodeImage | src/HeicFileTypePlusIO/HeicEncoder.cpp:187-231 | null arguments give NullParameter; otherwise the status of the run of its calls, in which an allocation failure of the encode itself never appears as OutOfMemory |
| HeicEncoder.ProfileCall | src/HeicFileTypePlusIO/HeicEncoder.cpp:233-256 | an ICC profile is attached exactly when there is one of non-zero size, with its bytes and size; otherwise the CICP data as an nclx profile |
| HeicEncoder.AddColorProfile | src/HeicFileTypePlusIO/HeicEncoder.cpp:233-256 | a null image is NullParameter; otherwise the status of the ICC or the nclx call, as chosen above |
| HeicEncoder.MetadataCalls | src/HeicFileTypePlusIO/HeicEncoder.cpp:258-276 | the metadata calls are the EXIF block, then the XMP block |
| HeicEncoder.AddExifAndXmpMetadata | src/HeicFileTypePlusIO/HeicEncoder.cpp:258-276 | null arguments give NullParameter; otherwise the EXIF call's failure or else the XMP call's status |
| HeicEncoder.ProgressCalls | src/HeicFileTypePlusIO/HeicEncoder.cpp:292-336 | a progress checkpoint is a call only when there is a callback |
| HeicEncoder.Encode | src/HeicFileTypePlusIO/HeicEncoder.cpp:279-351 | a null argument gives NullParameter; a refused first checkpoint UserCanceled; an exception escaping the conversion its catch-clause status |
| HeicEncoder.EncodeIsRunOfCalls | src/HeicFileTypePlusIO/HeicEncoder.cpp:279-351 | with non-null arguments Encode is the run of its calls in order: checkpoint, conversion, checkpoint, profile, encoder and settings and encode, EXIF and XMP, checkpoint; Ok exactly when every call succeeds, otherwise the first failure's status |
| NativeTypes.StatusOfError | src/HeicFileTypePlusIO/HeicDecoder.cpp:97-106 | the libheif error switch gives Ok exactly for no error, OutOfMemory for an allocation failure and the wrapper's own failure status for any other error |
| NativeTypes.Run | src/HeicFileTypePlusIO/HeicEncoder.cpp:279-351 | the calls made are a non-empty prefix of the calls whenever there are calls |
| NativeTypes.RunMeaning | src/HeicFileTypePlusIO/HeicEncoder.cpp:279-351 | Ok exactly when every call was made and succeeded; otherwise the status of the last call made, after calls that all succeeded |
| NativeTypes.RunFirstFailure | src/HeicFileTypePlusIO/HeicEncoder.cpp:279-351 | a failed run stops at a call whose status is the run's, and every call before it succeeded |
| NativeTypes.RunConcat | src/HeicFileTypePlusIO/HeicEncoder.cpp:279-351 | running two sequences of calls one after the other runs the second exactly when the first succeeded throughout |
| NativeTypes.RunSingle | src/HeicFileTypePlusIO/HeicEncoder.cpp:279-351 | a single call is made and gives its own status |
| HeicNative.HandleReadError | src/HeicNative.cs:281-312 | a load-side status raises nothing exactly for Ok and NoMatchingMetadata, InvalidOperationException exactly for a null parameter or too small a buffer, OutOfMemoryException exactly for OutOfMemory, and a FormatException otherwise |
| HeicNative.HandleWriteError | src/HeicNative.cs:314-342 | a save-side status raises nothing exactly for Ok, InvalidOperationException, OutOfMemoryException, IOException for a write error and OperationCanceledException for a cancellation exactly as the switch lists them, and a FormatException otherwise |
| HeicNative.ReadAndWriteSidesDiffer | src/HeicNative.cs:281-342 | the two switches differ exactly on NoMatchingMetadata, WriteError and UserCanceled; a missing metadata block raises nothing on load but a FormatException on save |
| HeicNative.ReadCall | src/HeicNative.cs:114-139 | a load-side call keeps its out value exactly when its status raises nothing, and otherwise raises what the status raises |
| HeicNative.GetPrimaryImage | src/HeicNative.cs:75-112 | the handle is kept exactly for Ok; NoMatchingMetadata raises nothing and leaves it null |
| HeicNative.CallbackCall | src/HeicNative.cs:62-72 | a successful call raises nothing; a failing one re-throws an exception the stream callbacks captured, and otherwise raises what its status raises (with lines 268-278) |
| HeicNative.LoadFileIntoContext | src/HeicNative.cs:49-73 | loading raises nothing exactly for Ok, or for NoMatchingMetadata when no callback exception was captured |
| HeicNative.SaveToFile | src/HeicNative.cs:242-279 | saving raises nothing exactly for Ok |
| HeicNative.CapturedExceptionWins | src/HeicNative.cs:62-72 | on a failing status a captured callback exception is what both calls raise (with lines 268-278) |
| ExifBlocks.TiffStartIndex | src/HeicLoad.cs:224-228 | the TIFF start is 4 for a non-positive offset, 4 plus the offset when that fits in 32 bits, and wraps to a negative index when it does not |
| ExifBlocks.MemoryStreamOver | src/HeicLoad.cs:234 | the stream window exists exactly when index and count are non-negative and fit in the buffer, and is then those bytes; otherwise ArgumentOutOfRangeException for a negative argument and ArgumentException for one past the end |
| ExifBlocks.DeclaredOffset | src/HeicLoad.cs:252 | the offset is the first four bytes read as a big-endian 32-bit signed integer |
| ExifBlocks.TiffDataIsTheTail | src/HeicLoad.cs:222-238 | whatever the offset, the 32-bit steps never throw: the parser gets exactly the bytes from 4 plus the positive offset to the end, or nothing when that start is at or past the end |
| ExifBlocks.NonPositiveOffsetIsIgnored | src/HeicLoad.cs:224-228 | a zero or negative offset behaves as no offset |
| ExifBlocks.ParseTiffData | src/HeicLoad.cs:222-241 | never throws; no offset gives null; otherwise the parse of the tail from the TIFF start, or null when that tail is empty |
| HeicLoad.TryReadInt32BigEndian | src/HeicLoad.cs:243-254 | refuses a block of 4 bytes or fewer; otherwise the big-endian offset |
| HeicLoad.TryParseExifData | src/HeicLoad.cs:209-255 | null for a null block or one of 4 bytes or fewer; otherwise the parse of the TIFF data after the declared offset |
| HeicLoad.RemoveProperty | src/HeicLoad.cs:129-133 | removing a path keeps exactly the items not at that Image-section tag |
| HeicLoad.RemovePropertySplits | src/HeicLoad.cs:129-133 | removal distributes over concatenation |
| HeicLoad.RemovalsCommute | src/HeicLoad.cs:129-133 | the two removals give the same collection in either order |
| HeicLoad.DocumentExif | src/HeicLoad.cs:127-140 | the document gets exactly the parsed items that are not the Image-section InterColorProfile or Orientation |
| HeicLoad.ExifItemsOf | src/HeicLoad.cs:121-142 | no items without an EXIF block or when the parse yields nothing; otherwise the parsed items minus the two dropped tags |
| HeicLoad.ColorContextFor | src/HeicLoad.cs:144-194 | the HDRFormat property is read first, so a failing CICP query raises; otherwise Display P3 for PQ content whatever the profile, else the context from the ICC profile (whose native queries may raise) or from the CICP data, as the profile type says, and none without a profile; the handle's data stays the same |
| HeicLoad.HdrCicpHasNoContextOfItsOwn | src/HeicLoad.cs:144-193 | the CICP data of a PQ image would give no context, so its Display P3 context comes from the HDR branch alone |
| HeicLoad.AddMetadataToDocument | src/HeicLoad.cs:116-207 | raises exactly when the EXIF block's, the colour step's or the XMP block's native queries raise, with the first such exception in that order; otherwise the document keeps its size and user values, gains the EXIF items in order, takes the colour context when there is one and the XMP packet when it parses |
| HeicLoad.MetadataIgnoresCaches | src/HeicLoad.cs:116-207 | the metadata step's outcome and document depend only on the handle's data, not on which lazy values are already cached |
| HeicLoad.ColorContextIgnoresCaches | src/HeicLoad.cs:144-194 | the colour context chosen, or the error raised, depends only on the handle's native data, information and disposal, not on which lazy values are already cached |
| HeicLoad.DecodeByColorSpace | src/HeicLoad.cs:58-75 | YCbCr goes to the YCbCr decoder with the handle, RGB and monochrome to their decoders with the image, and an undefined colour space raises a format error |
| HeicLoad.LoadHeif | src/HeicLoad.cs:52-90 | a successful load is a HEIF document of the primary image's size |
| HeicLoad.Load | src/HeicLoad.cs:34-113 | without an ftyp box the stream goes back to where it was and to GDI+ when it starts with a common image signature, and raises a format error otherwise; any other failure propagates; a HEIF file takes the HEIF path |
| HeicLoad.ColorSpaceDispatch | src/HeicLoad.cs:58-78 | an undefined colour space always fails; otherwise the load succeeds exactly when the chosen decoder and then the metadata step do; a YCbCr image is decoded through an interleaved RGB image of the handle's size |
| HeicLoad.NativeQueryFailureFailsLoad | src/HeicLoad.cs:52-90 | a failing native CICP, EXIF, XMP or ICC profile query on the primary handle makes the load raise, whether a high-bit-depth decoder or the metadata step reads it first |
| HeicLoad.NoDroppedTagsReachTheDocument | src/HeicLoad.cs:129-140 | a loaded document never holds the Image-section InterColorProfile or Orientation tag |
| HeicFile.FromExifSection | src/HeicFile.cs:268-287 | Image, Photo, Interop and GpsInfo map to the Image, Exif, Interop and Gps sections; exactly an unknown section raises InvalidOperationException |
| HeicFile.SectionMappingsAreInverse | src/HeicFile.cs:268-287 | the switch and the one in CreateExifPropertyItem are inverse in both directions on the known sections |
| HeicFile.EntryOf | src/HeicFile.cs:264-289 | an item of a known section becomes the entry with its mapped section, tag, type and data |
| HeicFile.EntriesOf | src/HeicFile.cs:262-297 | the entries of all items in order, or InvalidOperationException exactly when some item has an unknown section |
| HeicFile.GetExifMetadataFromDocument | src/HeicFile.cs:253-301 | null exactly without EXIF items; an exception exactly when some item has an unknown section; otherwise each key with the entry of its first item |
| HeicFile.EncoderMetadataOf | src/HeicFile.cs:218-251 | raises exactly when the EXIF map does; otherwise the encoder metadata of that map with InterColorProfile as the ICC key |
| HeicFile.Save | src/HeicFile.cs:77-148 | too small an image raises the format error, an unknown EXIF section InvalidOperationException; on success the native save gets the rendered bitmap, the requested options with 4:0:0 for a grey image, the document's metadata and its stored colour data; the save succeeds exactly when the image is large enough, the EXIF map and the stored colour data are available and the native save of that request reports Ok; the exceptions come in that order: the size check, the EXIF map, the colour data, then what SaveToFile raises for the native outcome |
| HeicFile.NoLosslessPath | src/HeicFile.cs:98-129 | at quality 100 a colour image keeps the requested subsampling: this revision has no identity-matrix path |
| HeicFile.TryReadInt32BigEndian | src/HeicFile.cs:374-390 | accepts a block of at least 4 bytes and gives its big-endian offset |
| HeicFile.TryParseExifData | src/HeicFile.cs:340-372 | null for a null block or one under 4 bytes; otherwise the parse of the TIFF data after the declared offset |
| HeicFile.ExifLengthChecksDiffer | src/HeicFile.cs:374-390 | the two length checks differ only on a block of exactly 4 bytes, which this revision reads and HeicLoad refuses, though neither parses anything from it |
| HeicFile.TryGetMetadata | src/HeicFile.cs:324-338 | the block is read exactly when its size is positive and fits an int; a failing size or read status raises through HandleReadError |
| HeicFile.PropertyItemsOf | src/HeicFile.cs:168-171 | one EXIF property item per entry, in order, or InvalidOperationException exactly when some entry has an unknown section |
| HeicFile.DocumentEntries | src/HeicFile.cs:160-166 | the document gets exactly the parsed entries that are not the InterColorProfile or Orientation tag |
| HeicFile.ExifItems | src/HeicFile.cs:152-174 | no items without EXIF data; every item it adds has a known section and none is the InterColorProfile tag |
| HeicFile.AddColorProfile | src/HeicFile.cs:176-201 | an ICC profile of a size that fits becomes an Undefined-typed InterColorProfile item; CICP data that serialises becomes the CICP user value; no profile leaves the document as it is |
| HeicFile.AddMetadataToDocument | src/HeicFile.cs:150-216 | the EXIF items, then the colour profile, then the XMP packet; it fails exactly when reading the EXIF items, the colour profile or (when the image has one) the XMP block fails, with the first of those errors; on success the size is kept, the EXIF items and user values are those after the colour profile, and the XMP packet is the parsed block when the image has an XMP block of an allocatable size that parses, the document's own otherwise |
| HeicFile.IccProfileSurvivesSave | src/HeicFile.cs:176-251 | an ICC profile loaded into a new document is the ICC profile the next save hands to the encoder, whatever EXIF data came with it |
| HeicFile.CicpSurvivesSave | src/HeicFile.cs:111-201 | CICP colour data stored by the load is the colour data the next save uses, with full range set |
| CICPSerializer.FormatInt | src/CICPSerializer.cs:80-84 | the invariant-culture text of an integer is a non-empty run of digits and minus signs |
| CICPSerializer.DigitsRoundTrip | src/CICPSerializer.cs:80-84 | the digits printed for a natural number have that number as their value |
| CICPSerializer.ParseInt32 | src/CICPSerializer.cs:96 | int.Parse gives a 32-bit value, or raises FormatException or OverflowException; trailing white space and then '\0' characters are accepted after the digits |
| CICPSerializer.ParseFormatted | src/CICPSerializer.cs:80-96 | parsing the text of any 32-bit integer gives it back |
| CICPSerializer.TrailingNulsIgnored | src/CICPSerializer.cs:96 | the formatted text of any 32-bit integer followed by white space and then '\0' characters parses to that integer, as .NET's parser ignores trailing NULs |
| CICPSerializer.NulBeforeWhiteIsBadSyntax | src/CICPSerializer.cs:96 | a '\0' followed by white space after the digits is a FormatException |
| CICPSerializer.IndexOf | src/CICPSerializer.cs:91 | the ordinal IndexOf is the first occurrence of the needle, or -1 when there is none |
| CICPSerializer.IndexOfChar | src/CICPSerializer.cs:92 | raises ArgumentOutOfRangeException exactly for a start outside the string; otherwise the first occurrence of the character from the start, or -1 |
| CICPSerializer.Substring | src/CICPSerializer.cs:94 | the substring exists exactly when the range lies inside the string, and otherwise raises ArgumentOutOfRangeException |
| CICPSerializer.GetPropertyValue | src/CICPSerializer.cs:87-97 | any value read is a 32-bit integer |
| CICPSerializer.TryDeserialize | src/CICPSerializer.cs:31-56 | null, empty and text not starting with "<CICP" give no value; any other text gives a value or raises; a value always has full range |
| CICPSerializer.TrySerialize | src/CICPSerializer.cs:58-85 | no text exactly for the identity matrix or an unspecified field; otherwise text starting with "<CICP" |
| CICPSerializer.ReadProperty | src/CICPSerializer.cs:87-97 | a property written as name="text", with no earlier start of the name and no quote in the text, reads back as the parse of the text |
| CICPSerializer.DeserializeSerialized | src/CICPSerializer.cs:31-85 | deserialising what TrySerialize stored gives the colour data back, with full range set |
| CICPSerializer.ComposedProperties | src/CICPSerializer.cs:77-97 | each property of the formatted element reads back as the text put in its place |
| CICPSerializer.MissingPropertyReadsFromFixedOffset | src/CICPSerializer.cs:91-96 | a missing property does not always raise: IndexOf gives -1, so the value is read from just before where a needle at position 0 would end |
| ColorContextUtil.TryCreateFromCICP | src/ColorContextUtil.cs:28-54 | scRGB exactly for BT.709 primaries with the linear curve, sRGB exactly for BT.709 with the sRGB curve, Display P3 exactly for SMPTE 432 primaries with the sRGB curve, and nothing otherwise |
| ColorContextUtil.OtherCICPHasNoContext | src/ColorContextUtil.cs:28-54 | every other combination of primaries and transfer gives no context |
| ColorContextUtil.CICPContextIgnoresMatrixAndRange | src/ColorContextUtil.cs:28-54 | the matrix coefficients and the range flag never change the choice |
| ColorContextUtil.TryCreateFromRgbProfile | src/ColorContextUtil.cs:56-74 | a context from the profile bytes exactly when the profile is longer than its 128-byte header, its data colour space is 'RGB ' and the factory accepts it; a factory exception gives none |
| ColorContextUtil.RgbSignature | src/ColorContextUtil.cs:60-61 | the big-endian colour-space field is 'RGB ' exactly when its four bytes are R, G, B and a space |
| Documents.NewDocument | src/HeicLoad.cs:77 | a new document has the given size and no metadata |
| Documents.AddExifPropertyItems | src/HeicLoad.cs:135-140 | adding EXIF items keeps the document's size |
| Documents.GetUserValue | src/HeicSave.cs:95 | a user value is found exactly when the name is stored, and is the stored text |
| FormatDetection.ProbeBytes | src/FormatDetection.cs:43-46 | the probe sees the first 8 bytes of the stream, or all of it when it is shorter |
| FormatDetection.IsGifFileSignature | src/FormatDetection.cs:57-70 | true exactly when the data starts with GIF87a or GIF89a |
| FormatDetection.IsTiffFileSignature | src/FormatDetection.cs:72-85 | true exactly when the data starts with a big- or little-endian TIFF header |
| FormatDetection.IsCommonImageFormat | src/FormatDetection.cs:41-52 | true exactly when the stream, from its position, starts with the JPEG, PNG, GIF or TIFF signature |
| FormatDetection.SignaturesFitTheProbe | src/FormatDetection.cs:29-52 | every signature fits in the 8-byte probe, so matching the probe is matching the whole stream |
| FormatDetection.ShortStreamsAreNotCommon | src/FormatDetection.cs:33-52 | fewer than three bytes match no signature |
| FormatDetection.AtMostOneFamilyMatches | src/FormatDetection.cs:29-52 | no stream matches two signature families, so the order of the tests does not matter |
| EndianBinaryReader.New | src/Exif/EndianBinaryReader.cs:62-72 | a null stream raises ArgumentNullException; otherwise a reader at the stream's position with an empty buffer as large as the stream, at most 4096 bytes |
| EndianBinaryReader.Length | src/Exif/EndianBinaryReader.cs:83-91 | the stream's length, or ObjectDisposedException exactly once the stream is released |
| EndianBinaryReader.GetPosition | src/Exif/EndianBinaryReader.cs:103-108 | the logical position, the index of the next byte a read returns, or ObjectDisposedException |
| EndianBinaryReader.SetPosition | src/Exif/EndianBinaryReader.cs:109-137 | a negative value raises ArgumentOutOfRangeException before the dispose check; otherwise the position becomes the value, keeping the buffer when the value lies inside it and seeking the stream otherwise |
| EndianBinaryReader.Dispose | src/Exif/EndianBinaryReader.cs:143-150 | the stream is released unless the reader leaves it open, and nothing else changes |
| EndianBinaryReader.FillLoop | src/Exif/EndianBinaryReader.cs:481-495 | the fill loop succeeds exactly when the stream holds enough bytes from the first buffered one and the buffer can take them, otherwise EndOfStreamException; the buffer then holds exactly the bytes the stream delivered |
| EndianBinaryReader.FillBuffer | src/Exif/EndianBinaryReader.cs:472-499 | refilling succeeds exactly when minBytes bytes remain from the position, keeps the position, and leaves at least minBytes buffered from offset 0 |
| EndianBinaryReader.EnsureBuffer | src/Exif/EndianBinaryReader.cs:459-465 | succeeds exactly when count bytes remain from the position, and then count bytes are buffered without moving the position |
| EndianBinaryReader.Fetch | src/Exif/EndianBinaryReader.cs:329-449 | the dispose check, then the buffer: the k stream bytes at the position, advancing by k, ObjectDisposedException when released and EndOfStreamException when too few remain |
| EndianBinaryReader.ReadByte | src/Exif/EndianBinaryReader.cs:215-235 | the stream byte at the position, advancing by one; ObjectDisposedException when released, EndOfStreamException at the end |
| EndianBinaryReader.ReadUInt16 | src/Exif/EndianBinaryReader.cs:329-352 | the two bytes at the position in the reader's byte order, advancing by two; disposed, then end of stream, then an unknown byte order raise |
| EndianBinaryReader.ReadUInt32 | src/Exif/EndianBinaryReader.cs:371-394 | the four bytes at the position in the reader's byte order, advancing by four, with the same failures |
| EndianBinaryReader.ReadUInt64 | src/Exif/EndianBinaryReader.cs:426-452 | the eight bytes at the position in the reader's byte order, advancing by eight, with the same failures |
| EndianBinaryReader.ReadInt16 | src/Exif/EndianBinaryReader.cs:318-321 | the 16-bit read reinterpreted as signed, with its failures |
| EndianBinaryReader.ReadInt32 | src/Exif/EndianBinaryReader.cs:360-363 | the 32-bit read reinterpreted as signed, with its failures |
| EndianBinaryReader.ReadInt64 | src/Exif/EndianBinaryReader.cs:415-418 | the 64-bit read reinterpreted as signed, with its failures |
| EndianBinaryReader.ReadLoop | src/Exif/EndianBinaryReader.cs:275-289 | the loop reads exactly the requested bytes, or raises EndOfStreamException exactly when the stream ends first |
| EndianBinaryReader.ReadBytes | src/Exif/EndianBinaryReader.cs:245-297 | a negative count raises ArgumentOutOfRangeException, a released stream ObjectDisposedException; otherwise exactly count stream bytes from the position, or EndOfStreamException exactly when fewer remain |
| EndianBinaryReader.ReadPastBuffer | src/Exif/EndianBinaryReader.cs:265-294 | past the buffer, the unread tail and then the stream give exactly the count bytes from the position, or EndOfStreamException |
| EndianBinaryReader.Read | src/Exif/EndianBinaryReader.cs:163-207 | a negative count and a released stream raise; otherwise at most count bytes, the stream bytes at the position, and never an end-of-stream error |
| EndianBinaryReader.StreamReadInto | src/Exif/EndianBinaryReader.cs:189-205 | the unread tail followed by one stream read gives the stream bytes at the position, and empties the buffer |
| EndianBinaryReader.ReadIsShortOnlyAtEndOrChunk | src/Exif/EndianBinaryReader.cs:163-207 | Read returns nothing only at the end of the stream, and fewer bytes than asked only at the end or when the stream hands out a smaller chunk |
| EndianBinaryReader.TwoShortsMakeAnInt | src/Exif/EndianBinaryReader.cs:329-394 | two consecutive 16-bit reads make up the 32-bit read at the same position in either byte order |
| EndianBinaryReader.SignedRead16ReinterpretsBytes | src/Exif/EndianBinaryReader.cs:318-352 | the signed 16-bit read is the two's-complement reading of the two bytes at the position |
| EndianBinaryReader.SignedRead32ReinterpretsBytes | src/Exif/EndianBinaryReader.cs:360-394 | the signed 32-bit read is the two's-complement reading of the four bytes at the position |
| EndianBinaryReader.SignedRead64ReinterpretsBytes | src/Exif/EndianBinaryReader.cs:415-452 | the signed 64-bit read is the two's-complement reading of the eight bytes at the position |
| EndianBinaryReader.SeekThenReadBytes | src/Exif/EndianBinaryReader.cs:245-297 | after seeking to p, ReadBytes(k) returns the k stream bytes at p (with lines 109-137) |
| EndianBinaryReader.DisposedReaderThrows | src/Exif/EndianBinaryReader.cs:505-511 | after disposing a reader that does not leave its stream open every read and position access raises ObjectDisposedException; one that leaves it open is unchanged (with lines 143-150) |
| EndianUtil.SwapsAreInvolutions | src/Exif/EndianUtil.cs:23-46 | swapping a 16-, 32- or 64-bit value twice gives it back |
| EndianUtil.Swap16 | src/Exif/EndianUtil.cs:23-26 | the two bytes of the 16-bit value change places |
| EndianUtil.Swap32 | src/Exif/EndianUtil.cs:28-34 | byte k of the swapped 32-bit value is byte 3 - k of the original |
| EndianUtil.Swap64 | src/Exif/EndianUtil.cs:36-46 | byte k of the swapped 64-bit value is byte 7 - k of the original |
| EndianUtil.SwapTurnsLittleIntoBigEndian | src/Exif/EndianUtil.cs:23-34 | swapping bytes assembled low-first gives the same bytes assembled high-first |
| IFDEntries.ReadEntry | src/Exif/IFDEntry.cs:28-34 | an entry is read exactly when 12 bytes can be read: the 16-bit tag and type, then the 32-bit count and offset, in the reader's byte order, advancing by 12; otherwise the error the first failing read raises |
| IFDEntries.ToLittleEndian | src/Exif/IFDEntry.cs:80-86 | n bytes whose little-endian value is v whenever v fits |
| IFDEntries.Write | src/Exif/IFDEntry.cs:80-86 | 12 bytes holding the tag, type, count and offset little-endian, in that order |
| IFDEntries.ReadWrittenEntry | src/Exif/IFDEntry.cs:28-86 | a little-endian reader reads back the entry that Write emitted, advancing by 12 |
| IFDEntries.WrittenFields | src/Exif/IFDEntry.cs:80-86 | the four fields of a written entry are found where it was written |
| IFDEntries.EqualsIsValueEquality | src/Exif/IFDEntry.cs:57-96 | Equals and == hold exactly when the four fields agree, and != is their negation |
| IFDEntries.HashStep | src/Exif/IFDEntry.cs:71-74 | one step of the hash combiner is the 32-bit wrap-around of hash * -1521134295 + x |
| IFDEntries.HashCode | src/Exif/IFDEntry.cs:65-78 | the hash code is a 32-bit integer |
| IFDEntries.EqualEntriesHashEqually | src/Exif/IFDEntry.cs:57-78 | equal entries have equal hash codes |
| TagDataTypeUtil.IsKnownToGDIPlus | src/Exif/TagDataTypeUtil.cs:30-46 | GDI+ knows exactly Byte, Ascii, Short, Long, Rational, Undefined, SLong and SRational; `TagDataTypeUtil.KnownTypesHaveSize` gives each of them a size |
| TagDataTypeUtil.GetSizeInBytes | src/Exif/TagDataTypeUtil.cs:55-79 | a size of 1, 2, 4 or 8 bytes for each TIFF field type, 0 exactly for a code outside 1 to 13 |
| TagDataTypeUtil.ValueFitsInOffsetField | src/Exif/TagDataTypeUtil.cs:89-112 | up to 4 one-byte values, 2 two-byte values or 1 four-byte value fit in the offset field; 8-byte and unknown types never fit; `TagDataTypeUtil.FitsIffTotalSizeAtMostFour` characterises it by total size |
| TagDataTypeUtil.FitsIffTotalSizeAtMostFour | src/Exif/TagDataTypeUtil.cs:89-112 | the values fit in the offset field exactly when the type has a size of at most 4 and count times that size is at most 4 |
| TagDataTypeUtil.KnownTypesHaveSize | src/Exif/TagDataTypeUtil.cs:30-79 | every type GDI+ knows has a non-zero size |
| ExifValueTypeUtil.GetSizeInBytes | src/Exif/ExifValueTypeUtil.cs:32-55 | a size of 1, 2, 4 or 8 bytes for each value type code, including the unnamed codes 6 and 13 |
| ExifValueTypeUtil.ValueFitsInOffsetField | src/Exif/ExifValueTypeUtil.cs:66-89 | the same fit rule keyed by value type, with the unnamed codes 6 (SByte) and 13 (IFD) matched by number; `ExifValueTypeUtil.AgreesWithTagDataTypeUtil` shows it equals the TagDataType rule |
| ExifValueTypeUtil.AgreesWithTagDataTypeUtil | src/Exif/ExifValueTypeUtil.cs:32-88 | both utilities give the same size and the same fit for every type code |
| MetadataKeys.KeyEqualityIsValueEquality | src/Exif/MetadataKey.cs:47-78 | Equals, == and Equals(object) hold exactly when section and tag agree, != is their negation, and a key never equals null |
| MetadataKeys.HashCode | src/Exif/MetadataKey.cs:57-68 | the hash code is a 32-bit integer |
| MetadataKeys.EqualKeysHashEqually | src/Exif/MetadataKey.cs:52-68 | equal keys have equal hash codes |
| MetadataEntries.NewEntry | src/Exif/MetadataEntry.cs:36-47 | null data throws ArgumentNullException; otherwise the entry holds the given section, tag, type and bytes |
| MetadataEntries.NewEntryFromKey | src/Exif/MetadataEntry.cs:31-34 | the same as the four-argument constructor, with the key's section and tag |
| MetadataEntries.GetData | src/Exif/MetadataEntry.cs:111-114 | the entry's stored bytes (the copy the source returns is the same value); `MetadataEntries.LengthInBytes` is their count |
| MetadataEntries.LengthInBytes | src/Exif/MetadataEntry.cs:49 | the length of the entry's data |
| MetadataEntries.EntryEqualityIsKeyEquality | src/Exif/MetadataEntry.cs:96-142 | two entries are equal exactly when their keys agree; no entry equals null, and == treats two nulls as equal and a null and an entry as different |
| MetadataEntries.EqualityIgnoresTypeAndData | src/Exif/MetadataEntry.cs:101-109 | entries with the same section and tag are equal whatever their types and bytes |
| MetadataEntries.HashCode | src/Exif/MetadataEntry.cs:121-132 | an entry hashes as its key does |
| MetadataEntries.EqualEntriesHashEqually | src/Exif/MetadataEntry.cs:101-132 | equal entries have equal hash codes |
| MetadataEntries.ToExifSection | src/Exif/MetadataEntry.cs:68-88 | Image, Exif, Gps and Interop map to the Image, Photo, GpsInfo and Interop sections, and any other section throws InvalidOperationException |
| MetadataEntries.CreateExifPropertyItem | src/Exif/MetadataEntry.cs:66-94 | a property item with the mapped section, the same tag, and the type code and bytes unchanged; InvalidOperationException for an unknown section |
| ExifValueCollections.CountMatching | src/Exif/ExifValueCollection.cs:42-46 | the count of entries carrying a key never exceeds the collection's size |
| ExifValueCollections.NewCollection | src/Exif/ExifValueCollection.cs:33-38 | a null list throws ArgumentNullException; otherwise the collection is that list |
| ExifValueCollections.RemoveAll | src/Exif/ExifValueCollection.cs:46 | exactly the entries that do not carry the key remain, and the size drops by the number that do |
| ExifValueCollections.Remove | src/Exif/ExifValueCollection.cs:40-48 | afterwards no entry carries the key, every other entry remains, the size drops by the number removed, and a collection without the key is unchanged |
| ExifValueCollections.NoMatchCountsZero | src/Exif/ExifValueCollection.cs:42-46 | a collection without the key has no matching entry to count |
| ExifValueCollections.RemoveAllSplits | src/Exif/ExifValueCollection.cs:46 | removing from a concatenation is removing from each part |
| ExifValueCollections.RemoveAllWithoutMatch | src/Exif/ExifValueCollection.cs:46 | removing a key that no entry carries leaves the list as it was, in order |
| ExifValueCollections.RemoveIsIdempotent | src/Exif/ExifValueCollection.cs:40-48 | the Find guard changes nothing: Remove is RemoveAll, and removing twice is removing once |
| ExifValueCollections.RemoveKeepsOtherKeys | src/Exif/ExifValueCollection.cs:40-48 | removing one key leaves the number of entries of every other key unchanged |
| ExifValueCollections.RemoveAllKeepsCount | src/Exif/ExifValueCollection.cs:46 | RemoveAll of one key keeps every entry of another key |
| ExifValueCollections.Enumerate | src/Exif/ExifValueCollection.cs:38-58 | the enumerator yields Count entries, the list's, in order |
| ExifTagHelper.OffsetTagsAreNotWritable | src/Exif/ExifTagHelper.cs:45-50 | the strip and JPEG offset tags (StripOffsets, RowsPerStrip, StripByteCounts, JPEGInterchangeFormat and its length) are not written to the image section |
| ExifTagHelper.PointerTagsAreNotWritable | src/Exif/ExifTagHelper.cs:25-72 | the SubIFDs, Exif, GPS and Interoperability IFD pointer tags are in none of the groups, so they are not written to the image section |
| ExifTagHelper.OrientationAndCopyrightAreWritable | src/Exif/ExifTagHelper.cs:36-66 | Orientation, from the image-structure group, and Copyright, from the other-tags group, are written |
| Ints.ToInt16 | src/Exif/EndianBinaryReader.cs:318-321 | the (short) cast: the one value in the signed 16-bit range congruent to the unsigned value modulo 2^16 |
| Ints.ToInt32 | src/Exif/EndianBinaryReader.cs:360-363 | the (int) cast: the one value in the signed 32-bit range congruent to the unsigned value modulo 2^32 |
| Ints.ToInt64 | src/Exif/EndianBinaryReader.cs:415-418 | the (long) cast: the one value in the signed 64-bit range congruent to the unsigned value modulo 2^64 |

## Left out

- Floating-point colour math is not modelled bit for bit. The expansion tables and the YUV coefficients are idealised as real numbers. A truncating cast is `floor`.
- BitDepthExpansion.SdrEntry: states the exact quotient i·65535 / maxValue. The source computes `i * (1f / maxValue) * 65535f` in single precision, which rounds at each step. Its truncated entry is one above the quotient for 1 entry of the 10-bit table (617: 39526 against 39525) and 5 entries of the 12-bit table (the first is 2183: 34936 against 34935), and one below it for 512 entries of the 16-bit table (257 gives 256 and 261 gives 260).
- BitDepthExpansion.NewSdrTable: the table's entries are those of `BitDepthExpansion.SdrEntry`, so they carry the same exact-arithmetic idealisation and the same off-by-one entries of the single-precision table.
- BitDepthExpansion.SixteenBitSdrIsIdentity: holds in exact arithmetic only. The source's single-precision 16-bit table is not the identity: 512 samples, such as 257, map one lower, so 256 and 257 both expand to 256.
- The RGB to YUV conversion and its `yuvToUNorm` rounding are parameters of the plane builder: ChromaSubsampling.cpp:79-96,143-264 beyond the block bounds and write indices.
- The Windows imaging and Direct2D conversions, the PQ to DisplayP3 transform, `ConvertFromPremultipliedAlpha` and `PixelKernels.ConvertRgba32ToBgra32` are uninterpreted. Only the call sites and the arguments they are given are modelled.
- libheif, the EXIF parser and writer, the XMP packet serialiser, the ICC colour-context factory and the document renderer are parameters. They are external code.
- The stream and callback I/O plumbing is not part of this model: HeifFileIO.cs, HeicReader.cpp, HeicWriter.cpp, and the stream reads in HeicFile.Load and HeicLoad.Load. The bytes they would read are given.
- P/Invoke, safe handles, native memory and the custom marshaler's allocation are not modelled. They concern handle lifetimes only. The marshaler's null-or-empty rule is modelled (`SaveCommon.ToNativeBlock`).
- Pointer and stride arithmetic is not modelled. Planes are sequences of rows, and `GetChannel` returns the rows.
- The UI, the plug-in metadata and the version strings are not modelled. They hold no logic of the core.
- ReadOnlyListExtensions.cs is not modelled. Its behaviour rests only on a runtime type test.
- The reader's ReadSingle and ReadDouble are not modelled, because floating-point values are out of scope.
- EndianBinaryReader.Read: the destination array and its offset are not modelled; the bytes read are returned as a value instead. So the ArgumentNullException for a null destination is not modelled either (EndianBinaryReader.cs:165-168).
- Cancellation is modelled only as the boolean ReportProgress rule and the UserCanceled status chaining. The progress handler is given as its outcome.
- Concurrency is not modelled. Nothing in the core runs concurrently.
- Some enumerations are declared outside the source files. Their numeric codes are taken from the standards they follow:
  - the TIFF field-type codes from section 2 of TIFF Revision 6.0;
  - the transfer characteristics and matrix coefficients from ITU-T H.273;
  - the MetadataSection numbering Image 0, Exif 1, Gps 2, Interop 3, which is used only by the hash codes.
- The HDR format enumeration is modelled as None, PQ or an unrecognised code. The handle only ever produces None or PQ.
- The CICP user-value name of HeicMetadataNames is taken to be the string HeicFile.cs uses, because that file is not part of this model.
- The InterColorProfile tag id is taken to be 0x8773.
- An array's length is bounded by the .NET limit `int.MaxValue`. The EXIF readers require this of their input instead of modelling an oversized array.
- A copy of a byte array in the source (the MetadataEntry constructor, GetData, GetExif) is modelled as the immutable value itself. No caller can observe aliasing in the model.
- The native encoder's C++ exceptions are modelled only as escaping the plane conversion. The libheif calls are given by their status, so an exception raised inside them is not modelled.
- HeifImageHandles.TryGetMetadata: the GetMetadataId lookup (HeifImageHandle.cs:158) is not part of this model, as the HeicNative.cs of this revision does not declare it. A block is taken to be found exactly when libheif has one of that type, and the lookup never raises.
- CICPSerializer.GetPropertyValue: a missing property follows the code, which reads from a fixed offset when IndexOf returns -1. It does not raise, as a description of the method would suggest.
- IFDEntries.HashCode: states only that the hash is a 32-bit integer, and, by `IFDEntries.EqualEntriesHashEqually`, that equal entries hash equally. It does not state the combined value.
- MetadataKeys.HashCode: states only that the hash is a 32-bit integer, and, by `MetadataKeys.EqualKeysHashEqually`, that equal keys hash equally.
- HeicLoad.LoadHeif: states only the document size. The decoder choice and its failures are stated by `HeicLoad.ColorSpaceDispatch`, and the metadata by `HeicLoad.AddMetadataToDocument`.

=== FILE: bitdepth_expansion.dfy ===
/** Lookup tables that widen 10-, 12- and 16-bit samples (HighBitDepthExpansionSDR and
    HighBitDepthExpansionHDR).  The SDR table maps a sample to the full 16-bit range, the
    HDR table maps it to a real in [0, 1].  Single-precision floats are idealised as reals;
    the truncating `(ushort)` cast is `Floor`. */
module BitDepthExpansion {
  import opened Ints
  import opened Errors

  /** The only bit depths above 8 that the decoders accept. */
  predicate IsHighBitDepth(d: int) { d == 10 || d == 12 || d == 16 }

  /** `count = 1 << bitDepth` for the accepted depths. */
  function SampleCount(d: int): (r: nat)
    requires IsHighBitDepth(d)
    ensures r == Pow2(d)
    ensures r == if d == 10 then 1024 else if d == 12 then 4096 else 65536
  {
    Pow2Values();
    Pow2(d)
  }

  lemma Pow2Values()
    ensures Pow2(10) == 1024 && Pow2(12) == 4096 && Pow2(16) == 65536
  {
    assert Pow2(2) == 4;
    assert Pow2(4) == 16;
    assert Pow2(6) == 64;
    assert Pow2(8) == 256;
    assert Pow2(10) == 1024;
    assert Pow2(12) == 4096;
    assert Pow2(14) == 16384;
  }

  datatype SdrTable = SdrTable(maxValue: nat, entries: seq<u16>)
  datatype HdrTable = HdrTable(maxValue: nat, entries: seq<real>)

  /** A table of one of the accepted depths: `maxValue + 1` entries, one per sample value. */
  predicate ValidMax(maxValue: nat) { maxValue == 1023 || maxValue == 4095 || maxValue == 65535 }

  predicate ValidSdr(t: SdrTable) {
    ValidMax(t.maxValue) && |t.entries| == t.maxValue + 1
    && forall i :: 0 <= i < |t.entries| ==> t.entries[i] == i * 65535 / t.maxValue
  }

  predicate ValidHdr(t: HdrTable) {
    ValidMax(t.maxValue) && |t.entries| == t.maxValue + 1
    && forall i :: 0 <= i < |t.entries| ==> t.entries[i] * (t.maxValue as real) == i as real
  }

  /** The largest sample of an accepted depth, `(1 << bitDepth) - 1`. */
  function MaxSample(d: int): (r: nat)
    requires IsHighBitDepth(d)
    ensures ValidMax(r) && r + 1 == Pow2(d)
  {
    SampleCount(d) - 1
  }

  /** What SDR expansion means: keep the low bits of the sample and rescale
      `0 .. maxValue` onto `0 .. 65535`, rounding down. */
  function SdrScale(value: nat, maxValue: nat): (r: u16)
    requires ValidMax(maxValue)
  {
    var low := value % (maxValue + 1);
    ScaleBounded(low, maxValue);
    low * 65535 / maxValue
  }

  /** What HDR expansion means: keep the low bits and rescale onto [0, 1]. */
  function HdrScale(value: nat, maxValue: nat): real
    requires ValidMax(maxValue)
  {
    (value % (maxValue + 1)) as real / maxValue as real
  }

  /** One SDR entry: `i` times the reciprocal of `maxValue`, times 65535, truncated.
      In exact arithmetic this is the integer quotient `i * 65535 / maxValue`. */
  function SdrEntry(i: nat, maxValue: nat): (r: u16)
    requires 0 < maxValue && i <= maxValue
    ensures r == i * 65535 / maxValue
  {
    var x := (i as real) * (1.0 / maxValue as real) * 65535.0;
    ReciprocalScale(i, maxValue, x);
    FloorOfQuotient(i * 65535, maxValue, x);
    ScaleBounded(i, maxValue);
    x.Floor
  }

  /** A real `x` with `x * m == n` has floor `n / m`. */
  lemma FloorOfQuotient(n: nat, m: nat, x: real)
    requires m > 0 && x * (m as real) == n as real
    ensures x.Floor == n / m
  {
    var f := x.Floor;
    ProductBelow(n, m, x, f);
    ProductAbove(n, m, x, f + 1);
    QuotientUnique(n, m, f);
  }

  lemma ProductBelow(n: nat, m: nat, x: real, f: int)
    requires m > 0 && x * (m as real) == n as real && f as real <= x
    ensures f * m <= n
  {
    MulMonoLe(f as real, x, m as real);
    CastProduct(f, m);
  }

  lemma ProductAbove(n: nat, m: nat, x: real, g: int)
    requires m > 0 && x * (m as real) == n as real && x < g as real
    ensures n < g * m
  {
    MulMonoLt(x, g as real, m as real);
    CastProduct(g, m);
  }

  /** Multiplying by a positive real keeps the order. */
  lemma MulMonoLe(a: real, b: real, c: real)
    requires a <= b && c > 0.0
    ensures a * c <= b * c
  {
  }

  lemma MulMonoLt(a: real, b: real, c: real)
    requires a < b && c > 0.0
    ensures a * c < b * c
  {
  }

  lemma CastProduct(a: int, b: int)
    ensures ((a * b) as real) == (a as real) * (b as real)
  {
  }

  /** The integer quotient is the one `f` with `f * m <= n < (f + 1) * m`. */
  lemma QuotientUnique(n: nat, m: nat, f: int)
    requires m > 0 && f * m <= n < (f + 1) * m
    ensures f == n / m
  {
    var q := n / m;
    assert q * m <= n < (q + 1) * m;
    LtFromProduct(f, q + 1, m);
    LtFromProduct(q, f + 1, m);
  }

  lemma LtFromProduct(a: int, b: int, m: int)
    requires m > 0 && a * m < b * m
    ensures a < b
  {
  }

  lemma ReciprocalScale(i: nat, m: nat, x: real)
    requires m > 0 && x == (i as real) * (1.0 / m as real) * 65535.0
    ensures x * (m as real) == (i * 65535) as real
  {
    var mr := m as real;
    assert (1.0 / mr) * mr == 1.0;
    calc {
      x * mr;
      (i as real) * 65535.0 * ((1.0 / mr) * mr);
      (i * 65535) as real;
    }
  }

  lemma ScaleBounded(i: nat, m: nat)
    requires 0 < m && i <= m
    ensures 0 <= i * 65535 / m <= 65535
  {
    assert i * 65535 <= m * 65535;
    DivMonotone(i * 65535, m * 65535, m);
    assert m * 65535 / m == 65535;
  }

  lemma DivMonotone(a: nat, b: nat, m: nat)
    requires m > 0 && a <= b
    ensures a / m <= b / m
  {
    var qa, qb := a / m, b / m;
    assert qa * m <= a;
    assert b < (qb + 1) * m;
    MulLessCancel(qa, qb + 1, m);
  }

  lemma MulLessCancel(x: int, y: int, m: int)
    requires m > 0 && x * m < y * m
    ensures x < y
  {
    if x >= y {
      MulNonnegative(x - y, m);
    }
  }

  lemma MulNonnegative(x: int, m: int)
    requires x >= 0 && m > 0
    ensures x * m >= 0
  {
  }

  /** Builds the SDR table; a depth other than 10, 12 or 16 throws a FormatException. */
  function NewSdrTable(bitDepth: int): (r: Result<SdrTable>)
    ensures r.Throw? <==> !IsHighBitDepth(bitDepth)
    ensures r.Throw? ==> r.error == FormatError(UnsupportedBitDepth(bitDepth))
    ensures r.Ok? ==> ValidSdr(r.value) && r.value.maxValue == MaxSample(bitDepth)
  {
    if !IsHighBitDepth(bitDepth) then Throw(FormatError(UnsupportedBitDepth(bitDepth)))
    else
      var count := SampleCount(bitDepth);
      var maxValue := count - 1;
      Ok(SdrTable(maxValue, seq(count, i requires 0 <= i < count => SdrEntry(i, maxValue))))
  }

  /** Builds the HDR table; the same bit-depth rule as the SDR table. */
  function NewHdrTable(bitDepth: int): (r: Result<HdrTable>)
    ensures r.Throw? <==> !IsHighBitDepth(bitDepth)
    ensures r.Throw? ==> r.error == FormatError(UnsupportedBitDepth(bitDepth))
    ensures r.Ok? ==> ValidHdr(r.value) && r.value.maxValue == MaxSample(bitDepth)
  {
    if !IsHighBitDepth(bitDepth) then Throw(FormatError(UnsupportedBitDepth(bitDepth)))
    else
      var count := SampleCount(bitDepth);
      var maxValue := count - 1;
      var multiplier := 1.0 / maxValue as real;
      Ok(HdrTable(maxValue, seq(count, i requires 0 <= i < count => (i as real) * multiplier)))
  }

  /** Masks the sample with `maxValue` (the low `bitDepth` bits) and looks it up. */
  function SdrExpand(t: SdrTable, value: u16): (r: u16)
    requires ValidSdr(t)
    ensures r == t.entries[value % (t.maxValue + 1)]
    ensures r == SdrScale(value, t.maxValue)
  {
    MaskIsLowBits(value, t.maxValue);
    t.entries[BitAnd(value, t.maxValue)]
  }

  function HdrExpand(t: HdrTable, value: u16): (r: real)
    requires ValidHdr(t)
    ensures r == t.entries[value % (t.maxValue + 1)]
    ensures r == HdrScale(value, t.maxValue)
  {
    MaskIsLowBits(value, t.maxValue);
    var k := BitAnd(value, t.maxValue);
    QuotientOfProduct(t.entries[k], k as real, t.maxValue as real);
    t.entries[k]
  }

  /** The real `r` with `r * m == k` is `k / m`. */
  lemma QuotientOfProduct(r: real, k: real, m: real)
    requires m > 0.0 && r * m == k
    ensures r == k / m
  {
  }

  /** Dividing by `m` sends `0 <= a < b <= m` into `[0, 1]`, keeping the order strict. */
  lemma QuotientsOrdered(a: real, b: real, m: real)
    requires m > 0.0 && 0.0 <= a < b <= m
    ensures 0.0 <= a / m < b / m <= 1.0
  {
  }

  lemma MaskIsLowBits(value: nat, maxValue: nat)
    requires ValidMax(maxValue)
    ensures BitAnd(value, maxValue) == value % (maxValue + 1)
    ensures BitAnd(value, maxValue) <= maxValue
  {
    Pow2Values();
    if maxValue == 1023 {
      BitAndLowMask(value, 10);
    } else if maxValue == 4095 {
      BitAndLowMask(value, 12);
    } else {
      BitAndLowMask(value, 16);
    }
  }

  /** A sample that already fits the declared depth is looked up unchanged; wider values
      wrap to their low bits, so masking first changes nothing. */
  lemma SdrExpandMasksToDepth(t: SdrTable, value: u16)
    requires ValidSdr(t)
    ensures value <= t.maxValue ==> SdrExpand(t, value) == t.entries[value]
    ensures SdrExpand(t, value % (t.maxValue + 1)) == SdrExpand(t, value)
  {
    var c := t.maxValue + 1;
    var low := value % c;
    assert low % c == low;
    if value <= t.maxValue {
      assert value % c == value;
    }
  }

  /** SDR expansion sends 0 to 0 and the largest sample to 65535, and never decreases. */
  lemma {:induction false} SdrTableEndpointsAndOrder(bitDepth: int, i: int, j: int)
    requires NewSdrTable(bitDepth).Ok?
    requires 0 <= i <= j <= NewSdrTable(bitDepth).value.maxValue
    ensures var t := NewSdrTable(bitDepth).value;
      t.entries[0] == 0 && t.entries[t.maxValue] == 65535 && t.entries[i] <= t.entries[j]
  {
    var t := NewSdrTable(bitDepth).value;
    assert t.maxValue * 65535 / t.maxValue == 65535;
    DivMonotone(i * 65535, j * 65535, t.maxValue);
  }

  /** In exact arithmetic the 16-bit SDR table is the identity.  Computed in single
      precision it is not: 512 samples, such as 257, come out one lower. */
  lemma SixteenBitSdrIsIdentity(value: u16)
    ensures SdrExpand(NewSdrTable(16).value, value) == value
  {
    var t := NewSdrTable(16).value;
    assert t.maxValue == 65535;
    assert value % 65536 == value;
    assert t.entries[value] == value * 65535 / 65535;
  }

  /** HDR expansion stays within [0, 1], sends the extremes to 0 and 1, and increases strictly. */
  lemma HdrTableRangeAndOrder(bitDepth: int, i: int, j: int)
    requires NewHdrTable(bitDepth).Ok?
    requires 0 <= i < j <= NewHdrTable(bitDepth).value.maxValue
    ensures var t := NewHdrTable(bitDepth).value;
      t.entries[0] == 0.0 && t.entries[t.maxValue] == 1.0
      && 0.0 <= t.entries[i] < t.entries[j] <= 1.0
  {
    var t := NewHdrTable(bitDepth).value;
    var m := t.maxValue as real;
    QuotientOfProduct(t.entries[0], 0.0, m);
    QuotientOfProduct(t.entries[t.maxValue], m, m);
    QuotientOfProduct(t.entries[i], i as real, m);
    QuotientOfProduct(t.entries[j], j as real, m);
    QuotientsOrdered(i as real, j as real, m);
  }
}

=== FILE: chroma_subsampling.dfy ===
/** ChromaSubsampling: the native conversion of a BGRA bitmap into a libheif image with 8-bit
    planes, ready for the encoder.  The YUV conversion itself is floating-point colour math
    and is a parameter (`ConversionLibrary.colorToYuv`).  What is modelled is the layout
    around it: the libheif format for each subsampling, the planes that are added and their
    sizes, the exact copies for monochrome, identity-matrix and alpha planes, and the 2x2
    block walk of the YUV conversion. */
module ChromaSubsampling {
  import opened Ints
  import opened HeifImages
  import opened NativeTypes
  import Errors
  import Cicp

  /** The libheif colour space and chroma of each subsampling; `None` is UnknownYUVFormat. */
  function HeifFormatOf(yuvFormat: YUVChromaSubsampling): (r: Errors.Option<(HeifColorSpace, HeifChroma)>)
    ensures r.None? <==> yuvFormat.OtherYuvFormat?
    ensures r.Some? ==> (r.value.0 == HeifColorSpace.Monochrome <==> r.value.1 == HeifChroma.Monochrome)
    ensures r.Some? ==> (r.value.0 == HeifColorSpace.Monochrome <==> yuvFormat == Subsampling400)
    ensures r.Some? && r.value.0 != HeifColorSpace.Monochrome ==> r.value.0 == YCbCr
  {
    match yuvFormat
    case Subsampling400 => Errors.Some((HeifColorSpace.Monochrome, HeifChroma.Monochrome))
    case Subsampling420 => Errors.Some((YCbCr, Yuv420))
    case Subsampling422 => Errors.Some((YCbCr, Yuv422))
    case Subsampling444 => Errors.Some((YCbCr, Yuv444))
    case IdentityMatrix => Errors.Some((YCbCr, Yuv444))
    case OtherYuvFormat(_) => Errors.None
  }

  /** Each subsampling names a format of its own, except that the identity matrix shares
      full-resolution 4:4:4 chroma; it is told apart only by how the planes are filled. */
  lemma FormatsAreDistinct(a: YUVChromaSubsampling, b: YUVChromaSubsampling)
    requires HeifFormatOf(a).Some? && HeifFormatOf(a) == HeifFormatOf(b) && a != b
    ensures {a, b} == {Subsampling444, IdentityMatrix}
  {
  }

  /** GetChromaPlaneWidth: half the width, rounded down, for 4:2:0 and 4:2:2. */
  function ChromaPlaneWidth(imageWidth: nat, chroma: HeifChroma): (w: nat)
    ensures chroma == Yuv420 || chroma == Yuv422 ==> 2 * w <= imageWidth < 2 * w + 2
    ensures chroma != Yuv420 && chroma != Yuv422 ==> w == imageWidth
  {
    match chroma
    case Yuv420 => imageWidth / 2
    case Yuv422 => imageWidth / 2
    case _ => imageWidth
  }

  /** GetChromaPlaneHeight: half the height, rounded down, for 4:2:0 only. */
  function ChromaPlaneHeight(imageHeight: nat, chroma: HeifChroma): (h: nat)
    ensures chroma == Yuv420 ==> 2 * h <= imageHeight < 2 * h + 2
    ensures chroma != Yuv420 ==> h == imageHeight
  {
    if chroma == Yuv420 then imageHeight / 2 else imageHeight
  }

  /** One `AddPlane` call: an 8-bit plane of the given channel and size. */
  datatype PlaneRequest = PlaneRequest(channel: HeifChannel, width: nat, height: nat)

  /** The planes an image needs, in the order they are added: Y, then Cb and Cr for YCbCr,
      then alpha when the bitmap has transparency. */
  function RequiredPlanes(width: nat, height: nat, colorSpace: HeifColorSpace, chroma: HeifChroma,
                          hasTransparency: bool): seq<PlaneRequest>
  {
    var cw, ch := ChromaPlaneWidth(width, chroma), ChromaPlaneHeight(height, chroma);
    [PlaneRequest(Y, width, height)]
    + (if colorSpace == YCbCr then [PlaneRequest(Cb, cw, ch), PlaneRequest(Cr, cw, ch)] else [])
    + (if hasTransparency then [PlaneRequest(Alpha, width, height)] else [])
  }

  /** CreateImagePlanes: adds the required planes until one fails.  `addPlane` is the status
      each call returns. */
  function CreateImagePlanes(width: nat, height: nat, colorSpace: HeifColorSpace, chroma: HeifChroma,
                             hasTransparency: bool, addPlane: PlaneRequest -> Status): (r: (Status, seq<PlaneRequest>))
    ensures r == Run(RequiredPlanes(width, height, colorSpace, chroma, hasTransparency), addPlane)
  {
    var cw, ch := ChromaPlaneWidth(width, chroma), ChromaPlaneHeight(height, chroma);
    var y, cb, cr, alpha := PlaneRequest(Y, width, height), PlaneRequest(Cb, cw, ch),
                            PlaneRequest(Cr, cw, ch), PlaneRequest(Alpha, width, height);
    var colour := if colorSpace == YCbCr then [cb, cr] else [];
    var transparency := if hasTransparency then [alpha] else [];
    RunConcat([y], colour + transparency, addPlane);
    RunConcat(colour, transparency, addPlane);
    RunConcat([cb], [cr], addPlane);
    RunSingle(y, addPlane); RunSingle(cb, addPlane); RunSingle(cr, addPlane); RunSingle(alpha, addPlane);
    assert RequiredPlanes(width, height, colorSpace, chroma, hasTransparency) == [y] + (colour + transparency);
    assert colour + [] == colour && [cb, cr] == [cb] + [cr] && [y] + [cb] == [y, cb] && [y] + [cb, cr] == [y, cb, cr];
    assert [y] + [] == [y] && [y] + ([cb] + []) == [y, cb];
    var status := addPlane(y);
    if status != Ok then (status, [y])
    else
      var (status, made) :=
        if colorSpace == YCbCr then
          var s := addPlane(cb);
          if s != Ok then (s, [y, cb]) else (addPlane(cr), [y, cb, cr])
        else (status, [y]);
      if hasTransparency && status == Ok then
        (addPlane(alpha), made + [alpha])
      else
        (status, made)
  }

  /** Some pixel is not fully opaque. */
  predicate SomeTranslucent(bd: BitmapData)
    requires ValidBitmap(bd)
  {
    exists y, x :: 0 <= y < bd.height && 0 <= x < bd.width && bd.pixels[y][x].a < 255
  }

  /** HasTransparency: scans the rows in order and stops at the first pixel with alpha below
      255.  HeicEncoder.cpp carries an identical copy of this scan. */
  method HasTransparency(bd: BitmapData) returns (r: bool)
    requires ValidBitmap(bd)
    ensures r <==> SomeTranslucent(bd)
  {
    var y := 0;
    while y < bd.height
      invariant 0 <= y <= bd.height
      invariant forall y', x :: 0 <= y' < y && 0 <= x < bd.width ==> bd.pixels[y'][x].a == 255
    {
      var x := 0;
      while x < bd.width
        invariant 0 <= x <= bd.width
        invariant forall x' :: 0 <= x' < x ==> bd.pixels[y][x'].a == 255
      {
        if bd.pixels[y][x].a < 255 {
          return true;
        }
        x := x + 1;
      }
      y := y + 1;
    }
    return false;
  }

  /** One 8-bit plane holding `f` of every pixel. */
  function MapPixels(bd: BitmapData, f: Bgra -> byte): (p: Plane8)
    requires ValidBitmap(bd)
    ensures IsGrid(p, bd.width, bd.height)
    ensures forall y, x :: 0 <= y < bd.height && 0 <= x < bd.width ==> p[y][x] == f(bd.pixels[y][x])
  {
    seq(bd.height, y requires 0 <= y < bd.height =>
      seq(bd.width, x requires 0 <= x < bd.width => f(bd.pixels[y][x])))
  }

  /** ColorToIdentity8: the identity matrix of ITU-T H.273 (MatrixCoefficients 0) puts G in
      the Y plane, B in the U plane and R in the V plane, unchanged. */
  function ColorToIdentity8(bd: BitmapData): (r: (Plane8, Plane8, Plane8))
    requires ValidBitmap(bd)
    ensures IsGrid(r.0, bd.width, bd.height) && IsGrid(r.1, bd.width, bd.height) && IsGrid(r.2, bd.width, bd.height)
    ensures forall y, x :: 0 <= y < bd.height && 0 <= x < bd.width ==>
      r.0[y][x] == bd.pixels[y][x].g && r.1[y][x] == bd.pixels[y][x].b && r.2[y][x] == bd.pixels[y][x].r
  {
    (MapPixels(bd, (p: Bgra) => p.g), MapPixels(bd, (p: Bgra) => p.b), MapPixels(bd, (p: Bgra) => p.r))
  }

  /** MonoToY8: the Y plane of a 4:0:0 image is the red channel. */
  function MonoToY8(bd: BitmapData): (p: Plane8)
    requires ValidBitmap(bd)
    ensures IsGrid(p, bd.width, bd.height)
    ensures forall y, x :: 0 <= y < bd.height && 0 <= x < bd.width ==> p[y][x] == bd.pixels[y][x].r
  {
    MapPixels(bd, (p: Bgra) => p.r)
  }

  /** AlphaToA8: the alpha plane is the alpha channel. */
  function AlphaToA8(bd: BitmapData): (p: Plane8)
    requires ValidBitmap(bd)
    ensures IsGrid(p, bd.width, bd.height)
    ensures forall y, x :: 0 <= y < bd.height && 0 <= x < bd.width ==> p[y][x] == bd.pixels[y][x].a
  {
    MapPixels(bd, (p: Bgra) => p.a)
  }

  // The 2x2 block walk of ColorToYUV8.  Along each axis the blocks start at the even
  // coordinates and are two samples long, except one sample long at an odd trailing edge.

  predicate IsBlockOrigin(o: int, extent: nat) { 0 <= o < extent && o % 2 == 0 }

  /** `blockWidth` (or `blockHeight`) of the block starting at `o`. */
  function BlockSize(o: int, extent: nat): (n: nat)
    ensures n == 1 || n == 2
  {
    if o + 1 >= extent then 1 else 2
  }

  /** A block is one sample long exactly when it starts at the last sample, which is a block
      origin exactly when the extent is odd. */
  lemma ShortBlockOnlyAtOddEdge(o: int, extent: nat)
    requires IsBlockOrigin(o, extent)
    ensures BlockSize(o, extent) == 1 <==> o == extent - 1
    ensures BlockSize(o, extent) == 1 ==> extent % 2 == 1
  {
  }

  /** Every sample of a block lies inside the image. */
  lemma BlockStaysInside(o: int, d: int, extent: nat)
    requires IsBlockOrigin(o, extent) && 0 <= d < BlockSize(o, extent)
    ensures 0 <= o + d < extent
  {
  }

  /** Every sample is written by exactly one block: the one starting at the even coordinate
      at or below it, at offset `x % 2`. */
  lemma EachSampleInExactlyOneBlock(x: int, extent: nat)
    requires 0 <= x < extent
    ensures IsBlockOrigin(x - x % 2, extent) && x % 2 < BlockSize(x - x % 2, extent)
    ensures forall o :: IsBlockOrigin(o, extent) && 0 <= x - o < BlockSize(o, extent) ==> o == x - x % 2
  {
  }

  /** In two dimensions: pixel (x, y) gets its Y sample from exactly one (block, offset)
      pair of the walk, so every Y sample is written exactly once. */
  lemma EachPixelWrittenOnce(x: int, y: int, width: nat, height: nat)
    requires 0 <= x < width && 0 <= y < height
    ensures IsBlockOrigin(x - x % 2, width) && IsBlockOrigin(y - y % 2, height)
    ensures x % 2 < BlockSize(x - x % 2, width) && y % 2 < BlockSize(y - y % 2, height)
    ensures forall ox, oy ::
      (IsBlockOrigin(ox, width) && IsBlockOrigin(oy, height)
       && 0 <= x - ox < BlockSize(ox, width) && 0 <= y - oy < BlockSize(oy, height))
      ==> ox == x - x % 2 && oy == y - y % 2
  {
    EachSampleInExactlyOneBlock(x, width);
    EachSampleInExactlyOneBlock(y, height);
  }

  /** The chroma column of a 4:2:0 or 4:2:2 block, and the chroma row of a 4:2:0 block:
      `imageX >> 1`, an arithmetic shift of a non-negative number. */
  function ChromaIndex(o: nat): nat { o / 2 }

  /** The chroma row a 4:2:0 or 4:2:2 block writes for its row `oy + dy`. */
  function ChromaRow(chroma: HeifChroma, oy: nat, dy: nat): nat {
    if chroma == Yuv420 then ChromaIndex(oy) else oy + dy
  }

  /** With an even width (and, for 4:2:0, an even height) every chroma write of the block
      walk lands inside the chroma planes. */
  lemma ChromaWritesFitEvenDimensions(width: nat, height: nat, chroma: HeifChroma, ox: nat, oy: nat, dy: nat)
    requires chroma == Yuv420 || chroma == Yuv422
    requires IsBlockOrigin(ox, width) && IsBlockOrigin(oy, height) && dy < BlockSize(oy, height)
    requires width % 2 == 0 && (chroma == Yuv420 ==> height % 2 == 0)
    ensures ChromaIndex(ox) < ChromaPlaneWidth(width, chroma)
    ensures ChromaRow(chroma, oy, dy) < ChromaPlaneHeight(height, chroma)
  {
  }

  /** As written, an odd width makes the last block write one chroma column past the plane:
      the plane is `width / 2` wide and the column of the block at `width - 1` is `width / 2`. */
  lemma OddWidthWritesPastChromaPlane(width: nat, chroma: HeifChroma)
    requires chroma == Yuv420 || chroma == Yuv422
    requires width % 2 == 1
    ensures IsBlockOrigin(width - 1, width)
    ensures ChromaIndex(width - 1) == ChromaPlaneWidth(width, chroma)
  {
  }

  /** Likewise an odd height in 4:2:0 makes the last block row write one chroma row past the
      plane. */
  lemma OddHeightWritesPastChromaPlane(height: nat)
    requires height % 2 == 1
    ensures IsBlockOrigin(height - 1, height)
    ensures ChromaRow(Yuv420, height - 1, 0) == ChromaPlaneHeight(height, Yuv420)
  {
  }

  /** The arguments of `heif_image_create`. */
  datatype ImageRequest = ImageRequest(width: nat, height: nat, colorSpace: HeifColorSpace, chroma: HeifChroma)

  /** What the libheif calls of a conversion return, and the floating-point YUV conversion
      (ColorToYUV8), whose result planes are taken as given. */
  datatype ConversionLibrary = ConversionLibrary(
    createImage: ImageRequest -> HeifError,
    addPlane: PlaneRequest -> HeifError,
    colorToYuv: (BitmapData, Cicp.CICPColorData, YUVChromaSubsampling) -> (Plane8, Plane8, Plane8))

  datatype ConvertedImage = ConvertedImage(colorSpace: HeifColorSpace, chroma: HeifChroma, planes: map<HeifChannel, Plane8>)

  /** The channels a converted image holds: Y alone for monochrome, Y, Cb and Cr otherwise,
      and alpha when the bitmap has transparency. */
  function ChannelsOf(colorSpace: HeifColorSpace, hasTransparency: bool): set<HeifChannel> {
    (if colorSpace == HeifColorSpace.Monochrome then {Y} else {Y, Cb, Cr}) + (if hasTransparency then {Alpha} else {})
  }

  /** The planes once they are filled: the monochrome copy, or the identity copy, or the YUV
      conversion, and then the alpha copy when the bitmap has transparency. */
  function FilledPlanes(bd: BitmapData, colorInfo: Cicp.CICPColorData, yuvFormat: YUVChromaSubsampling,
                        colorSpace: HeifColorSpace, lib: ConversionLibrary): (planes: map<HeifChannel, Plane8>)
    requires ValidBitmap(bd)
    ensures planes.Keys == ChannelsOf(colorSpace, SomeTranslucent(bd))
    ensures colorSpace == HeifColorSpace.Monochrome ==> planes[Y] == MonoToY8(bd)
    ensures colorSpace != HeifColorSpace.Monochrome && yuvFormat == IdentityMatrix ==>
      (planes[Y], planes[Cb], planes[Cr]) == ColorToIdentity8(bd)
    ensures colorSpace != HeifColorSpace.Monochrome && yuvFormat != IdentityMatrix ==>
      (planes[Y], planes[Cb], planes[Cr]) == lib.colorToYuv(bd, colorInfo, yuvFormat)
    ensures SomeTranslucent(bd) ==> planes[Alpha] == AlphaToA8(bd)
  {
    var color :=
      if colorSpace == HeifColorSpace.Monochrome then map[Y := MonoToY8(bd)]
      else
        var (y, u, v) := if yuvFormat == IdentityMatrix then ColorToIdentity8(bd)
                         else lib.colorToYuv(bd, colorInfo, yuvFormat);
        map[Y := y, Cb := u, Cr := v];
    if SomeTranslucent(bd) then color[Alpha := AlphaToA8(bd)] else color
  }

  /** ConvertToHeifImage: the format for the subsampling, the image, its planes, then the
      copies; an image is handed back only when every step succeeded. */
  function ConvertToHeifImage(bd: BitmapData, colorInfo: Cicp.CICPColorData, yuvFormat: YUVChromaSubsampling,
                              lib: ConversionLibrary): (r: (Status, Errors.Option<ConvertedImage>))
    requires ValidBitmap(bd)
    ensures r.0 == UnknownYUVFormat <==> yuvFormat.OtherYuvFormat?
    ensures r.1.Some? <==> r.0 == Ok
    ensures r.0 == Ok ==>
      && HeifFormatOf(yuvFormat).Some?
      && var (cs, chroma) := HeifFormatOf(yuvFormat).value;
      && r.1.value == ConvertedImage(cs, chroma, FilledPlanes(bd, colorInfo, yuvFormat, cs, lib))
      && lib.createImage(ImageRequest(bd.width, bd.height, cs, chroma)).NoHeifError?
      && forall p :: p in RequiredPlanes(bd.width, bd.height, cs, chroma, SomeTranslucent(bd)) ==>
           lib.addPlane(p).NoHeifError?
    ensures HeifFormatOf(yuvFormat).Some? ==>
      var (cs, chroma) := HeifFormatOf(yuvFormat).value;
      var created := lib.createImage(ImageRequest(bd.width, bd.height, cs, chroma));
      var required := RequiredPlanes(bd.width, bd.height, cs, chroma, SomeTranslucent(bd));
      && (!created.NoHeifError? ==> r.0 == StatusOfError(created, UnknownError))
      && (created.NoHeifError? && (forall p :: p in required ==> lib.addPlane(p).NoHeifError?) ==> r.0 == Ok)
      && (created.NoHeifError? && r.0 != Ok ==>
            exists i ::
              && 0 <= i < |required| && r.0 == StatusOfError(lib.addPlane(required[i]), UnknownError)
              && forall j :: 0 <= j < i ==> lib.addPlane(required[j]).NoHeifError?)
  {
    match HeifFormatOf(yuvFormat)
    case None => (UnknownYUVFormat, Errors.None)
    case Some((cs, chroma)) =>
      var status := StatusOfError(lib.createImage(ImageRequest(bd.width, bd.height, cs, chroma)), UnknownError);
      if status != Ok then (status, Errors.None)
      else
        var transparent := SomeTranslucent(bd);
        var required := RequiredPlanes(bd.width, bd.height, cs, chroma, transparent);
        var addPlane := (p: PlaneRequest) => StatusOfError(lib.addPlane(p), UnknownError);
        var planeStatus := CreateImagePlanes(bd.width, bd.height, cs, chroma, transparent, addPlane).0;
        RunMeaning(required, addPlane);
        if planeStatus != Ok then
          RunFirstFailure(required, addPlane);
          (planeStatus, Errors.None)
        else
          assert forall i :: 0 <= i < |required| ==> addPlane(required[i]) == Ok;
          (Ok, Errors.Some(ConvertedImage(cs, chroma, FilledPlanes(bd, colorInfo, yuvFormat, cs, lib))))
  }

  /** The bitmap a decoder rebuilds from identity-matrix planes: G from Y, B from U, R from V,
      alpha from the alpha plane or opaque when there is none. */
  function IdentityToBgra(yp: Plane8, up: Plane8, vp: Plane8, alpha: Errors.Option<Plane8>,
                          width: nat, height: nat): (s: Surface)
    requires IsGrid(yp, width, height) && IsGrid(up, width, height) && IsGrid(vp, width, height)
    requires alpha.Some? ==> IsGrid(alpha.value, width, height)
    ensures IsGrid(s, width, height)
  {
    seq(height, y requires 0 <= y < height =>
      seq(width, x requires 0 <= x < width =>
        Bgra(up[y][x], yp[y][x], vp[y][x], if alpha.Some? then alpha.value[y][x] else 255)))
  }

  /** The identity matrix is lossless: the planes of a successful identity-matrix conversion
      give back every pixel of the bitmap, alpha included. */
  lemma IdentityConversionIsLossless(bd: BitmapData, colorInfo: Cicp.CICPColorData, lib: ConversionLibrary)
    requires ValidBitmap(bd)
    requires ConvertToHeifImage(bd, colorInfo, IdentityMatrix, lib).0 == Ok
    ensures var img := ConvertToHeifImage(bd, colorInfo, IdentityMatrix, lib).1.value;
      IdentityToBgra(img.planes[Y], img.planes[Cb], img.planes[Cr],
                     if Alpha in img.planes then Errors.Some(img.planes[Alpha]) else Errors.None,
                     bd.width, bd.height) == bd.pixels
  {
    var img := ConvertToHeifImage(bd, colorInfo, IdentityMatrix, lib).1.value;
    var alpha := if Alpha in img.planes then Errors.Some(img.planes[Alpha]) else Errors.None;
    var s := IdentityToBgra(img.planes[Y], img.planes[Cb], img.planes[Cr], alpha, bd.width, bd.height);
    forall y | 0 <= y < bd.height
      ensures s[y] == bd.pixels[y]
    {
      forall x | 0 <= x < bd.width
        ensures s[y][x] == bd.pixels[y][x]
      {
        if !SomeTranslucent(bd) {
          assert bd.pixels[y][x].a == 255;
        }
      }
    }
  }

  /** A grey bitmap (R = G = B everywhere) loses nothing in 4:0:0 either: fanning the Y plane
      out to the three colour channels gives back every colour. */
  lemma GreyConversionKeepsColours(bd: BitmapData, colorInfo: Cicp.CICPColorData, lib: ConversionLibrary)
    requires ValidBitmap(bd)
    requires forall y, x :: 0 <= y < bd.height && 0 <= x < bd.width ==>
      bd.pixels[y][x].r == bd.pixels[y][x].g == bd.pixels[y][x].b
    requires ConvertToHeifImage(bd, colorInfo, Subsampling400, lib).0 == Ok
    ensures var yp := ConvertToHeifImage(bd, colorInfo, Subsampling400, lib).1.value.planes[Y];
      forall y, x :: 0 <= y < bd.height && 0 <= x < bd.width ==>
        var p := bd.pixels[y][x]; yp[y][x] == p.r && yp[y][x] == p.g && yp[y][x] == p.b
  {
  }
}

=== FILE: cicp.dfy ===
/** CICP colour description (coding-independent code points of ITU-T H.273) as the
    plug-in passes it between libheif, the document and the encoder. */
module Cicp {
  import opened Ints

  /** Colour primaries, ITU-T H.273 Table 2. */
  const PrimariesBT709: int := 1
  const PrimariesUnspecified: int := 2
  const PrimariesBT470M: int := 4
  const PrimariesBT470BG: int := 5
  const PrimariesBT601: int := 6
  const PrimariesSmpte240: int := 7
  const PrimariesBT2020: int := 9
  const PrimariesSmpte432: int := 12

  /** Transfer characteristics, ITU-T H.273 Table 3. */
  const TransferUnspecified: int := 2
  const TransferLinear: int := 8
  const TransferSrgb: int := 13
  const TransferSmpte2084: int := 16

  /** Matrix coefficients, ITU-T H.273 Table 4. */
  const MatrixIdentity: int := 0
  const MatrixBT709: int := 1
  const MatrixUnspecified: int := 2
  const MatrixFCC: int := 4
  const MatrixBT470BG: int := 5
  const MatrixBT601: int := 6
  const MatrixSmpte240: int := 7

  /** The three code points are enumeration values, so any 32-bit integer can occur. */
  datatype CICPColorData = CICPColorData(
    colorPrimaries: int,
    transferCharacteristics: int,
    matrixCoefficients: int,
    fullRange: bool)

  predicate HasInt32Fields(c: CICPColorData) {
    IsInt32(c.colorPrimaries) && IsInt32(c.transferCharacteristics) && IsInt32(c.matrixCoefficients)
  }

  /** BT.709 primaries and matrix with the sRGB transfer curve, full range: the encoder's
      default. */
  const DefaultColorData: CICPColorData := CICPColorData(PrimariesBT709, TransferSrgb, MatrixBT709, true)

  /** What the image handle reports for an image without CICP data. */
  const UnspecifiedColorData: CICPColorData :=
    CICPColorData(PrimariesUnspecified, TransferUnspecified, MatrixUnspecified, false)
}

/** CICPSerializer: the CICP data kept in the document as the user value
    `<CICP ColorPrimaries="p" TransferCharacteristics="t" MatrixCoefficients="m"/>`. */
module CICPSerializer {
  import opened Ints
  import opened Errors
  import opened Cicp

  const ColorPrimariesName: string := "ColorPrimaries"
  const TransferCharacteristicsName: string := "TransferCharacteristics"
  const MatrixCoefficientsName: string := "MatrixCoefficients"

  // ---------------------------------------------------------------- decimal text

  predicate IsDigit(c: char) { '0' <= c <= '9' }

  /** The characters NumberStyles.Integer skips before and after the number. */
  predicate IsWhite(c: char) { c == ' ' || '\t' <= c <= '\r' }

  predicate AllDigits(s: string) { forall i :: 0 <= i < |s| ==> IsDigit(s[i]) }

  function DigitChar(d: nat): (c: char)
    requires d < 10
    ensures IsDigit(c) && c as int - '0' as int == d
  {
    ('0' as int + d) as char
  }

  /** The decimal digits of `n`, without leading zeros. */
  function NatDigits(n: nat): (s: string)
    ensures |s| >= 1 && AllDigits(s)
  {
    if n < 10 then [DigitChar(n)] else NatDigits(n / 10) + [DigitChar(n % 10)]
  }

  /** `Int32.ToString(CultureInfo.InvariantCulture)`: a minus sign, then the digits. */
  function FormatInt(n: int): (s: string)
    ensures |s| >= 1
    ensures forall i :: 0 <= i < |s| ==> IsDigit(s[i]) || s[i] == '-'
  {
    if n < 0 then "-" + NatDigits(-n) else NatDigits(n)
  }

  function DigitsValue(s: string): nat
    requires AllDigits(s)
  {
    if |s| == 0 then 0 else DigitsValue(s[..|s| - 1]) * 10 + (s[|s| - 1] as int - '0' as int)
  }

  lemma {:induction false} DigitsRoundTrip(n: nat)
    ensures DigitsValue(NatDigits(n)) == n
  {
    if n >= 10 {
      var s := NatDigits(n);
      assert s[..|s| - 1] == NatDigits(n / 10);
      DigitsRoundTrip(n / 10);
    }
  }

  /** The first index at or after `i` that is not white space. */
  function SkipWhite(s: string, i: nat): (j: nat)
    requires i <= |s|
    ensures i <= j <= |s| && (j < |s| ==> !IsWhite(s[j]))
    ensures forall k :: i <= k < j ==> IsWhite(s[k])
    decreases |s| - i
  {
    if i < |s| && IsWhite(s[i]) then SkipWhite(s, i + 1) else i
  }

  /** The first index at or after `i` that is not a digit. */
  function SkipDigits(s: string, i: nat): (j: nat)
    requires i <= |s|
    ensures i <= j <= |s| && (j < |s| ==> !IsDigit(s[j]))
    ensures forall k :: i <= k < j ==> IsDigit(s[k])
    decreases |s| - i
  {
    if i < |s| && IsDigit(s[i]) then SkipDigits(s, i + 1) else i
  }

  /** The first index at or after `i` that is not a '\0' character. */
  function SkipNuls(s: string, i: nat): (j: nat)
    requires i <= |s|
    ensures i <= j <= |s| && (j < |s| ==> s[j] != '\0')
    ensures forall k :: i <= k < j ==> s[k] == '\0'
    decreases |s| - i
  {
    if i < |s| && s[i] == '\0' then SkipNuls(s, i + 1) else i
  }

  /** `int.Parse(s, CultureInfo.InvariantCulture)` (NumberStyles.Integer): optional white
      space, an optional sign, at least one digit, optional white space, and then nothing
      but '\0' characters, which the .NET number parser ignores at the end. Bad syntax is
      a FormatException; a well-formed number outside the 32-bit range an OverflowException. */
  function ParseInt32(s: string): (r: Result<int>)
    ensures r.Ok? ==> IsInt32(r.value)
    ensures r.Throw? ==> r.error in {FormatError(NumberSyntax), Overflow}
  {
    var i := SkipWhite(s, 0);
    var negative := i < |s| && s[i] == '-';
    var j := if i < |s| && (s[i] == '-' || s[i] == '+') then i + 1 else i;
    var k := SkipDigits(s, j);
    if k == j || SkipNuls(s, SkipWhite(s, k)) != |s| then Throw(FormatError(NumberSyntax))
    else
      var magnitude: int := DigitsValue(s[j..k]);
      var v := if negative then -magnitude else magnitude;
      if IsInt32(v) then Ok(v) else Throw(Overflow)
  }

  /** Parsing what `FormatInt` printed gives the number back. */
  lemma ParseFormatted(n: int)
    requires IsInt32(n)
    ensures ParseInt32(FormatInt(n)) == Ok(n)
  {
    var s := FormatInt(n);
    assert s + "" == s;
    ParseFormattedThen(n, "");
  }

  /** White space and then '\0' characters after the digits are ignored, so "1\0" reads
      as 1. */
  lemma TrailingNulsIgnored(n: int, ws: string, nuls: string)
    requires IsInt32(n)
    requires forall i :: 0 <= i < |ws| ==> IsWhite(ws[i])
    requires forall i :: 0 <= i < |nuls| ==> nuls[i] == '\0'
    ensures ParseInt32(FormatInt(n) + ws + nuls) == Ok(n)
  {
    var f := FormatInt(n);
    var s := f + (ws + nuls);
    assert f + ws + nuls == s;
    assert s[|f|..] == ws + nuls;
    TailSkipped(s, |f|, ws, nuls);
    ParseFormattedThen(n, ws + nuls);
  }

  /** The formatted text followed by a tail that starts with no digit and is skipped as
      white space and then '\0' characters parses back to the number. */
  lemma ParseFormattedThen(n: int, rest: string)
    requires IsInt32(n)
    requires |rest| > 0 ==> !IsDigit(rest[0])
    requires var s := FormatInt(n) + rest; SkipNuls(s, SkipWhite(s, |FormatInt(n)|)) == |s|
    ensures ParseInt32(FormatInt(n) + rest) == Ok(n)
  {
    var f := FormatInt(n);
    var s := f + rest;
    var j := if n < 0 then 1 else 0;
    var m: nat := if n < 0 then -n else n;
    assert f[j..] == NatDigits(m);
    SkipWhitePrefix(f, rest);
    SkipDigitsStops(f, rest, j);
    assert s[j..|f|] == f[j..];
    DigitsRoundTrip(m);
  }

  /** White space and then '\0' characters from `e` on are all skipped. */
  lemma TailSkipped(s: string, e: nat, ws: string, nuls: string)
    requires e <= |s| && s[e..] == ws + nuls
    requires forall i :: 0 <= i < |ws| ==> IsWhite(ws[i])
    requires forall i :: 0 <= i < |nuls| ==> nuls[i] == '\0'
    ensures SkipNuls(s, SkipWhite(s, e)) == |s|
  {
    forall i | e <= i < e + |ws| ensures IsWhite(s[i]) {
      assert s[i] == s[e..][i - e] == ws[i - e];
    }
    if e + |ws| < |s| {
      assert s[e + |ws|] == s[e..][|ws|] == nuls[0];
    }
    SkipWhiteOver(s, e, e + |ws|);
    forall i | e + |ws| <= i < |s| ensures s[i] == '\0' {
      assert s[i] == s[e..][i - e] == nuls[i - e - |ws|];
    }
    SkipNulsOver(s, e + |ws|);
  }

  /** A '\0' followed by anything else is bad syntax: "1\0 " does not parse. */
  lemma NulBeforeWhiteIsBadSyntax(n: int)
    requires IsInt32(n)
    ensures ParseInt32(FormatInt(n) + "\0 ") == Throw(FormatError(NumberSyntax))
  {
    var f := FormatInt(n);
    var t := f + "\0 ";
    var j := if n < 0 then 1 else 0;
    SkipWhitePrefix(f, "\0 ");
    SkipDigitsStops(f, "\0 ", j);
    assert t[|f|] == '\0' && t[|f| + 1] == ' ';
    assert SkipWhite(t, |f|) == |f|;
    assert SkipNuls(t, |f|) == |f| + 1;
  }

  /** The white space skipped at the start of `f` does not reach into what follows it. */
  lemma SkipWhitePrefix(f: string, rest: string)
    requires |f| > 0 && !IsWhite(f[0])
    ensures SkipWhite(f + rest, 0) == 0
  {
  }

  /** The digits of `f` from `j` to its end are followed by something that is not a digit. */
  lemma SkipDigitsStops(f: string, rest: string, j: nat)
    requires j <= |f| && forall k :: j <= k < |f| ==> IsDigit(f[k])
    requires |rest| > 0 ==> !IsDigit(rest[0])
    ensures SkipDigits(f + rest, j) == |f|
    decreases |f| - j
  {
    if j < |f| {
      SkipDigitsStops(f, rest, j + 1);
    }
  }

  lemma SkipWhiteOver(s: string, i: nat, e: nat)
    requires i <= e <= |s| && forall k :: i <= k < e ==> IsWhite(s[k])
    requires e < |s| ==> !IsWhite(s[e])
    ensures SkipWhite(s, i) == e
    decreases e - i
  {
    if i < e {
      SkipWhiteOver(s, i + 1, e);
    }
  }

  lemma SkipNulsOver(s: string, i: nat)
    requires i <= |s| && forall k :: i <= k < |s| ==> s[k] == '\0'
    ensures SkipNuls(s, i) == |s|
    decreases |s| - i
  {
    if i < |s| {
      SkipNulsOver(s, i + 1);
    }
  }

  // ---------------------------------------------------------------- searching

  predicate OccursAt(h: string, needle: string, i: int) {
    0 <= i && i + |needle| <= |h| && h[i..i + |needle|] == needle
  }

  function IndexOfFrom(h: string, needle: string, from: nat): (r: int)
    ensures r == -1 || (from <= r && OccursAt(h, needle, r))
    ensures forall i :: from <= i && (r == -1 || i < r) ==> !OccursAt(h, needle, i)
    decreases |h| - from
  {
    if from + |needle| > |h| then -1
    else if h[from..from + |needle|] == needle then from
    else IndexOfFrom(h, needle, from + 1)
  }

  /** `string.IndexOf(needle, StringComparison.Ordinal)`: the first occurrence, or -1. */
  function IndexOf(h: string, needle: string): (r: int)
    ensures r == -1 || OccursAt(h, needle, r)
    ensures forall i :: 0 <= i && (r == -1 || i < r) ==> !OccursAt(h, needle, i)
  {
    IndexOfFrom(h, needle, 0)
  }

  /** `string.IndexOf(char, startIndex)`: a start outside [0, Length] throws. */
  function IndexOfChar(h: string, c: char, start: int): (r: Result<int>)
    ensures r.Throw? <==> start < 0 || start > |h|
    ensures r.Throw? ==> r.error == ArgumentOutOfRange
    ensures r.Ok? ==> r.value == -1 || (start <= r.value < |h| && h[r.value] == c)
    ensures r.Ok? ==> forall i :: start <= i < |h| && (r.value == -1 || i < r.value) ==> h[i] != c
    decreases |h| - start
  {
    if start < 0 || start > |h| then Throw(ArgumentOutOfRange)
    else if start == |h| then Ok(-1)
    else if h[start] == c then Ok(start)
    else IndexOfChar(h, c, start + 1)
  }

  /** `string.Substring(start, length)`: throws unless the range lies inside the string. */
  function Substring(h: string, start: int, length: int): (r: Result<string>)
    ensures r.Ok? <==> 0 <= start && 0 <= length && start + length <= |h|
    ensures r.Throw? ==> r.error == ArgumentOutOfRange
    ensures r.Ok? ==> r.value == h[start..start + length]
  {
    if start < 0 || length < 0 || start + length > |h| then Throw(ArgumentOutOfRange)
    else Ok(h[start..start + length])
  }

  // ---------------------------------------------------------------- the serializer

  /** `GetPropertyValue`: the text after the first `name="` up to the next quote, parsed
      as an integer. A missing name makes IndexOf return -1, so the search starts at
      `|name="| - 1`. */
  function GetPropertyValue(h: string, name: string): (r: Result<int>)
    ensures r.Ok? ==> IsInt32(r.value)
  {
    var needle := Needle(name);
    var start := IndexOf(h, needle) + |needle|;
    var end :- IndexOfChar(h, '"', start);
    var text :- Substring(h, start, end - start);
    ParseInt32(text)
  }

  predicate StartsWith(s: string, prefix: string) {
    |prefix| <= |s| && s[..|prefix|] == prefix
  }

  /** `TryDeserialize`: null, empty and text not starting with `<CICP` give no value; the
      range is always full, whatever the text says. The exceptions of GetPropertyValue
      propagate. */
  function TryDeserialize(value: Option<string>): (r: Result<Option<CICPColorData>>)
    ensures value.None? || |value.value| == 0 || !StartsWith(value.value, "<CICP") ==> r == Ok(None)
    ensures value.Some? && |value.value| > 0 && StartsWith(value.value, "<CICP") ==> r != Ok(None)
    ensures r.Ok? && r.value.Some? ==> r.value.value.fullRange && HasInt32Fields(r.value.value)
  {
    if value.None? || |value.value| == 0 || !StartsWith(value.value, "<CICP") then Ok(None)
    else
      var s := value.value;
      var p :- GetPropertyValue(s, ColorPrimariesName);
      var t :- GetPropertyValue(s, TransferCharacteristicsName);
      var m :- GetPropertyValue(s, MatrixCoefficientsName);
      Ok(Some(CICPColorData(p, t, m, true)))
  }

  /** The colour descriptions `TrySerialize` refuses to store. */
  predicate NotSerializable(c: CICPColorData) {
    || c.matrixCoefficients == MatrixIdentity
    || c.colorPrimaries == PrimariesUnspecified
    || c.transferCharacteristics == TransferUnspecified
    || c.matrixCoefficients == MatrixUnspecified
  }

  const Open: string := "<CICP "
  const Gap: string := " "
  const Close: string := "/>"

  /** What GetPropertyValue searches for: the name, an equals sign and an opening quote. */
  function Needle(name: string): string { name + "=\"" }

  /** The element with the three property values filled in, as TrySerialize formats it. */
  function Compose(p: string, t: string, m: string): string {
    var q := "\"";
    Open + (Needle(ColorPrimariesName) + (p + (q + (Gap + (Needle(TransferCharacteristicsName) + (t + (q
      + (Gap + (Needle(MatrixCoefficientsName) + (m + (q + Close)))))))))))
  }

  function Serialized(c: CICPColorData): string {
    Compose(FormatInt(c.colorPrimaries), FormatInt(c.transferCharacteristics), FormatInt(c.matrixCoefficients))
  }

  lemma PrefixStartsWith(a: string, b: string, prefix: string)
    requires StartsWith(a, prefix)
    ensures StartsWith(a + b, prefix)
  {
    assert (a + b)[..|prefix|] == a[..|prefix|];
  }

  /** `TrySerialize`: null for the identity matrix or an unspecified field. */
  function TrySerialize(c: CICPColorData): (r: Option<string>)
    ensures r.None? <==> NotSerializable(c)
    ensures r.Some? ==> StartsWith(r.value, "<CICP") && |r.value| > 0
  {
    if NotSerializable(c) then None
    else
      var s := Serialized(c);
      assert StartsWith(Open, "<CICP");
      PrefixStartsWith(Open, s[|Open|..], "<CICP");
      assert s == Open + s[|Open|..];
      Some(s)
  }

  // ---------------------------------------------------------------- the round trip

  predicate Lacks(s: string, c: char) { forall i :: 0 <= i < |s| ==> s[i] != c }

  lemma FormattedLacks(n: int, c: char)
    requires !IsDigit(c) && c != '-'
    ensures Lacks(FormatInt(n), c)
  {
  }

  /** No position of `pre` starts the first two characters of `name`, even when the
      second would be the first character of `name` itself. */
  predicate NoEarlyStart(pre: string, name: string)
    requires |name| >= 2
  {
    forall i :: 0 <= i < |pre| ==> NoStartAt(pre, name, i)
  }

  /** Position `i` of `pre` does not start the first two characters of `name`. */
  predicate NoStartAt(pre: string, name: string, i: nat)
    requires |name| >= 2 && i < |pre|
  {
    pre[i] != name[0] || (i + 1 < |pre| && pre[i + 1] != name[1])
  }

  lemma LacksFirstIsNoEarlyStart(pre: string, name: string)
    requires |name| >= 2 && Lacks(pre, name[0])
    ensures NoEarlyStart(pre, name)
  {
  }

  /** If no position before `k` starts with the needle's first two characters, the first
      occurrence is the one at `k`. */
  lemma FirstOccurrence(h: string, needle: string, k: nat)
    requires |needle| >= 2 && OccursAt(h, needle, k)
    requires forall i :: 0 <= i < k ==> h[i] != needle[0] || h[i + 1] != needle[1]
    ensures IndexOf(h, needle) == k
  {
    forall i | 0 <= i < k
      ensures !OccursAt(h, needle, i)
    {
      if i + |needle| <= |h| {
        assert h[i..i + |needle|][0] == h[i] && h[i..i + |needle|][1] == h[i + 1];
      }
    }
  }

  /** A property written as `name="text"` is read back as the parse of `text`, provided
      nothing before it looks like the start of `name="`. */
  lemma ReadProperty(h: string, pre: string, name: string, text: string, q: string, post: string)
    requires |name| >= 2 && |q| == 1 && q[0] == '"'
    requires h == pre + (Needle(name) + (text + (q + post)))
    requires NoEarlyStart(pre, name)
    requires Lacks(text, '"')
    ensures GetPropertyValue(h, name) == ParseInt32(text)
  {
    var a := pre + Needle(name);
    NeedleAfterPrefix(h, pre, name, text + (q + post));
    Assoc(pre, Needle(name), text + (q + post));
    QuotedText(h, a, text, q, post);
    PropertyValueAt(h, name, |a|, text);
  }

  /** GetPropertyValue once the three searches are known. */
  lemma PropertyValueAt(h: string, name: string, start: int, text: string)
    requires IndexOf(h, Needle(name)) + |Needle(name)| == start
    requires IndexOfChar(h, '"', start) == Ok(start + |text|)
    requires Substring(h, start, |text|) == Ok(text)
    ensures GetPropertyValue(h, name) == ParseInt32(text)
  {
  }

  lemma NeedleAfterPrefix(h: string, pre: string, name: string, rest: string)
    requires |name| >= 2 && h == pre + (Needle(name) + rest)
    requires NoEarlyStart(pre, name)
    ensures IndexOf(h, Needle(name)) == |pre|
  {
    var needle := Needle(name);
    var k := |pre|;
    assert needle[0] == name[0] && needle[1] == name[1];
    assert h[k..k + |needle|] == needle;
    forall i | 0 <= i < k
      ensures h[i] != needle[0] || h[i + 1] != needle[1]
    {
      assert h[i] == pre[i];
      assert NoStartAt(pre, name, i);
      if i + 1 < k {
        assert h[i + 1] == pre[i + 1];
      }
    }
    FirstOccurrence(h, needle, k);
  }

  /** From just after the opening quote, the next quote closes the text. */
  lemma QuotedText(h: string, a: string, text: string, q: string, post: string)
    requires |q| == 1 && q[0] == '"' && h == a + (text + (q + post)) && Lacks(text, '"')
    ensures IndexOfChar(h, '"', |a|) == Ok(|a| + |text|)
    ensures Substring(h, |a|, |text|) == Ok(text)
  {
    var start := |a|;
    assert h[start + |text|] == '"';
    assert forall i :: start <= i < start + |text| ==> h[i] == text[i - start];
    assert h[start..start + |text|] == text;
  }

  lemma LacksAppend(a: string, b: string, c: char)
    requires Lacks(a, c) && Lacks(b, c)
    ensures Lacks(a + b, c)
  {
  }

  lemma Assoc(a: string, b: string, c: string)
    ensures a + (b + c) == a + b + c
  {
  }

  /** Moves five pieces from the right-nested tail into the prefix. */
  lemma Assoc5(a: string, b: string, c: string, d: string, e: string, f: string)
    ensures a + (b + (c + (d + (e + f)))) == a + b + c + d + e + f
  {
    Assoc(d, e, f);
    Assoc(c, d + e, f);
    Assoc(c, d, e);
    Assoc(b, c + d + e, f);
    Assoc(b, c + d, e);
    Assoc(b, c, d);
    Assoc(a, b + c + d + e, f);
    Assoc(a, b + c + d, e);
    Assoc(a, b + c, d);
    Assoc(a, b, c);
  }

  /** Storing a colour description and reading it back gives it again, with the range
      forced to full. */
  lemma DeserializeSerialized(c: CICPColorData)
    requires HasInt32Fields(c) && !NotSerializable(c)
    ensures TryDeserialize(TrySerialize(c)) == Ok(Some(c.(fullRange := true)))
  {
    var p, t, m := FormatInt(c.colorPrimaries), FormatInt(c.transferCharacteristics), FormatInt(c.matrixCoefficients);
    FormattedLacks(c.colorPrimaries, '"');
    FormattedLacks(c.transferCharacteristics, '"');
    FormattedLacks(c.matrixCoefficients, '"');
    FormattedLacks(c.colorPrimaries, 'T');
    FormattedLacks(c.colorPrimaries, 'M');
    FormattedLacks(c.transferCharacteristics, 'M');
    ComposedProperties(p, t, m);
    ParseFormatted(c.colorPrimaries);
    ParseFormatted(c.transferCharacteristics);
    ParseFormatted(c.matrixCoefficients);
  }

  /** Each property of the composed element reads back as the text put in its place. */
  lemma ComposedProperties(p: string, t: string, m: string)
    requires Lacks(p, '"') && Lacks(t, '"') && Lacks(m, '"')
    requires Lacks(p, 'T') && Lacks(p, 'M') && Lacks(t, 'M')
    ensures GetPropertyValue(Compose(p, t, m), ColorPrimariesName) == ParseInt32(p)
    ensures GetPropertyValue(Compose(p, t, m), TransferCharacteristicsName) == ParseInt32(t)
    ensures GetPropertyValue(Compose(p, t, m), MatrixCoefficientsName) == ParseInt32(m)
  {
    var h := Compose(p, t, m);
    var n1, n2, n3 := Needle(ColorPrimariesName), Needle(TransferCharacteristicsName), Needle(MatrixCoefficientsName);
    var q := "\"";
    SeparatorsLack();

    var r3 := n3 + (m + (q + Close));
    var r2 := n2 + (t + (q + (Gap + r3)));
    ReadProperty(h, Open, ColorPrimariesName, p, q, Gap + r2);

    var pre2 := Open + n1 + p + q + Gap;
    Assoc5(Open, n1, p, q, Gap, r2);
    LacksAppend(Open, n1, 'T');
    LacksAppend(Open + n1, p, 'T');
    LacksAppend(Open + n1 + p, q, 'T');
    LacksAppend(Open + n1 + p + q, Gap, 'T');
    LacksFirstIsNoEarlyStart(pre2, TransferCharacteristicsName);
    ReadProperty(h, pre2, TransferCharacteristicsName, t, q, Gap + r3);

    var pre3 := pre2 + n2 + t + q + Gap;
    Assoc5(pre2, n2, t, q, Gap, r3);
    LacksAppend(Open, n1, 'M');
    LacksAppend(Open + n1, p, 'M');
    LacksAppend(Open + n1 + p, q, 'M');
    LacksAppend(Open + n1 + p + q, Gap, 'M');
    LacksAppend(pre2, n2, 'M');
    LacksAppend(pre2 + n2, t, 'M');
    LacksAppend(pre2 + n2 + t, q, 'M');
    LacksAppend(pre2 + n2 + t + q, Gap, 'M');
    LacksFirstIsNoEarlyStart(pre3, MatrixCoefficientsName);
    ReadProperty(h, pre3, MatrixCoefficientsName, m, q, Close);
  }

  /** The fixed text before each property holds none of the characters that would start
      an earlier match. */
  lemma SeparatorsLack()
    ensures NoEarlyStart(Open, ColorPrimariesName)
    ensures Lacks(Open, 'T') && Lacks(Open, 'M') && Lacks(Gap, 'T') && Lacks(Gap, 'M')
    ensures Lacks("\"", 'T') && Lacks("\"", 'M')
    ensures Lacks(Needle(ColorPrimariesName), 'T') && Lacks(Needle(ColorPrimariesName), 'M')
    ensures Lacks(Needle(TransferCharacteristicsName), 'M')
  {
  }

  /** A missing name does not always raise: IndexOf gives -1, so the value is read from
      `|name="| - 1` onwards, here from the digit after the padding. */
  lemma MissingPropertyReadsFromFixedOffset()
    ensures GetPropertyValue("<CICP          5\"", ColorPrimariesName) == Ok(5)
  {
    var h := "<CICP          5\"";
    var needle := Needle(ColorPrimariesName);
    assert |needle| == 16 && |h| == 17;
    assert h[0] != needle[0] && h[2] != needle[1];
    assert h[0..16][0] == h[0] && h[1..17][1] == h[2];
    assert h[0..16] != needle && h[1..17] != needle;
    assert IndexOf(h, needle) == -1;
    assert IndexOfChar(h, '"', 15) == Ok(16);
    assert h[15..16] == "5";
    assert Substring(h, 15, 1) == Ok("5");
    assert SkipWhite("5", 0) == 0 && SkipDigits("5", 0) == 1 && SkipWhite("5", 1) == 1;
    assert "5"[0..1] == "5" && "5"[..0] == [];
    assert DigitsValue("5") == 5;
    assert ParseInt32("5") == Ok(5);
  }
}

=== FILE: color_context_util.dfy ===
/** ColorContextUtil: the colour context the loader attaches to the document, chosen from
    CICP code points or from an embedded ICC profile. */
module ColorContextUtil {
  import opened Ints
  import opened Errors
  import opened Cicp
  import opened EndianBinaryReader
  import opened HighBitDepthConversion

  /** A colour context made by the imaging factory: a known colour space, or one built
      from the bytes of an ICC profile. */
  datatype ColorContext = KnownContext(space: KnownColorSpace) | ProfileContext(profile: seq<byte>)

  /** TryCreateFromCICP: only the primaries and the transfer curve are looked at. */
  function TryCreateFromCICP(c: CICPColorData): (r: Option<ColorContext>)
    ensures r == Some(KnownContext(ScRgb)) <==>
      c.colorPrimaries == PrimariesBT709 && c.transferCharacteristics == TransferLinear
    ensures r == Some(KnownContext(Srgb)) <==>
      c.colorPrimaries == PrimariesBT709 && c.transferCharacteristics == TransferSrgb
    ensures r == Some(KnownContext(DisplayP3)) <==>
      c.colorPrimaries == PrimariesSmpte432 && c.transferCharacteristics == TransferSrgb
    ensures r.Some? ==> r.value.KnownContext?
  {
    if c.colorPrimaries == PrimariesBT709 then
      if c.transferCharacteristics == TransferLinear then Some(KnownContext(ScRgb))
      else if c.transferCharacteristics == TransferSrgb then Some(KnownContext(Srgb))
      else None
    else if c.colorPrimaries == PrimariesSmpte432 then
      if c.transferCharacteristics == TransferSrgb then Some(KnownContext(DisplayP3)) else None
    else None
  }

  /** Any combination outside the three known ones yields no context. */
  lemma OtherCICPHasNoContext(c: CICPColorData)
    requires !(c.colorPrimaries == PrimariesBT709 && c.transferCharacteristics in {TransferLinear, TransferSrgb})
    requires !(c.colorPrimaries == PrimariesSmpte432 && c.transferCharacteristics == TransferSrgb)
    ensures TryCreateFromCICP(c).None?
  {
  }

  /** The matrix coefficients and the range flag never change the choice. */
  lemma CICPContextIgnoresMatrixAndRange(c: CICPColorData, matrix: int, fullRange: bool)
    ensures TryCreateFromCICP(c) == TryCreateFromCICP(c.(matrixCoefficients := matrix, fullRange := fullRange))
  {
  }

  /** ProfileHeader.SizeOf: the fixed 128-byte header of an ICC profile (ICC.1:2022,
      section 7.2). */
  const ProfileHeaderSize: nat := 128

  /** The data colour space signature 'RGB '. */
  const RgbColorSpace: nat := 0x52474220

  /** The header's data colour space field: a big-endian 32-bit value at byte 16. */
  function ProfileColorSpace(profile: seq<byte>): nat
    requires |profile| >= ProfileHeaderSize
  {
    BigEndian(profile[16..20])
  }

  /** TryCreateFromRgbProfile. `factoryAccepts` is whether the imaging factory builds a
      context from the bytes; a factory exception is swallowed and gives no context. */
  function TryCreateFromRgbProfile(profile: seq<byte>, factoryAccepts: bool): (r: Option<ColorContext>)
    ensures r.Some? <==>
      |profile| > ProfileHeaderSize && profile[16..20] == [0x52, 0x47, 0x42, 0x20] && factoryAccepts
    ensures r.Some? ==> r.value == ProfileContext(profile)
  {
    if |profile| > ProfileHeaderSize && ProfileColorSpace(profile) == RgbColorSpace then
      RgbSignature(profile[16..20]);
      if factoryAccepts then Some(ProfileContext(profile)) else None
    else
      if |profile| > ProfileHeaderSize then RgbSignature(profile[16..20]); None else None
  }

  /** The four signature bytes are 'R', 'G', 'B' and a space exactly when the big-endian
      value is 'RGB '. */
  lemma RgbSignature(bs: seq<byte>)
    requires |bs| == 4
    ensures BigEndian(bs) == RgbColorSpace <==> bs == [0x52, 0x47, 0x42, 0x20]
  {
    BigEndianBytes(bs);
    if BigEndian(bs) == RgbColorSpace {
      var v := BigEndian(bs);
      assert v == (bs[0] as int) * 0x100_0000 + (bs[1] as int) * 0x1_0000 + (bs[2] as int) * 0x100 + (bs[3] as int);
      assert bs[3] == v % 0x100 == 0x20;
      assert bs[2] == (v / 0x100) % 0x100 == 0x42;
      assert bs[1] == (v / 0x1_0000) % 0x100 == 0x47;
      assert bs[0] == v / 0x100_0000 == 0x52;
    }
  }
}

=== FILE: document.dfy ===
/** Documents: the parts of a Paint.NET document the loaders fill in and the savers read.
    Only the metadata the plug-in touches is modelled; the layers are not. */
module Documents {
  import opened Ints
  import opened Errors
  import opened MetadataEntries
  import opened ColorContextUtil

  /** A parsed XMP packet, standing for what XmpPacket.TryParse accepted. */
  datatype XmpPacket = XmpPacket(packet: seq<byte>)

  datatype DocumentMetadata = DocumentMetadata(
    exifItems: seq<ExifPropertyItem>,
    colorContext: Option<ColorContext>,
    xmp: Option<XmpPacket>,
    userValues: map<string, string>)

  datatype Document = Document(width: nat, height: nat, metadata: DocumentMetadata)

  /** `new Document(width, height)`: no metadata yet. */
  function NewDocument(width: nat, height: nat): (d: Document)
    ensures d.width == width && d.height == height
    ensures d.metadata.exifItems == [] && d.metadata.colorContext.None? && d.metadata.xmp.None?
    ensures d.metadata.userValues == map[]
  {
    Document(width, height, DocumentMetadata([], None, None, map[]))
  }

  /** `Metadata.AddExifPropertyItem`, applied to each item in turn: appended in order. */
  function AddExifPropertyItems(d: Document, items: seq<ExifPropertyItem>): (d': Document)
    ensures d'.width == d.width && d'.height == d.height
  {
    d.(metadata := d.metadata.(exifItems := d.metadata.exifItems + items))
  }

  function SetColorContext(d: Document, c: ColorContext): Document
  {
    d.(metadata := d.metadata.(colorContext := Some(c)))
  }

  function SetXmpPacket(d: Document, p: XmpPacket): Document
  {
    d.(metadata := d.metadata.(xmp := Some(p)))
  }

  function SetUserValue(d: Document, name: string, value: string): Document
  {
    d.(metadata := d.metadata.(userValues := d.metadata.userValues[name := value]))
  }

  function GetUserValue(d: Document, name: string): (r: Option<string>)
    ensures r.Some? <==> name in d.metadata.userValues
    ensures r.Some? ==> r.value == d.metadata.userValues[name]
  {
    if name in d.metadata.userValues then Some(d.metadata.userValues[name]) else None
  }
}

=== FILE: endian_reader.dfy ===
/** EndianBinaryReader: a buffered reader of big- or little-endian integers over a
    seekable stream, used by the EXIF parser.

    The reader is a value.  Every operation takes the current state and returns what it
    reads together with the next state, or the exception the source throws.  The
    central invariant `Valid` says that the buffered bytes are exactly the stream bytes
    just before the stream's position, so the logical position `Pos` (stream position
    minus the unread part of the buffer) always names the next byte to be returned. */
module EndianBinaryReader {
  import opened Ints
  import opened Errors

  const MaxBufferSize: nat := 4096

  /** Byte order of the data.  The source throws for any other enum value; such values
      are kept as `UnknownByteOrder`. */
  datatype Endianess = Big | Little | UnknownByteOrder(code: int)

  type ChunkLimit = n: nat | n >= 1 witness 1

  /** A seekable stream over fixed contents.  One `Read` call transfers at most
      `maxChunk` bytes, so short reads are covered; a memory stream is the case
      `maxChunk >= |data|`.  Seeking past the end is allowed and later reads return 0. */
  datatype Stream = Stream(data: seq<byte>, pos: nat, maxChunk: ChunkLimit)

  /** `open` is false once the reader has released its stream (the source's `stream`
      field is then null). */
  datatype Reader = Reader(
    stream: Stream,
    open: bool,
    buffer: seq<byte>,
    readOffset: nat,
    readLength: nat,
    bufferSize: nat,
    endianess: Endianess,
    leaveOpen: bool)

  // ---------------------------------------------------------------- byte orders

  /** Value of bytes read most significant first. */
  function BigEndian(bs: seq<byte>): nat {
    if |bs| == 0 then 0 else BigEndian(bs[..|bs| - 1]) * 0x100 + bs[|bs| - 1]
  }

  /** Value of bytes read least significant first. */
  function LittleEndian(bs: seq<byte>): nat {
    if |bs| == 0 then 0 else bs[0] + 0x100 * LittleEndian(bs[1..])
  }

  function Decode(e: Endianess, bs: seq<byte>): nat
    requires !e.UnknownByteOrder?
  {
    if e.Big? then BigEndian(bs) else LittleEndian(bs)
  }

  lemma {:induction false} BigEndianSplit(a: seq<byte>, b: seq<byte>)
    ensures BigEndian(a + b) == BigEndian(a) * Pow2(8 * |b|) + BigEndian(b)
    decreases |b|
  {
    if |b| == 0 {
      assert a + b == a;
    } else {
      var c := a + b;
      var b' := b[..|b| - 1];
      assert c[..|c| - 1] == a + b';
      assert c[|c| - 1] == b[|b| - 1];
      BigEndianSplit(a, b');
      Pow2Add8(8 * |b'|);
      ShiftAppend(BigEndian(a), Pow2(8 * |b'|), BigEndian(b'), b[|b| - 1]);
    }
  }

  lemma ShiftAppend(x: int, p: int, y: int, last: int)
    ensures (x * p + y) * 0x100 + last == x * (p * 0x100) + (y * 0x100 + last)
  {
  }

  lemma {:induction false} LittleEndianSplit(a: seq<byte>, b: seq<byte>)
    ensures LittleEndian(a + b) == LittleEndian(a) + Pow2(8 * |a|) * LittleEndian(b)
    decreases |a|
  {
    if |a| == 0 {
      assert a + b == b;
    } else {
      var c := a + b;
      assert c[0] == a[0];
      assert c[1..] == a[1..] + b;
      LittleEndianSplit(a[1..], b);
      Pow2Add8(8 * (|a| - 1));
      ShiftPrepend(a[0], LittleEndian(a[1..]), Pow2(8 * (|a| - 1)), LittleEndian(b));
    }
  }

  lemma ShiftPrepend(first: int, x: int, p: int, y: int)
    ensures first + 0x100 * (x + p * y) == (first + 0x100 * x) + (p * 0x100) * y
  {
  }

  lemma Pow2Add8(n: nat)
    ensures Pow2(n + 8) == Pow2(n) * 0x100
  {
    calc {
      Pow2(n + 8);
      2 * Pow2(n + 7);
      4 * Pow2(n + 6);
      8 * Pow2(n + 5);
      16 * Pow2(n + 4);
      32 * Pow2(n + 3);
      64 * Pow2(n + 2);
      128 * Pow2(n + 1);
      256 * Pow2(n);
    }
  }

  lemma BigEndianBytes(bs: seq<byte>)
    ensures |bs| == 2 ==> BigEndian(bs) == (bs[0] as int) * 0x100 + (bs[1] as int)
    ensures |bs| == 4 ==> BigEndian(bs) == (bs[0] as int) * 0x100_0000 + (bs[1] as int) * 0x1_0000 + (bs[2] as int) * 0x100 + (bs[3] as int)
  {
    if |bs| == 2 {
      assert bs[..1][..0] == [];
      assert BigEndian(bs[..1]) == bs[0];
    } else if |bs| == 4 {
      assert bs[..1][..0] == [];
      assert BigEndian(bs[..1]) == bs[0];
      assert bs[..2][..1] == bs[..1];
      assert BigEndian(bs[..2]) == (bs[0] as int) * 0x100 + (bs[1] as int);
      assert bs[..3][..2] == bs[..2];
      assert BigEndian(bs[..3]) == (bs[0] as int) * 0x1_0000 + (bs[1] as int) * 0x100 + (bs[2] as int);
    }
  }

  lemma LittleEndianBytes(bs: seq<byte>)
    ensures |bs| == 2 ==> LittleEndian(bs) == (bs[0] as int) + (bs[1] as int) * 0x100
    ensures |bs| == 4 ==> LittleEndian(bs) == (bs[0] as int) + (bs[1] as int) * 0x100 + (bs[2] as int) * 0x1_0000 + (bs[3] as int) * 0x100_0000
  {
    if |bs| == 2 {
      assert bs[1..][1..] == [];
    } else if |bs| == 4 {
      assert bs[1..][1..][1..][1..] == [];
    }
  }

  // ---------------------------------------------------------------- the stream

  function Available(s: Stream): nat {
    if s.pos < |s.data| then |s.data| - s.pos else 0
  }

  /** Number of bytes one `Stream.Read(buffer, offset, count)` call transfers. */
  function ReadCount(s: Stream, count: nat): (n: nat)
    ensures n <= count && n <= Available(s)
    ensures n == 0 <==> count == 0 || Available(s) == 0
  {
    Min(Min(count, Available(s)), s.maxChunk)
  }

  /** `bytes` copied into `buf` at index `at`. */
  function Splice(buf: seq<byte>, at: nat, bytes: seq<byte>): (r: seq<byte>)
    requires at + |bytes| <= |buf|
    ensures |r| == |buf| && r[..at] == buf[..at] && r[at..at + |bytes|] == bytes
  {
    buf[..at] + bytes + buf[at + |bytes|..]
  }

  // ---------------------------------------------------------------- reader state

  /** The first `len` bytes of `buf` are the stream bytes just before position `end`. */
  predicate Window(data: seq<byte>, buf: seq<byte>, end: nat, len: nat) {
    len <= |buf| && len <= end && (len == 0 || (end <= |data| && buf[..len] == data[end - len..end]))
  }

  predicate Valid(r: Reader) {
    && |r.buffer| == r.bufferSize == Min(|r.stream.data|, MaxBufferSize)
    && r.readOffset <= r.readLength <= r.bufferSize
    && Window(r.stream.data, r.buffer, r.stream.pos, r.readLength)
  }

  /** The logical position: the index of the next byte a read returns. */
  function Pos(r: Reader): int {
    r.stream.pos - r.readLength + r.readOffset
  }

  function Data(r: Reader): seq<byte> { r.stream.data }

  /** What no read or seek changes. */
  predicate SameSettings(r: Reader, r': Reader) {
    && r'.stream.data == r.stream.data
    && r'.stream.maxChunk == r.stream.maxChunk
    && r'.open == r.open
    && r'.bufferSize == r.bufferSize
    && r'.endianess == r.endianess
    && r'.leaveOpen == r.leaveOpen
  }

  /** `r'` is a valid state `k` bytes further on than `r`. */
  predicate Advanced(r: Reader, r': Reader, k: nat) {
    Valid(r') && SameSettings(r, r') && Pos(r') == Pos(r) + k
  }

  lemma BufferedBytes(r: Reader, count: nat)
    requires Valid(r) && 1 <= count && r.readOffset + count <= r.readLength
    ensures 0 <= Pos(r) && Pos(r) + count <= |Data(r)|
    ensures r.buffer[r.readOffset..r.readOffset + count] == Data(r)[Pos(r)..Pos(r) + count]
  {
    SubWindow(r.buffer, Data(r), r.readLength, r.stream.pos - r.readLength, r.readOffset, r.readOffset + count);
  }

  /** A slice of a window is the corresponding slice of the data. */
  lemma SubWindow(buf: seq<byte>, data: seq<byte>, len: nat, start: nat, i: nat, j: nat)
    requires len <= |buf| && start + len <= |data| && buf[..len] == data[start..start + len]
    requires i <= j <= len
    ensures buf[i..j] == data[start + i..start + j]
  {
    forall k | 0 <= k < j - i
      ensures buf[i..j][k] == data[start + i..start + j][k]
    {
      assert buf[i + k] == buf[..len][i + k];
      assert data[start + i + k] == data[start..start + len][i + k];
    }
  }

  // ---------------------------------------------------------------- construction

  /** The constructor: a null stream throws; otherwise the buffer is as large as the
      stream, at most 4096 bytes, and empty. */
  function New(stream: Option<Stream>, byteOrder: Endianess, leaveOpen: bool): (res: Result<Reader>)
    ensures stream.None? <==> res == Throw(ArgumentNull)
    ensures res.Ok? ==> var r := res.value;
      && Valid(r) && r.open && Data(r) == stream.value.data && Pos(r) == stream.value.pos
      && r.bufferSize == Min(|stream.value.data|, MaxBufferSize)
      && r.endianess == byteOrder && r.leaveOpen == leaveOpen
  {
    if stream.None? then Throw(ArgumentNull)
    else
      var size := Min(|stream.value.data|, MaxBufferSize);
      Ok(Reader(stream.value, true, seq(size, _ => 0), 0, 0, size, byteOrder, leaveOpen))
  }

  function Length(r: Reader): (res: Result<nat>)
    ensures r.open <==> res.Ok?
    ensures res.Ok? ==> res.value == |Data(r)|
    ensures res.Throw? ==> res.error == ObjectDisposed
  {
    if !r.open then Throw(ObjectDisposed) else Ok(|r.stream.data|)
  }

  function GetPosition(r: Reader): (res: Result<int>)
    requires Valid(r)
    ensures r.open <==> res.Ok?
    ensures res.Ok? ==> 0 <= res.value == Pos(r)
    ensures res.Throw? ==> res.error == ObjectDisposed
  {
    if !r.open then Throw(ObjectDisposed)
    else Ok(r.stream.pos - r.readLength + r.readOffset)
  }

  /** The `Position` setter.  A negative value throws before the dispose check.  A
      target inside the buffered window, ends included, only moves `readOffset`;
      any other target empties the buffer and seeks the stream. */
  function SetPosition(r: Reader, value: int): (res: Result<Reader>)
    requires Valid(r)
    ensures value < 0 ==> res == Throw(ArgumentOutOfRange)
    ensures value >= 0 && !r.open ==> res == Throw(ObjectDisposed)
    ensures res.Ok? <==> value >= 0 && r.open
    ensures res.Ok? ==> Valid(res.value) && SameSettings(r, res.value) && Pos(res.value) == value
    ensures res.Ok? && r.stream.pos - r.readLength <= value <= r.stream.pos ==>
      res.value.stream == r.stream && res.value.buffer == r.buffer && res.value.readLength == r.readLength
    ensures res.Ok? && !(r.stream.pos - r.readLength <= value <= r.stream.pos) ==>
      res.value.readLength == 0 && res.value.stream.pos == value
  {
    if value < 0 then Throw(ArgumentOutOfRange)
    else if !r.open then Throw(ObjectDisposed)
    else
      var current := Pos(r);
      if value == current then Ok(r)
      else
        var bufferStartOffset := current - r.readOffset;
        var bufferEndOffset := bufferStartOffset + r.readLength;
        if bufferStartOffset <= value <= bufferEndOffset then
          Ok(r.(readOffset := value - bufferStartOffset))
        else
          Ok(r.(readOffset := 0, readLength := 0, stream := r.stream.(pos := value)))
  }

  /** Disposing releases the stream unless the reader was created with `leaveOpen`. */
  function Dispose(r: Reader): (r': Reader)
    ensures Valid(r) ==> Valid(r')
    ensures r.leaveOpen ==> r' == r
    ensures !r.leaveOpen ==> !r'.open && r'.(open := r.open) == r
  {
    if r.open && !r.leaveOpen then r.(open := false) else r
  }

  // ---------------------------------------------------------------- buffering

  /** The do-while loop of `FillBuffer`: read into `buf` at `numBytesRead` until at
      least `minBytes` bytes are buffered; a read of 0 bytes throws.  The fill succeeds
      exactly when the stream holds `minBytes` bytes from the first buffered one on and
      the buffer can hold them; the buffer then holds, from `numBytesRead` on, exactly
      the bytes the stream delivered. */
  function FillLoop(s: Stream, buf: seq<byte>, numBytesRead: nat, numBytesToRead: nat, minBytes: nat)
    : (res: Result<(Stream, seq<byte>, nat)>)
    requires |buf| == numBytesRead + numBytesToRead
    requires numBytesRead < minBytes
    ensures res.Ok? <==> s.pos - numBytesRead + minBytes <= |s.data| && minBytes <= |buf|
    ensures res.Throw? ==> res.error == EndOfStream
    ensures res.Ok? ==>
      var (s', buf', k) := res.value;
      && s'.data == s.data && s'.maxChunk == s.maxChunk
      && s.pos <= s'.pos <= |s.data|
      && minBytes <= k <= |buf| && k == numBytesRead + (s'.pos - s.pos)
      && |buf'| == |buf| && buf'[..numBytesRead] == buf[..numBytesRead] && buf'[numBytesRead..k] == s.data[s.pos..s'.pos]
    decreases numBytesToRead
  {
    var n := ReadCount(s, numBytesToRead);
    if n == 0 then Throw(EndOfStream)
    else
      var bytes := s.data[s.pos..s.pos + n];
      var buf' := Splice(buf, numBytesRead, bytes);
      var s' := s.(pos := s.pos + n);
      if numBytesRead + n < minBytes then
        var v :- FillLoop(s', buf', numBytesRead + n, numBytesToRead - n, minBytes);
        FillStepContents(buf, numBytesRead, bytes, v.1, v.2);
        ConsecutiveSlices(s.data, s.pos, s'.pos, v.0.pos);
        Ok(v)
      else
        Ok((s', buf', numBytesRead + n))
  }

  lemma FillStepContents(buf: seq<byte>, at: nat, bytes: seq<byte>, out: seq<byte>, k: nat)
    requires at + |bytes| <= k <= |out| == |buf|
    requires out[..at + |bytes|] == Splice(buf, at, bytes)[..at + |bytes|]
    ensures out[..at] == buf[..at]
    ensures out[at..k] == bytes + out[at + |bytes|..k]
  {
    var m := at + |bytes|;
    assert out[..at] == out[..m][..at];
    assert out[at..m] == out[..m][at..];
    assert out[at..k] == out[at..m] + out[m..k];
  }

  lemma ConsecutiveSlices(data: seq<byte>, i: nat, j: nat, k: nat)
    requires i <= j <= k <= |data|
    ensures data[i..k] == data[i..j] + data[j..k]
  {
  }

  /** A window of `len` bytes ending at `end`, followed by the stream bytes up to
      `end'`, is a window of `k` bytes ending at `end'`. */
  lemma WindowGrows(data: seq<byte>, buf: seq<byte>, buf': seq<byte>, end: nat, len: nat, end': nat, k: nat)
    requires Window(data, buf, end, len)
    requires end <= end' <= |data| && k == len + (end' - end) && k <= |buf'|
    requires buf'[..len] == buf[..len] && buf'[len..k] == data[end..end']
    ensures Window(data, buf', end', k)
  {
    assert buf'[..k] == buf'[..len] + buf'[len..k];
    if len > 0 {
      assert data[end' - k..end'] == data[end - len..end] + data[end..end'];
    } else {
      assert data[end' - k..end'] == data[end..end'];
    }
  }

  /** `FillBuffer(minBytes)`: moves the unread tail to the front, then fills. */
  function FillBuffer(r: Reader, minBytes: nat): (res: Result<Reader>)
    requires Valid(r) && r.readLength - r.readOffset < minBytes <= MaxBufferSize
    ensures res.Ok? <==> Pos(r) + minBytes <= |Data(r)|
    ensures res.Throw? ==> res.error == EndOfStream
    ensures res.Ok? ==> Advanced(r, res.value, 0) && res.value.readOffset == 0 && minBytes <= res.value.readLength
  {
    var bytesUnread := r.readLength - r.readOffset;
    var buf := if bytesUnread > 0 then Splice(r.buffer, 0, r.buffer[r.readOffset..r.readLength]) else r.buffer;
    UnreadTailWindow(r);
    var v :- FillLoop(r.stream, buf, bytesUnread, r.bufferSize - bytesUnread, minBytes);
    WindowGrows(r.stream.data, buf, v.1, r.stream.pos, bytesUnread, v.0.pos, v.2);
    Ok(r.(stream := v.0, buffer := v.1, readOffset := 0, readLength := v.2))
  }

  lemma UnreadTailWindow(r: Reader)
    requires Valid(r)
    ensures var bytesUnread := r.readLength - r.readOffset;
      Window(r.stream.data,
             if bytesUnread > 0 then Splice(r.buffer, 0, r.buffer[r.readOffset..r.readLength]) else r.buffer,
             r.stream.pos, bytesUnread)
  {
    var bytesUnread := r.readLength - r.readOffset;
    if bytesUnread > 0 {
      var buf := Splice(r.buffer, 0, r.buffer[r.readOffset..r.readLength]);
      SubWindow(r.buffer, Data(r), r.readLength, r.stream.pos - r.readLength, r.readOffset, r.readLength);
      assert buf[..bytesUnread] == r.buffer[r.readOffset..r.readLength];
    }
  }

  /** `EnsureBuffer(count)`: refill only when fewer than `count` bytes are unread. */
  function EnsureBuffer(r: Reader, count: nat): (res: Result<Reader>)
    requires Valid(r) && 1 <= count <= MaxBufferSize
    ensures res.Ok? <==> Pos(r) + count <= |Data(r)|
    ensures res.Throw? ==> res.error == EndOfStream
    ensures res.Ok? ==> Advanced(r, res.value, 0) && res.value.readOffset + count <= res.value.readLength
  {
    if r.readOffset + count > r.readLength then FillBuffer(r, count)
    else
      BufferedBytes(r, count);
      Ok(r)
  }

  /** The `count` buffered bytes at the read offset, after `EnsureBuffer(count)`. */
  function Peek(r: Reader, count: nat): (bs: seq<byte>)
    requires Valid(r) && 1 <= count && r.readOffset + count <= r.readLength
    ensures 0 <= Pos(r) && Pos(r) + count <= |Data(r)| && bs == Data(r)[Pos(r)..Pos(r) + count]
  {
    BufferedBytes(r, count);
    r.buffer[r.readOffset..r.readOffset + count]
  }

  function Skip(r: Reader, count: nat): (r': Reader)
    requires Valid(r) && r.readOffset + count <= r.readLength
    ensures Advanced(r, r', count)
  {
    r.(readOffset := r.readOffset + count)
  }

  // ---------------------------------------------------------------- reads

  /** The steps every fixed-size read shares: the dispose check, `EnsureBuffer(k)`,
      the `k` bytes at the read offset, and the offset moved past them. */
  function Fetch(r: Reader, k: nat): (res: Result<(seq<byte>, Reader)>)
    requires Valid(r) && 1 <= k <= 8
    ensures res.Ok? <==> r.open && Pos(r) + k <= |Data(r)|
    ensures res.Throw? ==> res.error == (if !r.open then ObjectDisposed else EndOfStream)
    ensures res.Ok? ==> res.value.0 == Data(r)[Pos(r)..Pos(r) + k] && Advanced(r, res.value.1, k)
  {
    if !r.open then Throw(ObjectDisposed)
    else
      var r1 :- EnsureBuffer(r, k);
      Ok((Peek(r1, k), Skip(r1, k)))
  }

  function ReadByte(r: Reader): (res: Result<(byte, Reader)>)
    requires Valid(r)
    ensures res.Ok? <==> r.open && Pos(r) < |Data(r)|
    ensures !r.open ==> res == Throw(ObjectDisposed)
    ensures r.open && res.Throw? ==> res.error == EndOfStream
    ensures res.Ok? ==> res.value.0 == Data(r)[Pos(r)] && Advanced(r, res.value.1, 1)
  {
    var v :- Fetch(r, 1);
    Ok((v.0[0], v.1))
  }

  /** Reading a k-byte integer: disposed first, then end of stream, then an unknown
      byte order. */
  predicate ReadFails(r: Reader, k: nat, e: Exception) {
    e == if !r.open then ObjectDisposed
         else if Pos(r) + k > |Data(r)| then EndOfStream
         else InvalidOperation
  }

  predicate CanRead(r: Reader, k: nat) {
    r.open && Pos(r) + k <= |Data(r)| && !r.endianess.UnknownByteOrder?
  }

  /** Big endian `b0 << 8 | b1`, little endian `b0 | b1 << 8`; the shifted bytes
      occupy disjoint bits, so `|` is `+`. */
  function ReadUInt16(r: Reader): (res: Result<(u16, Reader)>)
    requires Valid(r)
    ensures res.Ok? <==> CanRead(r, 2)
    ensures res.Throw? ==> ReadFails(r, 2, res.error)
    ensures res.Ok? ==> res.value.0 == Decode(r.endianess, Data(r)[Pos(r)..Pos(r) + 2]) && Advanced(r, res.value.1, 2)
  {
    var v :- Fetch(r, 2);
    var b := v.0;
    BigEndianBytes(b);
    LittleEndianBytes(b);
    match r.endianess
    case Big => Ok(((b[0] as int) * 0x100 + (b[1] as int), v.1))
    case Little => Ok(((b[0] as int) + (b[1] as int) * 0x100, v.1))
    case UnknownByteOrder(_) => Throw(InvalidOperation)
  }

  function ReadUInt32(r: Reader): (res: Result<(u32, Reader)>)
    requires Valid(r)
    ensures res.Ok? <==> CanRead(r, 4)
    ensures res.Throw? ==> ReadFails(r, 4, res.error)
    ensures res.Ok? ==> res.value.0 == Decode(r.endianess, Data(r)[Pos(r)..Pos(r) + 4]) && Advanced(r, res.value.1, 4)
  {
    var v :- Fetch(r, 4);
    var b := v.0;
    BigEndianBytes(b);
    LittleEndianBytes(b);
    match r.endianess
    case Big => Ok(((b[0] as int) * 0x100_0000 + (b[1] as int) * 0x1_0000 + (b[2] as int) * 0x100 + (b[3] as int), v.1))
    case Little => Ok(((b[0] as int) + (b[1] as int) * 0x100 + (b[2] as int) * 0x1_0000 + (b[3] as int) * 0x100_0000, v.1))
    case UnknownByteOrder(_) => Throw(InvalidOperation)
  }

  /** Two 32-bit halves in the stream's byte order, combined as `hi << 32 | lo`. */
  function ReadUInt64(r: Reader): (res: Result<(u64, Reader)>)
    requires Valid(r)
    ensures res.Ok? <==> CanRead(r, 8)
    ensures res.Throw? ==> ReadFails(r, 8, res.error)
    ensures res.Ok? ==> res.value.0 == Decode(r.endianess, Data(r)[Pos(r)..Pos(r) + 8]) && Advanced(r, res.value.1, 8)
  {
    var v :- Fetch(r, 8);
    var b := v.0;
    match r.endianess
    case Big =>
      var hi := (b[0] as int) * 0x100_0000 + (b[1] as int) * 0x1_0000 + (b[2] as int) * 0x100 + (b[3] as int);
      var lo := (b[4] as int) * 0x100_0000 + (b[5] as int) * 0x1_0000 + (b[6] as int) * 0x100 + (b[7] as int);
      BigHalves(b);
      Ok((hi * 0x1_0000_0000 + lo, v.1))
    case Little =>
      var lo := (b[0] as int) + (b[1] as int) * 0x100 + (b[2] as int) * 0x1_0000 + (b[3] as int) * 0x100_0000;
      var hi := (b[4] as int) + (b[5] as int) * 0x100 + (b[6] as int) * 0x1_0000 + (b[7] as int) * 0x100_0000;
      LittleHalves(b);
      Ok((hi * 0x1_0000_0000 + lo, v.1))
    case UnknownByteOrder(_) => Throw(InvalidOperation)
  }

  /** An 8-byte value is its high 4 bytes shifted by 32 plus its low 4 bytes. */
  lemma BigHalves(b: seq<byte>)
    requires |b| == 8
    ensures BigEndian(b) == ((b[0] as int) * 0x100_0000 + (b[1] as int) * 0x1_0000 + (b[2] as int) * 0x100 + (b[3] as int)) * 0x1_0000_0000
                            + ((b[4] as int) * 0x100_0000 + (b[5] as int) * 0x1_0000 + (b[6] as int) * 0x100 + (b[7] as int))
  {
    assert b == b[..4] + b[4..];
    BigEndianSplit(b[..4], b[4..]);
    BigEndianBytes(b[..4]);
    BigEndianBytes(b[4..]);
    Pow2Is32();
  }

  lemma LittleHalves(b: seq<byte>)
    requires |b| == 8
    ensures LittleEndian(b) == ((b[4] as int) + (b[5] as int) * 0x100 + (b[6] as int) * 0x1_0000 + (b[7] as int) * 0x100_0000) * 0x1_0000_0000
                               + ((b[0] as int) + (b[1] as int) * 0x100 + (b[2] as int) * 0x1_0000 + (b[3] as int) * 0x100_0000)
  {
    assert b == b[..4] + b[4..];
    LittleEndianSplit(b[..4], b[4..]);
    LittleEndianBytes(b[..4]);
    LittleEndianBytes(b[4..]);
    Pow2Is32();
  }

  lemma Pow2Is32()
    ensures Pow2(32) == 0x1_0000_0000
  {
    Pow2Add8(0); Pow2Add8(8); Pow2Add8(16); Pow2Add8(24);
  }

  /** The signed reads reinterpret the unsigned value's bits. */
  function ReadInt16(r: Reader): (res: Result<(int, Reader)>)
    requires Valid(r)
    ensures res.Ok? <==> ReadUInt16(r).Ok?
    ensures res.Throw? ==> res.error == ReadUInt16(r).error
    ensures res.Ok? ==> var u := ReadUInt16(r).value;
      res.value == (ToInt16(u.0), u.1)
  {
    var v :- ReadUInt16(r);
    Ok((ToInt16(v.0), v.1))
  }

  function ReadInt32(r: Reader): (res: Result<(int, Reader)>)
    requires Valid(r)
    ensures res.Ok? <==> ReadUInt32(r).Ok?
    ensures res.Throw? ==> res.error == ReadUInt32(r).error
    ensures res.Ok? ==> var u := ReadUInt32(r).value;
      res.value == (ToInt32(u.0), u.1)
  {
    var v :- ReadUInt32(r);
    Ok((ToInt32(v.0), v.1))
  }

  function ReadInt64(r: Reader): (res: Result<(int, Reader)>)
    requires Valid(r)
    ensures res.Ok? <==> ReadUInt64(r).Ok?
    ensures res.Throw? ==> res.error == ReadUInt64(r).error
    ensures res.Ok? ==> var u := ReadUInt64(r).value;
      res.value == (ToInt64(u.0), u.1)
  {
    var v :- ReadUInt64(r);
    Ok((ToInt64(v.0), v.1))
  }

  /** The do-while loop of `ReadBytes`: read straight from the stream until
      `numBytesToRead` more bytes have arrived; a read of 0 bytes throws. */
  function ReadLoop(s: Stream, acc: seq<byte>, numBytesToRead: nat): (res: Result<(Stream, seq<byte>)>)
    requires numBytesToRead > 0
    ensures res.Ok? <==> s.pos + numBytesToRead <= |s.data|
    ensures res.Throw? ==> res.error == EndOfStream
    ensures res.Ok? ==>
      && res.value.0 == s.(pos := s.pos + numBytesToRead)
      && res.value.1 == acc + s.data[s.pos..s.pos + numBytesToRead]
    decreases numBytesToRead
  {
    var n := ReadCount(s, numBytesToRead);
    if n == 0 then Throw(EndOfStream)
    else
      var s' := s.(pos := s.pos + n);
      var acc' := acc + s.data[s.pos..s.pos + n];
      if numBytesToRead - n > 0 then
        var v :- ReadLoop(s', acc', numBytesToRead - n);
        assert s.data[s.pos..s.pos + numBytesToRead] == s.data[s.pos..s.pos + n] + s.data[s'.pos..s'.pos + (numBytesToRead - n)];
        Ok(v)
      else
        Ok((s', acc'))
  }

  /** `ReadBytes(count)`: exactly `count` bytes or an exception.  Bytes served past
      the buffer come straight from the stream and the buffer is emptied. */
  function ReadBytes(r: Reader, count: int): (res: Result<(seq<byte>, Reader)>)
    requires Valid(r)
    ensures count < 0 ==> res == Throw(ArgumentOutOfRange)
    ensures count >= 0 && !r.open ==> res == Throw(ObjectDisposed)
    ensures res.Ok? <==> count >= 0 && r.open && (count == 0 || Pos(r) + count <= |Data(r)|)
    ensures res.Throw? && count >= 0 && r.open ==> res.error == EndOfStream
    ensures res.Ok? && count == 0 ==> res.value == ([], r)
    ensures res.Ok? && count > 0 ==>
      res.value.0 == Data(r)[Pos(r)..Pos(r) + count] && Advanced(r, res.value.1, count)
  {
    if count < 0 then Throw(ArgumentOutOfRange)
    else if !r.open then Throw(ObjectDisposed)
    else if count == 0 then Ok(([], r))
    else if r.readOffset + count <= r.readLength then
      Ok((Peek(r, count), Skip(r, count)))
    else
      ReadPastBuffer(r, count)
  }

  /** The part of `ReadBytes` that runs when the buffer holds fewer than `count`
      unread bytes: the unread tail, then the rest straight from the stream. */
  function ReadPastBuffer(r: Reader, count: nat): (res: Result<(seq<byte>, Reader)>)
    requires Valid(r) && r.readOffset + count > r.readLength
    ensures res.Ok? <==> Pos(r) + count <= |Data(r)|
    ensures res.Throw? ==> res.error == EndOfStream
    ensures res.Ok? ==> res.value.0 == Data(r)[Pos(r)..Pos(r) + count] && Advanced(r, res.value.1, count)
  {
    var unread := r.buffer[r.readOffset..r.readLength];
    var v :- ReadLoop(r.stream, unread, count - (r.readLength - r.readOffset));
    UnreadAtPosition(r);
    if r.readOffset < r.readLength then ConsecutiveSlices(Data(r), Pos(r), r.stream.pos, v.0.pos); Ok((v.1, r.(stream := v.0, readOffset := 0, readLength := 0)))
    else Ok((v.1, r.(stream := v.0, readOffset := 0, readLength := 0)))
  }

  lemma UnreadAtPosition(r: Reader)
    requires Valid(r)
    ensures r.readOffset < r.readLength ==> 0 <= Pos(r) <= r.stream.pos <= |Data(r)|
    ensures r.readOffset < r.readLength ==> r.buffer[r.readOffset..r.readLength] == Data(r)[Pos(r)..r.stream.pos]
    ensures r.readOffset == r.readLength ==> Pos(r) == r.stream.pos
  {
    if r.readOffset < r.readLength {
      UnreadIsData(r);
    }
  }

  lemma UnreadIsData(r: Reader)
    requires Valid(r) && r.readOffset < r.readLength
    ensures 0 <= Pos(r) <= r.stream.pos <= |Data(r)|
    ensures r.buffer[r.readOffset..r.readLength] == Data(r)[Pos(r)..r.stream.pos]
  {
    SubWindow(r.buffer, Data(r), r.readLength, r.stream.pos - r.readLength, r.readOffset, r.readLength);
  }

  /** `Read(bytes, offset, count)`: at most `count` bytes, never an end-of-stream
      error.  Past the buffer it makes a single stream read, so fewer bytes may arrive
      (see `ReadIsShortOnlyAtEndOrChunk`). */
  function Read(r: Reader, count: int): (res: Result<(seq<byte>, Reader)>)
    requires Valid(r)
    ensures count < 0 ==> res == Throw(ArgumentOutOfRange)
    ensures count >= 0 && !r.open ==> res == Throw(ObjectDisposed)
    ensures res.Ok? <==> count >= 0 && r.open
    ensures res.Ok? ==> var (bs, r') := res.value;
      && |bs| <= count && Advanced(r, r', |bs|)
      && (|bs| > 0 ==> 0 <= Pos(r) && Pos(r) + |bs| <= |Data(r)| && bs == Data(r)[Pos(r)..Pos(r) + |bs|])
  {
    if count < 0 then Throw(ArgumentOutOfRange)
    else if !r.open then Throw(ObjectDisposed)
    else if count == 0 then Ok(([], r))
    else if r.readOffset + count <= r.readLength then
      Ok((Peek(r, count), Skip(r, count)))
    else
      var bytesUnread := r.readLength - r.readOffset;
      var unread := r.buffer[r.readOffset..r.readLength];
      var n := ReadCount(r.stream, count - bytesUnread);
      UnreadAtPosition(r);
      Ok(StreamReadInto(r, unread, n))
  }

  /** The unread buffer tail followed by `n` bytes read straight from the stream; the
      buffer is emptied. */
  function StreamReadInto(r: Reader, unread: seq<byte>, n: nat): (res: (seq<byte>, Reader))
    requires Valid(r)
    requires r.readOffset < r.readLength ==> 0 <= Pos(r) <= r.stream.pos <= |Data(r)| && unread == Data(r)[Pos(r)..r.stream.pos]
    requires r.readOffset == r.readLength ==> Pos(r) == r.stream.pos
    requires |unread| == r.readLength - r.readOffset
    requires n <= Available(r.stream)
    ensures Advanced(r, res.1, |unread| + n)
    ensures |res.0| == |unread| + n
    ensures |unread| + n > 0 ==> Pos(r) + |unread| + n <= |Data(r)| && res.0 == Data(r)[Pos(r)..Pos(r) + |unread| + n]
  {
    var s := r.stream;
    var bs := unread + if n == 0 then [] else s.data[s.pos..s.pos + n];
    assert unread != [] ==> Data(r)[Pos(r)..s.pos + n] == Data(r)[Pos(r)..s.pos] + s.data[s.pos..s.pos + n];
    (bs, r.(stream := s.(pos := s.pos + n), readOffset := 0, readLength := 0))
  }

  /** `Read` returns fewer bytes than asked only at the end of the stream or when the
      stream hands out a smaller chunk; it returns nothing only at the end. */
  lemma ReadIsShortOnlyAtEndOrChunk(r: Reader, count: int)
    requires Valid(r) && r.open && count > 0
    ensures var bs := Read(r, count).value.0;
      && (Pos(r) < |Data(r)| ==> |bs| > 0)
      && (count <= r.stream.maxChunk && Pos(r) <= |Data(r)| ==> |bs| == Min(count, |Data(r)| - Pos(r)))
  {
    if r.readOffset + count <= r.readLength {
      BufferedBytes(r, count);
    } else {
      UnreadAtPosition(r);
      var bytesUnread := r.readLength - r.readOffset;
      var n := ReadCount(r.stream, count - bytesUnread);
      assert |Read(r, count).value.0| == bytesUnread + n;
    }
  }

  // ---------------------------------------------------------------- properties

  /** Two consecutive 16-bit reads make up the 32-bit read at the same position. */
  lemma {:induction false} TwoShortsMakeAnInt(r: Reader)
    requires Valid(r) && CanRead(r, 4)
    ensures ReadUInt16(r).Ok? && ReadUInt16(ReadUInt16(r).value.1).Ok? && ReadUInt32(r).Ok?
    ensures var a := ReadUInt16(r).value.0;
            var b := ReadUInt16(ReadUInt16(r).value.1).value.0;
            var c := ReadUInt32(r).value.0;
            if r.endianess.Big? then c == a * 0x1_0000 + b else c == a + b * 0x1_0000
  {
    var p := Pos(r);
    var bs := Data(r)[p..p + 4];
    assert Data(r)[p..p + 2] == bs[..2];
    assert Data(r)[p + 2..p + 4] == bs[2..];
    BigEndianBytes(bs);
    BigEndianBytes(bs[..2]);
    BigEndianBytes(bs[2..]);
    LittleEndianBytes(bs);
    LittleEndianBytes(bs[..2]);
    LittleEndianBytes(bs[2..]);
  }

  /** Each signed read returns the two's-complement reading of the bytes at the
      position: in the signed range and congruent to their unsigned value. */
  lemma SignedRead16ReinterpretsBytes(r: Reader)
    requires Valid(r) && CanRead(r, 2)
    ensures ReadInt16(r).Ok?
    ensures var v, u := ReadInt16(r).value.0, Decode(r.endianess, Data(r)[Pos(r)..Pos(r) + 2]);
      -0x8000 <= v < 0x8000 && ModEq(v, u, 0x1_0000)
  {
    var u := ReadUInt16(r).value.0;
    var v := ToInt16(u);
    assert ReadInt16(r).value.0 == v;
    assert ModEq(v, u, 0x1_0000);
  }

  lemma SignedRead32ReinterpretsBytes(r: Reader)
    requires Valid(r) && CanRead(r, 4)
    ensures ReadInt32(r).Ok?
    ensures var v, u := ReadInt32(r).value.0, Decode(r.endianess, Data(r)[Pos(r)..Pos(r) + 4]);
      IsInt32(v) && ModEq(v, u, 0x1_0000_0000)
  {
    var u := ReadUInt32(r).value.0;
    var v := ToInt32(u);
    assert ReadInt32(r).value.0 == v;
    assert ModEq(v, u, 0x1_0000_0000);
  }

  lemma SignedRead64ReinterpretsBytes(r: Reader)
    requires Valid(r) && CanRead(r, 8)
    ensures ReadInt64(r).Ok?
    ensures var v, u := ReadInt64(r).value.0, Decode(r.endianess, Data(r)[Pos(r)..Pos(r) + 8]);
      -0x8000_0000_0000_0000 <= v < 0x8000_0000_0000_0000 && ModEq(v, u, 0x1_0000_0000_0000_0000)
  {
    var u := ReadUInt64(r).value.0;
    var v := ToInt64(u);
    assert ReadInt64(r).value.0 == v;
    assert ModEq(v, u, 0x1_0000_0000_0000_0000);
  }

  /** After seeking to `p`, `ReadBytes(k)` returns the `k` stream bytes at `p`,
      whatever the buffer held before. */
  lemma SeekThenReadBytes(r: Reader, p: int, k: int)
    requires Valid(r) && r.open && 0 <= p && 0 < k && p + k <= |Data(r)|
    ensures SetPosition(r, p).Ok?
    ensures ReadBytes(SetPosition(r, p).value, k).Ok?
    ensures ReadBytes(SetPosition(r, p).value, k).value.0 == Data(r)[p..p + k]
  {
  }

  /** After disposing a reader that does not leave its stream open, every read and
      position access throws ObjectDisposed; a reader that leaves it open is unchanged. */
  lemma DisposedReaderThrows(r: Reader, count: nat, value: nat)
    requires Valid(r)
    ensures r.leaveOpen ==> Dispose(r) == r
    ensures !r.leaveOpen ==>
      var d := Dispose(r);
      && ReadByte(d) == Throw(ObjectDisposed)
      && ReadUInt16(d) == Throw(ObjectDisposed)
      && ReadUInt32(d) == Throw(ObjectDisposed)
      && ReadUInt64(d) == Throw(ObjectDisposed)
      && ReadInt16(d) == Throw(ObjectDisposed)
      && ReadInt32(d) == Throw(ObjectDisposed)
      && ReadInt64(d) == Throw(ObjectDisposed)
      && ReadBytes(d, count) == Throw(ObjectDisposed)
      && Read(d, count) == Throw(ObjectDisposed)
      && GetPosition(d) == Throw(ObjectDisposed)
      && SetPosition(d, value) == Throw(ObjectDisposed)
      && Length(d) == Throw(ObjectDisposed)
  {
  }
}

=== FILE: endian_util.dfy ===
/** EndianUtil: byte-order reversal of 16-, 32- and 64-bit values by masks and shifts. */
module EndianUtil {
  import opened Ints

  /** The low byte of the result is the high byte of the value, and the other way round. */
  function Swap16(value: bv16): (r: bv16)
    ensures r & 0xff == (value >> 8) & 0xff
    ensures (r >> 8) & 0xff == value & 0xff
  {
    ((value & 0xff00) >> 8) | ((value & 0x00ff) << 8)
  }

  /** Byte `k` of the result is byte `3 - k` of the value. */
  function Swap32(value: bv32): (r: bv32)
    ensures (r >> 0) & 0xff == (value >> 24) & 0xff
    ensures (r >> 8) & 0xff == (value >> 16) & 0xff
    ensures (r >> 16) & 0xff == (value >> 8) & 0xff
    ensures (r >> 24) & 0xff == (value >> 0) & 0xff
  {
    ((value & 0xff000000) >> 24)
    | ((value & 0x00ff0000) >> 8)
    | ((value & 0x0000ff00) << 8)
    | ((value & 0x000000ff) << 24)
  }

  /** Byte `k` of the result is byte `7 - k` of the value. */
  function Swap64(value: bv64): (r: bv64)
    ensures (r >> 0) & 0xff == (value >> 56) & 0xff
    ensures (r >> 8) & 0xff == (value >> 48) & 0xff
    ensures (r >> 16) & 0xff == (value >> 40) & 0xff
    ensures (r >> 24) & 0xff == (value >> 32) & 0xff
    ensures (r >> 32) & 0xff == (value >> 24) & 0xff
    ensures (r >> 40) & 0xff == (value >> 16) & 0xff
    ensures (r >> 48) & 0xff == (value >> 8) & 0xff
    ensures (r >> 56) & 0xff == (value >> 0) & 0xff
  {
    ((value & 0xff00000000000000) >> 56)
    | ((value & 0x00ff000000000000) >> 40)
    | ((value & 0x0000ff0000000000) >> 24)
    | ((value & 0x000000ff00000000) >> 8)
    | ((value & 0x00000000ff000000) << 8)
    | ((value & 0x0000000000ff0000) << 24)
    | ((value & 0x000000000000ff00) << 40)
    | ((value & 0x00000000000000ff) << 56)
  }

  /** Swapping twice gives the value back. */
  lemma SwapsAreInvolutions(a: bv16, b: bv32, c: bv64)
    ensures Swap16(Swap16(a)) == a
    ensures Swap32(Swap32(b)) == b
    ensures Swap64(Swap64(c)) == c
  {
  }

  /** Assembling bytes low-first and swapping gives the high-first assembly: the swap
      turns a little-endian reading into a big-endian one. */
  lemma SwapTurnsLittleIntoBigEndian(b0: bv8, b1: bv8, b2: bv8, b3: bv8)
    ensures Swap16((b0 as bv16) | ((b1 as bv16) << 8)) == (b1 as bv16) | ((b0 as bv16) << 8)
    ensures Swap32((b0 as bv32) | ((b1 as bv32) << 8) | ((b2 as bv32) << 16) | ((b3 as bv32) << 24))
            == (b3 as bv32) | ((b2 as bv32) << 8) | ((b1 as bv32) << 16) | ((b0 as bv32) << 24)
  {
  }
}

=== FILE: errors.dfy ===
/** Failure values shared by the whole model.
    The plug-in reports problems by throwing .NET exceptions (managed side) or by
    returning a Status code (native side, see module NativeTypes).  The managed
    exceptions are modelled here as values of `Exception`, and an operation that can
    throw returns a `Result`. */
module Errors {

  /** Why a FormatException was thrown; the message text itself is not modelled. */
  datatype FormatReason =
    | UnsupportedBitDepth(depth: int)
    | MissingPlane
    | UnknownColorSpace
    | ImageTooSmall
    | NotAHeifFile
    | NumberSyntax
    | NativeFailure

  datatype Exception =
    | FormatError(reason: FormatReason)
    | InvalidOperation
    | OutOfMemory
    | IOError
    | OperationCanceled
    | ArgumentNull
    | ArgumentOutOfRange
      /** ArgumentException: arguments that are each in range but do not fit together. */
    | ArgumentError
    | EndOfStream
    | ObjectDisposed
    | Overflow
      /** libheif found no `ftyp` box: the stream is not a HEIF file at all. */
    | NoFtypBox
      /** An exception captured by a stream callback and re-thrown later; `id` tells captured exceptions apart. */
    | Captured(id: nat)

  datatype Option<+T> = None | Some(value: T)

  /** Either a returned value or a thrown exception; usable with `:-`. */
  datatype Result<+T> = Ok(value: T) | Throw(error: Exception) {
    predicate IsFailure() { Throw? }

    function PropagateFailure<U>(): Result<U>
      requires Throw?
    {
      Throw(error)
    }

    function Extract(): T
      requires Ok?
    {
      value
    }
  }
}

=== FILE: exif_block.dfy ===
/** ExifBlocks: locating the TIFF data inside a HEIF EXIF metadata block. Section A.2.1 of
    ISO/IEC 23008-12 prefixes the block with a 4-byte big-endian count of the bytes that
    come between that prefix and the TIFF header. Both loaders follow the same steps, in C#
    `int` arithmetic; they differ only in how the prefix is read (see HeicLoad and
    HeicFile). */
module ExifBlocks {
  import opened Ints
  import opened Errors
  import EndianBinaryReader

  /** The size of the big-endian offset in front of the TIFF header. */
  const PrefixSize: nat := 4

  /** `startIndex`: 4, plus the offset when it is positive, with `+=` wrapping to 32 bits. */
  function TiffStartIndex(offset: int): (r: int)
    requires IsInt32(offset)
    ensures IsInt32(r)
    ensures offset <= 0 ==> r == PrefixSize
    ensures 0 < offset <= INT32_MAX - PrefixSize ==> r == PrefixSize + offset
    ensures offset > INT32_MAX - PrefixSize ==> r == PrefixSize + offset - 0x1_0000_0000 && r < 0
  {
    if offset > INT32_MAX - PrefixSize then
      WrapHigh(PrefixSize + offset);
      WrapInt32(PrefixSize + offset)
    else if offset > 0 then WrapInt32(PrefixSize + offset)
    else PrefixSize
  }

  /** `new MemoryStream(buffer, index, count)`: the window `count` bytes long at `index`, or
      the exception the constructor throws for arguments that do not describe one. */
  function MemoryStreamOver(buffer: seq<byte>, index: int, count: int): (r: Result<seq<byte>>)
    ensures r.Ok? <==> 0 <= index && 0 <= count && index + count <= |buffer|
    ensures r.Ok? ==> |r.value| == count && r.value == buffer[index..index + count]
    ensures r.Throw? ==> r.error == (if index < 0 || count < 0 then ArgumentOutOfRange else ArgumentError)
  {
    if index < 0 || count < 0 then Throw(ArgumentOutOfRange)
    else if |buffer| - index < count then Throw(ArgumentError)
    else Ok(buffer[index..index + count])
  }

  /** The offset the block declares: its first four bytes as a big-endian `int`. */
  function DeclaredOffset(exif: seq<byte>): (r: int)
    requires |exif| >= PrefixSize
    ensures IsInt32(r) && ModEq(r, EndianBinaryReader.BigEndian(exif[..4]), 0x1_0000_0000)
  {
    EndianBinaryReader.BigEndianBytes(exif[..4]);
    ToInt32(EndianBinaryReader.BigEndian(exif[..4]))
  }

  /** Where the TIFF header starts, in unbounded arithmetic. */
  function IntendedStart(offset: int): nat {
    if offset > 0 then PrefixSize + offset else PrefixSize
  }

  /** The TIFF data the steps of `TryParseExifData` hand to the parser, `None` when the
      length they compute is not positive. A .NET array is never longer than `int.MaxValue`. */
  function TiffData(exif: seq<byte>, offset: int): (r: Result<Option<seq<byte>>>)
    requires PrefixSize <= |exif| <= INT32_MAX && IsInt32(offset)
  {
    var startIndex := TiffStartIndex(offset);
    var dataLength := WrapInt32(|exif| - startIndex);
    if dataLength > 0 then
      var window :- MemoryStreamOver(exif, startIndex, dataLength);
      Ok(Some(window))
    else Ok(None)
  }

  /** The 32-bit arithmetic never goes wrong: whatever the offset, the steps never throw and
      select exactly the bytes after the declared offset, or nothing when the offset points
      at or past the end. A huge offset makes `startIndex` wrap negative, and then the
      length wraps to a value that is not positive. The offset is read from the block, so the
      block holds at least the prefix. */
  lemma TiffDataIsTheTail(exif: seq<byte>, offset: int)
    requires PrefixSize <= |exif| <= INT32_MAX && IsInt32(offset)
    ensures IntendedStart(offset) < |exif| ==> TiffData(exif, offset) == Ok(Some(exif[IntendedStart(offset)..]))
    ensures IntendedStart(offset) >= |exif| ==> TiffData(exif, offset) == Ok(None)
  {
    var startIndex := TiffStartIndex(offset);
    if offset > INT32_MAX - PrefixSize {
      assert startIndex == PrefixSize + offset - 0x1_0000_0000;
      var d := |exif| - startIndex;
      assert 0x8000_0000 <= d < 0x1_0000_0000;
      assert WrapInt32(d) == d - 0x1_0000_0000 by { WrapHigh(d); }
    } else {
      assert startIndex == IntendedStart(offset);
      assert WrapInt32(|exif| - startIndex) == |exif| - startIndex;
      if startIndex < |exif| {
        assert exif[startIndex..startIndex + (|exif| - startIndex)] == exif[startIndex..];
      }
    }
  }

  lemma WrapHigh(d: int)
    requires 0x8000_0000 <= d < 0x1_0000_0000
    ensures WrapInt32(d) == d - 0x1_0000_0000
  {
    LemmaModUnique(d + 0x8000_0000, 0x1_0000_0000, 1, d - 0x8000_0000);
  }

  /** Without an offset (zero or negative) the TIFF data follows the prefix directly. */
  lemma NonPositiveOffsetIsIgnored(exif: seq<byte>, offset: int)
    requires PrefixSize <= |exif| <= INT32_MAX && IsInt32(offset) && offset <= 0
    ensures TiffData(exif, offset) == TiffData(exif, 0)
  {
  }

  /** The shared tail of both `TryParseExifData`: once the offset is read, the TIFF data (if
      any) goes to the parser, and the collection it returns (or null) is the result. */
  function ParseTiffData<C>(exif: seq<byte>, offset: Option<int>, parse: seq<byte> -> Option<C>): (r: Result<Option<C>>)
    requires |exif| <= INT32_MAX && (offset.Some? ==> IsInt32(offset.value) && PrefixSize <= |exif|)
    ensures r.Ok?
    ensures offset.None? ==> r == Ok(None)
    ensures offset.Some? && IntendedStart(offset.value) < |exif| ==>
      r == Ok(parse(exif[IntendedStart(offset.value)..]))
    ensures offset.Some? && IntendedStart(offset.value) >= |exif| ==> r == Ok(None)
  {
    match offset
    case None => Ok(None)
    case Some(o) =>
      TiffDataIsTheTail(exif, o);
      match TiffData(exif, o)
      case Ok(None) => Ok(None)
      case Ok(Some(bytes)) => Ok(parse(bytes))
      case Throw(e) => Throw(e)
  }
}

=== FILE: format_detection.dfy ===
/** FormatDetection: recognising the common image formats GDI+ can load, by their file
    signatures, when libheif rejects a stream. */
module FormatDetection {
  import opened Ints

  const Gif87aSignature: seq<byte> := [0x47, 0x49, 0x46, 0x38, 0x37, 0x61]
  const Gif89aSignature: seq<byte> := [0x47, 0x49, 0x46, 0x38, 0x39, 0x61]
  const JpegSignature: seq<byte> := [0xff, 0xd8, 0xff]
  const PngSignature: seq<byte> := [137, 80, 78, 71, 13, 10, 26, 10]
  /** "MM\0*" and "II*\0", the two byte orders of the TIFF header (section 2 of TIFF
      Revision 6.0). */
  const TiffBigEndianSignature: seq<byte> := [0x4d, 0x4d, 0x00, 0x2a]
  const TiffLittleEndianSignature: seq<byte> := [0x49, 0x49, 0x2a, 0x00]

  /** The buffer size: at most this many bytes are examined. */
  const ProbeSize: nat := 8

  /** The bytes the probe sees: `ProperRead` fills the 8-byte buffer unless the stream ends
      first. `remaining` is the stream from its current position on. */
  function ProbeBytes(remaining: seq<byte>): (bs: seq<byte>)
    ensures |bs| == Min(ProbeSize, |remaining|)
    ensures bs == remaining[..|bs|]
  {
    if |remaining| <= ProbeSize then remaining else remaining[..ProbeSize]
  }

  predicate FileSignatureMatches(data: seq<byte>, signature: seq<byte>) {
    |data| >= |signature| && data[..|signature|] == signature
  }

  function IsGifFileSignature(data: seq<byte>): (r: bool)
    ensures r <==> FileSignatureMatches(data, Gif87aSignature) || FileSignatureMatches(data, Gif89aSignature)
  {
    if |data| >= |Gif87aSignature| then
      var bytes := data[..|Gif87aSignature|];
      bytes == Gif87aSignature || bytes == Gif89aSignature
    else false
  }

  function IsTiffFileSignature(data: seq<byte>): (r: bool)
    ensures r <==>
      FileSignatureMatches(data, TiffBigEndianSignature) || FileSignatureMatches(data, TiffLittleEndianSignature)
  {
    if |data| >= |TiffBigEndianSignature| then
      var bytes := data[..|TiffBigEndianSignature|];
      bytes == TiffBigEndianSignature || bytes == TiffLittleEndianSignature
    else false
  }

  /** The signatures the probe recognises. */
  const Signatures: seq<seq<byte>> :=
    [JpegSignature, PngSignature, Gif87aSignature, Gif89aSignature, TiffBigEndianSignature, TiffLittleEndianSignature]

  /** Whether the stream, from its current position, starts with one of the signatures. */
  predicate StartsWithKnownSignature(remaining: seq<byte>) {
    exists i :: 0 <= i < |Signatures| && FileSignatureMatches(remaining, Signatures[i])
  }

  /** The probe's 8 bytes suffice: the verdict is the one the whole stream would give. */
  function IsCommonImageFormat(remaining: seq<byte>): (r: bool)
    ensures r <==> StartsWithKnownSignature(remaining)
  {
    var bytes := ProbeBytes(remaining);
    SignaturesFitTheProbe(remaining);
    var r := FileSignatureMatches(bytes, JpegSignature)
      || FileSignatureMatches(bytes, PngSignature)
      || IsGifFileSignature(bytes)
      || IsTiffFileSignature(bytes);
    assert r <==> exists i :: 0 <= i < 6 && FileSignatureMatches(bytes, Signatures[i]) by {
      if r {
        if FileSignatureMatches(bytes, JpegSignature) { assert Signatures[0] == JpegSignature; }
        else if FileSignatureMatches(bytes, PngSignature) { assert Signatures[1] == PngSignature; }
        else if FileSignatureMatches(bytes, Gif87aSignature) { assert Signatures[2] == Gif87aSignature; }
        else if FileSignatureMatches(bytes, Gif89aSignature) { assert Signatures[3] == Gif89aSignature; }
        else if FileSignatureMatches(bytes, TiffBigEndianSignature) { assert Signatures[4] == TiffBigEndianSignature; }
        else { assert Signatures[5] == TiffLittleEndianSignature; }
      }
    }
    r
  }

  /** Every signature is at most 8 bytes long, so matching against the probe is matching
      against the stream. */
  lemma SignaturesFitTheProbe(remaining: seq<byte>)
    ensures forall i :: 0 <= i < |Signatures| ==>
      (FileSignatureMatches(ProbeBytes(remaining), Signatures[i]) <==> FileSignatureMatches(remaining, Signatures[i]))
  {
    var bs := ProbeBytes(remaining);
    forall i | 0 <= i < |Signatures|
      ensures FileSignatureMatches(bs, Signatures[i]) <==> FileSignatureMatches(remaining, Signatures[i])
    {
      var sig := Signatures[i];
      assert |sig| <= ProbeSize;
      if |remaining| >= |sig| {
        assert bs[..|sig|] == remaining[..|sig|];
      }
    }
  }

  /** Fewer than three bytes match nothing, the shortest signature being JPEG's. */
  lemma ShortStreamsAreNotCommon(remaining: seq<byte>)
    requires |remaining| < 3
    ensures !IsCommonImageFormat(remaining)
  {
  }

  /** The signatures are told apart by their first byte, so the order of the checks does
      not matter and at most one family matches. */
  lemma AtMostOneFamilyMatches(remaining: seq<byte>)
    ensures !(FileSignatureMatches(remaining, JpegSignature) && FileSignatureMatches(remaining, PngSignature))
    ensures !(IsGifFileSignature(remaining) && IsTiffFileSignature(remaining))
    ensures !(FileSignatureMatches(remaining, JpegSignature) && (IsGifFileSignature(remaining) || IsTiffFileSignature(remaining)))
    ensures !(FileSignatureMatches(remaining, PngSignature) && (IsGifFileSignature(remaining) || IsTiffFileSignature(remaining)))
  {
    if |remaining| > 0 {
      assert FileSignatureMatches(remaining, JpegSignature) ==> remaining[0] == 0xff;
      assert FileSignatureMatches(remaining, PngSignature) ==> remaining[0] == 137;
      assert IsGifFileSignature(remaining) ==> remaining[0] == 0x47;
      assert IsTiffFileSignature(remaining) ==> remaining[0] == 0x4d || remaining[0] == 0x49;
    }
  }
}

=== FILE: heic_decoder.dfy ===
/** HeicDecoder (native): decodes the primary image with libheif into 8-bit interleaved RGB
    or RGBA and copies it into the caller's BGRA bitmap.  The libheif decode is a parameter
    giving its result for the request that is made. */
module HeicDecoder {
  import opened Ints
  import opened HeifImages
  import opened NativeTypes
  import Errors

  datatype ColorRgb = ColorRgb(r: byte, g: byte, b: byte)
  datatype ColorRgba = ColorRgba(r: byte, g: byte, b: byte, a: byte)

  /** The interleaved plane of a decoded image. */
  datatype DecodedPlane = RgbPlane(rgb: seq<seq<ColorRgb>>) | RgbaPlane(rgba: seq<seq<ColorRgba>>)

  /** The arguments of `heif_decode_image`. */
  datatype DecodeRequest = DecodeRequest(colorSpace: HeifColorSpace, chroma: HeifChroma, convertHdrTo8Bit: bool)

  /** What `heif_decode_image` returns: its error code and, when that is success, the image. */
  datatype DecodeResult = DecodeResult(error: HeifError, plane: DecodedPlane)

  /** DecodeRGBImage: every pixel's R, G and B, fully opaque. */
  function DecodeRGBImage(src: seq<seq<ColorRgb>>, width: nat, height: nat): (out: Surface)
    requires IsGrid(src, width, height)
    ensures IsGrid(out, width, height)
    ensures forall y, x :: 0 <= y < height && 0 <= x < width ==>
      var s, d := src[y][x], out[y][x]; d.r == s.r && d.g == s.g && d.b == s.b && d.a == 255
  {
    seq(height, y requires 0 <= y < height =>
      seq(width, x requires 0 <= x < width => Bgra(src[y][x].b, src[y][x].g, src[y][x].r, 255)))
  }

  /** DecodeRGBAImage: every pixel's four channels, reordered from RGBA to BGRA. */
  function DecodeRGBAImage(src: seq<seq<ColorRgba>>, width: nat, height: nat): (out: Surface)
    requires IsGrid(src, width, height)
    ensures IsGrid(out, width, height)
    ensures forall y, x :: 0 <= y < height && 0 <= x < width ==>
      var s, d := src[y][x], out[y][x]; d.r == s.r && d.g == s.g && d.b == s.b && d.a == s.a
  {
    seq(height, y requires 0 <= y < height =>
      seq(width, x requires 0 <= x < width => Bgra(src[y][x].b, src[y][x].g, src[y][x].r, src[y][x].a)))
  }

  /** The RGBA pixels a BGRA bitmap holds: the inverse of the RGBA copy. */
  function ToRgba(s: Surface, width: nat, height: nat): (rgba: seq<seq<ColorRgba>>)
    requires IsGrid(s, width, height)
    ensures IsGrid(rgba, width, height)
  {
    seq(height, y requires 0 <= y < height =>
      seq(width, x requires 0 <= x < width => ColorRgba(s[y][x].r, s[y][x].g, s[y][x].b, s[y][x].a)))
  }

  /** The RGBA copy loses nothing: reading its output back as RGBA gives the decoded plane. */
  lemma RgbaCopyIsLossless(src: seq<seq<ColorRgba>>, width: nat, height: nat)
    requires IsGrid(src, width, height)
    ensures ToRgba(DecodeRGBAImage(src, width, height), width, height) == src
  {
    var back := ToRgba(DecodeRGBAImage(src, width, height), width, height);
    forall y | 0 <= y < height
      ensures back[y] == src[y]
    {
    }
  }

  /** An RGB plane seen as RGBA with every alpha at 255. */
  function WithOpaqueAlpha(src: seq<seq<ColorRgb>>, width: nat, height: nat): (rgba: seq<seq<ColorRgba>>)
    requires IsGrid(src, width, height)
    ensures IsGrid(rgba, width, height)
  {
    seq(height, y requires 0 <= y < height =>
      seq(width, x requires 0 <= x < width => ColorRgba(src[y][x].r, src[y][x].g, src[y][x].b, 255)))
  }

  /** The two copies agree: copying RGB gives what copying the same pixels with opaque alpha
      gives. */
  lemma RgbCopyIsOpaqueRgbaCopy(src: seq<seq<ColorRgb>>, width: nat, height: nat)
    requires IsGrid(src, width, height)
    ensures DecodeRGBImage(src, width, height) == DecodeRGBAImage(WithOpaqueAlpha(src, width, height), width, height)
  {
    var a, b := DecodeRGBImage(src, width, height), DecodeRGBAImage(WithOpaqueAlpha(src, width, height), width, height);
    forall y | 0 <= y < height
      ensures a[y] == b[y]
    {
    }
  }

  /** The request Decode makes: RGB colour space, interleaved RGBA exactly when the handle
      has alpha, and high bit depths converted to 8 bits. */
  function RequestFor(hasAlpha: bool): (req: DecodeRequest)
    ensures req.colorSpace == Rgb && req.convertHdrTo8Bit
    ensures req.chroma == (if hasAlpha then InterleavedRgba32 else InterleavedRgb24)
  {
    DecodeRequest(Rgb, if hasAlpha then InterleavedRgba32 else InterleavedRgb24, true)
  }

  /** libheif returns the layout it was asked for, at the size of the output bitmap. */
  predicate DecodedFits(r: DecodeResult, hasAlpha: bool, width: nat, height: nat) {
    r.error.NoHeifError? ==>
      match r.plane
      case RgbPlane(rows) => !hasAlpha && IsGrid(rows, width, height)
      case RgbaPlane(rows) => hasAlpha && IsGrid(rows, width, height)
  }

  /** HeicDecoder::Decode.  `handle` and `output` say whether the pointers are non-null,
      `optionsAllocated` whether the decoding options could be allocated, and `raised` an
      exception escaping the libheif calls.  The output bitmap is written only when the
      status is `Ok`. */
  function Decode(handle: bool, output: bool, width: nat, height: nat, optionsAllocated: bool,
                  hasAlpha: bool, decode: DecodeRequest -> DecodeResult,
                  raised: Errors.Option<CppException>): (r: (Status, Errors.Option<Surface>))
    requires DecodedFits(decode(RequestFor(hasAlpha)), hasAlpha, width, height)
    ensures !handle || !output ==> r.0 == NullParameter
    ensures r.1.Some? <==> r.0 == Ok
    ensures r.0 == Ok <==>
      handle && output && raised.None? && optionsAllocated && decode(RequestFor(hasAlpha)).error.NoHeifError?
    ensures handle && output && raised.Some? ==> r.0 == (if raised.value == BadAlloc then OutOfMemory else DecodeFailed)
    ensures handle && output && raised.None? && !optionsAllocated ==> r.0 == OutOfMemory
    ensures handle && output && raised.None? && optionsAllocated ==>
      r.0 == StatusOfError(decode(RequestFor(hasAlpha)).error, DecodeFailed)
    ensures r.0 == Ok ==> IsGrid(r.1.value, width, height)
    ensures r.0 == Ok && hasAlpha ==>
      r.1.value == DecodeRGBAImage(decode(RequestFor(hasAlpha)).plane.rgba, width, height)
    ensures r.0 == Ok && !hasAlpha ==>
      r.1.value == DecodeRGBImage(decode(RequestFor(hasAlpha)).plane.rgb, width, height)
  {
    if !handle || !output then (NullParameter, Errors.None)
    else if raised.Some? then (if raised.value == BadAlloc then OutOfMemory else DecodeFailed, Errors.None)
    else if !optionsAllocated then (OutOfMemory, Errors.None)
    else
      var result := decode(RequestFor(hasAlpha));
      var status := StatusOfError(result.error, DecodeFailed);
      if status != Ok then (status, Errors.None)
      else
        match result.plane
        case RgbaPlane(rows) => (Ok, Errors.Some(DecodeRGBAImage(rows, width, height)))
        case RgbPlane(rows) => (Ok, Errors.Some(DecodeRGBImage(rows, width, height)))
  }
}

=== FILE: heic_encoder.dfy ===
/** HeicEncoder (native): converts the BGRA bitmap to a libheif image, attaches its colour
    profile, encodes it with the HEVC encoder and adds the EXIF and XMP blocks, reporting
    progress to an optional callback.  Every libheif call, the image conversion (which this
    file calls with a signature of another revision of ChromaSubsampling.cpp) and the
    metadata helpers are parameters giving each call's outcome; the encode is then the run of
    its calls in order, stopping at the first that does not return `Ok`. */
module HeicEncoder {
  import opened Ints
  import opened HeifImages
  import opened NativeTypes
  import Errors
  import Cicp
  import ChromaSubsampling

  // ------------------------------------------------------------------ presets and tunings

  /** GetPresetString: the x265 preset name; `Medium` and unknown values give "medium". */
  function GetPresetString(preset: EncoderPreset): (name: string)
    ensures preset.OtherPreset? ==> name == "medium"
  {
    match preset
    case UltraFast => "ultrafast"
    case SuperFast => "superfast"
    case VeryFast => "veryfast"
    case Faster => "faster"
    case Fast => "fast"
    case Slow => "slow"
    case Slower => "slower"
    case VerySlow => "veryslow"
    case Placebo => "placebo"
    case Medium => "medium"
    case OtherPreset(_) => "medium"
  }

  /** The preset an x265 preset name stands for. */
  function PresetOfName(name: string): (p: Errors.Option<EncoderPreset>)
    ensures p.Some? ==> !p.value.OtherPreset?
  {
    if name == "ultrafast" then Errors.Some(UltraFast)
    else if name == "superfast" then Errors.Some(SuperFast)
    else if name == "veryfast" then Errors.Some(VeryFast)
    else if name == "faster" then Errors.Some(Faster)
    else if name == "fast" then Errors.Some(Fast)
    else if name == "medium" then Errors.Some(Medium)
    else if name == "slow" then Errors.Some(Slow)
    else if name == "slower" then Errors.Some(Slower)
    else if name == "veryslow" then Errors.Some(VerySlow)
    else if name == "placebo" then Errors.Some(Placebo)
    else Errors.None
  }

  /** Every named preset has its own name, from which it can be read back; an unknown value
      is encoded as `Medium`. */
  lemma PresetNamesRoundTrip(preset: EncoderPreset)
    ensures PresetOfName(GetPresetString(preset)) ==
      Errors.Some(if preset.OtherPreset? then Medium else preset)
  {
  }

  lemma PresetNamesAreDistinct(p: EncoderPreset, q: EncoderPreset)
    requires !p.OtherPreset? && !q.OtherPreset? && p != q
    ensures GetPresetString(p) != GetPresetString(q)
  {
    PresetNamesRoundTrip(p);
    PresetNamesRoundTrip(q);
  }

  /** GetTuningString: the x265 tune name; `SSIM` and unknown values give "ssim". */
  function GetTuningString(tuning: EncoderTuning): (name: string)
    ensures tuning.OtherTuning? ==> name == "ssim"
  {
    match tuning
    case PSNR => "psnr"
    case FilmGrain => "grain"
    case FastDecode => "fastdecode"
    case SSIM => "ssim"
    case OtherTuning(_) => "ssim"
  }

  /** The tuning an x265 tune name stands for. */
  function TuningOfName(name: string): (t: Errors.Option<EncoderTuning>)
    ensures t.Some? ==> !t.value.OtherTuning?
  {
    if name == "psnr" then Errors.Some(PSNR)
    else if name == "grain" then Errors.Some(FilmGrain)
    else if name == "fastdecode" then Errors.Some(FastDecode)
    else if name == "ssim" then Errors.Some(SSIM)
    else Errors.None
  }

  lemma TuningNamesRoundTrip(tuning: EncoderTuning)
    ensures TuningOfName(GetTuningString(tuning)) ==
      Errors.Some(if tuning.OtherTuning? then SSIM else tuning)
  {
  }

  lemma TuningNamesAreDistinct(t: EncoderTuning, u: EncoderTuning)
    requires !t.OtherTuning? && !u.OtherTuning? && t != u
    ensures GetTuningString(t) != GetTuningString(u)
  {
    TuningNamesRoundTrip(t);
    TuningNamesRoundTrip(u);
  }

  // ------------------------------------------------------------------ the calls of an encode

  datatype ProgressStep = BeforeImageConversion | BeforeCompression | AfterCompression

  /** One setting of the encoder: the lossy quality, or a named string or integer parameter. */
  datatype EncoderSetting =
    | LossyQuality(quality: int)
    | StringParameter(name: string, text: string)
    | IntegerParameter(name: string, number: int)

  /** The arguments of the image conversion. */
  datatype ConvertRequest = ConvertRequest(
    input: BitmapData, hasTransparency: bool, colorData: Cicp.CICPColorData, yuvFormat: YUVChromaSubsampling)

  /** A conversion either returns a status or lets a C++ exception escape. */
  datatype ConvertOutcome = Returned(status: Status) | Raised(exception: CppException)

  /** The calls an encode can make, in the vocabulary of their outcomes. */
  datatype EncoderCall =
    | Progress(step: ProgressStep)
    | ConvertImage(request: ConvertRequest)
    | AddIccProfile(profile: seq<byte>, size: int)
    | AddNclxProfile(cicp: Cicp.CICPColorData)
    | GetEncoderCall
    | Setting(setting: EncoderSetting)
    | EncodeCall
    | AddExif(exif: Errors.Option<seq<byte>>, exifSize: int)
    | AddXmp(xmp: Errors.Option<seq<byte>>, xmpSize: int)

  /** What the code outside this file does when called: the progress callback's answer, the
      conversion's outcome, the libheif errors and the metadata helpers' statuses. */
  datatype Externals = Externals(
    progress: ProgressStep -> bool,
    convert: ConvertRequest -> ConvertOutcome,
    addIcc: (seq<byte>, int) -> Status,
    addNclx: Cicp.CICPColorData -> Status,
    getEncoder: HeifError,
    setting: EncoderSetting -> HeifError,
    encode: HeifError,
    addExif: (Errors.Option<seq<byte>>, int) -> Status,
    addXmp: (Errors.Option<seq<byte>>, int) -> Status)

  /** The catch clauses of Encode: `std::bad_alloc` is `OutOfMemory`, anything else
      `EncodeFailed`. */
  function ExceptionStatus(e: CppException): (s: Status)
    ensures s != Ok
    ensures s == OutOfMemory <==> e == BadAlloc
    ensures s == EncodeFailed <==> e == OtherCppException
  {
    match e
    case BadAlloc => OutOfMemory
    case OtherCppException => EncodeFailed
  }

  /** The error switch whose allocation case lacks a `break`: control falls into `default`,
      so every error, an allocation failure included, becomes `EncodeFailed`. */
  function FallThroughStatus(e: HeifError): (s: Status)
    ensures s == Ok <==> e.NoHeifError?
    ensures !e.NoHeifError? ==> s == EncodeFailed
  {
    if e.NoHeifError? then Ok else EncodeFailed
  }

  /** Against the switch with the `break` it evidently needs, `StatusOfError` as the other
      wrappers use it, only an allocation failure is reported differently. */
  lemma FallThroughLosesOutOfMemory(e: HeifError)
    ensures e.MemoryAllocationError? ==>
      FallThroughStatus(e) == EncodeFailed && StatusOfError(e, EncodeFailed) == OutOfMemory
    ensures !e.MemoryAllocationError? ==> FallThroughStatus(e) == StatusOfError(e, EncodeFailed)
  {
  }

  /** The status each call returns. */
  function CallStatus(ext: Externals, call: EncoderCall): (s: Status)
    ensures call.Progress? ==> (s == Ok <==> ext.progress(call.step)) && (s != Ok ==> s == UserCanceled)
    ensures call.ConvertImage? && ext.convert(call.request).Raised? ==>
      s == ExceptionStatus(ext.convert(call.request).exception)
  {
    match call
    case Progress(step) => if ext.progress(step) then Ok else UserCanceled
    case ConvertImage(request) =>
      (match ext.convert(request)
       case Returned(status) => status
       case Raised(e) => ExceptionStatus(e))
    case AddIccProfile(profile, size) => ext.addIcc(profile, size)
    case AddNclxProfile(cicp) => ext.addNclx(cicp)
    case GetEncoderCall => StatusOfError(ext.getEncoder, UnknownError)
    case Setting(setting) =>
      (match setting
       case LossyQuality(_) => FallThroughStatus(ext.setting(setting))
       case _ => StatusOfError(ext.setting(setting), EncodeFailed))
    case EncodeCall => FallThroughStatus(ext.encode)
    case AddExif(exif, size) => ext.addExif(exif, size)
    case AddXmp(xmp, size) => ext.addXmp(xmp, size)
  }

  function Outcome(ext: Externals): EncoderCall -> Status {
    call => CallStatus(ext, call)
  }

  /** `RunConcat` for the status alone. */
  lemma RunThen(a: seq<EncoderCall>, rest: seq<EncoderCall>, ext: Externals)
    ensures Run(a + rest, Outcome(ext)).0 ==
      if Run(a, Outcome(ext)).0 == Ok then Run(rest, Outcome(ext)).0 else Run(a, Outcome(ext)).0
  {
    RunConcat(a, rest, Outcome(ext));
  }

  lemma RunOne(c: EncoderCall, ext: Externals)
    ensures Run([c], Outcome(ext)).0 == CallStatus(ext, c)
  {
    RunSingle(c, Outcome(ext));
  }

  // ------------------------------------------------------------------ encoder settings

  /** The settings ConfigureEncoderSettings applies, in order. */
  function SettingCalls(options: EncoderOptions): (calls: seq<EncoderCall>)
    ensures |calls| == 4
    ensures calls[0] == Setting(LossyQuality(options.quality))
    ensures calls[1] == Setting(StringParameter("preset", GetPresetString(options.preset)))
    ensures calls[2] == Setting(StringParameter("tune", GetTuningString(options.tuning)))
    ensures calls[3] == Setting(IntegerParameter("tu-intra-depth", options.tuIntraDepth))
  {
    [Setting(LossyQuality(options.quality)),
     Setting(StringParameter("preset", GetPresetString(options.preset))),
     Setting(StringParameter("tune", GetTuningString(options.tuning))),
     Setting(IntegerParameter("tu-intra-depth", options.tuIntraDepth))]
  }

  /** GetEncoder: a null context is `NullParameter`, an allocation failure `OutOfMemory` and
      any other error `UnknownError`. */
  function GetEncoder(context: bool, ext: Externals): (s: Status)
    ensures !context ==> s == NullParameter
    ensures context ==> s == CallStatus(ext, GetEncoderCall)
    ensures context ==> (s == Ok <==> ext.getEncoder.NoHeifError?)
    ensures context && ext.getEncoder.OtherHeifError? ==> s == UnknownError
  {
    if !context then NullParameter
    else StatusOfError(ext.getEncoder, UnknownError)
  }

  /** ConfigureEncoderSettings: the quality, then the preset, the tune and the intra depth,
      each only after all earlier ones succeeded. */
  function ConfigureEncoderSettings(options: EncoderOptions, ext: Externals): (status: Status)
    ensures status == Run(SettingCalls(options), Outcome(ext)).0
  {
    var calls := SettingCalls(options);
    var status := FallThroughStatus(ext.setting(LossyQuality(options.quality)));
    var status :=
      if status == Ok then
        var status := StatusOfError(ext.setting(StringParameter("preset", GetPresetString(options.preset))), EncodeFailed);
        if status == Ok then
          var status := StatusOfError(ext.setting(StringParameter("tune", GetTuningString(options.tuning))), EncodeFailed);
          if status == Ok then
            StatusOfError(ext.setting(IntegerParameter("tu-intra-depth", options.tuIntraDepth)), EncodeFailed)
          else status
        else status
      else status;
    assert calls == [calls[0]] + ([calls[1]] + ([calls[2]] + [calls[3]]));
    RunThen([calls[0]], [calls[1]] + ([calls[2]] + [calls[3]]), ext);
    RunThen([calls[1]], [calls[2]] + [calls[3]], ext);
    RunThen([calls[2]], [calls[3]], ext);
    RunOne(calls[0], ext);
    RunOne(calls[1], ext);
    RunOne(calls[2], ext);
    RunOne(calls[3], ext);
    status
  }

  /** The missing `break`: an allocation failure setting the quality is reported as
      `EncodeFailed`, while the same failure setting the preset is `OutOfMemory`. */
  lemma QualityAllocationFailureIsEncodeFailed(options: EncoderOptions, ext: Externals)
    ensures ext.setting(LossyQuality(options.quality)) == MemoryAllocationError ==>
      ConfigureEncoderSettings(options, ext) == EncodeFailed
    ensures ext.setting(LossyQuality(options.quality)) == NoHeifError &&
            ext.setting(StringParameter("preset", GetPresetString(options.preset))) == MemoryAllocationError ==>
      ConfigureEncoderSettings(options, ext) == OutOfMemory
  {
  }

  /** The calls of EncodeImage: the encoder, its settings, the encode. */
  function EncodeImageCalls(options: EncoderOptions): (calls: seq<EncoderCall>)
    ensures calls == [GetEncoderCall] + SettingCalls(options) + [EncodeCall]
  {
    [GetEncoderCall] + SettingCalls(options) + [EncodeCall]
  }

  /** EncodeImage: null arguments are `NullParameter`; otherwise the encoder is fetched and
      configured and the image encoded, stopping at the first failure.  The encode's error
      switch lacks a `break` too. */
  function EncodeImage(context: bool, image: bool, options: Errors.Option<EncoderOptions>, ext: Externals): (status: Status)
    ensures !context || !image || options.None? ==> status == NullParameter
    ensures context && image && options.Some? ==>
      status == Run(EncodeImageCalls(options.value), Outcome(ext)).0
    ensures context && image && options.Some? && ext.encode == MemoryAllocationError ==>
      status != OutOfMemory || Run(SettingCalls(options.value), Outcome(ext)).0 == OutOfMemory ||
      ext.getEncoder == MemoryAllocationError
  {
    if !context || !image || options.None? then NullParameter
    else
      var opts := options.value;
      var status := GetEncoder(context, ext);
      var status :=
        if status == Ok then
          var status := ConfigureEncoderSettings(opts, ext);
          if status == Ok then FallThroughStatus(ext.encode) else status
        else status;
      EncodeImageIsRun(opts, ext);
      status
  }

  /** The three steps of EncodeImage, each run only after the one before succeeded. */
  lemma EncodeImageIsRun(opts: EncoderOptions, ext: Externals)
    ensures Run(EncodeImageCalls(opts), Outcome(ext)).0 ==
      var s := CallStatus(ext, GetEncoderCall);
      if s != Ok then s
      else
        var s := Run(SettingCalls(opts), Outcome(ext)).0;
        if s != Ok then s else CallStatus(ext, EncodeCall)
  {
    RunThen([GetEncoderCall], SettingCalls(opts) + [EncodeCall], ext);
    RunThen(SettingCalls(opts), [EncodeCall], ext);
    RunOne(GetEncoderCall, ext);
    RunOne(EncodeCall, ext);
    assert EncodeImageCalls(opts) == [GetEncoderCall] + (SettingCalls(opts) + [EncodeCall]);
  }

  // ------------------------------------------------------------------ colour profile and metadata

  /** The profile call AddColorProfile makes: the ICC profile when there is one of non-zero
      size, the NCLX profile from the CICP data otherwise. */
  function ProfileCall(cicp: Cicp.CICPColorData, iccProfile: Errors.Option<seq<byte>>, iccProfileSize: int): (call: EncoderCall)
    ensures call.AddIccProfile? <==> iccProfile.Some? && iccProfileSize != 0
    ensures call.AddIccProfile? ==> call.profile == iccProfile.value && call.size == iccProfileSize
    ensures call.AddNclxProfile? ==> call.cicp == cicp
  {
    if iccProfile.Some? && iccProfileSize != 0 then AddIccProfile(iccProfile.value, iccProfileSize)
    else AddNclxProfile(cicp)
  }

  /** AddColorProfile: a null image is `NullParameter`, otherwise the status of the profile
      call. */
  function AddColorProfile(image: bool, cicp: Cicp.CICPColorData, iccProfile: Errors.Option<seq<byte>>,
                           iccProfileSize: int, ext: Externals): (status: Status)
    ensures !image ==> status == NullParameter
    ensures image ==> status == CallStatus(ext, ProfileCall(cicp, iccProfile, iccProfileSize))
    ensures image && iccProfile.Some? && iccProfileSize != 0 ==> status == ext.addIcc(iccProfile.value, iccProfileSize)
    ensures image && (iccProfile.None? || iccProfileSize == 0) ==> status == ext.addNclx(cicp)
  {
    if !image then NullParameter
    else if iccProfile.Some? && iccProfileSize != 0 then ext.addIcc(iccProfile.value, iccProfileSize)
    else ext.addNclx(cicp)
  }

  function MetadataCalls(metadata: EncoderMetadata): (calls: seq<EncoderCall>)
    ensures calls == [AddExif(metadata.exif, metadata.exifSize), AddXmp(metadata.xmp, metadata.xmpSize)]
  {
    [AddExif(metadata.exif, metadata.exifSize), AddXmp(metadata.xmp, metadata.xmpSize)]
  }

  /** AddExifAndXmpMetadata: null arguments are `NullParameter`; otherwise the EXIF block is
      added, then the XMP block if that succeeded. */
  function AddExifAndXmpMetadata(context: bool, image: bool, metadata: Errors.Option<EncoderMetadata>, ext: Externals): (status: Status)
    ensures !context || !image || metadata.None? ==> status == NullParameter
    ensures context && image && metadata.Some? ==> status == Run(MetadataCalls(metadata.value), Outcome(ext)).0
  {
    if !context || !image || metadata.None? then NullParameter
    else
      var md := metadata.value;
      var status := ext.addExif(md.exif, md.exifSize);
      var status := if status == Ok then ext.addXmp(md.xmp, md.xmpSize) else status;
      RunThen([AddExif(md.exif, md.exifSize)], [AddXmp(md.xmp, md.xmpSize)], ext);
      RunOne(AddExif(md.exif, md.exifSize), ext);
      RunOne(AddXmp(md.xmp, md.xmpSize), ext);
      assert MetadataCalls(md) == [AddExif(md.exif, md.exifSize)] + [AddXmp(md.xmp, md.xmpSize)];
      status
  }

  // ------------------------------------------------------------------ Encode

  /** A progress checkpoint: a call only when there is a callback. */
  function ProgressCalls(hasCallback: bool, step: ProgressStep): (calls: seq<EncoderCall>)
    ensures calls == if hasCallback then [Progress(step)] else []
  {
    if hasCallback then [Progress(step)] else []
  }

  /** The calls of a full encode, in the order Encode makes them. */
  function EncodeCalls(input: BitmapData, options: EncoderOptions, metadata: EncoderMetadata,
                       colorData: Cicp.CICPColorData, hasCallback: bool): (calls: seq<EncoderCall>)
    requires ValidBitmap(input)
  {
    ProgressCalls(hasCallback, BeforeImageConversion) +
    ([ConvertImage(ConvertRequest(input, ChromaSubsampling.SomeTranslucent(input), colorData, options.yuvFormat))] +
    (ProgressCalls(hasCallback, BeforeCompression) +
    ([ProfileCall(colorData, metadata.iccProfile, metadata.iccProfileSize)] +
    (EncodeImageCalls(options) +
    (MetadataCalls(metadata) +
    ProgressCalls(hasCallback, AfterCompression))))))
  }

  /** HeicEncoder::Encode.  The four pointers are non-null exactly when the `Option`s are
      `Some` (`context` for the context); `hasCallback` says whether a progress callback was
      given. */
  function Encode(context: bool, input: Errors.Option<BitmapData>, options: Errors.Option<EncoderOptions>,
                  metadata: Errors.Option<EncoderMetadata>, colorData: Cicp.CICPColorData,
                  hasCallback: bool, ext: Externals): (status: Status)
    requires input.Some? ==> ValidBitmap(input.value)
    ensures !context || input.None? || options.None? || metadata.None? ==> status == NullParameter
    ensures context && input.Some? && options.Some? && metadata.Some? ==>
      hasCallback && !ext.progress(BeforeImageConversion) ==> status == UserCanceled
    ensures context && input.Some? && options.Some? && metadata.Some? ==>
      var req := ConvertRequest(input.value, ChromaSubsampling.SomeTranslucent(input.value), colorData, options.value.yuvFormat);
      (!hasCallback || ext.progress(BeforeImageConversion)) && ext.convert(req).Raised? ==>
        status == ExceptionStatus(ext.convert(req).exception)
  {
    if !context || input.None? || options.None? || metadata.None? then NullParameter
    else if hasCallback && !ext.progress(BeforeImageConversion) then UserCanceled
    else
      var bd, opts, md := input.value, options.value, metadata.value;
      var hasTransparency := ChromaSubsampling.SomeTranslucent(bd);
      match ext.convert(ConvertRequest(bd, hasTransparency, colorData, opts.yuvFormat))
      case Raised(e) => ExceptionStatus(e)
      case Returned(status) =>
        if status != Ok then status
        else if hasCallback && !ext.progress(BeforeCompression) then UserCanceled
        else
          var status := AddColorProfile(true, colorData, md.iccProfile, md.iccProfileSize, ext);
          if status != Ok then status
          else
            var status := EncodeImage(context, true, options, ext);
            if status != Ok then status
            else
              var status := AddExifAndXmpMetadata(context, true, metadata, ext);
              if hasCallback && status == Ok && !ext.progress(AfterCompression) then UserCanceled
              else status
  }

  /** The part of EncodeIsRunOfCalls after the conversion and the second progress report:
      the profile, the encode and the metadata steps are the run of their calls. */
  lemma AfterConversionIsRun(options: EncoderOptions, metadata: EncoderMetadata, colorData: Cicp.CICPColorData,
                             hasCallback: bool, ext: Externals)
    ensures var profile := ProfileCall(colorData, metadata.iccProfile, metadata.iccProfileSize);
      var calls := [profile] + (EncodeImageCalls(options) + (MetadataCalls(metadata) + ProgressCalls(hasCallback, AfterCompression)));
      var s1 := AddColorProfile(true, colorData, metadata.iccProfile, metadata.iccProfileSize, ext);
      var s2 := EncodeImage(true, true, Errors.Some(options), ext);
      var s3 := AddExifAndXmpMetadata(true, true, Errors.Some(metadata), ext);
      Run(calls, Outcome(ext)).0 ==
        if s1 != Ok then s1
        else if s2 != Ok then s2
        else if hasCallback && s3 == Ok && !ext.progress(AfterCompression) then UserCanceled
        else s3
  {
    var profile := ProfileCall(colorData, metadata.iccProfile, metadata.iccProfileSize);
    var p3 := ProgressCalls(hasCallback, AfterCompression);
    var tail4 := MetadataCalls(metadata) + p3;
    var tail3 := EncodeImageCalls(options) + tail4;
    RunThen(MetadataCalls(metadata), p3, ext);
    RunThen(EncodeImageCalls(options), tail4, ext);
    RunThen([profile], tail3, ext);
    RunOne(profile, ext);
    if hasCallback {
      RunOne(Progress(AfterCompression), ext);
    }
  }

  /** Encode is the run of its calls: with non-null arguments it returns `Ok` exactly when
      every call succeeds, and otherwise the status of the first call that fails, the
      progress callback's refusal and an escaping exception included. */
  lemma EncodeIsRunOfCalls(context: bool, bd: BitmapData, options: EncoderOptions, metadata: EncoderMetadata,
                           colorData: Cicp.CICPColorData, hasCallback: bool, ext: Externals)
    requires ValidBitmap(bd)
    ensures Encode(context, Errors.Some(bd), Errors.Some(options), Errors.Some(metadata), colorData, hasCallback, ext) ==
      if context then Run(EncodeCalls(bd, options, metadata, colorData, hasCallback), Outcome(ext)).0 else NullParameter
  {
    if context {
      var req := ConvertRequest(bd, ChromaSubsampling.SomeTranslucent(bd), colorData, options.yuvFormat);
      var profile := ProfileCall(colorData, metadata.iccProfile, metadata.iccProfileSize);
      var p1, p2, p3 := ProgressCalls(hasCallback, BeforeImageConversion), ProgressCalls(hasCallback, BeforeCompression),
        ProgressCalls(hasCallback, AfterCompression);
      var tail4 := MetadataCalls(metadata) + p3;
      var tail3 := EncodeImageCalls(options) + tail4;
      var tail2 := [profile] + tail3;
      var tail1 := p2 + tail2;
      var tail0 := [ConvertImage(req)] + tail1;
      assert EncodeCalls(bd, options, metadata, colorData, hasCallback) == p1 + tail0;
      AfterConversionIsRun(options, metadata, colorData, hasCallback, ext);
      RunThen(p2, tail2, ext);
      RunThen([ConvertImage(req)], tail1, ext);
      RunThen(p1, tail0, ext);
      RunOne(ConvertImage(req), ext);
      if hasCallback {
        RunOne(Progress(BeforeImageConversion), ext);
        RunOne(Progress(BeforeCompression), ext);
      }
    }
  }
}

=== FILE: heic_file.dfy ===
/** HeicFile: the earlier revision of the plug-in's load and save paths, built on the
    plug-in's own EXIF types (MetadataKey, MetadataEntry).  Its save has no lossless
    identity-matrix path, and its metadata reader accepts an EXIF block of exactly four
    bytes.  The native queries, the EXIF and XMP parsers, the EXIF writer and the native
    save are parameters. */
module HeicFile {
  import opened Ints
  import opened Errors
  import opened HeifImages
  import opened Cicp
  import CICPSerializer
  import opened MetadataKeys
  import opened MetadataEntries
  import opened ExifValueCollections
  import opened Documents
  import opened ExifBlocks
  import opened SaveCommon
  import HeifImageHandles
  import HeicNative
  import HeicLoad
  import N = NativeTypes

  const InterColorProfileKey: MetadataKey := MetadataKey(MetadataSection.Image, 0x8773)
  const OrientationKey: MetadataKey := MetadataKey(MetadataSection.Image, 0x0112)

  /** The TIFF field type Undefined, under which the ICC profile is stored. */
  const UndefinedType: u16 := 7

  // ------------------------------------------------------------------ sections

  /** The section switch of GetExifMetadataFromDocument: Photo is the Exif section and
      GpsInfo the Gps section; a section outside the four throws. */
  function FromExifSection(s: ExifSection): (r: Result<MetadataSection>)
    ensures s.OtherExifSection? <==> r == Throw(InvalidOperation)
    ensures r.Ok? ==> !r.value.OtherSection?
  {
    match s
    case Image => Ok(MetadataSection.Image)
    case Photo => Ok(MetadataSection.Exif)
    case Interop => Ok(MetadataSection.Interop)
    case GpsInfo => Ok(MetadataSection.Gps)
    case OtherExifSection(_) => Throw(InvalidOperation)
  }

  /** The switch is the inverse of the one in CreateExifPropertyItem, in both directions. */
  lemma SectionMappingsAreInverse(s: ExifSection, t: MetadataSection)
    ensures !s.OtherExifSection? ==> ToExifSection(FromExifSection(s).value) == Ok(s)
    ensures !t.OtherSection? ==> FromExifSection(ToExifSection(t).value) == Ok(t)
  {
  }

  // ------------------------------------------------------------------ reading the document's EXIF

  /** The entry GetExifMetadataFromDocument stores for an item of a known section. */
  function EntryOf(item: ExifPropertyItem): (r: Result<(MetadataKey, MetadataEntry)>)
    ensures r.Ok? <==> !item.section.OtherExifSection?
    ensures r.Ok? ==> var (key, entry) := r.value;
      && Ok(key.section) == FromExifSection(item.section) && key.tagId == item.tagId
      && KeyOf(entry) == key && entry.dataType == item.value.valueType && entry.data == item.value.data
  {
    var section :- FromExifSection(item.section);
    var key := MetadataKey(section, item.tagId);
    Ok((key, MetadataEntry(section, item.tagId, item.value.valueType, item.value.data)))
  }

  /** The entries of all items in order; the first item of an unknown section throws. */
  function EntriesOf(items: seq<ExifPropertyItem>): (r: Result<seq<(MetadataKey, MetadataEntry)>>)
    ensures r.Ok? <==> forall i :: 0 <= i < |items| ==> !items[i].section.OtherExifSection?
    ensures r.Throw? ==> r.error == InvalidOperation
    ensures r.Ok? ==> |r.value| == |items| && forall i :: 0 <= i < |items| ==> r.value[i] == EntryOf(items[i]).value
  {
    if |items| == 0 then Ok([])
    else
      var first :- EntryOf(items[0]);
      var rest :- EntriesOf(items[1..]);
      assert forall i :: 1 <= i < |items| ==> items[1..][i - 1] == items[i];
      Ok([first] + rest)
  }

  /** The item at `i` is the first with its key. */
  predicate FirstWithKey(pairs: seq<(MetadataKey, MetadataEntry)>, i: nat)
    requires i < |pairs|
  {
    forall j :: 0 <= j < i ==> pairs[j].0 != pairs[i].0
  }

  /** GetExifMetadataFromDocument: null when the document has no EXIF items, an exception for
      an item of an unknown section, and otherwise every key present holding the entry of
      its first item. */
  function GetExifMetadataFromDocument(doc: Document): (r: Result<Option<map<MetadataKey, MetadataEntry>>>)
    ensures |doc.metadata.exifItems| == 0 ==> r == Ok(None)
    ensures r.Ok? && r.value.Some? ==> |doc.metadata.exifItems| > 0
    ensures r.Throw? <==> EntriesOf(doc.metadata.exifItems).Throw?
    ensures r.Ok? && r.value.Some? ==> var pairs := EntriesOf(doc.metadata.exifItems).value;
      && (forall i :: 0 <= i < |pairs| ==> pairs[i].0 in r.value.value)
      && (forall k :: k in r.value.value ==> exists i :: 0 <= i < |pairs| && pairs[i].0 == k)
      && (forall i :: 0 <= i < |pairs| && FirstWithKey(pairs, i) ==> r.value.value[pairs[i].0] == pairs[i].1)
  {
    var items := doc.metadata.exifItems;
    if |items| == 0 then Ok(None)
    else
      var pairs :- EntriesOf(items);
      var m := FirstWins(pairs);
      assert forall i :: 0 <= i < |pairs| && FirstWithKey(pairs, i) ==> m[pairs[i].0] == pairs[i].1 by {
        forall i | 0 <= i < |pairs| && FirstWithKey(pairs, i) ensures m[pairs[i].0] == pairs[i].1 {
          FirstWinsValue(pairs, i);
        }
      }
      Ok(Some(m))
  }

  datatype SaveExternals = SaveExternals(
    writeExif: (map<MetadataKey, MetadataEntry>, ExifColorSpace) -> seq<byte>,
    xmpBytes: XmpPacket -> seq<byte>,
    native: NativeSave)

  /** CreateEncoderMetadata over the key map. */
  function EncoderMetadataOf(doc: Document, ext: SaveExternals): (r: Result<ManagedEncoderMetadata>)
    ensures r.Throw? <==> GetExifMetadataFromDocument(doc).Throw?
    ensures r.Ok? ==> r.value == CreateEncoderMetadata(GetExifMetadataFromDocument(doc).value, InterColorProfileKey,
                                   GetData, ext.writeExif, doc.metadata.xmp, ext.xmpBytes)
  {
    var exif :- GetExifMetadataFromDocument(doc);
    Ok(CreateEncoderMetadata(exif, InterColorProfileKey, GetData, ext.writeExif, doc.metadata.xmp, ext.xmpBytes))
  }

  // ------------------------------------------------------------------ Save

  /** The request a save that passed its checks hands to the native encoder. */
  function RequestFor(doc: Document, rendered: Surface, quality: int, chromaSubsampling: N.YUVChromaSubsampling,
                      preset: N.EncoderPreset, tuning: N.EncoderTuning, tuIntraDepth: int,
                      metadata: ManagedEncoderMetadata, colorData: CICPColorData): SaveRequest
    requires IsGrid(rendered, doc.width, doc.height)
  {
    var yuv := SelectYuvFormat(AllGrey(rendered, doc.width, doc.height), chromaSubsampling);
    SaveRequest(N.BitmapData(doc.width, doc.height, rendered), N.EncoderOptions(quality, preset, tuning, tuIntraDepth, yuv),
                ToNativeMetadata(metadata), colorData)
  }

  /** Save.  `rendered` is the scratch surface after the document was rendered into it. */
  function Save(doc: Document, rendered: Surface, quality: int, chromaSubsampling: N.YUVChromaSubsampling,
                preset: N.EncoderPreset, tuning: N.EncoderTuning, tuIntraDepth: int, ext: SaveExternals): (r: Result<SaveRequest>)
    requires IsGrid(rendered, doc.width, doc.height)
    ensures CheckEncodeSize(doc.width, doc.height).Some? ==> r == Throw(FormatError(ImageTooSmall))
    ensures CheckEncodeSize(doc.width, doc.height).None? && GetExifMetadataFromDocument(doc).Throw? ==>
      r == Throw(InvalidOperation)
    ensures r.Ok? ==>
      && CheckEncodeSize(doc.width, doc.height).None?
      && r.value.bitmap == N.BitmapData(doc.width, doc.height, rendered)
      && r.value.options == N.EncoderOptions(quality, preset, tuning, tuIntraDepth,
                                             SelectYuvFormat(AllGrey(rendered, doc.width, doc.height), chromaSubsampling))
      && EncoderMetadataOf(doc, ext).Ok?
      && r.value.metadata == ToNativeMetadata(EncoderMetadataOf(doc, ext).value)
      && StoredColorData(doc) == Ok(r.value.colorData)
    ensures r.Ok? <==>
      && CheckEncodeSize(doc.width, doc.height).None?
      && EncoderMetadataOf(doc, ext).Ok?
      && StoredColorData(doc).Ok?
      && ext.native(RequestFor(doc, rendered, quality, chromaSubsampling, preset, tuning, tuIntraDepth,
                               EncoderMetadataOf(doc, ext).value, StoredColorData(doc).value)).0 == N.Ok
    ensures (CheckEncodeSize(doc.width, doc.height).None? && EncoderMetadataOf(doc, ext).Ok? &&
             StoredColorData(doc).Throw?) ==> r == Throw(StoredColorData(doc).error)
    ensures (CheckEncodeSize(doc.width, doc.height).None? && EncoderMetadataOf(doc, ext).Ok? &&
             StoredColorData(doc).Ok? && r.Throw?) ==>
      var outcome := ext.native(RequestFor(doc, rendered, quality, chromaSubsampling, preset, tuning, tuIntraDepth,
                                           EncoderMetadataOf(doc, ext).value, StoredColorData(doc).value));
      Some(r.error) == HeicNative.SaveToFile(outcome.0, outcome.1)
  {
    if CheckEncodeSize(doc.width, doc.height).Some? then Throw(FormatError(ImageTooSmall))
    else
      var grayscale := AllGrey(rendered, doc.width, doc.height);
      var options := N.EncoderOptions(quality, preset, tuning, tuIntraDepth, SelectYuvFormat(grayscale, chromaSubsampling));
      var metadata :- EncoderMetadataOf(doc, ext);
      var colorData :- StoredColorData(doc);
      CallSaveToFile(SaveRequest(N.BitmapData(doc.width, doc.height, rendered), options, ToNativeMetadata(metadata), colorData),
                     ext.native)
  }

  /** This revision never picks the identity matrix itself: at quality 100 it keeps the
      requested subsampling, where HeicSave switches a colour image to the identity matrix. */
  lemma NoLosslessPath(doc: Document, rendered: Surface, chromaSubsampling: N.YUVChromaSubsampling,
                       preset: N.EncoderPreset, tuning: N.EncoderTuning, tuIntraDepth: int, ext: SaveExternals)
    requires IsGrid(rendered, doc.width, doc.height)
    requires !AllGrey(rendered, doc.width, doc.height)
    requires Save(doc, rendered, 100, chromaSubsampling, preset, tuning, tuIntraDepth, ext).Ok?
    ensures Save(doc, rendered, 100, chromaSubsampling, preset, tuning, tuIntraDepth, ext).value.options.yuvFormat ==
      chromaSubsampling
  {
  }

  // ------------------------------------------------------------------ the EXIF block

  /** The local TryReadInt32BigEndian at offset 0: it accepts any block of at least four
      bytes, where the loader in HeicLoad wants more than four. */
  function TryReadInt32BigEndian(bytes: seq<byte>): (r: Option<int>)
    ensures r.Some? <==> |bytes| >= PrefixSize
    ensures r.Some? ==> r.value == DeclaredOffset(bytes)
  {
    if 0 + PrefixSize > |bytes| then None else Some(DeclaredOffset(bytes))
  }

  /** TryParseExifData: null for a null block and for one too short to hold the offset;
      otherwise what the EXIF parser makes of the bytes after the offset, or null when the
      offset leaves none. */
  function TryParseExifData(exifData: Option<seq<byte>>, parse: seq<byte> -> Option<seq<MetadataEntry>>): (r: Option<seq<MetadataEntry>>)
    requires exifData.Some? ==> |exifData.value| <= INT32_MAX
    ensures exifData.None? || |exifData.value| < PrefixSize ==> r.None?
    ensures exifData.Some? && |exifData.value| >= PrefixSize ==>
      var exif := exifData.value;
      var start := IntendedStart(DeclaredOffset(exif));
      r == if start < |exif| then parse(exif[start..]) else None
  {
    match exifData
    case None => None
    case Some(exif) =>
      match ParseTiffData(exif, TryReadInt32BigEndian(exif), parse)
      case Ok(c) => c
      case Throw(_) => None
  }

  /** The two length checks differ on a block of exactly four bytes: this one reads its
      offset and HeicLoad's does not.  Such a block holds no TIFF data, so both readers give
      no collection, and on every other block they agree. */
  lemma ExifLengthChecksDiffer(exif: seq<byte>, parse: seq<byte> -> Option<seq<MetadataEntry>>,
                               loadParse: seq<byte> -> Option<HeicLoad.ExifCollection>)
    requires |exif| <= INT32_MAX
    ensures |exif| == PrefixSize ==>
      && TryReadInt32BigEndian(exif).Some? && HeicLoad.TryReadInt32BigEndian(exif).None?
      && TryParseExifData(Some(exif), parse).None? && HeicLoad.TryParseExifData(Some(exif), loadParse).None?
    ensures |exif| != PrefixSize ==> TryReadInt32BigEndian(exif) == HeicLoad.TryReadInt32BigEndian(exif)
  {
  }

  // ------------------------------------------------------------------ Load's metadata

  /** The native queries of AddMetadataToDocument. */
  datatype NativeQuery =
    | MetadataSizeQuery(metadataType: HeifImageHandles.MetadataType)
    | MetadataQuery(metadataType: HeifImageHandles.MetadataType)
    | IccProfileSizeQuery
    | IccProfileQuery
    | CicpQuery

  /** The primary image as the native library describes it: its info, its metadata blocks
      (empty when absent), its ICC profile and CICP data, and the status of each query. */
  datatype NativeImageHandle = NativeImageHandle(
    info: N.PrimaryImageInfo,
    exif: seq<byte>,
    xmp: seq<byte>,
    iccProfile: seq<byte>,
    cicp: CICPColorData,
    status: NativeQuery -> N.Status)

  function Block(h: NativeImageHandle, t: HeifImageHandles.MetadataType): seq<byte> {
    match t
    case ExifMetadata => h.exif
    case XmpMetadata => h.xmp
  }

  /** TryGetMetadata: the block, read only when its size is positive and fits an `int`; a
      failing native status raises through HandleReadError. */
  function TryGetMetadata(h: NativeImageHandle, t: HeifImageHandles.MetadataType): (r: Result<Option<seq<byte>>>)
    ensures r.Ok? && r.value.Some? ==> r.value.value == Block(h, t) && HeifImageHandles.AllocatableSize(|Block(h, t)|)
    ensures r.Ok? && r.value.None? ==> !HeifImageHandles.AllocatableSize(|Block(h, t)|)
    ensures r.Throw? <==>
      HeicNative.HandleReadError(h.status(MetadataSizeQuery(t))).Some? ||
      (HeifImageHandles.AllocatableSize(|Block(h, t)|) && HeicNative.HandleReadError(h.status(MetadataQuery(t))).Some?)
  {
    var size :- HeicNative.ReadCall(h.status(MetadataSizeQuery(t)), |Block(h, t)|);
    if HeifImageHandles.AllocatableSize(size) then
      var _ :- HeicNative.ReadCall(h.status(MetadataQuery(t)), ());
      Ok(Some(Block(h, t)))
    else Ok(None)
  }

  /** CreateExifPropertyItem for each entry in order; the first entry of an unknown section
      throws. */
  function PropertyItemsOf(entries: seq<MetadataEntry>): (r: Result<seq<ExifPropertyItem>>)
    ensures r.Ok? <==> forall i :: 0 <= i < |entries| ==> !entries[i].section.OtherSection?
    ensures r.Throw? ==> r.error == InvalidOperation
    ensures r.Ok? ==> |r.value| == |entries|
    ensures r.Ok? ==> forall i :: 0 <= i < |entries| ==> r.value[i] == CreateExifPropertyItem(entries[i]).value
  {
    if |entries| == 0 then Ok([])
    else
      var first :- CreateExifPropertyItem(entries[0]);
      var rest :- PropertyItemsOf(entries[1..]);
      assert forall i :: 1 <= i < |entries| ==> entries[1..][i - 1] == entries[i];
      Ok([first] + rest)
  }

  /** The parsed entries the document receives: all but the ICC profile and the
      orientation. */
  function DocumentEntries(entries: seq<MetadataEntry>): (r: seq<MetadataEntry>)
    ensures forall e :: e in r <==> e in entries && !Matches(e, InterColorProfileKey) && !Matches(e, OrientationKey)
  {
    Remove(Remove(entries, InterColorProfileKey), OrientationKey)
  }

  datatype LoadExternals = LoadExternals(
    parseExif: seq<byte> -> Option<seq<MetadataEntry>>,
    parseXmp: seq<byte> -> Option<XmpPacket>)

  /** The EXIF step: the parsed entries minus the two dropped tags, as property items. */
  function ExifItems(h: NativeImageHandle, ext: LoadExternals): (r: Result<seq<ExifPropertyItem>>)
    requires |h.exif| <= INT32_MAX
    ensures !h.info.hasExif ==> r == Ok([])
    ensures r.Ok? ==> forall i :: 0 <= i < |r.value| ==>
      !r.value[i].section.OtherExifSection? &&
      !(r.value[i].section == ExifSection.Image && r.value[i].tagId == InterColorProfileKey.tagId)
  {
    if !h.info.hasExif then Ok([])
    else
      var data :- TryGetMetadata(h, HeifImageHandles.ExifMetadata);
      match TryParseExifData(data, ext.parseExif)
      case None => Ok([])
      case Some(entries) =>
        var kept := DocumentEntries(entries);
        var items :- PropertyItemsOf(kept);
        assert forall i :: 0 <= i < |items| ==> !items[i].section.OtherExifSection? &&
          !(items[i].section == ExifSection.Image && items[i].tagId == InterColorProfileKey.tagId) by {
          forall i | 0 <= i < |items|
            ensures !items[i].section.OtherExifSection? &&
              !(items[i].section == ExifSection.Image && items[i].tagId == InterColorProfileKey.tagId)
          {
            assert kept[i] in kept;
          }
        }
        Ok(items)
  }

  /** The ICC profile item: the profile under the InterColorProfile tag, typed Undefined. */
  function IccProfileItem(profile: seq<byte>): ExifPropertyItem {
    ExifPropertyItem(ExifSection.Image, InterColorProfileKey.tagId, ExifValue(UndefinedType, profile))
  }

  /** The colour step: an ICC profile of a size that fits becomes an EXIF item; CICP data
      that TrySerialize accepts becomes the CICP user value. */
  function AddColorProfile(doc: Document, h: NativeImageHandle): (r: Result<Document>)
    ensures r.Ok? ==> r.value.metadata.xmp == doc.metadata.xmp && r.value.width == doc.width && r.value.height == doc.height
    ensures r.Ok? && h.info.colorProfileType == N.IccProfileType ==>
      r.value.metadata.userValues == doc.metadata.userValues &&
      r.value.metadata.exifItems == doc.metadata.exifItems +
        (if HeifImageHandles.AllocatableSize(|h.iccProfile|) then [IccProfileItem(h.iccProfile)] else [])
    ensures r.Ok? && h.info.colorProfileType == N.CicpProfileType ==>
      r.value.metadata.exifItems == doc.metadata.exifItems &&
      match CICPSerializer.TrySerialize(h.cicp)
      case None => r.value == doc
      case Some(s) => r.value == SetUserValue(doc, CICPMetadataName, s)
    ensures h.info.colorProfileType == N.NoProfile ==> r == Ok(doc)
  {
    if h.info.colorProfileType == N.IccProfileType then
      var size :- HeicNative.ReadCall(h.status(IccProfileSizeQuery), |h.iccProfile|);
      if HeifImageHandles.AllocatableSize(size) then
        var _ :- HeicNative.ReadCall(h.status(IccProfileQuery), ());
        Ok(AddExifPropertyItems(doc, [IccProfileItem(h.iccProfile)]))
      else Ok(doc)
    else if h.info.colorProfileType == N.CicpProfileType then
      var colorData :- HeicNative.ReadCall(h.status(CicpQuery), h.cicp);
      match CICPSerializer.TrySerialize(colorData)
      case None => Ok(doc)
      case Some(s) => Ok(SetUserValue(doc, CICPMetadataName, s))
    else Ok(doc)
  }

  /** AddMetadataToDocument: the EXIF items, then the colour profile, then the XMP packet
      when one parses. */
  function AddMetadataToDocument(doc: Document, h: NativeImageHandle, ext: LoadExternals): (r: Result<Document>)
    requires |h.exif| <= INT32_MAX
    ensures r.Ok? ==> r.value.width == doc.width && r.value.height == doc.height
    ensures r.Ok? ==> ExifItems(h, ext).Ok? && AddColorProfile(AddExifPropertyItems(doc, ExifItems(h, ext).value), h).Ok?
    ensures r.Ok? ==>
      var withProfile := AddColorProfile(AddExifPropertyItems(doc, ExifItems(h, ext).value), h).value;
      r.value.metadata.exifItems == withProfile.metadata.exifItems &&
      r.value.metadata.userValues == withProfile.metadata.userValues
    ensures r.Throw? <==>
      || ExifItems(h, ext).Throw?
      || AddColorProfile(AddExifPropertyItems(doc, ExifItems(h, ext).value), h).Throw?
      || (h.info.hasXmp && TryGetMetadata(h, HeifImageHandles.XmpMetadata).Throw?)
    ensures r.Throw? ==>
      r.error == (if ExifItems(h, ext).Throw? then ExifItems(h, ext).error
                  else if AddColorProfile(AddExifPropertyItems(doc, ExifItems(h, ext).value), h).Throw? then
                    AddColorProfile(AddExifPropertyItems(doc, ExifItems(h, ext).value), h).error
                  else TryGetMetadata(h, HeifImageHandles.XmpMetadata).error)
    ensures r.Ok? ==>
      var xmp := Block(h, HeifImageHandles.XmpMetadata);
      var packet := if h.info.hasXmp && HeifImageHandles.AllocatableSize(|xmp|) then ext.parseXmp(xmp) else None;
      r.value.metadata.xmp == (if packet.Some? then packet else doc.metadata.xmp)
  {
    var items :- ExifItems(h, ext);
    var withExif := AddExifPropertyItems(doc, items);
    var withProfile :- AddColorProfile(withExif, h);
    if !h.info.hasXmp then Ok(withProfile)
    else
      var data :- TryGetMetadata(h, HeifImageHandles.XmpMetadata);
      var packet := if data.Some? then ext.parseXmp(data.value) else None;
      Ok(if packet.Some? then SetXmpPacket(withProfile, packet.value) else withProfile)
  }

  // ------------------------------------------------------------------ load, then save

  /** An ICC profile survives a load and a save: loaded into a new document, it is the ICC
      profile the next save hands to the encoder, whatever EXIF data came with it. */
  lemma IccProfileSurvivesSave(width: nat, height: nat, h: NativeImageHandle, ext: LoadExternals, saveExt: SaveExternals)
    requires |h.exif| <= INT32_MAX
    requires h.info.colorProfileType == N.IccProfileType && HeifImageHandles.AllocatableSize(|h.iccProfile|)
    requires AddMetadataToDocument(NewDocument(width, height), h, ext).Ok?
    ensures var doc := AddMetadataToDocument(NewDocument(width, height), h, ext).value;
      EncoderMetadataOf(doc, saveExt).Ok? && EncoderMetadataOf(doc, saveExt).value.iccProfile == Some(h.iccProfile)
  {
    var doc := AddMetadataToDocument(NewDocument(width, height), h, ext).value;
    var exifItems := ExifItems(h, ext).value;
    assert doc.metadata.exifItems == exifItems + [IccProfileItem(h.iccProfile)];
    IccItemIsTheProfile(doc, exifItems, h.iccProfile, saveExt);
  }

  /** The step of IccProfileSurvivesSave after the load: an ICC item appended to EXIF items
      of known sections, none of them under the InterColorProfile tag, is the profile the
      save finds. */
  lemma IccItemIsTheProfile(doc: Document, exifItems: seq<ExifPropertyItem>, profile: seq<byte>, saveExt: SaveExternals)
    requires forall i :: 0 <= i < |exifItems| ==>
      !exifItems[i].section.OtherExifSection? &&
      !(exifItems[i].section == ExifSection.Image && exifItems[i].tagId == InterColorProfileKey.tagId)
    requires doc.metadata.exifItems == exifItems + [IccProfileItem(profile)]
    ensures EncoderMetadataOf(doc, saveExt).Ok? && EncoderMetadataOf(doc, saveExt).value.iccProfile == Some(profile)
  {
    var all := doc.metadata.exifItems;
    var n := |exifItems|;
    assert forall i :: 0 <= i < |all| ==> !all[i].section.OtherExifSection? by {
      forall i | 0 <= i < |all| ensures !all[i].section.OtherExifSection? {
        if i < n { assert all[i] == exifItems[i]; }
      }
    }
    var pairs := EntriesOf(all).value;
    assert pairs[n].0 == InterColorProfileKey;
    assert FirstWithKey(pairs, n) by {
      forall j | 0 <= j < n ensures pairs[j].0 != pairs[n].0 {
        assert all[j] == exifItems[j];
      }
    }
    assert pairs[n].1.data == profile;
  }

  /** CICP colour data survives a load and a save: stored by the load, it is the colour data
      of the next save, with the range forced to full. */
  lemma CicpSurvivesSave(doc: Document, h: NativeImageHandle, ext: LoadExternals)
    requires |h.exif| <= INT32_MAX
    requires h.info.colorProfileType == N.CicpProfileType
    requires HasInt32Fields(h.cicp) && !CICPSerializer.NotSerializable(h.cicp)
    requires AddMetadataToDocument(doc, h, ext).Ok?
    ensures StoredColorData(AddMetadataToDocument(doc, h, ext).value) == Ok(h.cicp.(fullRange := true))
  {
    var withExif := AddExifPropertyItems(doc, ExifItems(h, ext).value);
    var s := CICPSerializer.TrySerialize(h.cicp).value;
    StoredColorDataRoundTrip(withExif, h.cicp);
    assert GetUserValue(AddMetadataToDocument(doc, h, ext).value, CICPMetadataName) ==
           GetUserValue(SetUserValue(withExif, CICPMetadataName, s), CICPMetadataName);
  }
}

=== FILE: heic_load.dfy ===
/** HeicLoad: opening a HEIF file through the managed decoders. libheif's part (parsing
    the container and decoding the primary image) is given as its outcome, and the EXIF
    and XMP parsers, which the plug-in does not define, are parameters. */
module HeicLoad {
  import opened Ints
  import opened Errors
  import opened Cicp
  import opened MetadataEntries
  import opened HeifImages
  import opened HeifImageHandles
  import opened SurfaceOutput
  import opened HighBitDepthConversion
  import opened ColorContextUtil
  import opened FormatDetection
  import opened ExifBlocks
  import opened Documents
  import RgbImageDecoder
  import MonochromeImageDecoder
  import YCbCrImageDecoder

  /** The EXIF tags the loader drops: InterColorProfile (0x8773) and Orientation (0x0112),
      both in the Image section. */
  const InterColorProfileTag: u16 := 0x8773
  const OrientationTag: u16 := 0x0112

  /** Paint.NET's EXIF collection, keyed by section and tag. */
  type ExifCollection = seq<ExifPropertyItem>

  /** The parsers outside the plug-in: ExifParser.Parse over the TIFF bytes, XmpPacket.TryParse
      over the XMP block, and whether the imaging factory builds a colour context from the
      embedded ICC profile. */
  datatype Externals = Externals(
    parseExif: seq<byte> -> Option<ExifCollection>,
    parseXmp: seq<byte> -> Option<XmpPacket>,
    profileAccepted: bool)

  /** The local TryReadInt32BigEndian: it refuses a block of 4 bytes or fewer, and otherwise
      reads the first four bytes as a big-endian `int`. */
  function TryReadInt32BigEndian(bytes: seq<byte>): (r: Option<int>)
    ensures r.Some? <==> |bytes| > 4
    ensures r.Some? ==> r.value == DeclaredOffset(bytes)
  {
    if |bytes| <= 4 then None else Some(DeclaredOffset(bytes))
  }

  /** TryParseExifData: null for a null block, for a block too short to hold the offset, and
      for an offset that leaves no TIFF data; otherwise what the EXIF parser makes of the
      bytes after the offset. A managed array is never longer than `int.MaxValue`. */
  function TryParseExifData(exifData: Option<seq<byte>>, parse: seq<byte> -> Option<ExifCollection>): (r: Option<ExifCollection>)
    requires exifData.Some? ==> |exifData.value| <= INT32_MAX
    ensures exifData.None? || |exifData.value| <= PrefixSize ==> r.None?
    ensures exifData.Some? && |exifData.value| > PrefixSize ==>
      var exif := exifData.value;
      var start := IntendedStart(DeclaredOffset(exif));
      r == if start < |exif| then parse(exif[start..]) else None
  {
    match exifData
    case None => None
    case Some(exif) =>
      var offset := TryReadInt32BigEndian(exif);
      match ParseTiffData(exif, offset, parse)
      case Ok(c) => c
      case Throw(_) => None
  }

  /** `ExifValueCollection.Remove(path)`: every item at that Image-section tag goes, the
      others stay in their order. */
  function RemoveProperty(items: ExifCollection, tag: u16): (r: ExifCollection)
    ensures forall e :: e in r <==> e in items && !(e.section == ExifSection.Image && e.tagId == tag)
    ensures |r| <= |items|
  {
    if |items| == 0 then []
    else
      var rest := RemoveProperty(items[1..], tag);
      if items[0].section == ExifSection.Image && items[0].tagId == tag then rest else [items[0]] + rest
  }

  /** An item that does not sit at the tag survives, and the removal is a filter, so it
      distributes over a concatenation. */
  lemma {:induction false} RemovePropertySplits(a: ExifCollection, b: ExifCollection, tag: u16)
    ensures RemoveProperty(a + b, tag) == RemoveProperty(a, tag) + RemoveProperty(b, tag)
  {
    if |a| == 0 {
      assert a + b == b;
    } else {
      assert (a + b)[1..] == a[1..] + b;
      RemovePropertySplits(a[1..], b, tag);
    }
  }

  /** The two removals can be made in either order. */
  lemma {:induction false} RemovalsCommute(items: ExifCollection, t1: u16, t2: u16)
    ensures RemoveProperty(RemoveProperty(items, t1), t2) == RemoveProperty(RemoveProperty(items, t2), t1)
  {
    if |items| > 0 {
      RemovalsCommute(items[1..], t1, t2);
      var x := items[0];
      var r1 := RemoveProperty(items[1..], t1);
      var r2 := RemoveProperty(items[1..], t2);
      RemovePropertySplits([x], r1, t2);
      RemovePropertySplits([x], r2, t1);
      assert [x][1..] == [];
    }
  }

  /** The EXIF items the document receives from a parsed collection. */
  function DocumentExif(items: ExifCollection): (r: ExifCollection)
    ensures forall e :: e in r ==> e.section != ExifSection.Image || (e.tagId != InterColorProfileTag && e.tagId != OrientationTag)
    ensures forall e :: e in items && (e.section != ExifSection.Image || (e.tagId != InterColorProfileTag && e.tagId != OrientationTag)) ==> e in r
  {
    RemoveProperty(RemoveProperty(items, InterColorProfileTag), OrientationTag)
  }

  /** The EXIF items the document gets from the handle's EXIF block: none without a block
      or when parsing yields no collection. */
  function ExifItemsOf(exif: Option<seq<byte>>, parse: seq<byte> -> Option<ExifCollection>): (r: ExifCollection)
    requires exif.Some? ==> |exif.value| <= INT32_MAX
    ensures exif.None? || TryParseExifData(exif, parse).None? ==> r == []
    ensures TryParseExifData(exif, parse).Some? ==> r == DocumentExif(TryParseExifData(exif, parse).value)
  {
    match TryParseExifData(exif, parse)
    case None => []
    case Some(items) => DocumentExif(items)
  }

  /** The colour context of AddMetadataToDocument: Display P3 for HDR content, whatever the
      profile says; otherwise the one built from the ICC profile or from the CICP data. A
      failing native query raises: the CICP query through the HDRFormat property, which is
      read first, and the ICC profile's queries. */
  function ColorContextFor(h: ImageHandle, profileAccepted: bool): (r: (Result<Option<ColorContext>>, ImageHandle))
    requires Consistent(h)
    ensures Consistent(r.1) && r.1.native == h.native && r.1.info == h.info && r.1.disposed == h.disposed
    ensures CicpFailure(h).Some? ==> r.0 == Throw(CicpFailure(h).value)
    ensures CicpFailure(h).None? && IsPQ(h) ==> r.0 == Ok(Some(KnownContext(DisplayP3)))
    ensures !IsPQ(h) && h.info.colorProfileType == IccProfile ==>
      r.0 == (match GetIccProfile(h)
              case Throw(e) => Throw(e)
              case Ok(None) => Ok(None)
              case Ok(Some(p)) => Ok(TryCreateFromRgbProfile(p, profileAccepted)))
    ensures CicpFailure(h).None? && !IsPQ(h) && h.info.colorProfileType == CicpProfile ==>
      r.0 == Ok(TryCreateFromCICP(h.native.cicp))
    ensures h.info.colorProfileType == NoColorProfile ==> r.0 == Ok(None)
  {
    PropertiesAreStable(h);
    var (hdr, h1) := GetHDRFormat(h);
    match hdr
    case Throw(e) => (Throw(e), h1)
    case Ok(f) =>
      if f != NoHdr then (Ok(Some(KnownContext(DisplayP3))), h1)
      else if h1.info.colorProfileType == IccProfile then
        match GetIccProfile(h1)
        case Throw(e) => (Throw(e), h1)
        case Ok(None) => (Ok(None), h1)
        case Ok(Some(p)) => (Ok(TryCreateFromRgbProfile(p, profileAccepted)), h1)
      else if h1.info.colorProfileType == CicpProfile then
        PropertiesAreStable(h1);
        var (c, h2) := GetCICPColorData(h1);
        match c
        case Throw(e) => (Throw(e), h2)
        case Ok(d) => (Ok(TryCreateFromCICP(d)), h2)
      else (Ok(None), h1)
  }

  /** The HDR branch is not redundant: the CICP data of an HDR image (BT.2020 primaries with
      the PQ curve) would give no colour context on its own. */
  lemma HdrCicpHasNoContextOfItsOwn(h: ImageHandle)
    requires Consistent(h) && IsPQ(h)
    ensures TryCreateFromCICP(h.native.cicp).None?
    ensures CicpFailure(h).None? ==>
      ColorContextFor(h, false).0 == ColorContextFor(h, true).0 == Ok(Some(KnownContext(DisplayP3)))
  {
  }

  /** AddMetadataToDocument: the EXIF items minus the two dropped tags, the colour context,
      and the XMP packet when one parses. The first failing native query, in the order
      EXIF, colour, XMP, raises. */
  function AddMetadataToDocument(doc: Document, h: ImageHandle, ext: Externals): (r: Result<(Document, ImageHandle)>)
    requires Consistent(h)
    ensures r.Throw? <==>
      GetExif(h).Throw? || ColorContextFor(h, ext.profileAccepted).0.Throw? || GetXmp(h).Throw?
    ensures r.Throw? ==>
      r.error == (if GetExif(h).Throw? then GetExif(h).error
                  else if ColorContextFor(h, ext.profileAccepted).0.Throw? then ColorContextFor(h, ext.profileAccepted).0.error
                  else GetXmp(h).error)
    ensures r.Ok? ==> var h' := r.value.1;
      Consistent(h') && h'.native == h.native && h'.info == h.info && h'.disposed == h.disposed
    ensures r.Ok? ==> var m := r.value.0.metadata;
      var context := ColorContextFor(h, ext.profileAccepted).0.value;
      && r.value.0.width == doc.width && r.value.0.height == doc.height
      && m.exifItems == doc.metadata.exifItems + ExifItemsOf(GetExif(h).value, ext.parseExif)
      && m.colorContext == (if context.Some? then context else doc.metadata.colorContext)
      && m.xmp == (match GetXmp(h).value
                   case Some(x) => (if ext.parseXmp(x).Some? then ext.parseXmp(x) else doc.metadata.xmp)
                   case None => doc.metadata.xmp)
      && m.userValues == doc.metadata.userValues
  {
    var exif :- GetExif(h);
    var withExif := AddExifPropertyItems(doc, ExifItemsOf(exif, ext.parseExif));
    var (context, h1) := ColorContextFor(h, ext.profileAccepted);
    var c :- context;
    var withContext := if c.Some? then SetColorContext(withExif, c.value) else withExif;
    var xmp :- GetXmp(h1);
    var packet := match xmp case None => None case Some(x) => ext.parseXmp(x);
    var withXmp := if packet.Some? then SetXmpPacket(withContext, packet.value) else withContext;
    Ok((withXmp, h1))
  }

  /** The metadata step depends on the handle's data, not on what its caches already hold. */
  lemma MetadataIgnoresCaches(doc: Document, h: ImageHandle, h': ImageHandle, ext: Externals)
    requires Consistent(h) && Consistent(h')
    requires h'.native == h.native && h'.info == h.info && h'.disposed == h.disposed
    ensures AddMetadataToDocument(doc, h, ext).Ok? == AddMetadataToDocument(doc, h', ext).Ok?
    ensures AddMetadataToDocument(doc, h, ext).Ok? ==>
      AddMetadataToDocument(doc, h, ext).value.0 == AddMetadataToDocument(doc, h', ext).value.0
  {
    assert GetExif(h) == GetExif(h') && GetXmp(h) == GetXmp(h');
    ColorContextIgnoresCaches(h, h', ext.profileAccepted);
  }

  /** The colour-context choice likewise depends only on the handle's data. */
  lemma ColorContextIgnoresCaches(h: ImageHandle, h': ImageHandle, profileAccepted: bool)
    requires Consistent(h) && Consistent(h')
    requires h'.native == h.native && h'.info == h.info && h'.disposed == h.disposed
    ensures ColorContextFor(h, profileAccepted).0 == ColorContextFor(h', profileAccepted).0
  {
    assert GetIccProfile(h) == GetIccProfile(h');
  }

  /** What libheif gives the loader for the primary image: the handle's data, the image
      `Decode(Undefined, Undefined)` returns (its colour space, chroma and planes), and the
      planes of the image the YCbCr decoder's own RGB decode returns. */
  datatype NativeImage = NativeImage(
    handle: NativeHandle,
    info: ImageHandleInfo,
    colorSpace: HeifColorSpace,
    chroma: HeifChroma,
    planes: map<HeifChannel, Plane>,
    rgbPlanes: map<HeifChannel, Plane>)

  function PrimaryHandle(n: NativeImage): ImageHandle { NewHandle(n.handle, n.info) }

  function PrimaryImage(n: NativeImage): HeifImage {
    ImageOf(PrimaryHandle(n), n.colorSpace, n.chroma, n.planes).0
  }

  /** The image of the YCbCr decoder's RGB decode of the primary handle. */
  function RgbDecode(n: NativeImage): HeifImage {
    YCbCrImageDecoder.DecodedImage(PrimaryHandle(n), n.rgbPlanes)
  }

  /** libheif's guarantee about the images it returns (see HeifImages.WellFormed). */
  predicate NativeImageWellFormed(n: NativeImage) {
    WellFormed(PrimaryImage(n)) && WellFormed(RgbDecode(n))
  }

  /** The colour-space switch of Load. */
  function DecodeByColorSpace(h: ImageHandle, image: HeifImage, rgbPlanes: map<HeifChannel, Plane>): (r: Result<Decoded>)
    requires WellFormed(image) && Consistent(h) && WellFormed(YCbCrImageDecoder.DecodedImage(h, rgbPlanes))
    ensures image.colorSpace == YCbCr ==> r == YCbCrImageDecoder.SetImageData(h, rgbPlanes)
    ensures image.colorSpace == Rgb ==> r == RgbImageDecoder.SetImageData(image)
    ensures image.colorSpace == HeifColorSpace.Monochrome ==> r == MonochromeImageDecoder.SetImageData(image)
    ensures image.colorSpace == HeifColorSpace.Undefined ==> r == Throw(FormatError(UnknownColorSpace))
  {
    match image.colorSpace
    case YCbCr => YCbCrImageDecoder.SetImageData(h, rgbPlanes)
    case Rgb => RgbImageDecoder.SetImageData(image)
    case Monochrome => MonochromeImageDecoder.SetImageData(image)
    case Undefined => Throw(FormatError(UnknownColorSpace))
  }

  /** The outcome of Load: a document decoded from HEIF with its surface, or a stream
      handed to GDI+ at the position it was found at. */
  datatype Loaded =
    | HeifDocument(document: Document, surface: Decoded)
    | GdiPlusDocument(streamPosition: nat)

  /** The HEIF path: decode, build the document at the handle's size, add the metadata. */
  function LoadHeif(n: NativeImage, ext: Externals): (r: Result<Loaded>)
    requires NativeImageWellFormed(n)
    ensures r.Ok? ==> r.value.HeifDocument? && r.value.document.width == n.info.width
                      && r.value.document.height == n.info.height
  {
    var h := PrimaryHandle(n);
    // Decode(Undefined, Undefined) on the fresh handle, which is never disposed here.
    assert Decode(h, HeifColorSpace.Undefined, HeifChroma.Undefined).Ok?;
    var (image, h1) := ImageOf(h, n.colorSpace, n.chroma, n.planes);
    assert YCbCrImageDecoder.DecodedImage(h1, n.rgbPlanes) == RgbDecode(n);
    var surface :- DecodeByColorSpace(h1, image, n.rgbPlanes);
    var withMetadata :- AddMetadataToDocument(NewDocument(n.info.width, n.info.height), h1, ext);
    Ok(HeifDocument(withMetadata.0, surface))
  }

  /** Load. `stream` is the whole input and `position` where reading starts; `native` is
      libheif's outcome, NoFtypBox when the input has no `ftyp` box. Then the position is
      restored and the stream goes to GDI+ if it starts with a common image signature. */
  function Load(stream: seq<byte>, position: nat, native: Result<NativeImage>, ext: Externals): (r: Result<Loaded>)
    requires position <= |stream|
    requires native.Ok? ==> NativeImageWellFormed(native.value)
    ensures native == Throw(NoFtypBox) && IsCommonImageFormat(stream[position..]) ==> r == Ok(GdiPlusDocument(position))
    ensures native == Throw(NoFtypBox) && !IsCommonImageFormat(stream[position..]) ==> r == Throw(FormatError(NotAHeifFile))
    ensures native.Throw? && native.error != NoFtypBox ==> r == native.PropagateFailure()
    ensures native.Ok? ==> r == LoadHeif(native.value, ext)
    ensures r.Ok? && r.value.GdiPlusDocument? ==> r.value.streamPosition == position
  {
    match native
    case Throw(NoFtypBox) =>
      if IsCommonImageFormat(stream[position..]) then Ok(GdiPlusDocument(position))
      else Throw(FormatError(NotAHeifFile))
    case Throw(e) => Throw(e)
    case Ok(n) => LoadHeif(n, ext)
  }

  /** The metadata step of the load on the fresh primary handle succeeds: no native EXIF,
      colour or XMP query raises. */
  predicate MetadataLoads(n: NativeImage, ext: Externals) {
    AddMetadataToDocument(NewDocument(n.info.width, n.info.height), PrimaryHandle(n), ext).Ok?
  }

  /** The colour-space dispatch decides the outcome: an undefined colour space always
      fails with a format error, and otherwise the load succeeds exactly when the chosen
      decoder and then the metadata step do. */
  lemma ColorSpaceDispatch(n: NativeImage, ext: Externals)
    requires NativeImageWellFormed(n)
    ensures n.colorSpace == HeifColorSpace.Undefined ==> LoadHeif(n, ext) == Throw(FormatError(UnknownColorSpace))
    ensures n.colorSpace == Rgb ==>
      (LoadHeif(n, ext).Ok? <==> RgbImageDecoder.SetImageData(PrimaryImage(n)).Ok? && MetadataLoads(n, ext))
    ensures n.colorSpace == HeifColorSpace.Monochrome ==>
      (LoadHeif(n, ext).Ok? <==> MonochromeImageDecoder.SetImageData(PrimaryImage(n)).Ok? && MetadataLoads(n, ext))
    ensures n.colorSpace == YCbCr ==>
      (LoadHeif(n, ext).Ok? <==> RgbImageDecoder.SetImageData(RgbDecode(n)).Ok? && MetadataLoads(n, ext))
    ensures n.colorSpace == YCbCr ==>
      var img := RgbDecode(n);
      img.width == n.info.width && img.height == n.info.height && !RgbImageDecoder.IsPlanar(img)
      && RgbImageDecoder.RequiredChannels(img) == {Interleaved}
  {
    var h := PrimaryHandle(n);
    var (image, h1) := ImageOf(h, n.colorSpace, n.chroma, n.planes);
    assert image == PrimaryImage(n);
    assert !h1.disposed;
    assert YCbCrImageDecoder.DecodedImage(h1, n.rgbPlanes) == RgbDecode(n);
    YCbCrImageDecoder.DelegatedDecodeIsInterleaved(h, RgbDecode(n));
    MetadataIgnoresCaches(NewDocument(n.info.width, n.info.height), h, h1, ext);
  }

  /** A failing native query on the primary handle fails the load: the CICP query (read
      through the HDR format, by a high-bit-depth decoder or by the metadata step), the
      EXIF or XMP block's queries, and the queries of an ICC profile. */
  lemma NativeQueryFailureFailsLoad(n: NativeImage, ext: Externals)
    requires NativeImageWellFormed(n)
    ensures var h := PrimaryHandle(n);
      CicpFailure(h).Some? || MetadataFailure(h, ExifMetadata).Some? || MetadataFailure(h, XmpMetadata).Some?
      || (h.info.colorProfileType == IccProfile
          && BlockFailure(h, IccProfileSizeQuery, IccProfileQuery, h.native.iccProfile).Some?)
      ==> LoadHeif(n, ext).Throw?
  {
    var h := PrimaryHandle(n);
    var (image, h1) := ImageOf(h, n.colorSpace, n.chroma, n.planes);
    assert YCbCrImageDecoder.DecodedImage(h1, n.rgbPlanes) == RgbDecode(n);
    MetadataIgnoresCaches(NewDocument(n.info.width, n.info.height), h, h1, ext);
  }

  /** The document never carries the two dropped EXIF tags in its Image section, whatever
      the parser returned. */
  lemma NoDroppedTagsReachTheDocument(n: NativeImage, ext: Externals)
    requires NativeImageWellFormed(n)
    ensures var r := LoadHeif(n, ext);
      r.Ok? ==> forall e :: e in r.value.document.metadata.exifItems ==>
        e.section != ExifSection.Image || (e.tagId != InterColorProfileTag && e.tagId != OrientationTag)
  {
    var h := PrimaryHandle(n);
    var (image, h1) := ImageOf(h, n.colorSpace, n.chroma, n.planes);
    var d := NewDocument(n.info.width, n.info.height);
    assert YCbCrImageDecoder.DecodedImage(h1, n.rgbPlanes) == RgbDecode(n);
    var r := LoadHeif(n, ext);
    if r.Ok? {
      var md := AddMetadataToDocument(d, h1, ext);
      assert md.Ok? && r.value.document == md.value.0;
      var exif := GetExif(h1).value;
      assert d.metadata.exifItems + ExifItemsOf(exif, ext.parseExif) == ExifItemsOf(exif, ext.parseExif);
    }
  }
}

=== FILE: heic_native.dfy ===
/** HeicNative: the managed side of every native call.  A native call returns a status,
    which is turned into an exception by one of two switches, one for loading and one for
    saving.  Calls that go through the stream callbacks first re-throw an exception a
    callback captured. */
module HeicNative {
  import opened Errors
  import N = NativeTypes

  /** HandleReadError: the exception a load-side status raises, `None` when it raises nothing. */
  function HandleReadError(status: N.Status): (r: Option<Exception>)
    ensures r.None? <==> status == N.Ok || status == N.NoMatchingMetadata
    ensures r == Some(InvalidOperation) <==> status == N.NullParameter || status == N.BufferTooSmall
    ensures r == Some(OutOfMemory) <==> status == N.OutOfMemory
    ensures r.Some? && r.value != InvalidOperation && r.value != OutOfMemory ==>
      r.value == FormatError(NativeFailure)
  {
    match status
    case Ok => None
    case NullParameter => Some(InvalidOperation)
    case OutOfMemory => Some(OutOfMemory)
    case InvalidFile => Some(FormatError(NativeFailure))
    case UnsupportedFeature => Some(FormatError(NativeFailure))
    case UnsupportedFormat => Some(FormatError(NativeFailure))
    case DecodeFailed => Some(FormatError(NativeFailure))
    case BufferTooSmall => Some(InvalidOperation)
    case ColorInformationError => Some(FormatError(NativeFailure))
    case NoMatchingMetadata => None
    case MetadataError => Some(FormatError(NativeFailure))
    case _ => Some(FormatError(NativeFailure))
  }

  /** HandleWriteError: the exception a save-side status raises, `None` when it raises nothing. */
  function HandleWriteError(status: N.Status): (r: Option<Exception>)
    ensures r.None? <==> status == N.Ok
    ensures r == Some(InvalidOperation) <==> status == N.NullParameter || status == N.BufferTooSmall
    ensures r == Some(OutOfMemory) <==> status == N.OutOfMemory
    ensures r == Some(IOError) <==> status == N.WriteError
    ensures r == Some(OperationCanceled) <==> status == N.UserCanceled
    ensures r.Some? && r.value !in {InvalidOperation, OutOfMemory, IOError, OperationCanceled} ==>
      r.value == FormatError(NativeFailure)
  {
    match status
    case Ok => None
    case NullParameter => Some(InvalidOperation)
    case OutOfMemory => Some(OutOfMemory)
    case EncodeFailed => Some(FormatError(NativeFailure))
    case BufferTooSmall => Some(InvalidOperation)
    case UnknownYUVFormat => Some(FormatError(NativeFailure))
    case WriteError => Some(IOError)
    case ColorInformationError => Some(FormatError(NativeFailure))
    case UserCanceled => Some(OperationCanceled)
    case MetadataError => Some(FormatError(NativeFailure))
    case _ => Some(FormatError(NativeFailure))
  }

  /** The two switches differ on exactly three statuses: loading ignores a missing metadata
      block, while saving reports it as a format error; and only saving knows a write error
      and a user cancellation. */
  lemma ReadAndWriteSidesDiffer(status: N.Status)
    ensures HandleReadError(status) != HandleWriteError(status) <==>
      status == N.NoMatchingMetadata || status == N.WriteError || status == N.UserCanceled
    ensures status == N.NoMatchingMetadata ==>
      HandleReadError(status).None? && HandleWriteError(status) == Some(FormatError(NativeFailure))
  {
  }

  /** A load-side call that does not use the stream callbacks: its out value is kept unless
      the status raises. */
  function ReadCall<T>(status: N.Status, value: T): (r: Result<T>)
    ensures r.Ok? <==> HandleReadError(status).None?
    ensures r.Ok? ==> r.value == value
    ensures r.Throw? ==> Some(r.error) == HandleReadError(status)
  {
    match HandleReadError(status)
    case None => Ok(value)
    case Some(e) => Throw(e)
  }

  /** GetPrimaryImage: the handle is only stored for `Ok`, so a status of
      `NoMatchingMetadata`, which raises nothing, leaves the handle null. */
  function GetPrimaryImage<H>(status: N.Status, handle: H): (r: Result<Option<H>>)
    ensures r == Ok(Some(handle)) <==> status == N.Ok
    ensures r == Ok(None) <==> status == N.NoMatchingMetadata
    ensures r.Throw? ==> Some(r.error) == HandleReadError(status)
  {
    ReadCall(status, if status == N.Ok then Some(handle) else None)
  }

  /** A call through the stream callbacks (LoadFileIntoContext, SaveToFile): on a failing
      status an exception the callbacks captured is re-thrown in preference to the mapped
      status; a successful status ignores it. */
  function CallbackCall(status: N.Status, captured: Option<Exception>, writing: bool): (r: Option<Exception>)
    ensures status == N.Ok ==> r.None?
    ensures status != N.Ok && captured.Some? ==> r == captured
    ensures status != N.Ok && captured.None? ==>
      r == (if writing then HandleWriteError(status) else HandleReadError(status))
  {
    if status == N.Ok then None
    else if captured.Some? then captured
    else if writing then HandleWriteError(status)
    else HandleReadError(status)
  }

  function LoadFileIntoContext(status: N.Status, captured: Option<Exception>): (r: Option<Exception>)
    ensures r.None? <==> status == N.Ok || (status == N.NoMatchingMetadata && captured.None?)
  {
    CallbackCall(status, captured, false)
  }

  function SaveToFile(status: N.Status, captured: Option<Exception>): (r: Option<Exception>)
    ensures r.None? <==> status == N.Ok
  {
    CallbackCall(status, captured, true)
  }

  /** A captured exception wins even over a status that would raise nothing or something
      else: a cancelled write whose callback failed reports the callback's exception. */
  lemma CapturedExceptionWins(status: N.Status, e: Exception)
    requires status != N.Ok
    ensures LoadFileIntoContext(status, Some(e)) == Some(e)
    ensures SaveToFile(status, Some(e)) == Some(e)
  {
  }
}

=== FILE: heic_save.dfy ===
/** HeicSave: the plug-in's save path.  It renders the document, picks the encoder options
    and the colour data, collects the metadata, and hands all of it to the native encoder.
    The renderer's output, the EXIF writer, the XMP serialiser and the native save are
    parameters. */
module HeicSave {
  import opened Ints
  import opened Errors
  import opened HeifImages
  import opened Cicp
  import opened MetadataEntries
  import opened Documents
  import opened SaveCommon
  import N = NativeTypes
  import ChromaSubsampling
  import HeicNative

  /** An EXIF property path: its section and tag. */
  datatype ExifPropertyPath = ExifPropertyPath(section: ExifSection, tagId: u16)

  /** `ExifPropertyKeys.Image.InterColorProfile.Path`. */
  const InterColorProfilePath: ExifPropertyPath := ExifPropertyPath(ExifSection.Image, 0x8773)

  /** The colour data of a lossless save: BT.709 primaries, sRGB transfer, the identity
      matrix, full range. */
  const IdentityColorData: CICPColorData := CICPColorData(PrimariesBT709, TransferSrgb, MatrixIdentity, true)

  datatype Externals = Externals(
    writeExif: (map<ExifPropertyPath, ExifValue>, ExifColorSpace) -> seq<byte>,
    xmpBytes: XmpPacket -> seq<byte>,
    native: NativeSave)

  function PathValue(item: ExifPropertyItem): (ExifPropertyPath, ExifValue) {
    (ExifPropertyPath(item.section, item.tagId), item.value)
  }

  function PathValues(items: seq<ExifPropertyItem>): (pairs: seq<(ExifPropertyPath, ExifValue)>)
    ensures |pairs| == |items|
    ensures forall i :: 0 <= i < |items| ==> pairs[i] == PathValue(items[i])
  {
    seq(|items|, i requires 0 <= i < |items| => PathValue(items[i]))
  }

  /** The item at `i` is the first with its path. */
  predicate FirstWithPath(items: seq<ExifPropertyItem>, i: nat)
    requires i < |items|
  {
    forall j :: 0 <= j < i ==> PathValue(items[j]).0 != PathValue(items[i]).0
  }

  /** GetExifMetadataFromDocument: null when the document has no EXIF items; otherwise every
      path present, holding the value of its first item. */
  function GetExifMetadataFromDocument(doc: Document): (r: Option<map<ExifPropertyPath, ExifValue>>)
    ensures r.None? <==> |doc.metadata.exifItems| == 0
    ensures r.Some? ==> forall p :: p in r.value <==>
      exists i :: 0 <= i < |doc.metadata.exifItems| && PathValue(doc.metadata.exifItems[i]).0 == p
    ensures r.Some? ==> forall i :: 0 <= i < |doc.metadata.exifItems| && FirstWithPath(doc.metadata.exifItems, i) ==>
      r.value[PathValue(doc.metadata.exifItems[i]).0] == doc.metadata.exifItems[i].value
  {
    var items := doc.metadata.exifItems;
    if |items| == 0 then None
    else
      var pairs := PathValues(items);
      var m := FirstWins(pairs);
      assert forall p :: p in m ==> exists i :: 0 <= i < |items| && PathValue(items[i]).0 == p by {
        forall p | p in m ensures exists i :: 0 <= i < |items| && PathValue(items[i]).0 == p {
          var i :| 0 <= i < |pairs| && pairs[i].0 == p;
          assert PathValue(items[i]).0 == p;
        }
      }
      assert forall i :: 0 <= i < |items| && FirstWithPath(items, i) ==> m[PathValue(items[i]).0] == items[i].value by {
        forall i | 0 <= i < |items| && FirstWithPath(items, i) ensures m[PathValue(items[i]).0] == items[i].value {
          FirstWinsValue(pairs, i);
        }
      }
      Some(m)
  }

  /** CreateEncoderMetadata over the path map. */
  function EncoderMetadataOf(doc: Document, ext: Externals): (r: ManagedEncoderMetadata)
    ensures var exif := GetExifMetadataFromDocument(doc);
      r == CreateEncoderMetadata(exif, InterColorProfilePath, (v: ExifValue) => v.data, ext.writeExif,
                                 doc.metadata.xmp, ext.xmpBytes)
  {
    CreateEncoderMetadata(GetExifMetadataFromDocument(doc), InterColorProfilePath, (v: ExifValue) => v.data,
                          ext.writeExif, doc.metadata.xmp, ext.xmpBytes)
  }

  /** A lossless save is one at quality 100 of an image that is not grey. */
  predicate Lossless(quality: int, grayscale: bool) { quality == 100 && !grayscale }

  /** The colour data a save hands over: the identity description for a lossless save,
      otherwise the document's stored description or BT.709 with sRGB transfer. */
  function SaveColorData(doc: Document, lossless: bool): Result<CICPColorData> {
    if lossless then Ok(IdentityColorData) else StoredColorData(doc)
  }

  /** The request a save that passed its checks hands to the native encoder. */
  function RequestFor(doc: Document, rendered: Surface, quality: int, chromaSubsampling: N.YUVChromaSubsampling,
                      preset: N.EncoderPreset, tuning: N.EncoderTuning, tuIntraDepth: int, ext: Externals,
                      colorData: CICPColorData): SaveRequest
    requires IsGrid(rendered, doc.width, doc.height)
  {
    var grey := AllGrey(rendered, doc.width, doc.height);
    var yuv := if grey then N.Subsampling400 else if quality == 100 then N.IdentityMatrix else chromaSubsampling;
    SaveRequest(N.BitmapData(doc.width, doc.height, rendered), N.EncoderOptions(quality, preset, tuning, tuIntraDepth, yuv),
                ToNativeMetadata(EncoderMetadataOf(doc, ext)), colorData)
  }

  /** Save.  `rendered` is the scratch surface after the document was rendered into it. */
  function Save(doc: Document, rendered: Surface, quality: int, chromaSubsampling: N.YUVChromaSubsampling,
                preset: N.EncoderPreset, tuning: N.EncoderTuning, tuIntraDepth: int, ext: Externals): (r: Result<SaveRequest>)
    requires IsGrid(rendered, doc.width, doc.height)
    ensures CheckEncodeSize(doc.width, doc.height).Some? ==> r == Throw(FormatError(ImageTooSmall))
    ensures r.Ok? ==>
      && CheckEncodeSize(doc.width, doc.height).None?
      && r.value.bitmap == N.BitmapData(doc.width, doc.height, rendered)
      && r.value.options.quality == quality && r.value.options.preset == preset
      && r.value.options.tuning == tuning && r.value.options.tuIntraDepth == tuIntraDepth
      && r.value.metadata == ToNativeMetadata(EncoderMetadataOf(doc, ext))
    ensures r.Ok? ==> var grey := AllGrey(rendered, doc.width, doc.height);
      r.value.options.yuvFormat ==
        (if grey then N.Subsampling400 else if quality == 100 then N.IdentityMatrix else chromaSubsampling)
    ensures r.Ok? && Lossless(quality, AllGrey(rendered, doc.width, doc.height)) ==>
      r.value.colorData == IdentityColorData
    ensures r.Ok? && !Lossless(quality, AllGrey(rendered, doc.width, doc.height)) ==>
      StoredColorData(doc) == Ok(r.value.colorData)
    ensures var colorData := SaveColorData(doc, Lossless(quality, AllGrey(rendered, doc.width, doc.height)));
      r.Ok? <==>
        && CheckEncodeSize(doc.width, doc.height).None?
        && colorData.Ok?
        && ext.native(RequestFor(doc, rendered, quality, chromaSubsampling, preset, tuning, tuIntraDepth, ext,
                                 colorData.value)).0 == N.Ok
    ensures var colorData := SaveColorData(doc, Lossless(quality, AllGrey(rendered, doc.width, doc.height)));
      CheckEncodeSize(doc.width, doc.height).None? && colorData.Throw? ==> r == Throw(colorData.error)
    ensures var colorData := SaveColorData(doc, Lossless(quality, AllGrey(rendered, doc.width, doc.height)));
      CheckEncodeSize(doc.width, doc.height).None? && colorData.Ok? && r.Throw? ==>
        var outcome := ext.native(RequestFor(doc, rendered, quality, chromaSubsampling, preset, tuning, tuIntraDepth, ext,
                                             colorData.value));
        Some(r.error) == HeicNative.SaveToFile(outcome.0, outcome.1)
  {
    if CheckEncodeSize(doc.width, doc.height).Some? then Throw(FormatError(ImageTooSmall))
    else
      var grayscale := AllGrey(rendered, doc.width, doc.height);
      var options := N.EncoderOptions(quality, preset, tuning, tuIntraDepth, SelectYuvFormat(grayscale, chromaSubsampling));
      var metadata := EncoderMetadataOf(doc, ext);
      var (options, colorData) :-
        if Lossless(quality, grayscale) then Ok((options.(yuvFormat := N.IdentityMatrix), IdentityColorData))
        else
          var c :- StoredColorData(doc);
          Ok((options, c));
      CallSaveToFile(SaveRequest(N.BitmapData(doc.width, doc.height, rendered), options, ToNativeMetadata(metadata), colorData),
                     ext.native)
  }

  /** A lossless save loses nothing: the encoder's identity-matrix conversion of the bitmap
      Save hands over gives back every rendered pixel, alpha included. */
  lemma LosslessSaveKeepsEveryPixel(doc: Document, rendered: Surface, chromaSubsampling: N.YUVChromaSubsampling,
                                    preset: N.EncoderPreset, tuning: N.EncoderTuning, tuIntraDepth: int,
                                    ext: Externals, lib: ChromaSubsampling.ConversionLibrary)
    requires IsGrid(rendered, doc.width, doc.height)
    requires !AllGrey(rendered, doc.width, doc.height)
    requires Save(doc, rendered, 100, chromaSubsampling, preset, tuning, tuIntraDepth, ext).Ok?
    ensures var req := Save(doc, rendered, 100, chromaSubsampling, preset, tuning, tuIntraDepth, ext).value;
      var conv := ChromaSubsampling.ConvertToHeifImage(req.bitmap, req.colorData, req.options.yuvFormat, lib);
      conv.0 == N.Ok ==>
        var img := conv.1.value;
        ChromaSubsampling.IdentityToBgra(img.planes[Y], img.planes[Cb], img.planes[Cr],
          if Alpha in img.planes then Some(img.planes[Alpha]) else None, doc.width, doc.height) == rendered
  {
    var req := Save(doc, rendered, 100, chromaSubsampling, preset, tuning, tuIntraDepth, ext).value;
    if ChromaSubsampling.ConvertToHeifImage(req.bitmap, req.colorData, req.options.yuvFormat, lib).0 == N.Ok {
      ChromaSubsampling.IdentityConversionIsLossless(req.bitmap, req.colorData, lib);
    }
  }
}

=== FILE: heif_image.dfy ===
/** The decoded image handed to the managed decoders (Interop/Heifmage.cs), the pixel
    records the decoders write, and the intermediate bitmaps of the high-bit-depth paths.

    A plane is a sequence of rows of samples.  A planar channel holds one sample per pixel;
    the interleaved channel holds three (R, G, B) or four (R, G, B, A) consecutive samples
    per pixel, so pixel `x` of row `y` starts at sample `k * x`.  The row stride of the
    native buffer is abstracted away by the row structure. */
module HeifImages {
  import opened Ints
  import opened Errors

  datatype HeifColorSpace = Undefined | YCbCr | Rgb | Monochrome

  datatype HeifChroma =
    | Undefined
    | Monochrome
    | Yuv420
    | Yuv422
    | Yuv444
    | InterleavedRgb24
    | InterleavedRgba32
    | InterleavedRgb48BE
    | InterleavedRgba64BE
    | InterleavedRgb48LE
    | InterleavedRgba64LE

  datatype HeifChannel = Y | Cb | Cr | R | G | B | Alpha | Interleaved

  /** The HDR transfer a handle reports.  The image handle only ever reports `NoHdr` or
      `PQ`; other values stand for any further member of the enumeration. */
  datatype HDRFormat = NoHdr | PQ | UnrecognizedHdr(code: int)

  type Plane = seq<seq<u16>>

  /** Properties the decoders read from the image and its handle (Heifmage.cs forwards
      width, height, bit depth, HDR format and the alpha flags to the handle, and the colour
      space and chroma to the decoded image's info). The handle's HDRFormat property raises
      when its CICP query fails: `hdrFailure` is that exception, and `hdrFormat` the value
      the property has when it raises nothing. */
  datatype HeifImage = HeifImage(
    width: nat,
    height: nat,
    bitDepth: int,
    hasAlpha: bool,
    premultiplied: bool,
    hdrFormat: HDRFormat,
    hdrFailure: Option<Exception>,
    colorSpace: HeifColorSpace,
    chroma: HeifChroma,
    planes: map<HeifChannel, Plane>)

  /** The plane has at least `h` rows of at least `n` samples each. */
  predicate Covers(p: Plane, n: nat, h: nat) {
    |p| >= h && forall y :: 0 <= y < h ==> |p[y]| >= n
  }

  /** Every sample in the first `h` rows is below `limit`. */
  predicate SamplesBelow(p: Plane, h: nat, limit: nat) {
    forall y, x :: 0 <= y < h && 0 <= y < |p| && 0 <= x < |p[y]| ==> p[y][x] < limit
  }

  /** Samples per pixel of a channel as the managed decoders read it. */
  function SamplesPerPixel(img: HeifImage, c: HeifChannel): nat {
    if c == Interleaved then (if img.hasAlpha then 4 else 3) else 1
  }

  /** What libheif guarantees about a decoded image and the decoders rely on without
      checking: each plane it returns covers the image, and 8-bit planes hold bytes. */
  predicate WellFormed(img: HeifImage) {
    forall c :: c in img.planes ==>
      Covers(img.planes[c], SamplesPerPixel(img, c) * img.width, img.height)
      && (img.bitDepth == 8 ==> SamplesBelow(img.planes[c], img.height, 0x100))
  }

  lemma InterleavedRows(img: HeifImage)
    requires WellFormed(img) && Interleaved in img.planes
    ensures var p := img.planes[Interleaved];
      |p| >= img.height
      && (img.hasAlpha ==> forall y :: 0 <= y < img.height ==> |p[y]| >= 4 * img.width)
      && (!img.hasAlpha ==> forall y :: 0 <= y < img.height ==> |p[y]| >= 3 * img.width)
  {
  }

  lemma PlanarRows(img: HeifImage, c: HeifChannel)
    requires WellFormed(img) && c in img.planes && c != Interleaved
    ensures var p := img.planes[c];
      |p| >= img.height && forall y :: 0 <= y < img.height ==> |p[y]| >= img.width
  {
  }

  /** The channels present in `img` as a set. */
  predicate HasChannels(img: HeifImage, cs: set<HeifChannel>) {
    forall c :: c in cs ==> c in img.planes
  }

  /** HeifImage.GetChannel: a channel libheif does not provide throws a FormatException. */
  function GetChannel(img: HeifImage, c: HeifChannel): (r: Result<Plane>)
    ensures r.Ok? <==> c in img.planes
    ensures r.Ok? ==> r.value == img.planes[c]
    ensures r.Throw? ==> r.error == FormatError(MissingPlane)
  {
    if c in img.planes then Ok(img.planes[c]) else Throw(FormatError(MissingPlane))
  }

  /** A pixel of the Paint.NET surface (ColorBgra32). */
  datatype Bgra = Bgra(b: byte, g: byte, r: byte, a: byte)

  type Surface = seq<seq<Bgra>>

  /** A `w` by `h` grid, as every surface and intermediate bitmap is. */
  predicate IsGrid<T>(s: seq<seq<T>>, w: nat, h: nat) {
    |s| == h && forall y :: 0 <= y < h ==> |s[y]| == w
  }

  datatype Rgb16 = Rgb16(r: u16, g: u16, b: u16)
  datatype Rgba16 = Rgba16(r: u16, g: u16, b: u16, a: u16)
  datatype RgbF = RgbF(r: real, g: real, b: real)
  datatype RgbaF = RgbaF(r: real, g: real, b: real, a: real)

  /** The pixels of an intermediate bitmap created by the imaging factory. */
  datatype Pixels =
    | Rgb48(rgb48: seq<seq<Rgb16>>)
    | Rgba64(rgba64: seq<seq<Rgba16>>)
    | Rgb96Float(rgb96: seq<seq<RgbF>>)
    | Rgba128Float(rgba128: seq<seq<RgbaF>>)

  /** An intermediate bitmap; `premultipliedView` is set when the decoder hands on a
      `Cast` of it that reinterprets the same pixels as premultiplied alpha. */
  datatype Bitmap = Bitmap(pixels: Pixels, premultipliedView: bool)

  datatype PixelFormat =
    | Bgra32Format
    | Pbgra32Format
    | Rgb48Format
    | Rgba64Format
    | Prgba64Format
    | Rgb96FloatFormat
    | Rgba128FloatFormat
    | Prgba128FloatFormat

  /** The pixel format WIC reports for a bitmap. */
  function FormatOf(b: Bitmap): PixelFormat {
    match b.pixels
    case Rgb48(_) => Rgb48Format
    case Rgba64(_) => if b.premultipliedView then Prgba64Format else Rgba64Format
    case Rgb96Float(_) => Rgb96FloatFormat
    case Rgba128Float(_) => if b.premultipliedView then Prgba128FloatFormat else Rgba128FloatFormat
  }
}

=== FILE: heif_image_handle.dfy ===
/** HeifImageHandle: the managed wrapper around a libheif image handle.  What libheif
    reports for the handle (its CICP data, ICC profile and metadata blocks, and the status
    of each native query) is given as a value, and the two lazily computed properties are
    modelled as explicit caches. */
module HeifImageHandles {
  import opened Ints
  import opened Errors
  import opened Cicp
  import opened HeifImages
  import N = NativeTypes
  import HeicNative

  datatype ColorProfileType = NoColorProfile | CicpProfile | IccProfile

  datatype MetadataType = ExifMetadata | XmpMetadata

  /** ImageHandleInfo, filled in by the native side when the handle is created. */
  datatype ImageHandleInfo = ImageHandleInfo(
    width: nat,
    height: nat,
    bitDepth: int,
    colorProfileType: ColorProfileType,
    hasAlphaChannel: bool,
    isAlphaChannelPremultiplied: bool)

  /** The native queries the handle's getters make: GetCICPColorData, GetICCProfileSize and
      GetICCProfile, and GetMetadataSize and GetMetadata for a metadata type. */
  datatype HandleQuery =
    | CicpQuery
    | IccProfileSizeQuery
    | IccProfileQuery
    | MetadataSizeQuery(metadataType: MetadataType)
    | MetadataQuery(metadataType: MetadataType)

  /** The answers of the native calls on this handle: the CICP data GetCICPColorData
      writes, the ICC profile (its length is what GetICCProfileSize reports), the metadata
      block found for each type, and the status each query returns. */
  datatype NativeHandle = NativeHandle(
    cicp: CICPColorData,
    iccProfile: seq<byte>,
    metadata: map<MetadataType, seq<byte>>,
    status: HandleQuery -> N.Status)

  /** The lazy values hold what their factory returned, an exception included: a `Lazy<T>`
      built from a factory alone caches the exception the factory throws. */
  datatype ImageHandle = ImageHandle(
    native: NativeHandle,
    info: ImageHandleInfo,
    disposed: bool,
    cicpCache: Option<Result<CICPColorData>>,
    hdrCache: Option<Result<HDRFormat>>)

  /** The exception a native query on the handle raises through HandleReadError. */
  function QueryFailure(h: ImageHandle, q: HandleQuery): Option<Exception> {
    HeicNative.HandleReadError(h.native.status(q))
  }

  /** The exception reading the CICP data raises: only a CICP profile is queried. */
  function CicpFailure(h: ImageHandle): Option<Exception> {
    if h.info.colorProfileType == CicpProfile then QueryFailure(h, CicpQuery) else None
  }

  /** The constructor: nothing is computed yet. */
  function NewHandle(native: NativeHandle, info: ImageHandleInfo): (h: ImageHandle)
    ensures !h.disposed && h.cicpCache.None? && h.hdrCache.None?
    ensures Consistent(h)
  {
    ImageHandle(native, info, false, None, None)
  }

  function Dispose(h: ImageHandle): (h': ImageHandle)
    ensures h'.disposed && h'.info == h.info && h'.native == h.native
    ensures Consistent(h) ==> Consistent(h')
  {
    h.(disposed := true)
  }

  /** CacheCICPColorData: the native data for a CICP profile, unless the native query
      fails; all-unspecified with limited range without a CICP profile. */
  function CacheCICPColorData(h: ImageHandle): (c: Result<CICPColorData>)
    ensures c.Throw? <==> CicpFailure(h).Some?
    ensures c.Throw? ==> Some(c.error) == CicpFailure(h)
    ensures c.Ok? && h.info.colorProfileType == CicpProfile ==> c.value == h.native.cicp
    ensures h.info.colorProfileType != CicpProfile ==>
      && c.Ok?
      && c.value.colorPrimaries == PrimariesUnspecified
      && c.value.transferCharacteristics == TransferUnspecified
      && c.value.matrixCoefficients == MatrixUnspecified
      && !c.value.fullRange
  {
    if h.info.colorProfileType == CicpProfile then
      HeicNative.ReadCall(h.native.status(CicpQuery), h.native.cicp)
    else Ok(UnspecifiedColorData)
  }

  /** The `CICPColorData` property: the lazy value, computed on first use. */
  function GetCICPColorData(h: ImageHandle): (r: (Result<CICPColorData>, ImageHandle))
    ensures r.1 == h.(cicpCache := Some(r.0))
    ensures h.cicpCache.Some? ==> r.0 == h.cicpCache.value
    ensures h.cicpCache.None? ==> r.0 == CacheCICPColorData(h)
  {
    match h.cicpCache
    case Some(c) => (c, h)
    case None => var c := CacheCICPColorData(h); (c, h.(cicpCache := Some(c)))
  }

  /** CacheHDRFormat: PQ exactly for CICP data with BT.2020 primaries and the SMPTE ST 2084
      transfer. The CICP data is read through its own lazy value, whose exception the HDR
      format passes on. */
  function CacheHDRFormat(h: ImageHandle): (r: (Result<HDRFormat>, ImageHandle))
    ensures r.0.Ok? ==> r.0.value == NoHdr || r.0.value == PQ
    ensures r.0.Throw? ==> h.info.colorProfileType == CicpProfile
    ensures r.1.native == h.native && r.1.info == h.info && r.1.disposed == h.disposed
    ensures r.1.hdrCache == h.hdrCache
  {
    if h.info.colorProfileType == CicpProfile then
      var (c, h') := GetCICPColorData(h);
      match c
      case Throw(e) => (Throw(e), h')
      case Ok(d) =>
        if d.colorPrimaries == PrimariesBT2020 && d.transferCharacteristics == TransferSmpte2084 then (Ok(PQ), h')
        else (Ok(NoHdr), h')
    else (Ok(NoHdr), h)
  }

  /** The `HDRFormat` property. */
  function GetHDRFormat(h: ImageHandle): (r: (Result<HDRFormat>, ImageHandle))
    ensures r.1.hdrCache == Some(r.0)
    ensures h.hdrCache.Some? ==> r.0 == h.hdrCache.value && r.1 == h
    ensures r.1.native == h.native && r.1.info == h.info && r.1.disposed == h.disposed
  {
    match h.hdrCache
    case Some(f) => (f, h)
    case None =>
      var (f, h') := CacheHDRFormat(h);
      (f, h'.(hdrCache := Some(f)))
  }

  /** What the handle's data says about its HDR format. */
  predicate IsPQ(h: ImageHandle) {
    && h.info.colorProfileType == CicpProfile
    && h.native.cicp.colorPrimaries == PrimariesBT2020
    && h.native.cicp.transferCharacteristics == TransferSmpte2084
  }

  /** The HDR format stated on the handle's data alone: the CICP query's exception, or PQ
      exactly for PQ data. */
  function HdrFormatOf(h: ImageHandle): Result<HDRFormat> {
    if CicpFailure(h).Some? then Throw(CicpFailure(h).value) else Ok(if IsPQ(h) then PQ else NoHdr)
  }

  /** A cache holds nothing but what its factory computes from the handle's data. */
  predicate Consistent(h: ImageHandle) {
    && (h.cicpCache.Some? ==> h.cicpCache.value == CacheCICPColorData(h))
    && (h.hdrCache.Some? ==> h.hdrCache.value == HdrFormatOf(h))
  }

  /** Reading either property keeps the caches consistent and yields the factory's value
      or exception, so however often and in whichever order the properties are read, each
      always gives the same answer. */
  lemma PropertiesAreStable(h: ImageHandle)
    requires Consistent(h)
    ensures var (c, h') := GetCICPColorData(h);
      Consistent(h') && c == CacheCICPColorData(h) && GetCICPColorData(h') == (c, h')
    ensures var (f, h') := GetHDRFormat(h);
      Consistent(h') && f == HdrFormatOf(h) && GetHDRFormat(h') == (f, h')
  {
  }

  /** The `SafeHeifImageHandle` property. */
  function SafeHandle(h: ImageHandle): (r: Result<NativeHandle>)
    ensures r.Throw? <==> h.disposed
    ensures r.Throw? ==> r.error == ObjectDisposed
    ensures r.Ok? ==> r.value == h.native
  {
    if h.disposed then Throw(ObjectDisposed) else Ok(h.native)
  }

  /** The arguments of the native decode Decode starts. */
  datatype DecodeRequest = DecodeRequest(native: NativeHandle, colorSpace: HeifColorSpace, chroma: HeifChroma)

  function Decode(h: ImageHandle, colorSpace: HeifColorSpace, chroma: HeifChroma): (r: Result<DecodeRequest>)
    ensures r.Throw? <==> h.disposed
    ensures r.Throw? ==> r.error == ObjectDisposed
    ensures r.Ok? ==> r.value == DecodeRequest(h.native, colorSpace, chroma)
  {
    var native :- SafeHandle(h);
    Ok(DecodeRequest(native, colorSpace, chroma))
  }

  /** A native size is turned into a managed array only when it is positive and fits an
      `int`. */
  predicate AllocatableSize(size: nat) { 0 < size <= INT32_MAX }

  /** The exception reading a block raises: the size query's, or, for a size worth
      allocating, the read query's. */
  function BlockFailure(h: ImageHandle, sizeQuery: HandleQuery, readQuery: HandleQuery, block: seq<byte>): Option<Exception> {
    if QueryFailure(h, sizeQuery).Some? then QueryFailure(h, sizeQuery)
    else if AllocatableSize(|block|) then QueryFailure(h, readQuery)
    else None
  }

  /** The size query, then, for a size in (0, int.MaxValue], the read into a new array;
      each status goes through HandleReadError. */
  function ReadBlock(h: ImageHandle, sizeQuery: HandleQuery, readQuery: HandleQuery, block: seq<byte>): (r: Result<Option<seq<byte>>>)
    ensures r.Throw? <==> BlockFailure(h, sizeQuery, readQuery, block).Some?
    ensures r.Throw? ==> Some(r.error) == BlockFailure(h, sizeQuery, readQuery, block)
    ensures r.Ok? ==> (r.value.Some? <==> AllocatableSize(|block|))
    ensures r.Ok? && r.value.Some? ==> r.value.value == block
  {
    var size :- HeicNative.ReadCall(h.native.status(sizeQuery), |block|);
    if AllocatableSize(size) then
      var _ :- HeicNative.ReadCall(h.native.status(readQuery), ());
      Ok(Some(block))
    else Ok(None)
  }

  function GetIccProfile(h: ImageHandle): (r: Result<Option<seq<byte>>>)
    ensures r.Throw? <==> !h.disposed && h.info.colorProfileType == IccProfile
                          && BlockFailure(h, IccProfileSizeQuery, IccProfileQuery, h.native.iccProfile).Some?
    ensures r.Throw? ==> Some(r.error) == BlockFailure(h, IccProfileSizeQuery, IccProfileQuery, h.native.iccProfile)
    ensures r.Ok? && r.value.Some? <==>
      !h.disposed && h.info.colorProfileType == IccProfile && AllocatableSize(|h.native.iccProfile|)
      && BlockFailure(h, IccProfileSizeQuery, IccProfileQuery, h.native.iccProfile).None?
    ensures r.Ok? && r.value.Some? ==> r.value.value == h.native.iccProfile
  {
    if !h.disposed && h.info.colorProfileType == IccProfile then
      ReadBlock(h, IccProfileSizeQuery, IccProfileQuery, h.native.iccProfile)
    else Ok(None)
  }

  /** The exception reading the metadata block of type `t` raises. The block's id lookup
      is modelled as the block's presence and raises nothing. */
  function MetadataFailure(h: ImageHandle, t: MetadataType): Option<Exception> {
    if !h.disposed && t in h.native.metadata then
      BlockFailure(h, MetadataSizeQuery(t), MetadataQuery(t), h.native.metadata[t])
    else None
  }

  /** Whether the metadata block of type `t` is read. */
  predicate MetadataRead(h: ImageHandle, t: MetadataType) {
    !h.disposed && t in h.native.metadata && AllocatableSize(|h.native.metadata[t]|)
    && MetadataFailure(h, t).None?
  }

  function TryGetMetadata(h: ImageHandle, t: MetadataType): (r: Result<Option<seq<byte>>>)
    ensures r.Throw? <==> MetadataFailure(h, t).Some?
    ensures r.Throw? ==> Some(r.error) == MetadataFailure(h, t)
    ensures r.Ok? && r.value.Some? <==> MetadataRead(h, t)
    ensures r.Ok? && r.value.Some? ==> r.value.value == h.native.metadata[t]
  {
    if !h.disposed && t in h.native.metadata then
      ReadBlock(h, MetadataSizeQuery(t), MetadataQuery(t), h.native.metadata[t])
    else Ok(None)
  }

  function GetExif(h: ImageHandle): (r: Result<Option<seq<byte>>>)
    ensures r.Throw? <==> MetadataFailure(h, ExifMetadata).Some?
    ensures r.Throw? ==> Some(r.error) == MetadataFailure(h, ExifMetadata)
    ensures r.Ok? && r.value.Some? <==> MetadataRead(h, ExifMetadata)
    ensures r.Ok? && r.value.Some? ==> r.value.value == h.native.metadata[ExifMetadata]
  {
    TryGetMetadata(h, ExifMetadata)
  }

  function GetXmp(h: ImageHandle): (r: Result<Option<seq<byte>>>)
    ensures r.Throw? <==> MetadataFailure(h, XmpMetadata).Some?
    ensures r.Throw? ==> Some(r.error) == MetadataFailure(h, XmpMetadata)
    ensures r.Ok? && r.value.Some? <==> MetadataRead(h, XmpMetadata)
    ensures r.Ok? && r.value.Some? ==> r.value.value == h.native.metadata[XmpMetadata]
  {
    TryGetMetadata(h, XmpMetadata)
  }

  /** The decoded HeifImage: width, height, bit depth, HDR format and the alpha flags are
      read from the handle, colour space and chroma from the decoded image's own info. The
      HDR format is the handle's lazy value, exception included. */
  function ImageOf(h: ImageHandle, colorSpace: HeifColorSpace, chroma: HeifChroma,
                   planes: map<HeifChannel, Plane>): (r: (HeifImage, ImageHandle))
    requires Consistent(h)
    ensures var img := r.0;
      && img.width == h.info.width && img.height == h.info.height && img.bitDepth == h.info.bitDepth
      && img.hasAlpha == h.info.hasAlphaChannel && img.premultiplied == h.info.isAlphaChannelPremultiplied
      && img.hdrFailure == CicpFailure(h)
      && (img.hdrFailure.None? ==> img.hdrFormat == (if IsPQ(h) then PQ else NoHdr))
      && img.colorSpace == colorSpace && img.chroma == chroma && img.planes == planes
    ensures Consistent(r.1)
    ensures r.1.native == h.native && r.1.info == h.info && r.1.disposed == h.disposed
  {
    PropertiesAreStable(h);
    var (f, h') := GetHDRFormat(h);
    var failure := if f.Throw? then Some(f.error) else None;
    var format := if f.Ok? then f.value else NoHdr;
    (HeifImage(h.info.width, h.info.height, h.info.bitDepth, h.info.hasAlphaChannel,
               h.info.isAlphaChannelPremultiplied, format, failure, colorSpace, chroma, planes), h')
  }
}

=== FILE: high_bit_depth_conversion.dfy ===
/** HighBitDepthConversion: turning an intermediate bitmap into the 8-bit BGRA surface.
    The conversions themselves run inside WIC and Direct2D; the model records which
    conversion is requested, on which bitmap and with which colour settings. */
module HighBitDepthConversion {
  import opened Errors
  import opened HeifImages

  datatype KnownColorSpace = Srgb | ScRgb | DisplayP3

  /** The DXGI colour space the PQ source is tagged with: full range, SMPTE ST 2084
      transfer, no siting, BT.2020 primaries. */
  datatype DxgiColorSpace = RgbFullGamma2084NoneP2020

  datatype AlphaMode = StraightAlpha | PremultipliedAlpha

  /** The bitmap the colour transform reads: the input itself, or a WIC format converter
      producing Rgba128Float from it. */
  datatype TransformInput = InputReference(input: Bitmap) | ConvertedToRgba128Float(input: Bitmap)

  datatype Conversion =
      /** A WIC format converter to BGRA32, copied into the surface. */
    | FormatConversion(converted: Bitmap, target: PixelFormat)
      /** A Direct2D colour-management effect from the PQ source space into the given
          colour context, copied into the surface as premultiplied BGRA32. */
    | PqColorTransform(
        transformInput: TransformInput,
        sourceSpace: DxgiColorSpace,
        destination: KnownColorSpace,
        imageAlpha: AlphaMode,
        effectAlpha: AlphaMode,
        colorSpaceConversionDisabled: bool,
        target: PixelFormat)

  /** The intermediate bitmap a conversion reads. */
  function ConvertedBitmap(c: Conversion): Bitmap {
    match c
    case FormatConversion(b, _) => b
    case PqColorTransform(ti, _, _, _, _, _, _) => ti.input
  }

  /** SdrImageToBgra32. */
  function SdrImageToBgra32(input: Bitmap): (r: Conversion)
    ensures r.FormatConversion? && r.converted == input && r.target == Bgra32Format
  {
    FormatConversion(input, Bgra32Format)
  }

  /** HdrImageToBgra32: PQ content goes through the colour transform, any other HDR tag
      falls back to the SDR format conversion. */
  function HdrImageToBgra32(input: Bitmap, hdrFormat: HDRFormat): (r: Conversion)
    ensures r.PqColorTransform? <==> hdrFormat == PQ
    ensures hdrFormat != PQ ==> r == SdrImageToBgra32(input)
    ensures r.PqColorTransform? ==> r.transformInput.input == input
  {
    if hdrFormat == PQ then ConvertHdrPQImageToBgra32(input) else SdrImageToBgra32(input)
  }

  /** Bitmaps already in a 128-bit float format are referenced directly; anything else is
      first converted to straight-alpha Rgba128Float. */
  function PqTransformInput(input: Bitmap): (r: TransformInput)
    ensures r.input == input
    ensures r.InputReference? <==> FormatOf(input) in {Rgba128FloatFormat, Prgba128FloatFormat}
  {
    var format := FormatOf(input);
    if format == Rgba128FloatFormat || format == Prgba128FloatFormat then InputReference(input)
    else ConvertedToRgba128Float(input)
  }

  /** ConvertHdrPQImageToBgra32 with PQToColorContext. */
  function ConvertHdrPQImageToBgra32(input: Bitmap): (r: Conversion)
    ensures r.PqColorTransform?
    ensures r.transformInput == PqTransformInput(input)
    ensures r.sourceSpace == RgbFullGamma2084NoneP2020 && r.destination == DisplayP3
    ensures r.imageAlpha == StraightAlpha && r.effectAlpha == StraightAlpha
    ensures r.colorSpaceConversionDisabled && r.target == Pbgra32Format
  {
    PqColorTransform(PqTransformInput(input), RgbFullGamma2084NoneP2020, DisplayP3,
                     StraightAlpha, StraightAlpha, true, Pbgra32Format)
  }

  /** The resource steps of the PQ path.  `transformFailure` is the exception the
      colour transform or the pixel copy throws, if any. */
  datatype PqStep = AcquireInput(input: TransformInput) | RunTransform | CopyToSurface | ReleaseInput

  /** The steps taken by the PQ path and its outcome: the `finally` block releases the
      acquired input whether or not the transform throws. */
  function PqSteps(input: Bitmap, transformFailure: Option<Exception>): (r: (seq<PqStep>, Result<Conversion>))
    ensures |r.0| >= 2 && r.0[0] == AcquireInput(PqTransformInput(input)) && r.0[|r.0| - 1] == ReleaseInput
    ensures forall i :: 0 <= i < |r.0| - 1 ==> r.0[i] != ReleaseInput
    ensures r.1.Throw? <==> transformFailure.Some?
    ensures transformFailure.Some? ==> r.1.error == transformFailure.value && CopyToSurface !in r.0
    ensures transformFailure.None? ==> r.1 == Ok(ConvertHdrPQImageToBgra32(input)) && CopyToSurface in r.0
  {
    var acquire := AcquireInput(PqTransformInput(input));
    match transformFailure
    case Some(e) => ([acquire, RunTransform, ReleaseInput], Throw(e))
    case None => ([acquire, RunTransform, CopyToSurface, ReleaseInput], Ok(ConvertHdrPQImageToBgra32(input)))
  }
}

=== FILE: ifd_entry.dfy ===
/** IFDEntry: one 12-byte directory entry of a TIFF image file directory (section 2 of
    TIFF Revision 6.0): a 2-byte tag, a 2-byte field type, a 4-byte value count and a
    4-byte value offset (or the value itself when it fits). */
module IFDEntries {
  import opened Ints
  import opened Errors
  import opened EndianBinaryReader

  const SizeOf: nat := 12

  /** The field type is kept as its raw 16-bit code, so a code no TIFF revision defines
      survives a read and a write unchanged. */
  datatype IFDEntry = IFDEntry(tag: u16, dataType: u16, count: u32, offset: u32)

  /** The error the four reads of an entry stop at: the dispose check of the first read,
      the byte order of the first read, or the end of the stream at some read. */
  function EntryReadError(r: Reader): Exception {
    if !r.open then ObjectDisposed
    else if r.endianess.UnknownByteOrder? && Pos(r) + 2 <= |Data(r)| then InvalidOperation
    else EndOfStream
  }

  /** The constructor taking a reader: tag, type, count and offset, in that order. */
  function ReadEntry(r: Reader): (res: Result<(IFDEntry, Reader)>)
    requires Valid(r)
    ensures res.Ok? <==> CanRead(r, SizeOf)
    ensures res.Throw? ==> res.error == EntryReadError(r)
    ensures res.Ok? ==> var e, r', d, p := res.value.0, res.value.1, Data(r), Pos(r);
      && Advanced(r, r', SizeOf)
      && e.tag == Decode(r.endianess, d[p..p + 2])
      && e.dataType == Decode(r.endianess, d[p + 2..p + 4])
      && e.count == Decode(r.endianess, d[p + 4..p + 8])
      && e.offset == Decode(r.endianess, d[p + 8..p + 12])
  {
    var tag :- ReadUInt16(r);
    var dataType :- ReadUInt16(tag.1);
    var count :- ReadUInt32(dataType.1);
    var offset :- ReadUInt32(count.1);
    Ok((IFDEntry(tag.0, dataType.0, count.0, offset.0), offset.1))
  }

  /** The `n` low bytes of `v`, least significant first, as BinaryWriter emits them. */
  function ToLittleEndian(v: nat, n: nat): (bs: seq<byte>)
    ensures |bs| == n
    ensures v < Pow2(8 * n) ==> LittleEndian(bs) == v
  {
    if n == 0 then []
    else
      Pow2Add8(8 * (n - 1));
      [v % 0x100] + ToLittleEndian(v / 0x100, n - 1)
  }

  /** `Write`: the four fields in reading order; BinaryWriter is always little endian. */
  function Write(e: IFDEntry): (bs: seq<byte>)
    ensures |bs| == SizeOf
    ensures LittleEndian(bs[0..2]) == e.tag && LittleEndian(bs[2..4]) == e.dataType
    ensures LittleEndian(bs[4..8]) == e.count && LittleEndian(bs[8..12]) == e.offset
  {
    Pow2Is32();
    var t, d, c, o := ToLittleEndian(e.tag, 2), ToLittleEndian(e.dataType, 2),
                      ToLittleEndian(e.count, 4), ToLittleEndian(e.offset, 4);
    assert (t + d + c + o)[0..2] == t && (t + d + c + o)[2..4] == d;
    assert (t + d + c + o)[4..8] == c && (t + d + c + o)[8..12] == o;
    t + d + c + o
  }

  /** Reading back what `Write` emitted, with a little-endian reader, gives the same entry,
      whatever its type code. */
  lemma ReadWrittenEntry(r: Reader, e: IFDEntry)
    requires Valid(r) && r.open && r.endianess == Little
    requires 0 <= Pos(r) && Pos(r) + SizeOf <= |Data(r)|
    requires Data(r)[Pos(r)..Pos(r) + SizeOf] == Write(e)
    ensures ReadEntry(r).Ok? && ReadEntry(r).value.0 == e
    ensures Advanced(r, ReadEntry(r).value.1, SizeOf)
  {
    WrittenFields(Data(r), Pos(r), e);
  }

  /** The four little-endian fields of a written entry, found where it was written. */
  lemma WrittenFields(d: seq<byte>, p: nat, e: IFDEntry)
    requires p + SizeOf <= |d| && d[p..p + SizeOf] == Write(e)
    ensures LittleEndian(d[p..p + 2]) == e.tag && LittleEndian(d[p + 2..p + 4]) == e.dataType
    ensures LittleEndian(d[p + 4..p + 8]) == e.count && LittleEndian(d[p + 8..p + 12]) == e.offset
  {
    var w := Write(e);
    SliceOfSlice(d, p, w, 0, 2);
    SliceOfSlice(d, p, w, 2, 4);
    SliceOfSlice(d, p, w, 4, 8);
    SliceOfSlice(d, p, w, 8, 12);
  }

  lemma SliceOfSlice(d: seq<byte>, p: nat, w: seq<byte>, i: nat, j: nat)
    requires p + |w| <= |d| && d[p..p + |w|] == w && i <= j <= |w|
    ensures d[p + i..p + j] == w[i..j]
  {
    forall k | 0 <= k < j - i
      ensures d[p + i..p + j][k] == w[i..j][k]
    {
      assert d[p + i + k] == d[p..p + |w|][i + k];
    }
  }

  /** `Equals`: all four fields agree. */
  predicate Equals(a: IFDEntry, b: IFDEntry) {
    a.tag == b.tag && a.dataType == b.dataType && a.count == b.count && a.offset == b.offset
  }

  /** `operator !=`, defined as the negation of `==`, which is `Equals`. */
  predicate NotEquals(a: IFDEntry, b: IFDEntry) { !Equals(a, b) }

  lemma EqualsIsValueEquality(a: IFDEntry, b: IFDEntry)
    ensures Equals(a, b) <==> a == b
    ensures NotEquals(a, b) <==> a != b
  {
  }

  /** One step `unchecked(hash * -1521134295 + x)` of the generated hash combiner. The
      product and the sum are each wrapped to 32 bits in C#; wrapping once at the end
      leaves the same low 32 bits. */
  function HashStep(hash: int, x: int): (r: int)
    ensures IsInt32(r) && ModEq(r, hash * -1521134295 + x, 0x1_0000_0000)
  {
    WrapInt32(hash * -1521134295 + x)
  }

  /** `GetHashCode`: tag, count, type and offset combined in that order. A `ushort` and a
      `ushort`-based enum hash to their value, a `uint` to its bits read as `int`. */
  function HashCode(e: IFDEntry): (r: int)
    ensures IsInt32(r)
  {
    var h := HashStep(1198491158, e.tag);
    var h := HashStep(h, ToInt32(e.count));
    var h := HashStep(h, e.dataType);
    HashStep(h, ToInt32(e.offset))
  }

  lemma EqualEntriesHashEqually(a: IFDEntry, b: IFDEntry)
    requires Equals(a, b)
    ensures HashCode(a) == HashCode(b)
  {
  }
}

=== FILE: ints.dfy ===
/** Fixed-width integers of the C# and C++ sources, modelled on unbounded `int`. */
module Ints {

  type byte = x: int | 0 <= x < 0x100
  type u16 = x: int | 0 <= x < 0x1_0000
  type u32 = x: int | 0 <= x < 0x1_0000_0000
  type u64 = x: int | 0 <= x < 0x1_0000_0000_0000_0000

  const INT32_MIN: int := -0x8000_0000
  const INT32_MAX: int := 0x7fff_ffff

  predicate IsInt32(x: int) { INT32_MIN <= x <= INT32_MAX }

  /** `a` and `b` have the same low bits: they agree modulo `m`. */
  predicate ModEq(a: int, b: int, m: int)
    requires m > 0
  {
    (a - b) % m == 0
  }

  /** Two's-complement wrap-around of C# `unchecked` int arithmetic. */
  function WrapInt32(x: int): (r: int)
    ensures IsInt32(r)
    ensures ModEq(r, x, 0x1_0000_0000)
    ensures IsInt32(x) ==> r == x
  {
    var m := (x - INT32_MIN) % 0x1_0000_0000;
    m + INT32_MIN
  }

  /** Reinterprets a 16-bit pattern as `short`, as the `(short)` cast does. */
  function ToInt16(x: u16): (r: int)
    ensures -0x8000 <= r < 0x8000
    ensures ModEq(r, x, 0x1_0000)
  {
    if x < 0x8000 then x else x - 0x1_0000
  }

  /** Reinterprets a 32-bit pattern as `int`, as an unchecked `(int)` cast of a `uint` does. */
  function ToInt32(x: u32): (r: int)
    ensures IsInt32(r)
    ensures ModEq(r, x, 0x1_0000_0000)
  {
    if x < 0x8000_0000 then x else x - 0x1_0000_0000
  }

  /** Reinterprets a 64-bit pattern as `long`, as an unchecked `(long)` cast of a `ulong` does. */
  function ToInt64(x: u64): (r: int)
    ensures -0x8000_0000_0000_0000 <= r < 0x8000_0000_0000_0000
    ensures ModEq(r, x, 0x1_0000_0000_0000_0000)
  {
    if x < 0x8000_0000_0000_0000 then x else x - 0x1_0000_0000_0000_0000
  }

  function Min(a: int, b: int): int { if a <= b then a else b }

  function Pow2(n: nat): (r: nat)
    ensures r >= 1
  {
    if n == 0 then 1 else 2 * Pow2(n - 1)
  }

  /** Bitwise AND of two non-negative integers, bit by bit from the low end. */
  function BitAnd(a: nat, b: nat): (r: nat)
    decreases a
  {
    if a == 0 || b == 0 then 0
    else 2 * BitAnd(a / 2, b / 2) + (if a % 2 == 1 && b % 2 == 1 then 1 else 0)
  }

  /** Masking with `2^n - 1` keeps exactly the low `n` bits. */
  lemma {:induction false} BitAndLowMask(a: nat, n: nat)
    ensures BitAnd(a, Pow2(n) - 1) == a % Pow2(n)
  {
    if n == 0 {
    } else if a == 0 {
    } else {
      var m := Pow2(n) - 1;
      assert m >= 1;
      assert m / 2 == Pow2(n - 1) - 1;
      assert m % 2 == 1;
      BitAndLowMask(a / 2, n - 1);
      DivModPow2(a, n);
    }
  }

  lemma DivModPow2(a: nat, n: nat)
    requires n >= 1
    ensures a % Pow2(n) == 2 * ((a / 2) % Pow2(n - 1)) + a % 2
  {
    var p := Pow2(n - 1);
    var q := (a / 2) / p;
    assert a / 2 == q * p + (a / 2) % p;
    assert a == 2 * (a / 2) + a % 2;
    assert a == q * (2 * p) + (2 * ((a / 2) % p) + a % 2);
    assert 0 <= 2 * ((a / 2) % p) + a % 2 < 2 * p;
    LemmaModUnique(a, 2 * p, q, 2 * ((a / 2) % p) + a % 2);
  }

  lemma LemmaModUnique(a: int, d: int, q: int, r: int)
    requires d > 0 && 0 <= r < d && a == q * d + r
    ensures a % d == r
  {
    var q', r' := a / d, a % d;
    assert a == q' * d + r';
    assert (q - q') * d == r' - r;
    if q - q' >= 1 {
      MulAtLeast(q - q', d);
    } else if q - q' <= -1 {
      MulAtLeast(q' - q, d);
    }
  }

  lemma MulAtLeast(x: int, d: int)
    requires x >= 1 && d > 0
    ensures x * d >= d
  {
  }
}

=== FILE: metadata.dfy ===
/** The EXIF metadata the plug-in carries between the HEIF file and the document:
    keys (MetadataKey.cs), entries (MetadataEntry.cs), the entry collection
    (ExifValueCollection.cs) and the set of image-section tags it writes (ExifTagHelper.cs). */
module MetadataKeys {
  import opened Ints
  import opened Errors

  /** The IFD a tag belongs to. The enumeration's declaration is not part of this model;
      the four named members are numbered 0 to 3 in declaration order, and `OtherSection`
      stands for any other value the enumeration type can hold. */
  datatype MetadataSection = Image | Exif | Gps | Interop | OtherSection(code: int)

  function SectionCode(s: MetadataSection): int {
    match s
    case Image => 0
    case Exif => 1
    case Gps => 2
    case Interop => 3
    case OtherSection(c) => c
  }

  datatype MetadataKey = MetadataKey(section: MetadataSection, tagId: u16)

  /** `Equals(MetadataKey)`: section and tag id agree. */
  predicate Equals(a: MetadataKey, b: MetadataKey) {
    a.section == b.section && a.tagId == b.tagId
  }

  /** `Equals(object)`: `None` is any object that is not a MetadataKey, null included. */
  predicate EqualsObject(a: MetadataKey, obj: Option<MetadataKey>) {
    obj.Some? && Equals(a, obj.value)
  }

  /** `operator ==` and `operator !=`. */
  predicate OpEquals(a: MetadataKey, b: MetadataKey) { Equals(a, b) }

  predicate OpNotEquals(a: MetadataKey, b: MetadataKey) { !OpEquals(a, b) }

  lemma KeyEqualityIsValueEquality(a: MetadataKey, b: MetadataKey)
    ensures Equals(a, b) <==> a == b
    ensures OpEquals(a, b) <==> Equals(a, b)
    ensures OpNotEquals(a, b) <==> !Equals(a, b)
    ensures EqualsObject(a, Some(b)) <==> Equals(a, b)
    ensures !EqualsObject(a, None)
  {
  }

  /** `GetHashCode`: the section's numeric value, then the tag id, through the generated
      combiner; the arithmetic is unchecked 32-bit. */
  function HashCode(k: MetadataKey): (r: int)
    ensures IsInt32(r)
  {
    var h := WrapInt32(-2103575766 * -1521134295 + SectionCode(k.section));
    WrapInt32(h * -1521134295 + k.tagId)
  }

  lemma EqualKeysHashEqually(a: MetadataKey, b: MetadataKey)
    requires Equals(a, b)
    ensures HashCode(a) == HashCode(b)
  {
  }
}

module MetadataEntries {
  import opened Ints
  import opened Errors
  import opened MetadataKeys

  /** An entry: its key, its raw TIFF field-type code and its value bytes. The stored bytes
      are an immutable value, which is what the defensive copies in the constructor and in
      `GetData` secure. */
  datatype MetadataEntry = MetadataEntry(section: MetadataSection, tagId: u16, dataType: u16, data: seq<byte>)

  function KeyOf(e: MetadataEntry): MetadataKey { MetadataKey(e.section, e.tagId) }

  /** The constructor: null data (`None`) throws ArgumentNullException. */
  function NewEntry(section: MetadataSection, tagId: u16, dataType: u16, data: Option<seq<byte>>): (r: Result<MetadataEntry>)
    ensures data.None? <==> r == Throw(ArgumentNull)
    ensures r.Ok? ==>
      r.value.section == section && r.value.tagId == tagId && r.value.dataType == dataType && r.value.data == data.value
  {
    if data.None? then Throw(ArgumentNull) else Ok(MetadataEntry(section, tagId, dataType, data.value))
  }

  /** The constructor taking a key. */
  function NewEntryFromKey(key: MetadataKey, dataType: u16, data: Option<seq<byte>>): (r: Result<MetadataEntry>)
    ensures data.None? <==> r == Throw(ArgumentNull)
    ensures r.Ok? ==> KeyOf(r.value) == key && r.value.dataType == dataType && r.value.data == data.value
  {
    NewEntry(key.section, key.tagId, dataType, data)
  }

  /** `GetData` returns the stored bytes and `LengthInBytes` their number. */
  function GetData(e: MetadataEntry): seq<byte> { e.data }

  function LengthInBytes(e: MetadataEntry): (n: nat)
    ensures n == |GetData(e)|
  {
    |e.data|
  }

  /** `Equals(MetadataEntry)`: false for null, otherwise section and tag id agree; the type
      and the bytes are not compared. */
  predicate Equals(a: MetadataEntry, other: Option<MetadataEntry>) {
    other.Some? && a.section == other.value.section && a.tagId == other.value.tagId
  }

  /** `operator ==`, through EqualityComparer.Default: two nulls are equal, a null and an
      entry are not, and two entries compare with `Equals`. */
  predicate OpEquals(a: Option<MetadataEntry>, b: Option<MetadataEntry>) {
    if a.None? then b.None? else Equals(a.value, b)
  }

  lemma EntryEqualityIsKeyEquality(a: MetadataEntry, b: MetadataEntry)
    ensures Equals(a, Some(b)) <==> KeyOf(a) == KeyOf(b)
    ensures !Equals(a, None)
    ensures OpEquals(Some(a), Some(b)) <==> Equals(a, Some(b))
    ensures OpEquals(None, None) && !OpEquals(Some(a), None) && !OpEquals(None, Some(a))
  {
  }

  /** Equal entries may still differ in type and data. */
  lemma EqualityIgnoresTypeAndData(a: MetadataEntry, t: u16, d: seq<byte>)
    ensures Equals(a, Some(MetadataEntry(a.section, a.tagId, t, d)))
  {
  }

  /** `GetHashCode`: the same combiner and seed as the key's. */
  function HashCode(e: MetadataEntry): (r: int)
    ensures r == MetadataKeys.HashCode(KeyOf(e))
  {
    var h := WrapInt32(-2103575766 * -1521134295 + SectionCode(e.section));
    WrapInt32(h * -1521134295 + e.tagId)
  }

  lemma EqualEntriesHashEqually(a: MetadataEntry, b: MetadataEntry)
    requires Equals(a, Some(b))
    ensures HashCode(a) == HashCode(b)
  {
  }

  /** Paint.NET's EXIF sections; `OtherExifSection` stands for members the plug-in never maps. */
  datatype ExifSection = Image | Photo | Interop | GpsInfo | OtherExifSection(code: int)

  datatype ExifValue = ExifValue(valueType: u16, data: seq<byte>)

  datatype ExifPropertyItem = ExifPropertyItem(section: ExifSection, tagId: u16, value: ExifValue)

  /** The section switch of `CreateExifPropertyItem`. */
  function ToExifSection(s: MetadataSection): (r: Result<ExifSection>)
    ensures s.OtherSection? <==> r == Throw(InvalidOperation)
    ensures s == MetadataSection.Image <==> r == Ok(ExifSection.Image)
    ensures s == MetadataSection.Exif <==> r == Ok(Photo)
    ensures s == MetadataSection.Gps <==> r == Ok(GpsInfo)
    ensures s == MetadataSection.Interop <==> r == Ok(ExifSection.Interop)
  {
    match s
    case Image => Ok(ExifSection.Image)
    case Exif => Ok(Photo)
    case Gps => Ok(GpsInfo)
    case Interop => Ok(ExifSection.Interop)
    case OtherSection(_) => Throw(InvalidOperation)
  }

  /** `CreateExifPropertyItem`: the mapped section, the same tag id, and the type code and
      bytes carried over unchanged. */
  function CreateExifPropertyItem(e: MetadataEntry): (r: Result<ExifPropertyItem>)
    ensures r.Ok? <==> !e.section.OtherSection?
    ensures r.Throw? ==> r.error == InvalidOperation
    ensures r.Ok? ==>
      Ok(r.value.section) == ToExifSection(e.section) && r.value.tagId == e.tagId && r.value.value == ExifValue(e.dataType, e.data)
  {
    var section :- ToExifSection(e.section);
    Ok(ExifPropertyItem(section, e.tagId, ExifValue(e.dataType, e.data)))
  }
}

module ExifValueCollections {
  import opened Errors
  import opened MetadataKeys
  import opened MetadataEntries

  /** The predicate `Find` and `RemoveAll` are given. */
  predicate Matches(e: MetadataEntry, key: MetadataKey) {
    e.section == key.section && e.tagId == key.tagId
  }

  function CountMatching(items: seq<MetadataEntry>, key: MetadataKey): (n: nat)
    ensures n <= |items|
  {
    if |items| == 0 then 0 else (if Matches(items[0], key) then 1 else 0) + CountMatching(items[1..], key)
  }

  predicate Contains(items: seq<MetadataEntry>, key: MetadataKey) {
    exists i :: 0 <= i < |items| && Matches(items[i], key)
  }

  /** The constructor: a null list throws, any list is taken as it is. */
  function NewCollection(items: Option<seq<MetadataEntry>>): (r: Result<seq<MetadataEntry>>)
    ensures items.None? <==> r == Throw(ArgumentNull)
    ensures r.Ok? ==> r.value == items.value && |r.value| == |items.value|
  {
    if items.None? then Throw(ArgumentNull) else Ok(items.value)
  }

  /** `List.RemoveAll` with the key predicate: the entries that do not match, in order. */
  function RemoveAll(items: seq<MetadataEntry>, key: MetadataKey): (r: seq<MetadataEntry>)
    ensures |r| + CountMatching(items, key) == |items|
    ensures forall e :: e in r <==> e in items && !Matches(e, key)
    ensures !Contains(r, key)
  {
    if |items| == 0 then []
    else if Matches(items[0], key) then RemoveAll(items[1..], key)
    else [items[0]] + RemoveAll(items[1..], key)
  }

  /** `Remove`: `Find` the first match, and only when there is one, `RemoveAll`. */
  function Remove(items: seq<MetadataEntry>, key: MetadataKey): (r: seq<MetadataEntry>)
    ensures !Contains(r, key)
    ensures |r| == |items| - CountMatching(items, key)
    ensures forall e :: e in r <==> e in items && !Matches(e, key)
    ensures !Contains(items, key) ==> r == items
  {
    if Contains(items, key) then RemoveAll(items, key)
    else
      NoMatchCountsZero(items, key);
      items
  }

  lemma {:induction false} NoMatchCountsZero(items: seq<MetadataEntry>, key: MetadataKey)
    requires !Contains(items, key)
    ensures CountMatching(items, key) == 0
  {
    if |items| > 0 {
      assert !Matches(items[0], key);
      assert !Contains(items[1..], key) by {
        forall i | 0 <= i < |items| - 1 ensures !Matches(items[1..][i], key) {
          assert items[1..][i] == items[i + 1];
        }
      }
      NoMatchCountsZero(items[1..], key);
    }
  }

  /** One step of RemoveAll on a list with a known first entry. */
  lemma RemoveAllCons(x: MetadataEntry, rest: seq<MetadataEntry>, key: MetadataKey)
    ensures RemoveAll([x] + rest, key) == if Matches(x, key) then RemoveAll(rest, key) else [x] + RemoveAll(rest, key)
  {
    assert ([x] + rest)[0] == x;
    assert ([x] + rest)[1..] == rest;
  }

  /** Order is kept: removing from a concatenation removes from each part. */
  lemma {:induction false} RemoveAllSplits(a: seq<MetadataEntry>, b: seq<MetadataEntry>, key: MetadataKey)
    ensures RemoveAll(a + b, key) == RemoveAll(a, key) + RemoveAll(b, key)
  {
    if |a| == 0 {
      assert a + b == b;
    } else {
      var x, tail := a[0], a[1..];
      var left, right := RemoveAll(tail, key), RemoveAll(b, key);
      assert a == [x] + tail;
      assert a + b == [x] + (tail + b);
      assert [x] + (left + right) == ([x] + left) + right;
      calc {
        RemoveAll(a + b, key);
      == { RemoveAllCons(x, tail + b, key); }
        if Matches(x, key) then RemoveAll(tail + b, key) else [x] + RemoveAll(tail + b, key);
      == { RemoveAllSplits(tail, b, key); }
        if Matches(x, key) then left + right else [x] + (left + right);
      == { RemoveAllCons(x, tail, key); }
        RemoveAll(a, key) + right;
      }
    }
  }

  /** A list without a match is left as it is. */
  lemma {:induction false} RemoveAllWithoutMatch(items: seq<MetadataEntry>, key: MetadataKey)
    requires !Contains(items, key)
    ensures RemoveAll(items, key) == items
  {
    if |items| > 0 {
      assert !Matches(items[0], key);
      assert !Contains(items[1..], key) by {
        forall i | 0 <= i < |items| - 1 ensures !Matches(items[1..][i], key) {
          assert items[1..][i] == items[i + 1];
        }
      }
      RemoveAllWithoutMatch(items[1..], key);
      assert items == [items[0]] + items[1..];
      RemoveAllCons(items[0], items[1..], key);
    }
  }

  /** Removing twice is removing once, and `Remove` equals a plain `RemoveAll`. */
  lemma RemoveIsIdempotent(items: seq<MetadataEntry>, key: MetadataKey)
    ensures Remove(items, key) == RemoveAll(items, key)
    ensures Remove(Remove(items, key), key) == Remove(items, key)
  {
    if !Contains(items, key) {
      RemoveAllWithoutMatch(items, key);
    }
  }

  /** Removing a key leaves the entries of every other key where they were. */
  lemma RemoveKeepsOtherKeys(items: seq<MetadataEntry>, key: MetadataKey, other: MetadataKey)
    requires other != key
    ensures CountMatching(Remove(items, key), other) == CountMatching(items, other)
  {
    RemoveIsIdempotent(items, key);
    RemoveAllKeepsCount(items, key, other);
  }

  lemma {:induction false} RemoveAllKeepsCount(items: seq<MetadataEntry>, key: MetadataKey, other: MetadataKey)
    requires other != key
    ensures CountMatching(RemoveAll(items, key), other) == CountMatching(items, other)
  {
    if |items| > 0 {
      RemoveAllKeepsCount(items[1..], key, other);
      if !Matches(items[0], key) {
        var rest := RemoveAll(items[1..], key);
        assert ([items[0]] + rest)[1..] == rest;
      } else {
        assert !Matches(items[0], other);
      }
    }
  }

  /** `Count`, and the enumeration, which yields the list in its order. */
  function Count(items: seq<MetadataEntry>): nat { |items| }

  function Enumerate(items: seq<MetadataEntry>): (r: seq<MetadataEntry>)
    ensures |r| == Count(items) && forall i :: 0 <= i < |r| ==> r[i] == items[i]
  {
    items
  }
}

module ExifTagHelper {
  import opened Ints

  /** The groups of TIFF Image tags the writer's table is arranged in: the image data
      structure, the image data characteristics, and the other (descriptive) tags. The
      recording-offset group (strips and JPEG interchange format) is absent, because those
      offsets are recomputed when the blob is written. */
  const ImageStructureTags: set<int> := {256, 257, 258, 259, 262, 274, 277, 284, 530, 531, 282, 283, 296}
  const DataCharacteristicTags: set<int> := {301, 318, 319, 529, 532}
  const OtherImageTags: set<int> := {306, 270, 271, 272, 305, 315, 33432}

  /** The image-section (IFD0) tags the plug-in writes into an EXIF blob. Offset and IFD
      pointer tags are left out. */
  const WritableImageTags: set<int> := ImageStructureTags + DataCharacteristicTags + OtherImageTags

  predicate CanWriteImageSectionTag(tagId: u16) { tagId in WritableImageTags }

  /** Strip and JPEG offset tags are not written. */
  lemma OffsetTagsAreNotWritable()
    ensures !CanWriteImageSectionTag(273) && !CanWriteImageSectionTag(278) && !CanWriteImageSectionTag(279)
    ensures !CanWriteImageSectionTag(513) && !CanWriteImageSectionTag(514)
  {
  }

  /** IFD pointers (SubIFDs, Exif, GPS, Interoperability) are not written. */
  lemma PointerTagsAreNotWritable()
    ensures !CanWriteImageSectionTag(330) && !CanWriteImageSectionTag(34665)
    ensures !CanWriteImageSectionTag(34853) && !CanWriteImageSectionTag(40965)
  {
  }

  /** Orientation and Copyright are written. */
  lemma OrientationAndCopyrightAreWritable()
    ensures CanWriteImageSectionTag(274) && CanWriteImageSectionTag(33432)
  {
  }
}

=== FILE: monochrome_image_decoder.dfy ===
/** MonochromeImageDecoder: copies a monochrome image (a Y plane and an optional alpha
    plane) into the surface, repeating the gray sample in red, green and blue. */
module MonochromeImageDecoder {
  import opened Ints
  import opened Errors
  import opened BitDepthExpansion
  import opened HeifImages
  import opened HighBitDepthConversion
  import opened SurfaceOutput

  function RequiredChannels(img: HeifImage): set<HeifChannel> {
    if img.hasAlpha then {Y, Alpha} else {Y}
  }

  predicate Ready(img: HeifImage) {
    WellFormed(img) && HasChannels(img, RequiredChannels(img))
  }

  /** SetImageDataGray8: gray in B, G and R, fully opaque. */
  function Gray8(img: HeifImage): (r: Result<Surface>)
    requires WellFormed(img) && img.bitDepth == 8
    ensures r.Ok? <==> Y in img.planes
    ensures r.Throw? ==> r.error == FormatError(MissingPlane)
    ensures r.Ok? ==> IsGrid(r.value, img.width, img.height)
    ensures r.Ok? ==> var yp := img.planes[Y];
      forall y, x :: 0 <= y < img.height && 0 <= x < img.width ==>
        r.value[y][x].r == r.value[y][x].g == r.value[y][x].b == yp[y][x] && r.value[y][x].a == 255
  {
    var yp :- GetChannel(img, Y);
    PlanarRows(img, Y);
    Ok(seq(img.height, y requires 0 <= y < img.height =>
      seq(img.width, x requires 0 <= x < img.width =>
        var gray := yp[y][x];
        Bgra(gray, gray, gray, 255))))
  }

  /** SetImageDataGrayAlpha8: gray in B, G and R, alpha from the alpha plane. */
  function GrayAlpha8(img: HeifImage): (r: Result<Surface>)
    requires WellFormed(img) && img.bitDepth == 8
    ensures r.Ok? <==> Y in img.planes && Alpha in img.planes
    ensures r.Throw? ==> r.error == FormatError(MissingPlane)
    ensures r.Ok? ==> IsGrid(r.value, img.width, img.height)
    ensures r.Ok? ==> var yp, ap := img.planes[Y], img.planes[Alpha];
      forall y, x :: 0 <= y < img.height && 0 <= x < img.width ==>
        r.value[y][x].r == r.value[y][x].g == r.value[y][x].b == yp[y][x] && r.value[y][x].a == ap[y][x]
  {
    var yp :- GetChannel(img, Y);
    var ap :- GetChannel(img, Alpha);
    PlanarRows(img, Y);
    PlanarRows(img, Alpha);
    Ok(seq(img.height, y requires 0 <= y < img.height =>
      seq(img.width, x requires 0 <= x < img.width =>
        var gray := yp[y][x];
        Bgra(gray, gray, gray, ap[y][x]))))
  }

  /** SetImageDataGray16: one SDR expansion per pixel, repeated in R, G and B. */
  function Gray16(img: HeifImage): (r: Result<seq<seq<Rgb16>>>)
    requires WellFormed(img)
    ensures r.Ok? <==> IsHighBitDepth(img.bitDepth) && Y in img.planes
    ensures !IsHighBitDepth(img.bitDepth) ==> r == Throw(FormatError(UnsupportedBitDepth(img.bitDepth)))
    ensures IsHighBitDepth(img.bitDepth) && r.Throw? ==> r.error == FormatError(MissingPlane)
    ensures r.Ok? ==> IsGrid(r.value, img.width, img.height)
    ensures r.Ok? ==> var yp, m := img.planes[Y], MaxSample(img.bitDepth);
      forall y, x :: 0 <= y < img.height && 0 <= x < img.width ==>
        r.value[y][x].r == r.value[y][x].g == r.value[y][x].b == SdrScale(yp[y][x], m)
  {
    var t :- NewSdrTable(img.bitDepth);
    var yp :- GetChannel(img, Y);
    PlanarRows(img, Y);
    Ok(seq(img.height, y requires 0 <= y < img.height =>
      seq(img.width, x requires 0 <= x < img.width =>
        var gray := SdrExpand(t, yp[y][x]);
        Rgb16(gray, gray, gray))))
  }

  /** SetImageDataGrayAlpha16: the alpha plane is widened by the same SDR table. */
  function GrayAlpha16(img: HeifImage): (r: Result<seq<seq<Rgba16>>>)
    requires WellFormed(img)
    ensures r.Ok? <==> IsHighBitDepth(img.bitDepth) && Y in img.planes && Alpha in img.planes
    ensures !IsHighBitDepth(img.bitDepth) ==> r == Throw(FormatError(UnsupportedBitDepth(img.bitDepth)))
    ensures IsHighBitDepth(img.bitDepth) && r.Throw? ==> r.error == FormatError(MissingPlane)
    ensures r.Ok? ==> IsGrid(r.value, img.width, img.height)
    ensures r.Ok? ==> var yp, ap, m := img.planes[Y], img.planes[Alpha], MaxSample(img.bitDepth);
      forall y, x :: 0 <= y < img.height && 0 <= x < img.width ==>
        r.value[y][x].r == r.value[y][x].g == r.value[y][x].b == SdrScale(yp[y][x], m)
        && r.value[y][x].a == SdrScale(ap[y][x], m)
  {
    var t :- NewSdrTable(img.bitDepth);
    var yp :- GetChannel(img, Y);
    var ap :- GetChannel(img, Alpha);
    PlanarRows(img, Y);
    PlanarRows(img, Alpha);
    Ok(seq(img.height, y requires 0 <= y < img.height =>
      seq(img.width, x requires 0 <= x < img.width =>
        var gray := SdrExpand(t, yp[y][x]);
        Rgba16(gray, gray, gray, SdrExpand(t, ap[y][x])))))
  }

  /** SetImageDataGray32: one HDR expansion per pixel, repeated in R, G and B. */
  function Gray32(img: HeifImage): (r: Result<seq<seq<RgbF>>>)
    requires WellFormed(img)
    ensures r.Ok? <==> IsHighBitDepth(img.bitDepth) && Y in img.planes
    ensures !IsHighBitDepth(img.bitDepth) ==> r == Throw(FormatError(UnsupportedBitDepth(img.bitDepth)))
    ensures IsHighBitDepth(img.bitDepth) && r.Throw? ==> r.error == FormatError(MissingPlane)
    ensures r.Ok? ==> IsGrid(r.value, img.width, img.height)
    ensures r.Ok? ==> var yp, m := img.planes[Y], MaxSample(img.bitDepth);
      forall y, x :: 0 <= y < img.height && 0 <= x < img.width ==>
        r.value[y][x].r == r.value[y][x].g == r.value[y][x].b == HdrScale(yp[y][x], m)
  {
    var t :- NewHdrTable(img.bitDepth);
    var yp :- GetChannel(img, Y);
    PlanarRows(img, Y);
    Ok(seq(img.height, y requires 0 <= y < img.height =>
      seq(img.width, x requires 0 <= x < img.width =>
        var gray := HdrExpand(t, yp[y][x]);
        RgbF(gray, gray, gray))))
  }

  /** SetImageDataGrayAlpha32. */
  function GrayAlpha32(img: HeifImage): (r: Result<seq<seq<RgbaF>>>)
    requires WellFormed(img)
    ensures r.Ok? <==> IsHighBitDepth(img.bitDepth) && Y in img.planes && Alpha in img.planes
    ensures !IsHighBitDepth(img.bitDepth) ==> r == Throw(FormatError(UnsupportedBitDepth(img.bitDepth)))
    ensures IsHighBitDepth(img.bitDepth) && r.Throw? ==> r.error == FormatError(MissingPlane)
    ensures r.Ok? ==> IsGrid(r.value, img.width, img.height)
    ensures r.Ok? ==> var yp, ap, m := img.planes[Y], img.planes[Alpha], MaxSample(img.bitDepth);
      forall y, x :: 0 <= y < img.height && 0 <= x < img.width ==>
        r.value[y][x].r == r.value[y][x].g == r.value[y][x].b == HdrScale(yp[y][x], m)
        && r.value[y][x].a == HdrScale(ap[y][x], m)
  {
    var t :- NewHdrTable(img.bitDepth);
    var yp :- GetChannel(img, Y);
    var ap :- GetChannel(img, Alpha);
    PlanarRows(img, Y);
    PlanarRows(img, Alpha);
    Ok(seq(img.height, y requires 0 <= y < img.height =>
      seq(img.width, x requires 0 <= x < img.width =>
        var gray := HdrExpand(t, yp[y][x]);
        RgbaF(gray, gray, gray, HdrExpand(t, ap[y][x])))))
  }

  /** Only PQ selects the float path for monochrome images. */
  predicate UsesFloatPath(img: HeifImage) { img.hdrFormat == PQ }

  /** SetImageData. */
  function SetImageData(img: HeifImage): (r: Result<Decoded>)
    requires WellFormed(img)
    ensures r.Ok? <==> (img.bitDepth == 8 || (IsHighBitDepth(img.bitDepth) && img.hdrFailure.None?))
                       && HasChannels(img, RequiredChannels(img))
    ensures !(img.bitDepth == 8 || IsHighBitDepth(img.bitDepth)) ==>
              r == Throw(FormatError(UnsupportedBitDepth(img.bitDepth)))
    ensures IsHighBitDepth(img.bitDepth) && img.hdrFailure.Some? ==> r == Throw(img.hdrFailure.value)
    ensures r.Throw? && (img.bitDepth == 8 || (IsHighBitDepth(img.bitDepth) && img.hdrFailure.None?)) ==>
              r.error == FormatError(MissingPlane)
    ensures r.Ok? && img.bitDepth == 8 ==>
              r.value.unpremultiply == (img.hasAlpha && img.premultiplied)
              && r.value.rendering == Direct(if img.hasAlpha then GrayAlpha8(img).value else Gray8(img).value)
    ensures r.Ok? && IsHighBitDepth(img.bitDepth) ==>
              !r.value.unpremultiply && r.value.rendering.Converted?
              && var c := r.value.rendering.conversion;
                 var bm := ConvertedBitmap(c);
                 (if UsesFloatPath(img) then c == HdrImageToBgra32(bm, PQ) && c.PqColorTransform?
                  else c == SdrImageToBgra32(bm))
                 && bm.premultipliedView == (UsesFloatPath(img) && img.hasAlpha && img.premultiplied)
                 && bm.pixels == (if UsesFloatPath(img) then
                                    (if img.hasAlpha then Rgba128Float(GrayAlpha32(img).value) else Rgb96Float(Gray32(img).value))
                                  else
                                    (if img.hasAlpha then Rgba64(GrayAlpha16(img).value) else Rgb48(Gray16(img).value)))
  {
    if img.bitDepth == 8 then
      if img.hasAlpha then
        var s :- GrayAlpha8(img);
        Ok(Decoded(Direct(s), img.premultiplied))
      else
        var s :- Gray8(img);
        Ok(Decoded(Direct(s), false))
    else if !IsHighBitDepth(img.bitDepth) then
      Throw(FormatError(UnsupportedBitDepth(img.bitDepth)))
    // Only here is the HDRFormat property read.
    else if img.hdrFailure.Some? then Throw(img.hdrFailure.value)
    else if img.hdrFormat == PQ then
      if img.hasAlpha then
        var px :- GrayAlpha32(img);
        var temp := Bitmap(Rgba128Float(px), false);
        if img.premultiplied then
          var asPrgba := Bitmap(temp.pixels, true);
          Ok(Decoded(Converted(HdrImageToBgra32(asPrgba, img.hdrFormat)), false))
        else
          Ok(Decoded(Converted(HdrImageToBgra32(temp, img.hdrFormat)), false))
      else
        var px :- Gray32(img);
        Ok(Decoded(Converted(HdrImageToBgra32(Bitmap(Rgb96Float(px), false), img.hdrFormat)), false))
    else
      if img.hasAlpha then
        var px :- GrayAlpha16(img);
        var temp := Bitmap(Rgba64(px), false);
        // A premultiplied view is created, but `temp` is what gets converted.
        var asPrgba := Bitmap(temp.pixels, true);
        Ok(Decoded(Converted(SdrImageToBgra32(temp)), false))
      else
        var px :- Gray16(img);
        Ok(Decoded(Converted(SdrImageToBgra32(Bitmap(Rgb48(px), false))), false))
  }

  /** Unlike the RGB decoder, an HDR tag other than PQ takes the 16-bit SDR path: the
      image decodes exactly as if it had no HDR tag. */
  lemma NonPqHdrDecodesAsSdr(img: HeifImage, code: int)
    requires WellFormed(img)
    ensures SetImageData(img.(hdrFormat := UnrecognizedHdr(code))) == SetImageData(img.(hdrFormat := NoHdr))
  {
    var a, b := img.(hdrFormat := UnrecognizedHdr(code)), img.(hdrFormat := NoHdr);
    assert Gray16(a) == Gray16(b);
    assert GrayAlpha16(a) == GrayAlpha16(b);
    if img.bitDepth == 8 {
      assert Gray8(a) == Gray8(b);
      assert GrayAlpha8(a) == GrayAlpha8(b);
    }
  }

  /** Without PQ, the premultiplied flag of a high-bit-depth image has no effect. */
  lemma PremultipliedIgnoredWithoutPq(img: HeifImage)
    requires WellFormed(img) && IsHighBitDepth(img.bitDepth) && img.hdrFormat != PQ
    ensures SetImageData(img.(premultiplied := true)) == SetImageData(img.(premultiplied := false))
  {
    var a, b := img.(premultiplied := true), img.(premultiplied := false);
    assert GrayAlpha16(a) == GrayAlpha16(b);
    assert Gray16(a) == Gray16(b);
  }
}

=== FILE: native_types.dfy ===
/** What the native HeicFileTypePlusIO library shares with the managed plug-in: the status
    every native entry point returns, the option and metadata records of an encode, and
    the BGRA bitmap both sides exchange.  The libheif error codes the library inspects and
    the status-chaining rule all its operations follow are defined here as well. */
module NativeTypes {
  import opened Ints
  import opened HeifImages
  import Errors

  /** The native `Status`.  `UndefinedStatus` stands for any integer the managed side may
      receive that names no member; its switches send those to their `default` branch. */
  datatype Status =
    | Ok
    | NullParameter
    | InvalidParameter
    | OutOfMemory
    | InvalidFile
    | UnsupportedFeature
    | UnsupportedFormat
    | DecodeFailed
    | BufferTooSmall
    | ColorInformationError
    | NoMatchingMetadata
    | MetadataError
    | EncodeFailed
    | UnknownYUVFormat
    | WriteError
    | UserCanceled
    | UnknownError
    | UndefinedStatus(code: int)

  /** The `code` of a `heif_error`; only success and allocation failure are told apart. */
  datatype HeifError = NoHeifError | MemoryAllocationError | OtherHeifError(code: int)

  /** A C++ exception escaping a native call: `std::bad_alloc` or anything else. */
  datatype CppException = BadAlloc | OtherCppException

  /** The error switch of the libheif wrappers: no error is `Ok`, an allocation failure
      `OutOfMemory` and every other error the wrapper's own `failure` status. */
  function StatusOfError(e: HeifError, failure: Status): (s: Status)
    requires failure != Ok
    ensures s == Ok <==> e.NoHeifError?
    ensures e.MemoryAllocationError? ==> s == OutOfMemory
    ensures e.OtherHeifError? ==> s == failure
  {
    match e
    case NoHeifError => Ok
    case MemoryAllocationError => OutOfMemory
    case OtherHeifError(_) => failure
  }

  /** The rule every native operation follows: the calls run in order, each only when all
      earlier ones returned `Ok`, and the operation returns the status of the first call
      that did not.  `r.1` is the calls made, the failing one included. */
  function Run<C>(calls: seq<C>, outcome: C -> Status): (r: (Status, seq<C>))
    ensures r.1 <= calls
    ensures calls != [] ==> r.1 != []
  {
    if calls == [] then (Ok, [])
    else
      var s := outcome(calls[0]);
      if s != Ok then (s, [calls[0]])
      else
        var rest := Run(calls[1..], outcome);
        assert calls == [calls[0]] + calls[1..];
        (rest.0, [calls[0]] + rest.1)
  }

  /** What `Run` returns: `Ok` exactly when every call was made and succeeded; otherwise the
      status of the last call made, after calls that all succeeded. */
  lemma {:induction false} RunMeaning<C>(calls: seq<C>, outcome: C -> Status)
    ensures var r := Run(calls, outcome);
      r.0 == Ok <==> r.1 == calls && AllSucceed(calls, outcome)
    ensures var r := Run(calls, outcome);
      r.0 != Ok ==> r.1 != [] && outcome(r.1[|r.1| - 1]) == r.0 && AllSucceed(r.1[..|r.1| - 1], outcome)
  {
    if calls != [] && outcome(calls[0]) == Ok {
      var rest := Run(calls[1..], outcome);
      RunMeaning(calls[1..], outcome);
      assert calls == [calls[0]] + calls[1..];
      if rest.0 != Ok {
        var made := [calls[0]] + rest.1;
        assert made[..|made| - 1] == [calls[0]] + rest.1[..|rest.1| - 1];
      }
    }
  }

  /** Running two call sequences one after the other: the second runs only when the first
      succeeded throughout. */
  lemma {:induction false} RunConcat<C>(a: seq<C>, b: seq<C>, outcome: C -> Status)
    ensures Run(a + b, outcome) ==
      if Run(a, outcome).0 == Ok then (Run(b, outcome).0, a + Run(b, outcome).1) else Run(a, outcome)
  {
    if a == [] {
      assert a + b == b && a + Run(b, outcome).1 == Run(b, outcome).1;
    } else {
      var ab := a + b;
      assert ab[0] == a[0] && ab[1..] == a[1..] + b;
      if outcome(a[0]) == Ok {
        RunConcat(a[1..], b, outcome);
        var rest := Run(a[1..], outcome);
        assert Run(ab, outcome) == (Run(ab[1..], outcome).0, [a[0]] + Run(ab[1..], outcome).1);
        assert Run(a, outcome) == (rest.0, [a[0]] + rest.1);
        if rest.0 == Ok {
          assert [a[0]] + (a[1..] + Run(b, outcome).1) == a + Run(b, outcome).1;
        }
      }
    }
  }

  /** A run that fails stops at the first failing call: every call before it succeeded, and
      the run's status is that call's. */
  lemma {:induction false} RunFirstFailure<C>(calls: seq<C>, outcome: C -> Status)
    requires Run(calls, outcome).0 != Ok
    ensures exists i ::
      && 0 <= i < |calls| && outcome(calls[i]) == Run(calls, outcome).0
      && forall j :: 0 <= j < i ==> outcome(calls[j]) == Ok
  {
    if outcome(calls[0]) != Ok {
      assert 0 < |calls| && outcome(calls[0]) == Run(calls, outcome).0;
    } else {
      RunFirstFailure(calls[1..], outcome);
      var i :| 0 <= i < |calls[1..]| && outcome(calls[1..][i]) == Run(calls[1..], outcome).0 &&
        forall j :: 0 <= j < i ==> outcome(calls[1..][j]) == Ok;
      assert forall j :: 0 <= j < i + 1 ==> outcome(calls[j]) == Ok by {
        forall j | 0 <= j < i + 1 ensures outcome(calls[j]) == Ok {
          if j > 0 { assert calls[j] == calls[1..][j - 1]; }
        }
      }
      assert outcome(calls[i + 1]) == Run(calls, outcome).0;
    }
  }

  /** A single call: its own status. */
  lemma RunSingle<C>(c: C, outcome: C -> Status)
    ensures Run([c], outcome) == (outcome(c), [c])
  {
    assert [c][1..] == [] && [c] + [] == [c];
  }

  predicate AllSucceed<C>(calls: seq<C>, outcome: C -> Status) {
    forall i :: 0 <= i < |calls| ==> outcome(calls[i]) == Ok
  }

  /** EncoderPreset; `OtherPreset` stands for a value outside the enumeration. */
  datatype EncoderPreset =
    | UltraFast | SuperFast | VeryFast | Faster | Fast | Medium | Slow | Slower | VerySlow | Placebo
    | OtherPreset(code: int)

  /** EncoderTuning; `OtherTuning` stands for a value outside the enumeration. */
  datatype EncoderTuning = PSNR | SSIM | FilmGrain | FastDecode | OtherTuning(code: int)

  /** YUVChromaSubsampling.  The managed enumeration and the chroma conversion know
      `IdentityMatrix`; the enumeration in HeicFileTypePlusIO.h stops at `Subsampling444`.
      `OtherYuvFormat` stands for a value outside the enumeration. */
  datatype YUVChromaSubsampling =
    | Subsampling400 | Subsampling420 | Subsampling422 | Subsampling444 | IdentityMatrix
    | OtherYuvFormat(code: int)

  /** The encoder options of an encode; `yuvFormat` is the field the encoder reads
      beside the four HeicFileTypePlusIO.h declares. */
  datatype EncoderOptions = EncoderOptions(
    quality: int,
    preset: EncoderPreset,
    tuning: EncoderTuning,
    tuIntraDepth: int,
    yuvFormat: YUVChromaSubsampling)

  /** EncoderMetadata: each block is a pointer, `None` for null, with its size. */
  datatype EncoderMetadata = EncoderMetadata(
    iccProfile: Errors.Option<seq<byte>>,
    exif: Errors.Option<seq<byte>>,
    xmp: Errors.Option<seq<byte>>,
    iccProfileSize: int,
    exifSize: int,
    xmpSize: int)

  /** ColorProfileType of the primary image. */
  datatype NativeColorProfileType = NoProfile | CicpProfileType | IccProfileType

  /** PrimaryImageInfo, filled in when the primary image is fetched. */
  datatype PrimaryImageInfo = PrimaryImageInfo(
    width: int,
    height: int,
    colorProfileType: NativeColorProfileType,
    hasExif: bool,
    hasXmp: bool)

  /** BitmapData: the rows of a BGRA image, which the native side reads or writes in place. */
  datatype BitmapData = BitmapData(width: nat, height: nat, pixels: Surface)

  predicate ValidBitmap(bd: BitmapData) { IsGrid(bd.pixels, bd.width, bd.height) }

  /** An 8-bit libheif plane: one row of samples per image row. */
  type Plane8 = seq<seq<byte>>
}

=== FILE: rgb_image_decoder.dfy ===
/** RgbImageDecoder: copies an image decoded in the RGB colour space into the surface.
    A `Yuv444` chroma means the image came back as separate R, G, B (and alpha) planes;
    any other chroma means one interleaved plane. */
module RgbImageDecoder {
  import opened Ints
  import opened Errors
  import opened BitDepthExpansion
  import opened HeifImages
  import opened HighBitDepthConversion
  import opened SurfaceOutput

  predicate IsPlanar(img: HeifImage) { img.chroma == Yuv444 }

  /** The channels the decoder fetches for `img`. */
  function RequiredChannels(img: HeifImage): set<HeifChannel> {
    if IsPlanar(img) then (if img.hasAlpha then {R, G, B, Alpha} else {R, G, B})
    else {Interleaved}
  }

  /** Samples per pixel of the interleaved plane. */
  function Stride(img: HeifImage): nat { if img.hasAlpha then 4 else 3 }

  /** Sample `ch` (0 red, 1 green, 2 blue, 3 alpha) of pixel (x, y), wherever the layout
      keeps it. */
  function Sample(img: HeifImage, ch: nat, x: nat, y: nat): u16
    requires WellFormed(img) && HasChannels(img, RequiredChannels(img))
    requires ch < Stride(img) && x < img.width && y < img.height
  {
    if IsPlanar(img) then
      var c := if ch == 0 then R else if ch == 1 then G else if ch == 2 then B else Alpha;
      PlanarRows(img, c);
      img.planes[c][y][x]
    else
      InterleavedRows(img);
      img.planes[Interleaved][y][Stride(img) * x + ch]
  }

  predicate Ready(img: HeifImage) {
    WellFormed(img) && HasChannels(img, RequiredChannels(img))
  }

  /** The surface holds the image's red, green and blue samples and is opaque. */
  predicate OpaqueSurfaceOf(img: HeifImage, s: Surface)
    requires Ready(img)
  {
    IsGrid(s, img.width, img.height)
    && forall y, x :: 0 <= y < img.height && 0 <= x < img.width ==>
         s[y][x].r == Sample(img, 0, x, y) && s[y][x].g == Sample(img, 1, x, y)
         && s[y][x].b == Sample(img, 2, x, y) && s[y][x].a == 255
  }

  /** The intermediate pixels hold the image's samples widened for the given HDR mode:
      16-bit integers without an HDR tag, reals in [0, 1] with one. */
  predicate WidenedPixelsOf(img: HeifImage, px: Pixels)
    requires Ready(img) && IsHighBitDepth(img.bitDepth)
  {
    var m := MaxSample(img.bitDepth);
    var w, h := img.width, img.height;
    match px
    case Rgb48(g) =>
      img.hdrFormat == NoHdr && !img.hasAlpha && IsGrid(g, w, h)
      && forall y, x :: 0 <= y < h && 0 <= x < w ==>
           g[y][x] == Rgb16(SdrScale(Sample(img, 0, x, y), m), SdrScale(Sample(img, 1, x, y), m),
                            SdrScale(Sample(img, 2, x, y), m))
    case Rgba64(g) =>
      img.hdrFormat == NoHdr && img.hasAlpha && IsGrid(g, w, h)
      && forall y, x :: 0 <= y < h && 0 <= x < w ==>
           g[y][x] == Rgba16(SdrScale(Sample(img, 0, x, y), m), SdrScale(Sample(img, 1, x, y), m),
                             SdrScale(Sample(img, 2, x, y), m), SdrScale(Sample(img, 3, x, y), m))
    case Rgb96Float(g) =>
      img.hdrFormat != NoHdr && !img.hasAlpha && IsGrid(g, w, h)
      && forall y, x :: 0 <= y < h && 0 <= x < w ==>
           g[y][x] == RgbF(HdrScale(Sample(img, 0, x, y), m), HdrScale(Sample(img, 1, x, y), m),
                           HdrScale(Sample(img, 2, x, y), m))
    case Rgba128Float(g) =>
      img.hdrFormat != NoHdr && img.hasAlpha && IsGrid(g, w, h)
      && forall y, x :: 0 <= y < h && 0 <= x < w ==>
           g[y][x] == RgbaF(HdrScale(Sample(img, 0, x, y), m), HdrScale(Sample(img, 1, x, y), m),
                            HdrScale(Sample(img, 2, x, y), m), HdrScale(Sample(img, 3, x, y), m))
  }

  /** SetImageDataInterleavedRgb24: each pixel's R, G, B bytes, fully opaque. */
  function InterleavedRgb24(img: HeifImage): (r: Result<Surface>)
    requires WellFormed(img) && img.bitDepth == 8
    ensures r.Ok? <==> HasChannels(img, {Interleaved})
    ensures r.Throw? ==> r.error == FormatError(MissingPlane)
    ensures r.Ok? ==> IsGrid(r.value, img.width, img.height)
    ensures r.Ok? ==> var p := img.planes[Interleaved];
      forall y, x :: 0 <= y < img.height && 0 <= x < img.width ==>
        r.value[y][x].r == p[y][3 * x]
        && r.value[y][x].g == p[y][3 * x + 1]
        && r.value[y][x].b == p[y][3 * x + 2]
        && r.value[y][x].a == 255
  {
    var p :- GetChannel(img, Interleaved);
    InterleavedRows(img);
    Ok(seq(img.height, y requires 0 <= y < img.height =>
      seq(img.width, x requires 0 <= x < img.width =>
        Opaque(p[y][3 * x], p[y][3 * x + 1], p[y][3 * x + 2]))))
  }

  /** SetImageDataInterleavedRgba32: the interleaved plane is handed to
      PixelKernels.ConvertRgba32ToBgra32. */
  function InterleavedRgba32(img: HeifImage): (r: Result<Plane>)
    ensures r.Ok? <==> Interleaved in img.planes
    ensures r.Ok? ==> r.value == img.planes[Interleaved]
    ensures r.Throw? ==> r.error == FormatError(MissingPlane)
  {
    GetChannel(img, Interleaved)
  }


  /** SetImageDataPlanarRgb24: each pixel from the R, G and B planes, fully opaque. */
  function PlanarRgb24(img: HeifImage): (r: Result<Surface>)
    requires WellFormed(img) && img.bitDepth == 8
    ensures r.Ok? <==> HasChannels(img, {R, G, B})
    ensures r.Throw? ==> r.error == FormatError(MissingPlane)
    ensures r.Ok? ==> IsGrid(r.value, img.width, img.height)
    ensures r.Ok? ==> var rp, gp, bp := img.planes[R], img.planes[G], img.planes[B];
      forall y, x :: 0 <= y < img.height && 0 <= x < img.width ==>
        r.value[y][x].r == rp[y][x]
        && r.value[y][x].g == gp[y][x]
        && r.value[y][x].b == bp[y][x]
        && r.value[y][x].a == 255
  {
    var rp :- GetChannel(img, R);
    var gp :- GetChannel(img, G);
    var bp :- GetChannel(img, B);
    PlanarRows(img, R);
    PlanarRows(img, G);
    PlanarRows(img, B);
    Ok(seq(img.height, y requires 0 <= y < img.height =>
      seq(img.width, x requires 0 <= x < img.width =>
        Opaque(rp[y][x], gp[y][x], bp[y][x]))))
  }

  /** SetImageDataPlanarRgba32: the alpha plane is fetched (so a missing one throws) but never read; every pixel is opaque. */
  function PlanarRgba32(img: HeifImage): (r: Result<Surface>)
    requires WellFormed(img) && img.bitDepth == 8
    ensures r.Ok? <==> HasChannels(img, {R, G, B, Alpha})
    ensures r.Throw? ==> r.error == FormatError(MissingPlane)
    ensures r.Ok? ==> IsGrid(r.value, img.width, img.height)
    ensures r.Ok? ==> var rp, gp, bp := img.planes[R], img.planes[G], img.planes[B];
      forall y, x :: 0 <= y < img.height && 0 <= x < img.width ==>
        r.value[y][x].r == rp[y][x]
        && r.value[y][x].g == gp[y][x]
        && r.value[y][x].b == bp[y][x]
        && r.value[y][x].a == 255
  {
    var rp :- GetChannel(img, R);
    var gp :- GetChannel(img, G);
    var bp :- GetChannel(img, B);
    var alphaPlane :- GetChannel(img, Alpha);
    PlanarRows(img, R);
    PlanarRows(img, G);
    PlanarRows(img, B);
    Ok(seq(img.height, y requires 0 <= y < img.height =>
      seq(img.width, x requires 0 <= x < img.width =>
        Opaque(rp[y][x], gp[y][x], bp[y][x]))))
  }

  /** Expands the interleaved samples of an n-sample-per-pixel plane through the SDR or HDR
      table, pixel by pixel. */
  function SdrInterleaved3(t: SdrTable, p: Plane, w: nat, h: nat): (g: seq<seq<Rgb16>>)
    requires ValidSdr(t) && |p| >= h && forall y :: 0 <= y < h ==> |p[y]| >= 3 * w
    ensures IsGrid(g, w, h)
    ensures forall y, x :: 0 <= y < h && 0 <= x < w ==>
      g[y][x] == Rgb16(SdrScale(p[y][3 * x], t.maxValue), SdrScale(p[y][3 * x + 1], t.maxValue),
                       SdrScale(p[y][3 * x + 2], t.maxValue))
  {
    seq(h, y requires 0 <= y < h =>
      seq(w, x requires 0 <= x < w =>
        Rgb16(SdrExpand(t, p[y][3 * x]), SdrExpand(t, p[y][3 * x + 1]), SdrExpand(t, p[y][3 * x + 2]))))
  }

  function SdrInterleaved4(t: SdrTable, p: Plane, w: nat, h: nat): (g: seq<seq<Rgba16>>)
    requires ValidSdr(t) && |p| >= h && forall y :: 0 <= y < h ==> |p[y]| >= 4 * w
    ensures IsGrid(g, w, h)
    ensures forall y, x :: 0 <= y < h && 0 <= x < w ==>
      g[y][x] == Rgba16(SdrScale(p[y][4 * x], t.maxValue), SdrScale(p[y][4 * x + 1], t.maxValue),
                        SdrScale(p[y][4 * x + 2], t.maxValue), SdrScale(p[y][4 * x + 3], t.maxValue))
  {
    seq(h, y requires 0 <= y < h =>
      seq(w, x requires 0 <= x < w =>
        Rgba16(SdrExpand(t, p[y][4 * x]), SdrExpand(t, p[y][4 * x + 1]), SdrExpand(t, p[y][4 * x + 2]),
               SdrExpand(t, p[y][4 * x + 3]))))
  }

  function HdrInterleaved3(t: HdrTable, p: Plane, w: nat, h: nat): (g: seq<seq<RgbF>>)
    requires ValidHdr(t) && |p| >= h && forall y :: 0 <= y < h ==> |p[y]| >= 3 * w
    ensures IsGrid(g, w, h)
    ensures forall y, x :: 0 <= y < h && 0 <= x < w ==>
      g[y][x] == RgbF(HdrScale(p[y][3 * x], t.maxValue), HdrScale(p[y][3 * x + 1], t.maxValue),
                      HdrScale(p[y][3 * x + 2], t.maxValue))
  {
    seq(h, y requires 0 <= y < h =>
      seq(w, x requires 0 <= x < w =>
        RgbF(HdrExpand(t, p[y][3 * x]), HdrExpand(t, p[y][3 * x + 1]), HdrExpand(t, p[y][3 * x + 2]))))
  }

  function HdrInterleaved4(t: HdrTable, p: Plane, w: nat, h: nat): (g: seq<seq<RgbaF>>)
    requires ValidHdr(t) && |p| >= h && forall y :: 0 <= y < h ==> |p[y]| >= 4 * w
    ensures IsGrid(g, w, h)
    ensures forall y, x :: 0 <= y < h && 0 <= x < w ==>
      g[y][x] == RgbaF(HdrScale(p[y][4 * x], t.maxValue), HdrScale(p[y][4 * x + 1], t.maxValue),
                       HdrScale(p[y][4 * x + 2], t.maxValue), HdrScale(p[y][4 * x + 3], t.maxValue))
  {
    seq(h, y requires 0 <= y < h =>
      seq(w, x requires 0 <= x < w =>
        RgbaF(HdrExpand(t, p[y][4 * x]), HdrExpand(t, p[y][4 * x + 1]), HdrExpand(t, p[y][4 * x + 2]),
              HdrExpand(t, p[y][4 * x + 3]))))
  }

  /** SetImageDataInterleavedRgb48: each sample widened by the SDR table. */
  function InterleavedRgb48(img: HeifImage): (r: Result<seq<seq<Rgb16>>>)
    requires WellFormed(img)
    ensures r.Ok? <==> IsHighBitDepth(img.bitDepth) && HasChannels(img, {Interleaved})
    ensures !IsHighBitDepth(img.bitDepth) ==> r == Throw(FormatError(UnsupportedBitDepth(img.bitDepth)))
    ensures IsHighBitDepth(img.bitDepth) && r.Throw? ==> r.error == FormatError(MissingPlane)
    ensures r.Ok? ==> IsGrid(r.value, img.width, img.height)
    ensures r.Ok? ==> var p := img.planes[Interleaved];
      forall y, x :: 0 <= y < img.height && 0 <= x < img.width ==>
        r.value[y][x].r == SdrScale(p[y][3 * x], MaxSample(img.bitDepth))
        && r.value[y][x].g == SdrScale(p[y][3 * x + 1], MaxSample(img.bitDepth))
        && r.value[y][x].b == SdrScale(p[y][3 * x + 2], MaxSample(img.bitDepth))
  {
    var t :- NewSdrTable(img.bitDepth);
    var p :- GetChannel(img, Interleaved);
    InterleavedRows(img);
    Ok(SdrInterleaved3(t, p, img.width, img.height))
  }

  /** SetImageDataInterleavedRgba64: each sample, alpha included, widened by the SDR table. */
  function InterleavedRgba64(img: HeifImage): (r: Result<seq<seq<Rgba16>>>)
    requires WellFormed(img) && img.hasAlpha
    ensures r.Ok? <==> IsHighBitDepth(img.bitDepth) && HasChannels(img, {Interleaved})
    ensures !IsHighBitDepth(img.bitDepth) ==> r == Throw(FormatError(UnsupportedBitDepth(img.bitDepth)))
    ensures IsHighBitDepth(img.bitDepth) && r.Throw? ==> r.error == FormatError(MissingPlane)
    ensures r.Ok? ==> IsGrid(r.value, img.width, img.height)
    ensures r.Ok? ==> var p := img.planes[Interleaved];
      forall y, x :: 0 <= y < img.height && 0 <= x < img.width ==>
        r.value[y][x].r == SdrScale(p[y][4 * x], MaxSample(img.bitDepth))
        && r.value[y][x].g == SdrScale(p[y][4 * x + 1], MaxSample(img.bitDepth))
        && r.value[y][x].b == SdrScale(p[y][4 * x + 2], MaxSample(img.bitDepth))
        && r.value[y][x].a == SdrScale(p[y][4 * x + 3], MaxSample(img.bitDepth))
  {
    var t :- NewSdrTable(img.bitDepth);
    var p :- GetChannel(img, Interleaved);
    InterleavedRows(img);
    Ok(SdrInterleaved4(t, p, img.width, img.height))
  }

  /** Every pixel of the `w` by `h` grid `g` holds the three planes' samples at that
      position, each widened to 16 bits from the maximum sample value `m`. */
  predicate ScaledRgb16(g: seq<seq<Rgb16>>, rp: Plane, gp: Plane, bp: Plane, m: nat, w: nat, h: nat)
    requires ValidMax(m) && IsGrid(g, w, h) && Covers(rp, w, h) && Covers(gp, w, h) && Covers(bp, w, h)
  {
    forall y, x :: 0 <= y < h && 0 <= x < w ==>
      g[y][x] == Rgb16(SdrScale(rp[y][x], m), SdrScale(gp[y][x], m), SdrScale(bp[y][x], m))
  }

  /** Expands three same-sized planes sample by sample through the SDR table. */
  function SdrGrid3(t: SdrTable, rp: Plane, gp: Plane, bp: Plane, w: nat, h: nat): (g: seq<seq<Rgb16>>)
    requires ValidSdr(t) && Covers(rp, w, h) && Covers(gp, w, h) && Covers(bp, w, h)
    ensures IsGrid(g, w, h)
    ensures ScaledRgb16(g, rp, gp, bp, t.maxValue, w, h)
  {
    seq(h, y requires 0 <= y < h =>
      seq(w, x requires 0 <= x < w =>
        Rgb16(SdrExpand(t, rp[y][x]), SdrExpand(t, gp[y][x]), SdrExpand(t, bp[y][x]))))
  }

  /** SetImageDataPlanarRgb48. */
  function PlanarRgb48(img: HeifImage): (r: Result<seq<seq<Rgb16>>>)
    requires WellFormed(img)
    ensures r.Ok? <==> IsHighBitDepth(img.bitDepth) && HasChannels(img, {R, G, B})
    ensures !IsHighBitDepth(img.bitDepth) ==> r == Throw(FormatError(UnsupportedBitDepth(img.bitDepth)))
    ensures IsHighBitDepth(img.bitDepth) && r.Throw? ==> r.error == FormatError(MissingPlane)
    ensures r.Ok? ==> IsGrid(r.value, img.width, img.height)
    ensures r.Ok? ==> Covers(img.planes[R], img.width, img.height) && Covers(img.planes[G], img.width, img.height)
    ensures r.Ok? ==> Covers(img.planes[B], img.width, img.height)
    ensures r.Ok? ==>
      ScaledRgb16(r.value, img.planes[R], img.planes[G], img.planes[B], MaxSample(img.bitDepth), img.width, img.height)
  {
    var t :- NewSdrTable(img.bitDepth);
    var rp :- GetChannel(img, R);
    var gp :- GetChannel(img, G);
    var bp :- GetChannel(img, B);
    PlanarRows(img, R);
    PlanarRows(img, G);
    PlanarRows(img, B);
    Ok(SdrGrid3(t, rp, gp, bp, img.width, img.height))
  }

  /** Every pixel of the `w` by `h` grid `g` holds the four planes' samples at that
      position, each widened to 16 bits from the maximum sample value `m`. */
  predicate ScaledRgba16(g: seq<seq<Rgba16>>, rp: Plane, gp: Plane, bp: Plane, ap: Plane, m: nat, w: nat, h: nat)
    requires ValidMax(m) && IsGrid(g, w, h)
    requires Covers(rp, w, h) && Covers(gp, w, h) && Covers(bp, w, h) && Covers(ap, w, h)
  {
    forall y, x :: 0 <= y < h && 0 <= x < w ==>
      g[y][x] == Rgba16(SdrScale(rp[y][x], m), SdrScale(gp[y][x], m), SdrScale(bp[y][x], m), SdrScale(ap[y][x], m))
  }

  /** Expands four same-sized planes sample by sample through the SDR table. */
  function SdrGrid4(t: SdrTable, rp: Plane, gp: Plane, bp: Plane, ap: Plane, w: nat, h: nat): (g: seq<seq<Rgba16>>)
    requires ValidSdr(t) && Covers(rp, w, h) && Covers(gp, w, h) && Covers(bp, w, h) && Covers(ap, w, h)
    ensures IsGrid(g, w, h)
    ensures ScaledRgba16(g, rp, gp, bp, ap, t.maxValue, w, h)
  {
    seq(h, y requires 0 <= y < h =>
      seq(w, x requires 0 <= x < w =>
        Rgba16(SdrExpand(t, rp[y][x]), SdrExpand(t, gp[y][x]), SdrExpand(t, bp[y][x]), SdrExpand(t, ap[y][x]))))
  }

  /** Every pixel of the `w` by `h` grid `g` holds the four planes' samples at that
      position, each scaled by the maximum sample value `m`. */
  predicate ScaledRgbaF(g: seq<seq<RgbaF>>, rp: Plane, gp: Plane, bp: Plane, ap: Plane, m: nat, w: nat, h: nat)
    requires ValidMax(m) && IsGrid(g, w, h)
    requires Covers(rp, w, h) && Covers(gp, w, h) && Covers(bp, w, h) && Covers(ap, w, h)
  {
    forall y, x :: 0 <= y < h && 0 <= x < w ==>
      g[y][x] == RgbaF(HdrScale(rp[y][x], m), HdrScale(gp[y][x], m), HdrScale(bp[y][x], m), HdrScale(ap[y][x], m))
  }

  /** Expands four same-sized planes sample by sample through the HDR table. */
  function HdrGrid4(t: HdrTable, rp: Plane, gp: Plane, bp: Plane, ap: Plane, w: nat, h: nat): (g: seq<seq<RgbaF>>)
    requires ValidHdr(t) && Covers(rp, w, h) && Covers(gp, w, h) && Covers(bp, w, h) && Covers(ap, w, h)
    ensures IsGrid(g, w, h)
    ensures ScaledRgbaF(g, rp, gp, bp, ap, t.maxValue, w, h)
  {
    seq(h, y requires 0 <= y < h =>
      seq(w, x requires 0 <= x < w =>
        RgbaF(HdrExpand(t, rp[y][x]), HdrExpand(t, gp[y][x]), HdrExpand(t, bp[y][x]), HdrExpand(t, ap[y][x]))))
  }

  /** The four planes of a planar image with alpha cover the image. */
  lemma PlanarCover4(img: HeifImage)
    requires WellFormed(img) && HasChannels(img, {R, G, B, Alpha})
    ensures Covers(img.planes[R], img.width, img.height) && Covers(img.planes[G], img.width, img.height)
    ensures Covers(img.planes[B], img.width, img.height) && Covers(img.planes[Alpha], img.width, img.height)
  {
    PlanarRows(img, R);
    PlanarRows(img, G);
    PlanarRows(img, B);
    PlanarRows(img, Alpha);
  }

  /** SetImageDataPlanarRgba64. */
  function PlanarRgba64(img: HeifImage): (r: Result<seq<seq<Rgba16>>>)
    requires WellFormed(img)
    ensures r.Ok? <==> IsHighBitDepth(img.bitDepth) && HasChannels(img, {R, G, B, Alpha})
    ensures !IsHighBitDepth(img.bitDepth) ==> r == Throw(FormatError(UnsupportedBitDepth(img.bitDepth)))
    ensures IsHighBitDepth(img.bitDepth) && r.Throw? ==> r.error == FormatError(MissingPlane)
    ensures r.Ok? ==> IsGrid(r.value, img.width, img.height)
    ensures r.Ok? ==> Covers(img.planes[R], img.width, img.height) && Covers(img.planes[G], img.width, img.height)
    ensures r.Ok? ==> Covers(img.planes[B], img.width, img.height) && Covers(img.planes[Alpha], img.width, img.height)
    ensures r.Ok? ==>
      ScaledRgba16(r.value, img.planes[R], img.planes[G], img.planes[B], img.planes[Alpha], MaxSample(img.bitDepth), img.width, img.height)
  {
    var t :- NewSdrTable(img.bitDepth);
    var rp :- GetChannel(img, R);
    var gp :- GetChannel(img, G);
    var bp :- GetChannel(img, B);
    var ap :- GetChannel(img, Alpha);
    PlanarCover4(img);
    Ok(SdrGrid4(t, rp, gp, bp, ap, img.width, img.height))
  }

  /** SetImageDataInterleavedRgb96: each sample mapped onto [0, 1] by the HDR table. */
  function InterleavedRgb96(img: HeifImage): (r: Result<seq<seq<RgbF>>>)
    requires WellFormed(img)
    ensures r.Ok? <==> IsHighBitDepth(img.bitDepth) && HasChannels(img, {Interleaved})
    ensures !IsHighBitDepth(img.bitDepth) ==> r == Throw(FormatError(UnsupportedBitDepth(img.bitDepth)))
    ensures IsHighBitDepth(img.bitDepth) && r.Throw? ==> r.error == FormatError(MissingPlane)
    ensures r.Ok? ==> IsGrid(r.value, img.width, img.height)
    ensures r.Ok? ==> var p := img.planes[Interleaved];
      forall y, x :: 0 <= y < img.height && 0 <= x < img.width ==>
        r.value[y][x].r == HdrScale(p[y][3 * x], MaxSample(img.bitDepth))
        && r.value[y][x].g == HdrScale(p[y][3 * x + 1], MaxSample(img.bitDepth))
        && r.value[y][x].b == HdrScale(p[y][3 * x + 2], MaxSample(img.bitDepth))
  {
    var t :- NewHdrTable(img.bitDepth);
    var p :- GetChannel(img, Interleaved);
    InterleavedRows(img);
    Ok(HdrInterleaved3(t, p, img.width, img.height))
  }

  /** SetImageDataInterleavedRgba128. */
  function InterleavedRgba128(img: HeifImage): (r: Result<seq<seq<RgbaF>>>)
    requires WellFormed(img) && img.hasAlpha
    ensures r.Ok? <==> IsHighBitDepth(img.bitDepth) && HasChannels(img, {Interleaved})
    ensures !IsHighBitDepth(img.bitDepth) ==> r == Throw(FormatError(UnsupportedBitDepth(img.bitDepth)))
    ensures IsHighBitDepth(img.bitDepth) && r.Throw? ==> r.error == FormatError(MissingPlane)
    ensures r.Ok? ==> IsGrid(r.value, img.width, img.height)
    ensures r.Ok? ==> var p := img.planes[Interleaved];
      forall y, x :: 0 <= y < img.height && 0 <= x < img.width ==>
        r.value[y][x].r == HdrScale(p[y][4 * x], MaxSample(img.bitDepth))
        && r.value[y][x].g == HdrScale(p[y][4 * x + 1], MaxSample(img.bitDepth))
        && r.value[y][x].b == HdrScale(p[y][4 * x + 2], MaxSample(img.bitDepth))
        && r.value[y][x].a == HdrScale(p[y][4 * x + 3], MaxSample(img.bitDepth))
  {
    var t :- NewHdrTable(img.bitDepth);
    var p :- GetChannel(img, Interleaved);
    InterleavedRows(img);
    Ok(HdrInterleaved4(t, p, img.width, img.height))
  }

  /** Every pixel of the `w` by `h` grid `g` holds the three planes' samples at that
      position, each scaled by the maximum sample value `m`. */
  predicate ScaledRgbF(g: seq<seq<RgbF>>, rp: Plane, gp: Plane, bp: Plane, m: nat, w: nat, h: nat)
    requires ValidMax(m) && IsGrid(g, w, h) && Covers(rp, w, h) && Covers(gp, w, h) && Covers(bp, w, h)
  {
    forall y, x :: 0 <= y < h && 0 <= x < w ==>
      g[y][x] == RgbF(HdrScale(rp[y][x], m), HdrScale(gp[y][x], m), HdrScale(bp[y][x], m))
  }

  /** Expands three same-sized planes sample by sample through the HDR table. */
  function HdrGrid3(t: HdrTable, rp: Plane, gp: Plane, bp: Plane, w: nat, h: nat): (g: seq<seq<RgbF>>)
    requires ValidHdr(t) && Covers(rp, w, h) && Covers(gp, w, h) && Covers(bp, w, h)
    ensures IsGrid(g, w, h)
    ensures ScaledRgbF(g, rp, gp, bp, t.maxValue, w, h)
  {
    seq(h, y requires 0 <= y < h =>
      seq(w, x requires 0 <= x < w =>
        RgbF(HdrExpand(t, rp[y][x]), HdrExpand(t, gp[y][x]), HdrExpand(t, bp[y][x]))))
  }

  /** SetImageDataPlanarRgb96. */
  function PlanarRgb96(img: HeifImage): (r: Result<seq<seq<RgbF>>>)
    requires WellFormed(img)
    ensures r.Ok? <==> IsHighBitDepth(img.bitDepth) && HasChannels(img, {R, G, B})
    ensures !IsHighBitDepth(img.bitDepth) ==> r == Throw(FormatError(UnsupportedBitDepth(img.bitDepth)))
    ensures IsHighBitDepth(img.bitDepth) && r.Throw? ==> r.error == FormatError(MissingPlane)
    ensures r.Ok? ==> IsGrid(r.value, img.width, img.height)
    ensures r.Ok? ==> Covers(img.planes[R], img.width, img.height) && Covers(img.planes[G], img.width, img.height)
    ensures r.Ok? ==> Covers(img.planes[B], img.width, img.height)
    ensures r.Ok? ==>
      ScaledRgbF(r.value, img.planes[R], img.planes[G], img.planes[B], MaxSample(img.bitDepth), img.width, img.height)
  {
    var t :- NewHdrTable(img.bitDepth);
    var rp :- GetChannel(img, R);
    var gp :- GetChannel(img, G);
    var bp :- GetChannel(img, B);
    PlanarRows(img, R);
    PlanarRows(img, G);
    PlanarRows(img, B);
    Ok(HdrGrid3(t, rp, gp, bp, img.width, img.height))
  }

  /** SetImageDataPlanarRgba128. */
  function PlanarRgba128(img: HeifImage): (r: Result<seq<seq<RgbaF>>>)
    requires WellFormed(img)
    ensures r.Ok? <==> IsHighBitDepth(img.bitDepth) && HasChannels(img, {R, G, B, Alpha})
    ensures !IsHighBitDepth(img.bitDepth) ==> r == Throw(FormatError(UnsupportedBitDepth(img.bitDepth)))
    ensures IsHighBitDepth(img.bitDepth) && r.Throw? ==> r.error == FormatError(MissingPlane)
    ensures r.Ok? ==> IsGrid(r.value, img.width, img.height)
    ensures r.Ok? ==> Covers(img.planes[R], img.width, img.height) && Covers(img.planes[G], img.width, img.height)
    ensures r.Ok? ==> Covers(img.planes[B], img.width, img.height) && Covers(img.planes[Alpha], img.width, img.height)
    ensures r.Ok? ==>
      ScaledRgbaF(r.value, img.planes[R], img.planes[G], img.planes[B], img.planes[Alpha], MaxSample(img.bitDepth), img.width, img.height)
  {
    var t :- NewHdrTable(img.bitDepth);
    var rp :- GetChannel(img, R);
    var gp :- GetChannel(img, G);
    var bp :- GetChannel(img, B);
    var ap :- GetChannel(img, Alpha);
    PlanarCover4(img);
    Ok(HdrGrid4(t, rp, gp, bp, ap, img.width, img.height))
  }


  /** The 8-bit copiers that write the surface directly. */
  function OpaqueCopy(img: HeifImage): (r: Result<Surface>)
    requires WellFormed(img) && img.bitDepth == 8 && !(img.hasAlpha && !IsPlanar(img))
    ensures r.Ok? <==> HasChannels(img, RequiredChannels(img))
    ensures r.Throw? ==> r.error == FormatError(MissingPlane)
    ensures r.Ok? ==> OpaqueSurfaceOf(img, r.value)
  {
    if IsPlanar(img) then
      if img.hasAlpha then PlanarRgba32(img) else PlanarRgb24(img)
    else InterleavedRgb24(img)
  }

  /** The copiers filling a 16-bit intermediate bitmap. */
  function SdrPixels(img: HeifImage): (r: Result<Pixels>)
    requires WellFormed(img) && IsHighBitDepth(img.bitDepth) && img.hdrFormat == NoHdr
    ensures r.Ok? <==> HasChannels(img, RequiredChannels(img))
    ensures r.Throw? ==> r.error == FormatError(MissingPlane)
    ensures r.Ok? ==> Ready(img) && WidenedPixelsOf(img, r.value)
  {
    if img.hasAlpha then SdrAlphaPixels(img) else SdrOpaquePixels(img)
  }

  function SdrAlphaPixels(img: HeifImage): (r: Result<Pixels>)
    requires WellFormed(img) && IsHighBitDepth(img.bitDepth) && img.hdrFormat == NoHdr && img.hasAlpha
    ensures r.Ok? <==> HasChannels(img, RequiredChannels(img))
    ensures r.Throw? ==> r.error == FormatError(MissingPlane)
    ensures r.Ok? ==> Ready(img) && WidenedPixelsOf(img, r.value)
  {
    var px :- if IsPlanar(img) then PlanarRgba64(img) else InterleavedRgba64(img);
    Rgba64Widened(img, px);
    Ok(Rgba64(px))
  }

  lemma Rgba64Widened(img: HeifImage, px: seq<seq<Rgba16>>)
    requires Ready(img) && IsHighBitDepth(img.bitDepth) && img.hdrFormat == NoHdr && img.hasAlpha
    requires IsPlanar(img) ==> PlanarRgba64(img) == Ok(px)
    requires !IsPlanar(img) ==> InterleavedRgba64(img) == Ok(px)
    ensures WidenedPixelsOf(img, Rgba64(px))
  {
    if IsPlanar(img) {
      PlanarRgba64Widened(img, px);
    } else {
      InterleavedRgba64Widened(img, px);
    }
  }

  /** Where the four samples of an interleaved RGBA pixel sit. */
  lemma InterleavedSamples(img: HeifImage, x: nat, y: nat)
    requires Ready(img) && !IsPlanar(img) && img.hasAlpha && x < img.width && y < img.height
    ensures var p := img.planes[Interleaved];
      4 * x + 3 < |p[y]|
      && Sample(img, 0, x, y) == p[y][4 * x] && Sample(img, 1, x, y) == p[y][4 * x + 1]
      && Sample(img, 2, x, y) == p[y][4 * x + 2] && Sample(img, 3, x, y) == p[y][4 * x + 3]
  {
    InterleavedRows(img);
    assert 4 * x + 3 < 4 * img.width;
  }

  /** Where the three samples of an interleaved RGB pixel sit. */
  lemma InterleavedOpaqueSamples(img: HeifImage, x: nat, y: nat)
    requires Ready(img) && !IsPlanar(img) && !img.hasAlpha && x < img.width && y < img.height
    ensures var p := img.planes[Interleaved];
      3 * x + 2 < |p[y]|
      && Sample(img, 0, x, y) == p[y][3 * x] && Sample(img, 1, x, y) == p[y][3 * x + 1]
      && Sample(img, 2, x, y) == p[y][3 * x + 2]
  {
    InterleavedRows(img);
    assert 3 * x + 2 < 3 * img.width;
  }

  /** InterleavedSamples for every pixel of an image with alpha. */
  lemma InterleavedPixels(img: HeifImage)
    requires Ready(img) && img.hasAlpha
    ensures !IsPlanar(img) ==> var p := img.planes[Interleaved];
      forall y, x :: 0 <= y < img.height && 0 <= x < img.width ==>
        4 * x + 3 < |p[y]|
        && Sample(img, 0, x, y) == p[y][4 * x] && Sample(img, 1, x, y) == p[y][4 * x + 1]
        && Sample(img, 2, x, y) == p[y][4 * x + 2] && Sample(img, 3, x, y) == p[y][4 * x + 3]
  {
    if !IsPlanar(img) {
      forall y, x | 0 <= y < img.height && 0 <= x < img.width
        ensures var p := img.planes[Interleaved];
          4 * x + 3 < |p[y]|
          && Sample(img, 0, x, y) == p[y][4 * x] && Sample(img, 1, x, y) == p[y][4 * x + 1]
          && Sample(img, 2, x, y) == p[y][4 * x + 2] && Sample(img, 3, x, y) == p[y][4 * x + 3]
      {
        InterleavedSamples(img, x, y);
      }
    }
  }

  lemma PlanarRgba64Widened(img: HeifImage, px: seq<seq<Rgba16>>)
    requires Ready(img) && IsHighBitDepth(img.bitDepth) && img.hdrFormat == NoHdr && img.hasAlpha
    requires IsPlanar(img) && PlanarRgba64(img) == Ok(px)
    ensures WidenedPixelsOf(img, Rgba64(px))
  {
    var m := MaxSample(img.bitDepth);
    forall y, x | 0 <= y < img.height && 0 <= x < img.width
      ensures px[y][x] == Rgba16(SdrScale(Sample(img, 0, x, y), m), SdrScale(Sample(img, 1, x, y), m),
                                 SdrScale(Sample(img, 2, x, y), m), SdrScale(Sample(img, 3, x, y), m))
    {
      var p := px[y][x];
      assert p.r == SdrScale(Sample(img, 0, x, y), m);
      assert p.g == SdrScale(Sample(img, 1, x, y), m);
      assert p.b == SdrScale(Sample(img, 2, x, y), m);
      assert p.a == SdrScale(Sample(img, 3, x, y), m);
    }
  }

  lemma InterleavedRgba64Widened(img: HeifImage, px: seq<seq<Rgba16>>)
    requires Ready(img) && IsHighBitDepth(img.bitDepth) && img.hdrFormat == NoHdr && img.hasAlpha
    requires !IsPlanar(img) && InterleavedRgba64(img) == Ok(px)
    ensures WidenedPixelsOf(img, Rgba64(px))
  {
    var m := MaxSample(img.bitDepth);
    forall y, x | 0 <= y < img.height && 0 <= x < img.width
      ensures px[y][x] == Rgba16(SdrScale(Sample(img, 0, x, y), m), SdrScale(Sample(img, 1, x, y), m),
                                 SdrScale(Sample(img, 2, x, y), m), SdrScale(Sample(img, 3, x, y), m))
    {
      InterleavedSamples(img, x, y);
      var p := px[y][x];
      assert p.r == SdrScale(Sample(img, 0, x, y), m);
      assert p.g == SdrScale(Sample(img, 1, x, y), m);
      assert p.b == SdrScale(Sample(img, 2, x, y), m);
      assert p.a == SdrScale(Sample(img, 3, x, y), m);
    }
  }

  function SdrOpaquePixels(img: HeifImage): (r: Result<Pixels>)
    requires WellFormed(img) && IsHighBitDepth(img.bitDepth) && img.hdrFormat == NoHdr && !img.hasAlpha
    ensures r.Ok? <==> HasChannels(img, RequiredChannels(img))
    ensures r.Throw? ==> r.error == FormatError(MissingPlane)
    ensures r.Ok? ==> Ready(img) && WidenedPixelsOf(img, r.value)
  {
    var px :- if IsPlanar(img) then PlanarRgb48(img) else InterleavedRgb48(img);
    Rgb48Widened(img, px);
    Ok(Rgb48(px))
  }

  lemma Rgb48Widened(img: HeifImage, px: seq<seq<Rgb16>>)
    requires Ready(img) && IsHighBitDepth(img.bitDepth) && img.hdrFormat == NoHdr && !img.hasAlpha
    requires IsPlanar(img) ==> PlanarRgb48(img) == Ok(px)
    requires !IsPlanar(img) ==> InterleavedRgb48(img) == Ok(px)
    ensures WidenedPixelsOf(img, Rgb48(px))
  {
    if IsPlanar(img) {
      PlanarRgb48Widened(img, px);
    } else {
      InterleavedRgb48Widened(img, px);
    }
  }

  lemma PlanarRgb48Widened(img: HeifImage, px: seq<seq<Rgb16>>)
    requires Ready(img) && IsHighBitDepth(img.bitDepth) && img.hdrFormat == NoHdr && !img.hasAlpha
    requires IsPlanar(img) && PlanarRgb48(img) == Ok(px)
    ensures WidenedPixelsOf(img, Rgb48(px))
  {
    var m := MaxSample(img.bitDepth);
    forall y, x | 0 <= y < img.height && 0 <= x < img.width
      ensures px[y][x] == Rgb16(SdrScale(Sample(img, 0, x, y), m), SdrScale(Sample(img, 1, x, y), m),
                                SdrScale(Sample(img, 2, x, y), m))
    {
      assert Sample(img, 0, x, y) == img.planes[R][y][x];
      assert Sample(img, 1, x, y) == img.planes[G][y][x];
      assert Sample(img, 2, x, y) == img.planes[B][y][x];
    }
  }

  lemma InterleavedRgb48Widened(img: HeifImage, px: seq<seq<Rgb16>>)
    requires Ready(img) && IsHighBitDepth(img.bitDepth) && img.hdrFormat == NoHdr && !img.hasAlpha
    requires !IsPlanar(img) && InterleavedRgb48(img) == Ok(px)
    ensures WidenedPixelsOf(img, Rgb48(px))
  {
    var m := MaxSample(img.bitDepth);
    forall y, x | 0 <= y < img.height && 0 <= x < img.width
      ensures px[y][x] == Rgb16(SdrScale(Sample(img, 0, x, y), m), SdrScale(Sample(img, 1, x, y), m),
                                SdrScale(Sample(img, 2, x, y), m))
    {
      InterleavedOpaqueSamples(img, x, y);
      var p := px[y][x];
      assert p.r == SdrScale(Sample(img, 0, x, y), m);
      assert p.g == SdrScale(Sample(img, 1, x, y), m);
      assert p.b == SdrScale(Sample(img, 2, x, y), m);
    }
  }

  /** The copiers filling a float intermediate bitmap. */
  function HdrPixels(img: HeifImage): (r: Result<Pixels>)
    requires WellFormed(img) && IsHighBitDepth(img.bitDepth) && img.hdrFormat != NoHdr
    ensures r.Ok? <==> HasChannels(img, RequiredChannels(img))
    ensures r.Throw? ==> r.error == FormatError(MissingPlane)
    ensures r.Ok? ==> Ready(img) && WidenedPixelsOf(img, r.value)
  {
    if img.hasAlpha then HdrAlphaPixels(img) else HdrOpaquePixels(img)
  }

  function HdrAlphaPixels(img: HeifImage): (r: Result<Pixels>)
    requires WellFormed(img) && IsHighBitDepth(img.bitDepth) && img.hdrFormat != NoHdr && img.hasAlpha
    ensures r.Ok? <==> HasChannels(img, RequiredChannels(img))
    ensures r.Throw? ==> r.error == FormatError(MissingPlane)
    ensures r.Ok? ==> Ready(img) && WidenedPixelsOf(img, r.value)
  {
    var px :- if IsPlanar(img) then PlanarRgba128(img) else InterleavedRgba128(img);
    InterleavedPixels(img);
    Ok(Rgba128Float(px))
  }

  function HdrOpaquePixels(img: HeifImage): (r: Result<Pixels>)
    requires WellFormed(img) && IsHighBitDepth(img.bitDepth) && img.hdrFormat != NoHdr && !img.hasAlpha
    ensures r.Ok? <==> HasChannels(img, RequiredChannels(img))
    ensures r.Throw? ==> r.error == FormatError(MissingPlane)
    ensures r.Ok? ==> Ready(img) && WidenedPixelsOf(img, r.value)
  {
    var px :- if IsPlanar(img) then PlanarRgb96(img) else InterleavedRgb96(img);
    Rgb96Widened(img, px);
    Ok(Rgb96Float(px))
  }

  lemma Rgb96Widened(img: HeifImage, px: seq<seq<RgbF>>)
    requires Ready(img) && IsHighBitDepth(img.bitDepth) && img.hdrFormat != NoHdr && !img.hasAlpha
    requires IsPlanar(img) ==> PlanarRgb96(img) == Ok(px)
    requires !IsPlanar(img) ==> InterleavedRgb96(img) == Ok(px)
    ensures WidenedPixelsOf(img, Rgb96Float(px))
  {
    if IsPlanar(img) {
      PlanarRgb96Widened(img, px);
    } else {
      InterleavedRgb96Widened(img, px);
    }
  }

  lemma PlanarRgb96Widened(img: HeifImage, px: seq<seq<RgbF>>)
    requires Ready(img) && IsHighBitDepth(img.bitDepth) && img.hdrFormat != NoHdr && !img.hasAlpha
    requires IsPlanar(img) && PlanarRgb96(img) == Ok(px)
    ensures WidenedPixelsOf(img, Rgb96Float(px))
  {
    var m := MaxSample(img.bitDepth);
    forall y, x | 0 <= y < img.height && 0 <= x < img.width
      ensures px[y][x] == RgbF(HdrScale(Sample(img, 0, x, y), m), HdrScale(Sample(img, 1, x, y), m),
                               HdrScale(Sample(img, 2, x, y), m))
    {
      assert Sample(img, 0, x, y) == img.planes[R][y][x];
      assert Sample(img, 1, x, y) == img.planes[G][y][x];
      assert Sample(img, 2, x, y) == img.planes[B][y][x];
    }
  }

  lemma InterleavedRgb96Widened(img: HeifImage, px: seq<seq<RgbF>>)
    requires Ready(img) && IsHighBitDepth(img.bitDepth) && img.hdrFormat != NoHdr && !img.hasAlpha
    requires !IsPlanar(img) && InterleavedRgb96(img) == Ok(px)
    ensures WidenedPixelsOf(img, Rgb96Float(px))
  {
    var m := MaxSample(img.bitDepth);
    forall y, x | 0 <= y < img.height && 0 <= x < img.width
      ensures px[y][x] == RgbF(HdrScale(Sample(img, 0, x, y), m), HdrScale(Sample(img, 1, x, y), m),
                               HdrScale(Sample(img, 2, x, y), m))
    {
      InterleavedOpaqueSamples(img, x, y);
      var p := px[y][x];
      assert p.r == HdrScale(Sample(img, 0, x, y), m);
      assert p.g == HdrScale(Sample(img, 1, x, y), m);
      assert p.b == HdrScale(Sample(img, 2, x, y), m);
    }
  }

  /** SetImageData: picks the copier by bit depth, alpha and layout, and for more than
      8 bits the intermediate format by the HDR tag. */
  function SetImageData(img: HeifImage): (r: Result<Decoded>)
    requires WellFormed(img)
    ensures r.Ok? <==> (img.bitDepth == 8 || (IsHighBitDepth(img.bitDepth) && img.hdrFailure.None?))
                       && HasChannels(img, RequiredChannels(img))
    ensures !(img.bitDepth == 8 || IsHighBitDepth(img.bitDepth)) ==>
              r == Throw(FormatError(UnsupportedBitDepth(img.bitDepth)))
    ensures IsHighBitDepth(img.bitDepth) && img.hdrFailure.Some? ==> r == Throw(img.hdrFailure.value)
    ensures r.Throw? && (img.bitDepth == 8 || (IsHighBitDepth(img.bitDepth) && img.hdrFailure.None?)) ==>
              r.error == FormatError(MissingPlane)
    ensures r.Ok? && img.bitDepth == 8 ==>
              r.value.unpremultiply == (img.hasAlpha && img.premultiplied)
              && if img.hasAlpha && !IsPlanar(img) then r.value.rendering == Rgba32Kernel(img.planes[Interleaved])
                 else r.value.rendering.Direct? && OpaqueSurfaceOf(img, r.value.rendering.surface)
    ensures r.Ok? && IsHighBitDepth(img.bitDepth) ==>
              !r.value.unpremultiply && r.value.rendering.Converted?
              && var c := r.value.rendering.conversion;
                 var bm := ConvertedBitmap(c);
                 (if img.hdrFormat == NoHdr then c == SdrImageToBgra32(bm) else c == HdrImageToBgra32(bm, img.hdrFormat))
                 && bm.premultipliedView == (img.hdrFormat != NoHdr && img.hasAlpha && img.premultiplied)
                 && WidenedPixelsOf(img, bm.pixels)
  {
    if img.bitDepth == 8 then
      if img.hasAlpha && !IsPlanar(img) then
        var p :- InterleavedRgba32(img);
        Ok(Decoded(Rgba32Kernel(p), img.premultiplied))
      else
        var s :- OpaqueCopy(img);
        Ok(Decoded(Direct(s), img.hasAlpha && img.premultiplied))
    else if !IsHighBitDepth(img.bitDepth) then
      Throw(FormatError(UnsupportedBitDepth(img.bitDepth)))
    // Only here is the HDRFormat property read.
    else if img.hdrFailure.Some? then Throw(img.hdrFailure.value)
    else if img.hdrFormat != NoHdr then
      var px :- HdrPixels(img);
      var temp := Bitmap(px, false);
      if img.hasAlpha && img.premultiplied then
        // Cast to the premultiplied format so the conversion restores straight alpha.
        var asPrgba := Bitmap(temp.pixels, true);
        Ok(Decoded(Converted(HdrImageToBgra32(asPrgba, img.hdrFormat)), false))
      else
        Ok(Decoded(Converted(HdrImageToBgra32(temp, img.hdrFormat)), false))
    else
      var px :- SdrPixels(img);
      var temp := Bitmap(px, false);
      if img.hasAlpha && img.premultiplied then
        // A premultiplied view is created, but `temp` is what gets converted.
        var asPrgba64 := Bitmap(temp.pixels, true);
        Ok(Decoded(Converted(SdrImageToBgra32(temp)), false))
      else
        Ok(Decoded(Converted(SdrImageToBgra32(temp)), false))
  }

  lemma GridsEqual<T>(s: seq<seq<T>>, t: seq<seq<T>>, w: nat, h: nat)
    requires IsGrid(s, w, h) && IsGrid(t, w, h)
    requires forall y, x :: 0 <= y < h && 0 <= x < w ==> s[y][x] == t[y][x]
    ensures s == t
  {
    forall y | 0 <= y < h ensures s[y] == t[y] {
      assert |s[y]| == |t[y]| == w;
    }
  }

  /** Two images that agree on every logical sample. */
  predicate SameSamples(a: HeifImage, b: HeifImage)
    requires Ready(a) && Ready(b)
  {
    a.width == b.width && a.height == b.height && a.hasAlpha == b.hasAlpha
    && forall ch, y, x :: 0 <= ch < Stride(a) && 0 <= y < a.height && 0 <= x < a.width ==>
         Sample(a, ch, x, y) == Sample(b, ch, x, y)
  }

  lemma {:induction false} WidenedPixelsUnique(a: HeifImage, b: HeifImage, pa: Pixels, pb: Pixels)
    requires Ready(a) && Ready(b) && IsHighBitDepth(a.bitDepth) && a.bitDepth == b.bitDepth
    requires a.hdrFormat == b.hdrFormat && SameSamples(a, b)
    requires WidenedPixelsOf(a, pa) && WidenedPixelsOf(b, pb)
    ensures pa == pb
  {
    var w, h := a.width, a.height;
    match pa
    case Rgb48(ga) =>
      var gb := pb.rgb48;
      forall y, x | 0 <= y < h && 0 <= x < w ensures ga[y][x] == gb[y][x] {
        assert Sample(a, 0, x, y) == Sample(b, 0, x, y);
        assert Sample(a, 1, x, y) == Sample(b, 1, x, y);
        assert Sample(a, 2, x, y) == Sample(b, 2, x, y);
      }
      GridsEqual(ga, gb, w, h);
    case Rgba64(ga) =>
      var gb := pb.rgba64;
      forall y, x | 0 <= y < h && 0 <= x < w ensures ga[y][x] == gb[y][x] {
        assert Sample(a, 0, x, y) == Sample(b, 0, x, y);
        assert Sample(a, 1, x, y) == Sample(b, 1, x, y);
        assert Sample(a, 2, x, y) == Sample(b, 2, x, y);
        assert Sample(a, 3, x, y) == Sample(b, 3, x, y);
      }
      GridsEqual(ga, gb, w, h);
    case Rgb96Float(ga) =>
      var gb := pb.rgb96;
      forall y, x | 0 <= y < h && 0 <= x < w ensures ga[y][x] == gb[y][x] {
        assert Sample(a, 0, x, y) == Sample(b, 0, x, y);
        assert Sample(a, 1, x, y) == Sample(b, 1, x, y);
        assert Sample(a, 2, x, y) == Sample(b, 2, x, y);
      }
      GridsEqual(ga, gb, w, h);
    case Rgba128Float(ga) =>
      var gb := pb.rgba128;
      forall y, x | 0 <= y < h && 0 <= x < w ensures ga[y][x] == gb[y][x] {
        assert Sample(a, 0, x, y) == Sample(b, 0, x, y);
        assert Sample(a, 1, x, y) == Sample(b, 1, x, y);
        assert Sample(a, 2, x, y) == Sample(b, 2, x, y);
        assert Sample(a, 3, x, y) == Sample(b, 3, x, y);
      }
      GridsEqual(ga, gb, w, h);
  }

  /** The planar and the interleaved copiers agree: two images with the same logical
      samples decode to the same result, except for 8-bit images with alpha, where the
      interleaved plane goes to the RGBA kernel and the planar copier drops alpha. */
  lemma {:induction false} LayoutIndependent(a: HeifImage, b: HeifImage)
    requires WellFormed(a) && WellFormed(b)
    requires HasChannels(a, RequiredChannels(a)) && HasChannels(b, RequiredChannels(b))
    requires a.bitDepth == b.bitDepth && a.premultiplied == b.premultiplied
    requires a.hdrFormat == b.hdrFormat && a.hdrFailure == b.hdrFailure
    requires SameSamples(a, b)
    requires !(a.bitDepth == 8 && a.hasAlpha)
    ensures SetImageData(a) == SetImageData(b)
  {
    var ra, rb := SetImageData(a), SetImageData(b);
    if a.bitDepth == 8 {
      var sa, sb := ra.value.rendering.surface, rb.value.rendering.surface;
      forall y, x | 0 <= y < a.height && 0 <= x < a.width ensures sa[y][x] == sb[y][x] {
        assert Sample(a, 0, x, y) == Sample(b, 0, x, y);
        assert Sample(a, 1, x, y) == Sample(b, 1, x, y);
        assert Sample(a, 2, x, y) == Sample(b, 2, x, y);
      }
      GridsEqual(sa, sb, a.width, a.height);
    } else if IsHighBitDepth(a.bitDepth) && a.hdrFailure.None? {
      var ba, bb := ConvertedBitmap(ra.value.rendering.conversion), ConvertedBitmap(rb.value.rendering.conversion);
      WidenedPixelsUnique(a, b, ba.pixels, bb.pixels);
      assert ba == bb;
    }
  }

  /** Without an HDR tag, the premultiplied flag of an image with more than 8 bits has no
      effect: the decoder converts the straight-alpha bitmap either way. */
  lemma PremultipliedIgnoredWithoutHdr(img: HeifImage)
    requires WellFormed(img) && IsHighBitDepth(img.bitDepth) && img.hdrFormat == NoHdr
    ensures SetImageData(img.(premultiplied := true)) == SetImageData(img.(premultiplied := false))
  {
  }

  /** With an HDR tag, premultiplied alpha does reach the conversion, as a premultiplied view. */
  lemma PremultipliedReachesHdrConversion(img: HeifImage)
    requires WellFormed(img) && IsHighBitDepth(img.bitDepth) && img.hdrFormat != NoHdr && img.hasAlpha
    requires img.hdrFailure.None? && HasChannels(img, RequiredChannels(img))
    ensures var on, off := SetImageData(img.(premultiplied := true)), SetImageData(img.(premultiplied := false));
      on.Ok? && off.Ok?
      && FormatOf(ConvertedBitmap(on.value.rendering.conversion)) == Prgba128FloatFormat
      && FormatOf(ConvertedBitmap(off.value.rendering.conversion)) == Rgba128FloatFormat
  {
  }

  /** Replacing the alpha plane of a planar 8-bit image by another plane of 8-bit samples
      that covers the image keeps it well formed. */
  lemma AlphaReplacedWellFormed(img: HeifImage, other: Plane)
    requires WellFormed(img) && img.bitDepth == 8 && img.hasAlpha && IsPlanar(img) && Alpha in img.planes
    requires Covers(other, img.width, img.height) && SamplesBelow(other, img.height, 0x100)
    ensures WellFormed(img.(planes := img.planes[Alpha := other]))
  {
    var img2 := img.(planes := img.planes[Alpha := other]);
    forall c | c in img2.planes
      ensures Covers(img2.planes[c], SamplesPerPixel(img2, c) * img2.width, img2.height)
      ensures SamplesBelow(img2.planes[c], img2.height, 0x100)
    {
      if c != Alpha {
        assert img2.planes[c] == img.planes[c];
      }
    }
  }

  /** An 8-bit planar image with alpha decodes the same whatever its alpha plane holds. */
  lemma PlanarRgba32IgnoresAlphaPlane(img: HeifImage, other: Plane)
    requires WellFormed(img) && img.bitDepth == 8 && img.hasAlpha && IsPlanar(img) && Alpha in img.planes
    requires Covers(other, img.width, img.height) && SamplesBelow(other, img.height, 0x100)
    ensures SetImageData(img.(planes := img.planes[Alpha := other])) == SetImageData(img)
  {
    var img2 := img.(planes := img.planes[Alpha := other]);
    AlphaReplacedWellFormed(img, other);
    var r1, r2 := SetImageData(img), SetImageData(img2);
    assert HasChannels(img, RequiredChannels(img)) <==> HasChannels(img2, RequiredChannels(img2));
    if r1.Ok? {
      var s1, s2 := r1.value.rendering.surface, r2.value.rendering.surface;
      forall y, x | 0 <= y < img.height && 0 <= x < img.width ensures s1[y][x] == s2[y][x] {
        assert Sample(img, 0, x, y) == Sample(img2, 0, x, y);
        assert Sample(img, 1, x, y) == Sample(img2, 1, x, y);
        assert Sample(img, 2, x, y) == Sample(img2, 2, x, y);
      }
      GridsEqual(s1, s2, img.width, img.height);
    }
  }
}

=== FILE: save_common.dfy ===
/** What the two savers (HeicSave and HeicFile) share: the size limit of the x265 encoder,
    the grey-image test that selects 4:0:0, the colour data stored with a document, the
    progress report, the first-wins EXIF map and the metadata handed to the native encoder.
    The two files carry identical copies of most of these; each is defined here once. */
module SaveCommon {
  import opened Ints
  import opened Errors
  import opened HeifImages
  import opened Cicp
  import CICPSerializer
  import opened Documents
  import N = NativeTypes
  import HeicNative

  /** The x265 encoder cannot encode an image narrower or lower than this. */
  const MinimumEncodeSize: nat := 64

  /** The user value under which a document keeps its serialised CICP colour data. */
  const CICPMetadataName: string := "HeicFileTypePlusCICPData"

  /** The size check at the top of Save: a format error for an image under 64 pixels in
      either direction, before anything is rendered. */
  function CheckEncodeSize(width: nat, height: nat): (r: Option<Exception>)
    ensures r.Some? <==> width < MinimumEncodeSize || height < MinimumEncodeSize
    ensures r.Some? ==> r.value == FormatError(ImageTooSmall)
  {
    if width < MinimumEncodeSize || height < MinimumEncodeSize then Some(FormatError(ImageTooSmall)) else None
  }

  // ------------------------------------------------------------------ grey images

  predicate IsGrey(p: Bgra) { p.r == p.g && p.g == p.b }

  /** Every pixel has R = G = B; alpha plays no part. */
  predicate AllGrey(s: Surface, width: nat, height: nat)
    requires IsGrid(s, width, height)
  {
    forall y, x :: 0 <= y < height && 0 <= x < width ==> IsGrey(s[y][x])
  }

  /** IsGrayscaleImage: scans the rows in order and stops at the first pixel whose three
      colour channels are not all equal. */
  method IsGrayscaleImage(s: Surface, width: nat, height: nat) returns (r: bool)
    requires IsGrid(s, width, height)
    ensures r <==> AllGrey(s, width, height)
  {
    var y := 0;
    while y < height
      invariant 0 <= y <= height
      invariant forall y', x :: 0 <= y' < y && 0 <= x < width ==> IsGrey(s[y'][x])
    {
      var x := 0;
      while x < width
        invariant 0 <= x <= width
        invariant forall x' :: 0 <= x' < x ==> IsGrey(s[y][x'])
      {
        if !(s[y][x].r == s[y][x].g && s[y][x].g == s[y][x].b) {
          return false;
        }
        x := x + 1;
      }
      y := y + 1;
    }
    return true;
  }

  /** The subsampling of the encoder options: 4:0:0 for a grey image, whatever was asked
      for, the requested one otherwise. */
  function SelectYuvFormat(grayscale: bool, requested: N.YUVChromaSubsampling): (f: N.YUVChromaSubsampling)
    ensures grayscale ==> f == N.Subsampling400
    ensures !grayscale ==> f == requested
  {
    if grayscale then N.Subsampling400 else requested
  }

  // ------------------------------------------------------------------ colour data

  /** The colour data Save starts from: BT.709 primaries and matrix, sRGB transfer, full
      range, replaced by the document's stored CICP user value when that deserialises to a
      value.  An exception of the deserialiser propagates. */
  function StoredColorData(doc: Document): (r: Result<CICPColorData>)
    ensures GetUserValue(doc, CICPMetadataName).None? ==> r == Ok(DefaultColorData)
    ensures var d := CICPSerializer.TryDeserialize(GetUserValue(doc, CICPMetadataName));
      && (d == Ok(None) ==> r == Ok(DefaultColorData))
      && (d.Ok? && d.value.Some? ==> r == Ok(d.value.value))
      && (d.Throw? ==> r == Throw(d.error))
  {
    match GetUserValue(doc, CICPMetadataName)
    case None => Ok(DefaultColorData)
    case Some(serialized) =>
      var stored :- CICPSerializer.TryDeserialize(Some(serialized));
      Ok(if stored.Some? then stored.value else DefaultColorData)
  }

  /** What a document's metadata holds once a loader stored a colour description in it. */
  lemma StoredColorDataRoundTrip(doc: Document, c: CICPColorData)
    requires HasInt32Fields(c) && !CICPSerializer.NotSerializable(c)
    ensures StoredColorData(SetUserValue(doc, CICPMetadataName, CICPSerializer.TrySerialize(c).value)) ==
      Ok(c.(fullRange := true))
  {
    CICPSerializer.DeserializeSerialized(c);
  }

  // ------------------------------------------------------------------ progress

  /** The progress event handler: absent, returning normally, or throwing. */
  datatype ProgressHandler = NoHandler | HandlerReturns | HandlerThrows(exception: Exception)

  /** ReportProgress: `false` exactly when the handler throws OperationCanceledException,
      which asks the encoder to stop; any other exception leaves the callback. */
  function ReportProgress(handler: ProgressHandler): (r: Result<bool>)
    ensures r == Ok(false) <==> handler == HandlerThrows(OperationCanceled)
    ensures r == Ok(true) <==> !handler.HandlerThrows?
    ensures r.Throw? <==> handler.HandlerThrows? && handler.exception != OperationCanceled
    ensures r.Throw? ==> r.error == handler.exception
  {
    match handler
    case NoHandler => Ok(true)
    case HandlerReturns => Ok(true)
    case HandlerThrows(e) => if e == OperationCanceled then Ok(false) else Throw(e)
  }

  // ------------------------------------------------------------------ the first-wins map

  /** The `foreach` with `TryAdd`: each key keeps the value it was first added with. */
  function FirstWins<K(==), V>(pairs: seq<(K, V)>): (m: map<K, V>)
    ensures forall i :: 0 <= i < |pairs| ==> pairs[i].0 in m
    ensures forall k :: k in m ==> exists i :: 0 <= i < |pairs| && pairs[i].0 == k
  {
    if |pairs| == 0 then map[]
    else
      var earlier := FirstWins(pairs[..|pairs| - 1]);
      var last := pairs[|pairs| - 1];
      assert forall i :: 0 <= i < |pairs| - 1 ==> pairs[..|pairs| - 1][i] == pairs[i];
      if last.0 in earlier then earlier else earlier[last.0 := last.1]
  }

  /** No earlier pair has the key of pair `i`. */
  predicate IsFirstKey<K(==), V>(pairs: seq<(K, V)>, i: nat)
    requires i < |pairs|
  {
    forall j :: 0 <= j < i ==> pairs[j].0 != pairs[i].0
  }

  /** Each key maps to the value of the first pair that carries it. */
  lemma {:induction false} FirstWinsValue<K, V>(pairs: seq<(K, V)>, i: nat)
    requires i < |pairs| && IsFirstKey(pairs, i)
    ensures FirstWins(pairs)[pairs[i].0] == pairs[i].1
  {
    var n := |pairs| - 1;
    var front := pairs[..n];
    if i < n {
      assert front[i] == pairs[i];
      FirstWinsValue(front, i);
    }
  }

  // ------------------------------------------------------------------ encoder metadata

  /** The colour space the EXIF writer records. */
  datatype ExifColorSpace = Srgb | Uncalibrated

  /** The managed EncoderMetadata: the three blocks as arrays, `None` for null. */
  datatype ManagedEncoderMetadata = ManagedEncoderMetadata(
    iccProfile: Option<seq<byte>>, exif: Option<seq<byte>>, xmp: Option<seq<byte>>)

  /** CreateEncoderMetadata over a map of EXIF items: an ICC profile stored as the
      InterColorProfile item leaves the map, becomes the encoder's ICC profile and makes the
      EXIF colour space Uncalibrated; the EXIF writer turns the rest into a blob; the XMP
      packet is serialised when there is one. */
  function CreateEncoderMetadata<K(==), V>(exifMetadata: Option<map<K, V>>, iccKey: K, dataOf: V -> seq<byte>,
                                           writeExif: (map<K, V>, ExifColorSpace) -> seq<byte>,
                                           xmp: Option<XmpPacket>, xmpBytes: XmpPacket -> seq<byte>): (r: ManagedEncoderMetadata)
    ensures r.iccProfile.Some? <==> exifMetadata.Some? && iccKey in exifMetadata.value
    ensures r.iccProfile.Some? ==> r.iccProfile.value == dataOf(exifMetadata.value[iccKey])
    ensures r.exif.Some? <==> exifMetadata.Some?
    ensures r.exif.Some? ==>
      var m := exifMetadata.value;
      r.exif.value == writeExif(m - {iccKey}, if iccKey in m then Uncalibrated else Srgb)
    ensures r.xmp.Some? <==> xmp.Some?
    ensures r.xmp.Some? ==> r.xmp.value == xmpBytes(xmp.value)
  {
    var (icc, exif) :=
      match exifMetadata
      case None => (None, None)
      case Some(m) =>
        if iccKey in m then (Some(dataOf(m[iccKey])), Some(writeExif(m - {iccKey}, Uncalibrated)))
        else
          assert m - {iccKey} == m;
          (None, Some(writeExif(m, Srgb)));
    var packet := if xmp.Some? then Some(xmpBytes(xmp.value)) else None;
    ManagedEncoderMetadata(icc, exif, packet)
  }

  /** The custom marshaler: a null or empty array becomes a null pointer of size 0, any
      other array a pointer to a copy, with its length. */
  function ToNativeBlock(block: Option<seq<byte>>): (r: (Option<seq<byte>>, int))
    ensures r.0.Some? <==> block.Some? && |block.value| > 0
    ensures r.0.Some? ==> r.0.value == block.value && r.1 == |block.value|
    ensures r.0.None? ==> r.1 == 0
  {
    if block.Some? && |block.value| > 0 then (block, |block.value|) else (None, 0)
  }

  function ToNativeMetadata(m: ManagedEncoderMetadata): (r: N.EncoderMetadata)
    ensures (r.iccProfile, r.iccProfileSize) == ToNativeBlock(m.iccProfile)
    ensures (r.exif, r.exifSize) == ToNativeBlock(m.exif)
    ensures (r.xmp, r.xmpSize) == ToNativeBlock(m.xmp)
  {
    var (icc, iccSize) := ToNativeBlock(m.iccProfile);
    var (exif, exifSize) := ToNativeBlock(m.exif);
    var (xmp, xmpSize) := ToNativeBlock(m.xmp);
    N.EncoderMetadata(icc, exif, xmp, iccSize, exifSize, xmpSize)
  }

  /** Whatever the managed arrays, the native encoder gets a non-empty ICC profile or none,
      so its `iccProfile && iccProfileSize` test picks the ICC profile exactly when the
      managed side had one with content. */
  lemma NativeProfileIsNonEmpty(m: ManagedEncoderMetadata)
    ensures var n := ToNativeMetadata(m);
      (n.iccProfile.Some? && n.iccProfileSize != 0) <==> (m.iccProfile.Some? && |m.iccProfile.value| > 0)
  {
  }

  // ------------------------------------------------------------------ the native call

  /** What Save hands to HeicNative.SaveToFile. */
  datatype SaveRequest = SaveRequest(
    bitmap: N.BitmapData, options: N.EncoderOptions, metadata: N.EncoderMetadata, colorData: CICPColorData)

  /** The native save's outcome: its status and any exception the stream callbacks captured. */
  type NativeSave = SaveRequest -> (N.Status, Option<Exception>)

  /** HeicNative.SaveToFile around the native call: the request is made, and an exception
      raised from its outcome ends the save. */
  function CallSaveToFile(request: SaveRequest, native: NativeSave): (r: Result<SaveRequest>)
    ensures r.Ok? <==> native(request).0 == N.Ok
    ensures r.Ok? ==> r.value == request
    ensures r.Throw? ==> Some(r.error) == HeicNative.SaveToFile(native(request).0, native(request).1)
  {
    match HeicNative.SaveToFile(native(request).0, native(request).1)
    case None => Ok(request)
    case Some(e) => Throw(e)
  }
}

=== FILE: surface_output.dfy ===
/** What a managed decoder leaves behind for the Paint.NET surface. */
module SurfaceOutput {
  import opened Ints
  import opened HeifImages
  import opened HighBitDepthConversion

  datatype Rendering =
      /** The decoder wrote every pixel of the surface itself. */
    | Direct(surface: Surface)
      /** PixelKernels.ConvertRgba32ToBgra32 reorders the interleaved RGBA plane into the surface. */
    | Rgba32Kernel(interleaved: Plane)
      /** An intermediate bitmap is converted into the surface by WIC or Direct2D. */
    | Converted(conversion: Conversion)

  /** `unpremultiply` is set when the decoder calls Surface.ConvertFromPremultipliedAlpha
      after filling the surface. */
  datatype Decoded = Decoded(rendering: Rendering, unpremultiply: bool)

  /** An opaque BGRA pixel from its red, green and blue bytes. */
  function Opaque(r: byte, g: byte, b: byte): (p: Bgra)
    ensures p.r == r && p.g == g && p.b == b && p.a == 255
  {
    Bgra(b, g, r, 255)
  }
}

=== FILE: tag_data_types.dfy ===
/** EXIF value type codes.  The codes are those of the TIFF 6.0 field types
    (section 2 of the TIFF 6.0 specification); any other 16-bit value may also occur
    in a file, so a type is modelled as its raw code. */
module TagDataTypes {
  const Byte: int := 1
  const Ascii: int := 2
  const Short: int := 3
  const Long: int := 4
  const Rational: int := 5
  const SByte: int := 6
  const Undefined: int := 7
  const SShort: int := 8
  const SLong: int := 9
  const SRational: int := 10
  const Float: int := 11
  const Double: int := 12
  const IFD: int := 13
}

/** TagDataTypeUtil. */
module TagDataTypeUtil {
  import opened Ints
  import opened TagDataTypes

  /** The eight types GDI+ understands. */
  predicate IsKnownToGDIPlus(t: int) {
    t in {Byte, Ascii, Short, Long, Rational, Undefined, SLong, SRational}
  }

  function GetSizeInBytes(t: int): (r: int)
    ensures r in {0, 1, 2, 4, 8}
    ensures r == 0 <==> !(Byte <= t <= IFD)
  {
    if t == Byte || t == Ascii || t == Undefined || t == SByte then 1
    else if t == Short || t == SShort then 2
    else if t == Long || t == SLong || t == Float || t == IFD then 4
    else if t == Rational || t == SRational || t == Double then 8
    else 0
  }

  /** Whether `count` values of type `t` fit in the 4-byte offset field of an IFD entry. */
  predicate ValueFitsInOffsetField(t: int, count: u32) {
    if t == Byte || t == Ascii || t == Undefined || t == SByte then count <= 4
    else if t == Short || t == SShort then count <= 2
    else if t == Long || t == SLong || t == Float || t == IFD then count <= 1
    else false
  }

  /** The values fit exactly when the type has a size of at most four bytes and `count`
      of them take at most four bytes; 8-byte and unknown types never fit, not even
      with a count of zero. */
  lemma FitsIffTotalSizeAtMostFour(t: int, count: u32)
    ensures ValueFitsInOffsetField(t, count) <==>
              GetSizeInBytes(t) in {1, 2, 4} && count * GetSizeInBytes(t) <= 4
  {
  }

  /** Every type GDI+ knows has a size. */
  lemma KnownTypesHaveSize(t: int)
    requires IsKnownToGDIPlus(t)
    ensures GetSizeInBytes(t) > 0
  {
  }
}

/** ExifValueTypeUtil: the same tables keyed by Paint.NET's ExifValueType, which has no
    members for SByte (6) and IFD (13); the source matches those by raw value. */
module ExifValueTypeUtil {
  import opened Ints
  import TagDataTypeUtil

  function GetSizeInBytes(t: int): (r: int)
    ensures r in {0, 1, 2, 4, 8}
  {
    match t
    case 1 => 1
    case 2 => 1
    case 7 => 1
    case 6 => 1
    case 3 => 2
    case 8 => 2
    case 4 => 4
    case 9 => 4
    case 11 => 4
    case 13 => 4
    case 5 => 8
    case 10 => 8
    case 12 => 8
    case _ => 0
  }

  predicate ValueFitsInOffsetField(t: int, count: u32) {
    match t
    case 1 => count <= 4
    case 2 => count <= 4
    case 7 => count <= 4
    case 6 => count <= 4
    case 3 => count <= 2
    case 8 => count <= 2
    case 4 => count <= 1
    case 9 => count <= 1
    case 11 => count <= 1
    case 13 => count <= 1
    case _ => false
  }

  /** Both utilities agree on every type code. */
  lemma AgreesWithTagDataTypeUtil(t: int, count: u32)
    ensures GetSizeInBytes(t) == TagDataTypeUtil.GetSizeInBytes(t)
    ensures ValueFitsInOffsetField(t, count) == TagDataTypeUtil.ValueFitsInOffsetField(t, count)
  {
  }
}

=== FILE: ycbcr_image_decoder.dfy ===
/** YCbCrImageDecoder: a YCbCr image is not copied plane by plane; libheif converts it to
    interleaved RGB, which the RGB decoder then copies. */
module YCbCrImageDecoder {
  import opened Errors
  import opened HeifImages
  import opened HeifImageHandles
  import opened SurfaceOutput
  import RgbImageDecoder

  /** The interleaved chroma requested from libheif. */
  function DecodeFormat(hasAlpha: bool, bitDepth: int): (c: HeifChroma)
    ensures hasAlpha && bitDepth == 8 ==> c == InterleavedRgba32
    ensures hasAlpha && bitDepth != 8 ==> c == InterleavedRgba64LE
    ensures !hasAlpha && bitDepth == 8 ==> c == InterleavedRgb24
    ensures !hasAlpha && bitDepth != 8 ==> c == InterleavedRgb48LE
  {
    if hasAlpha then (if bitDepth == 8 then InterleavedRgba32 else InterleavedRgba64LE)
    else if bitDepth == 8 then InterleavedRgb24 else InterleavedRgb48LE
  }

  /** The image `Decode(Rgb, DecodeFormat(...))` returns: the handle's size, depth, alpha
      and HDR format (with the CICP query's exception), the RGB colour space, the requested chroma, and the planes libheif
      filled (`planes`). */
  function DecodedImage(h: ImageHandle, planes: map<HeifChannel, Plane>): (img: HeifImage)
    requires Consistent(h)
    ensures img.width == h.info.width && img.height == h.info.height && img.bitDepth == h.info.bitDepth
    ensures img.hasAlpha == h.info.hasAlphaChannel && img.hdrFailure == CicpFailure(h) && img.colorSpace == Rgb
    ensures img.chroma == DecodeFormat(h.info.hasAlphaChannel, h.info.bitDepth)
    ensures !RgbImageDecoder.IsPlanar(img)
  {
    var img := ImageOf(h, Rgb, DecodeFormat(h.info.hasAlphaChannel, h.info.bitDepth), planes).0;
    DelegatedDecodeIsInterleaved(h, img);
    img
  }

  /** SetImageData: decode in the RGB colour space with the chosen chroma, then hand the
      image libheif returns to the RGB decoder. */
  function SetImageData(h: ImageHandle, planes: map<HeifChannel, Plane>): (r: Result<Decoded>)
    requires Consistent(h) && WellFormed(DecodedImage(h, planes))
    ensures h.disposed ==> r == Throw(ObjectDisposed)
    ensures !h.disposed ==> r == RgbImageDecoder.SetImageData(DecodedImage(h, planes))
  {
    var request :- Decode(h, Rgb, DecodeFormat(h.info.hasAlphaChannel, h.info.bitDepth));
    RgbImageDecoder.SetImageData(DecodedImage(h, planes))
  }

  /** The decode request always asks for RGB and an interleaved chroma. */
  lemma RequestIsInterleavedRgb(h: ImageHandle)
    requires !h.disposed
    ensures var req := Decode(h, Rgb, DecodeFormat(h.info.hasAlphaChannel, h.info.bitDepth));
      req.Ok? && req.value.colorSpace == Rgb && req.value.chroma != Yuv444
  {
  }

  /** An image delivered in the requested chroma is never treated as planar, so the RGB
      decoder only needs the interleaved channel. */
  lemma DelegatedDecodeIsInterleaved(h: ImageHandle, decoded: HeifImage)
    requires decoded.chroma == DecodeFormat(h.info.hasAlphaChannel, h.info.bitDepth)
    ensures !RgbImageDecoder.IsPlanar(decoded)
    ensures RgbImageDecoder.RequiredChannels(decoded) == {Interleaved}
  {
  }
}

=== FILE: yuv_conversion_helpers.dfy ===
/** YUVConversionHelpers: the colour-primaries and matrix-coefficient tables behind the YUV
    conversion of the encoder, after ITU-T H.273.  The `float` constants are idealised as
    the exact decimal reals they are written as. */
module YuvConversionHelpers {
  import opened Cicp
  import opened Errors

  /** The index of the first element of `s`, at `from` or later, that satisfies `p`. */
  function FirstMatch<T>(s: seq<T>, p: T -> bool, from: nat): (r: Option<nat>)
    decreases |s| - from
    ensures r.Some? ==> from <= r.value < |s| && p(s[r.value])
    ensures r.Some? ==> forall j :: from <= j < r.value ==> !p(s[j])
    ensures r.None? ==> forall j :: from <= j < |s| ==> !p(s[j])
  {
    if from >= |s| then None
    else if p(s[from]) then Some(from)
    else FirstMatch(s, p, from + 1)
  }

  // ------------------------------------------------------------------ colour primaries

  /** rX, rY, gX, gY, bX, bY, wX, wY. */
  datatype Primaries = Primaries(rX: real, rY: real, gX: real, gY: real, bX: real, bY: real, wX: real, wY: real)

  datatype PrimariesEntry = PrimariesEntry(colourPrimaries: int, name: string, primaries: Primaries)

  const ColourPrimariesTable: seq<PrimariesEntry> := [
    PrimariesEntry(PrimariesBT709, "BT.709", Primaries(0.64, 0.33, 0.3, 0.6, 0.15, 0.06, 0.3127, 0.329)),
    PrimariesEntry(PrimariesBT470M, "BT.470-6 System M", Primaries(0.67, 0.33, 0.21, 0.71, 0.14, 0.08, 0.310, 0.316)),
    PrimariesEntry(PrimariesBT470BG, "BT.470-6 System BG", Primaries(0.64, 0.33, 0.29, 0.60, 0.15, 0.06, 0.3127, 0.3290)),
    PrimariesEntry(PrimariesBT601, "BT.601", Primaries(0.630, 0.340, 0.310, 0.595, 0.155, 0.070, 0.3127, 0.3290)),
    PrimariesEntry(PrimariesSmpte240, "SMPTE 240M", Primaries(0.630, 0.340, 0.310, 0.595, 0.155, 0.070, 0.3127, 0.3290))
  ]

  /** avifNclxColourPrimariesGetValues: the first table entry for the code, or the BT.709
      entry for a code the table lacks. */
  function ColourPrimariesValues(colourPrimaries: int): (r: Primaries)
    ensures forall i :: 0 <= i < |ColourPrimariesTable| && ColourPrimariesTable[i].colourPrimaries == colourPrimaries ==>
      r == ColourPrimariesTable[i].primaries
    ensures (forall i :: 0 <= i < |ColourPrimariesTable| ==> ColourPrimariesTable[i].colourPrimaries != colourPrimaries)
      ==> r == ColourPrimariesTable[0].primaries
  {
    match FirstMatch(ColourPrimariesTable, (e: PrimariesEntry) => e.colourPrimaries == colourPrimaries, 0)
    case Some(i) => ColourPrimariesTable[i].primaries
    case None => ColourPrimariesTable[0].primaries
  }

  /** Unknown primaries, BT.2020 among them, are treated as BT.709. */
  lemma UnknownPrimariesAreBT709(colourPrimaries: int)
    requires colourPrimaries !in {PrimariesBT709, PrimariesBT470M, PrimariesBT470BG, PrimariesBT601, PrimariesSmpte240}
    ensures ColourPrimariesValues(colourPrimaries) == ColourPrimariesValues(PrimariesBT709)
  {
  }

  // ------------------------------------------------------------------ matrix coefficients

  datatype MatrixEntry = MatrixEntry(matrixCoefficients: int, name: string, kr: real, kb: real)

  /** The table of ITU-T H.273 Table 4 entries, as written; the BT.601 `kb` reads 0.144. */
  const MatrixCoefficientsTable: seq<MatrixEntry> := [
    MatrixEntry(MatrixBT709, "BT.709", 0.2126, 0.0722),
    MatrixEntry(MatrixFCC, "FCC USFC 73.682", 0.30, 0.11),
    MatrixEntry(MatrixBT470BG, "BT.470-6 System BG", 0.299, 0.114),
    MatrixEntry(MatrixBT601, "BT.601", 0.299, 0.144),
    MatrixEntry(MatrixSmpte240, "SMPTE ST 240", 0.212, 0.087)
  ]

  datatype YUVCoefficients = YUVCoefficients(kr: real, kg: real, kb: real)

  /** The luma weights from `kr` and `kb`: green takes what red and blue leave. */
  function FromKrKb(kr: real, kb: real): (c: YUVCoefficients)
    ensures c.kr == kr && c.kb == kb && c.kr + c.kg + c.kb == 1.0
  {
    YUVCoefficients(kr, 1.0 - kr - kb, kb)
  }

  /** calcYUVInfoFromCICP: the coefficients of the first table entry for the matrix. */
  function CalcYUVInfoFromCICP(cicp: CICPColorData): (r: Option<YUVCoefficients>)
    ensures r.None? <==>
      forall i :: 0 <= i < |MatrixCoefficientsTable| ==> MatrixCoefficientsTable[i].matrixCoefficients != cicp.matrixCoefficients
    ensures forall i :: 0 <= i < |MatrixCoefficientsTable| && MatrixCoefficientsTable[i].matrixCoefficients == cicp.matrixCoefficients ==>
      r == Some(FromKrKb(MatrixCoefficientsTable[i].kr, MatrixCoefficientsTable[i].kb))
  {
    match FirstMatch(MatrixCoefficientsTable, (e: MatrixEntry) => e.matrixCoefficients == cicp.matrixCoefficients, 0)
    case Some(i) => Some(FromKrKb(MatrixCoefficientsTable[i].kr, MatrixCoefficientsTable[i].kb))
    case None => None
  }

  /** The sRGB (BT.709) defaults. */
  const DefaultCoefficients: YUVCoefficients := FromKrKb(0.2126, 0.0722)

  /** GetYUVCoefficiants: the table's coefficients, or the BT.709 defaults. */
  function GetYUVCoefficients(cicp: CICPColorData): (r: YUVCoefficients)
    ensures r.kr + r.kg + r.kb == 1.0
    ensures CalcYUVInfoFromCICP(cicp).Some? ==> r == CalcYUVInfoFromCICP(cicp).value
    ensures CalcYUVInfoFromCICP(cicp).None? ==> r == DefaultCoefficients
  {
    match CalcYUVInfoFromCICP(cicp)
    case Some(c) => c
    case None => DefaultCoefficients
  }

  /** Identity and Unspecified have no entry, so they get the BT.709 weights, the same as
      BT.709 itself. */
  lemma IdentityAndUnspecifiedUseBT709(cicp: CICPColorData)
    requires cicp.matrixCoefficients == MatrixIdentity || cicp.matrixCoefficients == MatrixUnspecified
    ensures GetYUVCoefficients(cicp) == DefaultCoefficients
    ensures GetYUVCoefficients(cicp) == GetYUVCoefficients(cicp.(matrixCoefficients := MatrixBT709))
  {
  }

  /** As written, the BT.601 entry has kb = 0.144 where BT.470BG has 0.114.  ITU-T H.273
      Table 4 gives the two the same weights, so the two matrices should convert alike. */
  lemma BT601DiffersFromBT470BG(cicp: CICPColorData)
    ensures GetYUVCoefficients(cicp.(matrixCoefficients := MatrixBT601)).kb == 0.144
    ensures GetYUVCoefficients(cicp.(matrixCoefficients := MatrixBT470BG)).kb == 0.114
    ensures GetYUVCoefficients(cicp.(matrixCoefficients := MatrixBT601)) !=
            GetYUVCoefficients(cicp.(matrixCoefficients := MatrixBT470BG))
  {
    var a, b := cicp.(matrixCoefficients := MatrixBT601), cicp.(matrixCoefficients := MatrixBT470BG);
    assert MatrixCoefficientsTable[3].matrixCoefficients == a.matrixCoefficients;
    assert MatrixCoefficientsTable[2].matrixCoefficients == b.matrixCoefficients;
  }

  /** Whatever the CICP data, every weight lies strictly between 0 and 1, so the chroma
      divisors 2(1 - kb) and 2(1 - kr) of the conversion are never zero. */
  lemma CoefficientsAreWeights(cicp: CICPColorData)
    ensures var c := GetYUVCoefficients(cicp);
      0.0 < c.kr < 1.0 && 0.0 < c.kg < 1.0 && 0.0 < c.kb < 1.0
  {
    match FirstMatch(MatrixCoefficientsTable, (e: MatrixEntry) => e.matrixCoefficients == cicp.matrixCoefficients, 0)
    case Some(i) => assert 0 <= i < 5;
    case None =>
  }
}
